=== FILE: README.md ===
# Interaction inference and evolutionary search, modelled in Dafny

This project models the algorithmic core of a configuration-space analysis
tool. The tool runs a program under many configurations and learns, for each
source location (`sid`), a formula over configuration variables that says
when the location is reached. It has four parts.

- **Configurations and cores** (`src/config.py`, `src/config_common.py`).
  - A domain (`Dom`) maps each variable to a non-empty set of string values.
  - A configuration (`Config`) gives each variable one value.
  - A core (`Core`) maps some variables to sets of allowed values. It is read
    conjunctively (`c_implies`) or disjunctively (`d_implies`) and can be
    negated against the domain (`neg`).
  - A location's hypothesis is a `PNCore`: positive cores `pc`/`pd` and
    negative cores `nc`/`nd`.
  - `Infer` learns hypotheses from observed coverage. `verify` drops the parts
    a run refutes. `simplify` keeps the stronger side and renders it.
  - `Cores_d.analyze` and `Cores_d.merge` verify, simplify and group the
    results, and `Mcores_d` counts them.
  - Configurations are produced by full enumeration, a 1-wise covering array,
    random draws, solver queries for fresh configurations, and counterexample
    cores.
- **The domain file parser** of the C++ rewrite (`igen/Domain.cpp`,
  `Domain::parse`).
- **The evolutionary search** (`iga/ec_alg.py`). It looks for a configuration
  reaching one target location. It uses one-variable neighbours, a
  path-coverage fitness, elitism and a stagnation counter.
- **Task chunking** for worker processes (`getWorkloads`).

How the model stands in for things it cannot run:

- The solver (Z3) becomes evaluation over the finite configuration space.
  - A formula is an `Expr` value, evaluated by `Eval`. An optional formula
    (`None` standing for true) is evaluated by `Holds`.
  - "Is a tautology" means true on every configuration of the domain.
  - A query's models are the configurations that satisfy it.
  - Z3's `None`-as-`true` convention is kept.
- Randomness becomes an arbitrary choice (`:|`). Every property is proved for
  every choice.
- Running the program under test becomes a function parameter
  `run: Config -> set<Sid>`.
- The control-flow graph's path query becomes a parameter `paths`.
- Python exceptions become `Result` failures named by the exception.
- Fitness values are exact `real`s.
- Python dictionaries become maps. Where the source's result depends on a
  dictionary's iteration order, that order is a listing parameter, and the
  lemmas show the result does not depend on it wherever the source's result
  does not. Two places fix an order instead (see "## Left out"): cores are
  rendered with their variables in domain order, and `gen_configs_cex`
  visits variables and values in sorted order.

Modules follow the source's structure:

| module | models |
|---|---|
| `Wrappers`, `Strings` | `Option`/`Result`; Python string order, `sorted`, `join`, `in` |
| `Domains`, `HDicts` | `Dom`, `siz`, `max_fsiz`, `gen_configs_full`, `get_lines`, `HDict` equality |
| `Cores` | `c_implies`, `d_implies`, `Core.neg`, `settings`, `MCore.sstren`, `SCore` |
| `Formulas` | the solver formulas, `expr_of_dict_dict`, `myAnd`/`myOr` |
| `PNCores` | `PNCore._get_expr`, `_get_str`, `verify`, `simplify`, `z3expr` |
| `Inference`, `InferCovs`, `CovMaps` | `Infer.infer`, `infer_cache`, `infer_sid`, `infer_covs`, `Covs_d`, `Configs_d` |
| `Cex` | `Dom.gen_configs_cex` of the inference engine |
| `Generators` | `config_of_model`, `gen_configs_tcover1`, `gen_configs_rand`, `gen_configs_exprs`, `gen_configs_rand_smt`, `Config.mk` |
| `Analysis`, `Merging`, `Stats` | `Cores_d.analyze`, `Cores_d.merge`, `Mcores_d.fix_duplicates`, `vtyps`, `strens` |
| `Mutations`, `Fitness`, `Evolution` | the evolutionary search of `iga/ec_alg.py` |
| `DomainParser` | `Domain::parse` |
| `Workloads` | `getWorkloads` |

Where a description of the system and its code differ, the model follows the
code:

- `simplify` keeps the **stronger** side, the one whose formula implies the
  other (src/config.py:638-647). This matches its own docstring.
- `sstren` counts **distinct** (variable, value-set) entries across the
  truthy cores, because it takes the length of a set (src/config.py:352-363).
  It does not count literals.

## Model

| member | source | states |
|---|---|---|
| Cores.Neg | src/config.py:326-333 | The negation keeps only the core's variables. Each kept variable maps to exactly the domain values the core does not allow, and a variable is dropped exactly when the core already allows its whole domain. |
| Cores.NegDuality | src/config.py:237-255 | A configuration of the domain satisfies `neg(core)` disjunctively exactly when it violates `core` conjunctively. The exception is a core whose negation is empty, where `d_implies` is vacuously true. |
| Cores.NegInvolution | src/config.py:326-333 | On a proper core (every set non-empty and smaller than the domain's), negating twice gives the core back. |
| Cores.NegExample | src/config.py:297-304 | The documented example: `x=2 y=1 z=0,1` negates to `x=1 z=2`. |
| Cores.NegExampleW | src/config.py:306-308 | The second documented example: `x=2 z=0,1 w=a` negates to `x=1 z=2 w=b,c`. |
| Cores.CImpliesDImplies | src/config.py:237-255 | Satisfying a core conjunctively implies satisfying it disjunctively. |
| Cores.ImpliesExamples | src/config.py:210-220 | The documented examples: `a=1 b=0 c=1` satisfies the empty core and `a=0,1 b=0,1` both ways, and satisfies `a=0,1 x=0,1` only disjunctively. |
| Cores.CImpliesWeaker | src/config.py:237-246 | Widening a core's sets, or dropping its variables, keeps every configuration that satisfied it conjunctively. |
| Cores.Settings | src/config.py:322-324 | A pair (k, v) is a setting exactly when the core lists k and allows v. |
| Cores.SettingsInjective | src/config.py:322-324 | Two cores with the same settings are the same core. |
| Cores.MSettings | src/config.py:352-355 | An entry is a setting of the tuple exactly when some truthy core of the tuple holds it. |
| Cores.SStrenZero | src/config.py:362-363 | The strength is zero exactly when every core of the tuple is `None` or empty. |
| Cores.MkSCore | src/config.py:369-380 | Construction succeeds exactly when `mc` is `None` or non-empty and a truthy `sc` shares no variable with `mc`. The result keeps both cores and the `keep` flag. |
| Domains.MkDom | src/config_common.py:200-203 | A domain is accepted exactly when it is non-empty and every value set is a non-empty set. Every listed variable is then in the domain. |
| Domains.MaxFSiz | src/config_common.py:218-223 | `max_fsiz` is the size of some value set and no value set is larger. It is at least 1. |
| Domains.SizBounds | src/config_common.py:215-223 | The domain size is at least 1 and at least the largest value set. |
| Domains.FullConfigsMember | src/config_common.py:226-232 | The product enumeration lists exactly the maps giving each variable one of its values. |
| Domains.FullConfigsDistinct | src/config_common.py:226-232 | The product enumeration has no repeats. |
| Domains.GenConfigsFull | src/config_common.py:226-232 | `gen_configs_full` lists every configuration of the domain exactly once, so it has `siz` elements, as the doctest at line 148 checks. |
| Domains.AllConfigs | src/config_common.py:215-216 | The configuration space has `siz` elements, and they are exactly the configurations of the domain. |
| Domains.LineValues | src/config.py:159-171 | A line whose only value is `inf` gets the three sign predicates, one whose only value is `type` gets the three type predicates, and any other line gets its listed values. |
| Domains.GetLines | src/config.py:155-172 | One entry per line, named by its first token. A variable is abstract exactly when its line's single value is `inf` or `type`. |
| Domains.GetLinesMakesDom | src/config.py:174-176 | A non-empty domain file whose every line names a value is accepted by `Dom`. |
| HDicts.HEqIsMapEquality | src/config_common.py:499-513 | Two HDicts compare equal exactly when they hold the same mapping. |
| HDicts.ItemsOfDistinct | src/config_common.py:507-513 | Without repeated keys, the item set of an HDict is exactly the set of pairs it was built from. |
| HDicts.HEqIgnoresOrder | src/config_common.py:499-520 | Equality and hash ignore insertion order. Two pair lists holding the same pairs give equal HDicts holding the same mapping. |
| Formulas.MyAnd | src/config_common.py:444-445 | The conjunction holds exactly when every present member holds. It is `None` (true) when no member is present. |
| Formulas.MyOr | src/config_common.py:457-459 | The disjunction holds exactly when some present member holds. It is `None` when no member is present. |
| Formulas.Atoms | src/config_common.py:458 | One atom per variable of the core. Each is the disjunction of that variable's allowed values. |
| Formulas.AtomsAll | src/config_common.py:449-462 | All atoms of a core hold exactly when the configuration satisfies the core conjunctively. |
| Formulas.AtomsAny | src/config_common.py:449-462 | Some atom of a core holds exactly when the core is non-empty and the configuration satisfies it disjunctively. |
| Formulas.AtomsAnyOnly | src/config_common.py:464-473 | An atom that holds belongs to a variable whose value the configuration meets. |
| Formulas.AtomsAnyAt | src/config_common.py:464-473 | A variable whose value the configuration meets makes its atom hold. |
| Formulas.CoreExpr | src/config_common.py:449-462 | The core's formula means exactly `c_implies` when read conjunctively and `d_implies` when read disjunctively. It is absent exactly for the empty core. |
| Formulas.EquivIsEquivalence | src/config.py:853-859 | The duplicate test of `find_dup` is reflexive, symmetric and transitive. |
| Formulas.EquivEntails | src/config.py:856-858 | Formulas the duplicate test equates entail each other on the domain. |
| PNCores.GetExpr | src/config.py:539-561 | `_get_expr` is absent exactly when neither core is truthy. |
| PNCores.GetExprMeaning | src/config.py:548-558 | The formula means `cc & not(cd)` (conjunctive) or `cc \| not(cd)` (disjunctive), with absent members dropped. |
| PNCores.PNCoreExprMeaning | src/config.py:674-695 | A hypothesis's formula holds on a configuration exactly when the hypothesis does (`pc & not(pd)` and `nd \| not(nc)`). |
| PNCores.BothSidesMeaning | src/config.py:689-692 | With both sides present, the formula is the conjunction of the two sides' meanings. |
| PNCores.Verify | src/config.py:498-536 | `pc` is unchanged, and each other part is kept or set to `None`. `pd` goes exactly when some configuration refutes it. With only `nc` present, `nc` goes exactly when a configuration refutes it; with only `nd`, the same for `nd`; with both, both go together exactly when a configuration satisfies neither `nd` nor the negation of `nc`; with neither, nothing changes. |
| PNCores.VerifySound | src/config.py:505-536 | Everything that survives `verify` holds on every configuration it was checked against. |
| PNCores.VerifyIdempotent | src/config.py:498-536 | Verifying a verified hypothesis against the same configurations changes nothing. |
| PNCores.VerifyAsWrittenFails | src/config.py:528-534 | As written, `verify` raises exactly when `nc` and `nd` are both truthy and some configuration refutes them. |
| PNCores.VerifyAsWrittenAgrees | src/config.py:498-536 | Whenever `verify` as written returns, it returns what the intended `verify` does. |
| PNCores.VerifyAsWrittenRaises | src/config.py:530-532 | A concrete input on which `verify` as written raises. |
| PNCores.VerifyDropsPd | src/config.py:510-514 | A `pd` that some configuration refutes is dropped. When nothing else is refuted, that is the only change. |
| PNCores.VerifyUnchangedAsWritten | src/config.py:528-536 | When the intended `verify` refutes nothing, the code as written returns the hypothesis unchanged as well. |
| PNCores.SortPair | src/config.py:583-585 | The two renderings come out in Python string order, as a permutation of the input. |
| PNCores.Norm | src/config.py:621-625 | After normalisation, every part present is non-empty. |
| PNCores.KeptSides | src/config.py:627-653 | The kept hypothesis is the normalised one or one of its two sides alone, and stays over the domain. |
| PNCores.Simplify | src/config.py:596-668 | `simplify` fails exactly when a first-time assertion fails or a side's formula is missing where both are needed. |
| PNCores.SimplifyResult | src/config.py:619-668 | Each returned part is the normalised input part or `None`, and the formula is the returned core's `z3expr`. The result is simplified exactly when one side implies the other. Otherwise the string ends in `***`. |
| PNCores.SimplifyBothPresent | src/config.py:632-637 | With the first-time checks passing and both sides contributing a formula, `simplify` succeeds. |
| PNCores.DropNegSide | src/config.py:638-642 | Dropping the negative side loses nothing when the positive formula implies it. |
| PNCores.DropPosSide | src/config.py:643-647 | Dropping the positive side loses nothing when the negative formula implies it. |
| PNCores.KeptSidesMeaning | src/config.py:627-653 | The kept hypothesis means what the normalised one meant. |
| PNCores.SimplifyKeepsMeaning | src/config.py:596-668 | On every configuration of the domain, the simplified formula means what the hypothesis meant. |
| PNCores.CoreStrHasDelim | src/config.py:316-318 | A core with two or more variables renders with its delimiter. |
| PNCores.PosOnlyStr | src/config.py:574-587 | The string of a positive-only hypothesis is its wrapped conjunction. |
| PNCores.ConjShape | src/config.py:655-662 | A positive-only hypothesis over names and values without `\|` is tagged `conj`. |
| PNCores.NegOnlyStr | src/config.py:578-587 | The string of a negative-only hypothesis is its wrapped negated disjunction. |
| PNCores.DisjunctionDelims | src/config.py:564-587 | A rendered disjunction of two or more settings without `&` contains ` \| ` and not ` & `. |
| PNCores.DisjShape | src/config.py:655-662 | A negative-only hypothesis whose negation has two or more variables, over names and values without `&`, is tagged `disj`. |
| PNCores.DisjOf | src/config.py:657-660 | A string with ` \| ` and without ` & ` is tagged `disj`. |
| PNCores.BothStr | src/config.py:574-585 | With both parts present, the rendering joins the two sorted wrapped parts with ` & `. |
| PNCores.MixShape | src/config.py:655-658 | A positive side of two or more conjuncts with an exception whose negation has two or more disjuncts is tagged `mix`. |
| Inference.MinLen | src/config.py:938-940 | The seed is a configuration of the batch, no configuration is shorter, and it is the first one of least length. |
| Inference.WidenClosed | src/config.py:942-951 | The early-returning loop of `f` gives `None` when some configuration lacks the variable or the widened set fills its domain. Otherwise it gives the old set plus every observed value. |
| Inference.InferAgrees | src/config.py:929-955 | The loop and the order-free closed form agree, whatever the order of the configurations. |
| Inference.InferAgreesStarted | src/config.py:953-954 | For a variable of the starting core, the loop's widening and the closed form agree. |
| Inference.InferSound | src/config.py:929-955 | Every configuration of the batch satisfies the inferred conjunction. |
| Inference.InferShape | src/config.py:953-954 | The result only drops variables of the starting core and only adds values. Every kept set is non-empty and strictly smaller than the variable's domain. |
| Inference.InferStrongest | src/config.py:929-955 | Every sound, proper core weaker than the start is weaker than the result, so the result is the strongest such conjunction. |
| Inference.InferIdempotent | src/config.py:929-955 | Inferring again from the result, over the same configurations, changes nothing. |
| Inference.InferIncremental | src/config.py:1003-1008 | Inferring from two batches in turn, the first result seeding the second, equals inferring from both at once. This justifies using only new configurations once a core exists. |
| Inference.InferIncrementalAt | src/config.py:942-954 | The incremental and the combined inference agree variable by variable. |
| Inference.ObservedWithin | src/config.py:944-946 | The values configurations of the domain give a variable lie in its value set. |
| InferCovs.InferCache | src/config.py:958-969 | A hit returns the remembered core. A miss infers and remembers the answer. |
| InferCovs.InferCacheSound | src/config.py:965-969 | A transparent memo answers what inferring would, and stays transparent. |
| InferCovs.InferCacheAnyOrder | src/config.py:958-969 | Whatever order the frozenset is iterated in, the memoised answer is what `infer` computes on that order. |
| InferCovs.ReviseConjSound | src/config.py:983-985 | The primary core is revised by exactly the new configurations, or kept when there are none. |
| InferCovs.ReviseExcSound | src/config.py:986-997 | When the revised primary core is truthy and some configuration of the other side satisfies it, the revised exception core shares no variable with the primary core, and every configuration of the other side that satisfies the primary core satisfies it. Otherwise the old exception core is kept. |
| InferCovs.ReviseExcCache | src/config.py:989-995 | The exception core does not depend on which transparent memo is used. |
| InferCovs.InferSideCache | src/config.py:982-997 | Both halves of `_f` keep the memo transparent and do not depend on which transparent memo they get. |
| InferCovs.InferSidCache | src/config.py:972-1015 | The memo changes nothing in the revision of a location. |
| InferCovs.LearntDefault | src/config.py:1044-1048 | The default `PNCore` of a location not yet reached meets the learning invariant. |
| InferCovs.RevisedConj | src/config.py:1001-1014 | The conjunctions `infer_sid` computes. The negative side uses every configuration while `nc` is `None` and only the new ones afterwards. |
| InferCovs.ReviseLearns | src/config.py:982-985 | A side inferred from old configurations and revised with a batch is what inference from the whole history gives. |
| InferCovs.InferSidLearns | src/config.py:999-1015 | Revising with a new batch keeps `pc` and `nc` equal to what inference from all configurations seen gives. |
| InferCovs.RevisedExc | src/config.py:986-995 | When a revised primary core is truthy and some configuration of the other side satisfies it, its exception core covers the other side's configurations that satisfy the primary core, and shares no variable with it. |
| InferCovs.Revisions | src/config.py:1043-1055 | Every considered location gets its revision. |
| InferCovs.ReviseSid | src/config.py:1050-1051 | Revising a location through the memo gives its revision and keeps the memo transparent. |
| InferCovs.ReviseAll | src/config.py:1043-1055 | The loop over the sorted names stores each changed revision and reports new and changed locations exactly. |
| InferCovs.InferCovsRun | src/config.py:1018-1057 | The batch is added to `configs_d` and to `covs_d` under every location it reaches. Every considered location is then revised. `new_covs` is exactly the considered locations without a prior core, `new_cores` exactly those whose core changed, and only they are overwritten. |
| InferCovs.InferCovsLearns | src/config.py:1027-1057 | If the considered locations' cores were learnt from the earlier configurations, afterwards they are learnt from the earlier ones plus the batch. |
| InferCovs.InferCovsKeeps | src/config.py:1043-1055 | Locations that are not considered keep their cores. |
| CovMaps.AddSet | src/config_common.py:592-598 | The keys afterwards are the old ones plus `key`. |
| CovMaps.AddSetShape | src/config_common.py:592-598 | `add_set` puts the value under the key, keeps what was there and touches no other key. |
| CovMaps.AddSetCommutes | src/config_common.py:592-598 | Two additions commute. |
| CovMaps.AddSetIdempotent | src/config_common.py:592-598 | Adding the same pair twice is adding it once. |
| CovMaps.CovsExample | src/config_common.py:607-614 | The documented example: two configurations added under `l1` of an empty map are exactly the set under `l1`. |
| CovMaps.SidsOf | src/config.py:1029-1031 | The locations of a batch are exactly those some configuration of the batch reaches. |
| CovMaps.CovsAfterMeaning | src/config.py:1029-1032 | After registration, every configuration is listed under every location it reaches. Old entries are kept and nothing else is added. |
| CovMaps.AddEachAt | src/config.py:1030-1032 | Whatever the order of the locations, the configuration ends up under each of them and under nothing else. |
| CovMaps.RegisterCovsAt | src/config.py:1029-1032 | Location by location, registration adds exactly the listed configurations that reach it. |
| CovMaps.RegisterConfigsAt | src/config.py:1029-1035 | `configs_d` gains exactly the listed configurations, each with its coverage. Other entries are unchanged. |
| CovMaps.RegisterAnyOrder | src/config.py:1029-1035 | In whatever order the batch is visited, `covs_d` and `configs_d` end up the same. |
| Cex.PinShape | src/config.py:117-127 | A pinned candidate sets the pinned variable to the one value, keeps every other variable of `c_core`, and adds the sat core's entries. |
| Cex.PinsOf | src/config.py:119-127 | The pins of one variable are one candidate per value listed. |
| Cex.PinsFrom | src/config.py:118-127 | The candidates are exactly the pins of the visited variables to values outside `c_core`. |
| Cex.AllPins | src/config.py:117-127 | The candidates are exactly the pins of every variable of `c_core`. |
| Cex.ChangesExact | src/config.py:112-127 | The candidates are exactly `c_core` (when `keep` is set and a variable is free) and the pins. |
| Cex.ChangesNonEmpty | src/config.py:112-127 | Every candidate constrains some variable, so its formula is present. |
| Cex.PinViolates | src/config.py:99-102 | A configuration satisfying a pinned candidate violates `c_core` and satisfies the sat core. |
| Cex.CandQueryAt | src/config.py:129-133 | One candidate's query holds at a configuration exactly when the configuration satisfies the candidate and is not among those seen. |
| Cex.CandQuery | src/config.py:129-133 | A candidate's query can return exactly the unseen configurations satisfying the candidate. |
| Cex.CexQuery | src/config.py:130-140 | One query returns at most one configuration. It returns none exactly when every configuration satisfying the candidate is known, and otherwise an unknown configuration satisfying it. |
| Cex.GenConfigsCex | src/config.py:105-145 | At most one configuration per candidate, pairwise distinct and none already existing, each satisfying its candidate. A candidate is skipped only when every configuration satisfying it is already known. |
| Cex.CexStep | src/config.py:130-143 | One pass of the loop keeps the invariant. |
| Cex.CexSkip | src/config.py:134-135 | A candidate with no fresh configuration leaves the list unchanged and keeps the invariant. |
| Cex.CexAppend | src/config.py:136-143 | Appending a fresh configuration for a candidate keeps the invariant. |
| Generators.ConfigOfModel | src/config_common.py:311-321 | Every variable of the domain takes the model's value when there is one, and a value of its set otherwise. A model within the domain gives a configuration of the domain. |
| Generators.RandConfig | src/config_common.py:306 | A random draw is a configuration of the domain. |
| Generators.CoverStep | src/config_common.py:281-293 | One call of `mk` gives a configuration of the domain. Each variable with unused values takes and removes one of them. |
| Generators.TCoverStep | src/config_common.py:281-296 | A round shrinks the largest unused set by one and keeps every used pair covered. |
| Generators.TCover1 | src/config_common.py:269-297 | The covering array has exactly `max_fsiz` configurations of the domain, and every (variable, value) pair occurs in one of them. |
| Generators.CoverLowerBound | src/config_common.py:269-297 | No covering array of strength 1 is shorter than `max_fsiz`, so `gen_configs_tcover1` is as short as possible. |
| Generators.GenConfigsRand | src/config_common.py:300-308 | Between 1 and `rand_n` pairwise distinct configurations of the domain. |
| Generators.GenConfigsExprs | src/config_common.py:344-361 | At most `k` distinct configurations satisfying `yexprs` and violating `nexprs`. The result is empty exactly when there are none. |
| Generators.PickUpTo | src/config_common.py:331-342 | Up to `k` distinct elements of the pool, and at least one when the pool is non-empty. |
| Generators.ConfigExprExact | src/config_common.py:551-553 | Over the domain, a configuration's formula holds exactly at that configuration. |
| Generators.OrOfConfigs | src/config_common.py:379-380 | The disjunction of configurations' formulas holds exactly at those configurations. |
| Generators.ExcludingSat | src/config_common.py:380-381 | A query excluding the known configurations finds exactly the rest of the domain. |
| Generators.FreshConfig | src/config_common.py:391-397 | One query returns a configuration of the domain outside those seen, or none exactly when none is left. |
| Generators.FirstFresh | src/config_common.py:375-389 | The first draw is a configuration outside `existing_configs`, and is empty only when the domain is exhausted. |
| Generators.MoreFresh | src/config_common.py:391-398 | The loop adds distinct fresh configurations until it has `rand_n` or the domain is exhausted. |
| Generators.GenConfigsRandSmt | src/config_common.py:364-400 | Pairwise distinct configurations, none existing, exactly `min(rand_n, siz - \|existing\|)` of them. |
| Generators.CountFresh | src/config_common.py:391-398 | A duplicate-free draw that stopped at `n` or exhausted the pool has `min(n, \|pool\|)` elements. |
| Generators.Mk | src/config_common.py:556-577 | At most `n` pairwise distinct configurations, each returned by some call of `f`, with between `n` and `6n` calls. With a repeat-free `f`, exactly `n` configurations in `n` calls. |
| Analysis.Checked | src/config.py:799-808 | Verifying a location's core against its configurations keeps it over the domain. Without a coverage map the core is unchanged. |
| Analysis.Verified | src/config.py:799-814 | The intended verification loop gives every location, and only those, a core over the domain. |
| Analysis.SimplifyAll | src/config.py:816-827 | The simplification loop keeps the locations. |
| Analysis.SimplifyAllAt | src/config.py:816-827 | The loop fails exactly when `simplify` fails on some location. Otherwise each location's result is the simplification of its own core. |
| Analysis.Analyze | src/config.py:778-829 | `analyze` as intended keeps the locations. |
| Analysis.AnalyzeAsWritten | src/config.py:799-829 | `analyze` as written keeps the locations. |
| Analysis.AnalyzeSound | src/config.py:778-829 | With a coverage map, the intended `analyze` yields for each location a formula that holds on every configuration reaching it. |
| Analysis.AnalyzeKeepsMeaning | src/config.py:813-827 | Without a coverage map, each location's formula means what its hypothesis meant, over the whole domain. |
| Analysis.AnalyzeAgrees | src/config.py:799-827 | When `verify` refutes nothing, the code as written and the intended loop agree. |
| Analysis.VerifiedUnchanged | src/config.py:802-812 | When `verify` refutes nothing, the verification loop changes nothing. |
| Analysis.AsWrittenAt | src/config.py:812-827 | As written, each location's result is the simplification of its unverified core. |
| Analysis.AnalyzeAsWrittenKeepsRefuted | src/config.py:806-812 | As written, a `pd` that a configuration reaching the location refutes survives. The location's formula is then false on that configuration. |
| Analysis.SingleAsWritten | src/config.py:812-827 | With one location, `analyze` as written is simplifying its unverified core. |
| Analysis.SingleIntended | src/config.py:806-827 | With one location, the intended `analyze` is simplifying its verified core. |
| Analysis.RefutedCaseVerify | src/config.py:510-514 | In the refuted case, the intended `verify` drops exactly `pd`. |
| Analysis.RefutedCaseRaisesNot | src/config.py:519-523 | In the refuted case, `verify` as written does not raise. |
| Analysis.RefutedCaseSimplifies | src/config.py:631-637 | Both sides of the refuted case's core contribute a formula, so `simplify` succeeds on it. |
| Analysis.AsWrittenRefutedCase | src/config.py:812 | As written, the formula returned for the location is false on the configuration that reaches it. |
| Analysis.IntendedRefutedCase | src/config.py:806-827 | The intended loop drops the refuted `pd`, and the returned formula holds on that configuration. |
| Analysis.VerifiedCaseHolds | src/config.py:621-668 | Once `pd` is dropped, the simplified formula holds on the configuration. |
| Analysis.AnalyzeRefutedInstance | src/config.py:812 | A concrete instance of the refuted case: domain `a, b` over `{0, 1}`, `pd = a=0`, `nc = b=0`, configuration `a=0 b=1`. |
| Merging.GroupCache | src/config.py:759-769 | After the visited locations, the cache holds exactly their strings. Each maps to the hypothesis of one of them with that string. |
| Merging.GroupMembers | src/config.py:759-769 | The groups are keyed by cached representatives. A location is in a group exactly when its string is the representative's. |
| Merging.GroupCovers | src/config.py:760-769 | Every visited location lands in some group. |
| Merging.GroupDistinct | src/config.py:766-769 | No two groups share a string. |
| Merging.GroupIsClass | src/config.py:766-769 | A group is the class of its representative's string, and the representative is some location's hypothesis. |
| Merging.GroupClasses | src/config.py:759-769 | Whatever order `merge` visits the locations in, the groups are the classes of locations with the same rendered string. |
| Merging.FindDup | src/config.py:853-861 | `find_dup` returns the first representative with the same key, or `None` exactly when there is none. |
| Merging.Uniqs | src/config.py:863-870 | The representatives, listed in order of insertion, are exactly the keys of `uniqs`. |
| Merging.UniqsInv | src/config.py:863-870 | Every key of `uniqs` is visited, and no two share a key. Every visited element has a representative with its key. Each representative's duplicates are exactly the other visited elements with its key. |
| Merging.UniqsJoin | src/config.py:866-868 | A step where the element duplicates a representative keeps the invariant. |
| Merging.UniqsNew | src/config.py:869-870 | A step where the element duplicates no representative keeps the invariant. |
| Merging.UniqsInOrder | src/config.py:863-870 | Representatives and duplicates are elements visited. |
| Merging.UniqsDistinctKeys | src/config.py:863-870 | No two representatives share a key. |
| Merging.UniqsCoverKeys | src/config.py:863-870 | Every visited key is a representative's key. |
| Merging.Folded | src/config.py:876-884 | The rebuilt map has exactly the representatives as keys. Their locations are given by `FixDuplicatesPools`. |
| Merging.UniqsWithin | src/config.py:863-870 | Representatives and duplicates are elements of the map. |
| Merging.UniqsAllWhenNoDups | src/config.py:872-873 | When no two elements share a key, every element is a representative, so the two branches agree. |
| Merging.FixDuplicatesKeys | src/config.py:849-884 | The elements kept are old ones, no two with the same key, and every old key is still present. |
| Merging.FixDuplicatesNoDups | src/config.py:872-873 | When no two elements share a key, `fix_duplicates` returns its input unchanged. |
| Merging.FixedKeys | src/config.py:872-884 | `fix_duplicates` keeps exactly the representatives. |
| Merging.FixDuplicatesPools | src/config.py:876-884 | Each kept element holds exactly the locations of the old elements with its key. |
| Merging.EquivIffSameMeaning | src/config.py:856-858 | Two formulas are equivalent exactly when they mean the same on every configuration of the domain. |
| Merging.DupIffSameMeaning | src/config.py:853-859 | The source's duplicate test agrees with comparing meanings. |
| Merging.Merge | src/config.py:754-776 | Each group's hypothesis is an analysed one holding its own locations, and no two kept hypotheses are duplicates. The groups partition the analysed locations, and locations with the same string share a group. A location is in a group exactly when the hypothesis first seen with its string means what the group's hypothesis means. When equal strings mean the same, that is: exactly when its own hypothesis means what the group's does. |
| Merging.MergeRaw | src/config.py:754-776 | On hypotheses never analysed (keyed by the hypothesis itself), each kept hypothesis is one of the locations', no two kept ones mean the same, every location is grouped, and a location is in a group exactly when its hypothesis means what the group's does. |
| Merging.MergeNoDups | src/config.py:771 | No two kept hypotheses are duplicates. |
| Merging.MergeOwn | src/config.py:766-769 | Each kept hypothesis is the hypothesis of one of its own locations. |
| Merging.MergeWithin | src/config.py:760-769 | Only analysed locations are grouped. |
| Merging.MergeCovers | src/config.py:760-771 | Every analysed location is grouped. |
| Merging.MergeDisjoint | src/config.py:769-771 | No location is in two groups. |
| Merging.MergeSameString | src/config.py:762-769 | Locations rendering to the same string share a group. |
| Stats.CountShape | src/config.py:891-894 | The count of a shape is at most the number of names counted. |
| Stats.CountShapeIsSize | src/config.py:891-894 | Counting along a listing without repeats counts the set of hypotheses of that shape. |
| Stats.VTypsCounts | src/config.py:886-897 | Whatever the order, `vtyps` gives the number of hypotheses of each shape, and they add up to the number of hypotheses. |
| Stats.SortedNats | src/config.py:907 | `sorted` of a set of numbers lists each element once, in strictly increasing order. |
| Stats.Strens | src/config.py:899-911 | The strengths are listed in strictly increasing order, each strength some hypothesis has, each with its own row. |
| Stats.StrensComplete | src/config.py:904-910 | Every strength some hypothesis has gets its row. |
| Stats.StrensRowBounds | src/config.py:908-910 | Every row counts at least one hypothesis, and no more locations than the merged results hold. |
| Stats.StrensCountAll | src/config.py:904-911 | The rows' hypothesis counts add up to the number of merged results. |
| Strings.Sorted | src/config_common.py:112-117 | `sorted` of a set of strings lists each element once, in strictly increasing Python order. |
| Mutations.Chars | iga/ec_alg.py:25 | `set(s)` of a string holds only one-character strings. |
| Mutations.CharsOfChar | iga/ec_alg.py:25 | For a one-character value, `set(value)` is the value itself. |
| Mutations.NeighboursExact | iga/ec_alg.py:16-31 | The intended neighbours are exactly the unevaluated configurations that differ from the seed in one variable, within its domain. |
| Mutations.NeighbourDiffersOnce | iga/ec_alg.py:24-30 | A neighbour has the seed's variables and differs in exactly one. |
| Mutations.NeighboursAgreeOnChars | iga/ec_alg.py:25 | When every value is a single character, the code as written computes the intended neighbours. |
| Mutations.NeighboursAsWrittenMisses | iga/ec_alg.py:25 | A one-character value occurring inside the current value gives an intended neighbour that the code as written does not produce. |
| Mutations.MissedCaseInstance | iga/ec_alg.py:25 | A concrete case: values `10`, `1` and `0`, current value `10`. The neighbour with value `1` is lost. |
| Fitness.PutOnce | iga/ec_alg.py:40-47 | Entering a configuration succeeds exactly when it is new. It stores the given scores and keeps every other entry. |
| Fitness.VScoreRange | iga/ec_alg.py:115-125 | `get_vscore` lies in [0, 1]. It is 1 exactly when the coverage reaches the whole path and 0 exactly when it reaches none of it. |
| Fitness.HarmonicBound | iga/ec_alg.py:110-112 | The harmonic mean of two ratios in [0, 1] is at most 1, and is 1 only when both are. |
| Fitness.F1Range | iga/ec_alg.py:104-113 | When the coverage and the path differ, by a false positive or a false negative, the F1 score lies in [0, 1). |
| Fitness.FScoreRange | iga/ec_alg.py:96-113 | `get_fscore` lies in [0, 1] and is 1 exactly when the coverage is the path. |
| Fitness.MaxScoreIsMax | iga/ec_alg.py:89 | The fitness is the score of some path and no path scores higher. It is 1 exactly when the coverage reaches a whole path. |
| Fitness.ComputeAt | iga/ec_alg.py:85-94 | The entry `compute` leaves for any configuration is the expected one, whatever the order of the configurations and their repeats. |
| Fitness.ComputeScores | iga/ec_alg.py:73-94 | Every listed configuration not yet scored gets its best path score. Existing scores are kept and no other configuration changes. |
| Fitness.ComputeNothingToDo | iga/ec_alg.py:85-87 | When every listed configuration is scored already, `compute` changes nothing. |
| Fitness.ComputeCheckedSpec | iga/ec_alg.py:73-94 | The checked `compute` fails exactly when an empty path meets a configuration still to be scored. Otherwise every listed configuration ends up scored, and existing scores are kept. |
| Fitness.FirstMaxIndexIsFirstMax | iga/ec_alg.py:69 | `max` with a key finds a greatest value, and every value before it is smaller. |
| Fitness.ScoredFor | iga/ec_alg.py:63-64 | The candidates are exactly the configurations scored for `sid`. |
| Fitness.AvgBestFails | iga/ec_alg.py:56-68 | `get_avg_best` succeeds exactly when there are candidates. |
| Fitness.AvgBestBest | iga/ec_alg.py:69-71 | The best configuration is a candidate carrying the best fitness. No candidate is fitter, and every earlier candidate is less fit. |
| Fitness.AvgBestAverage | iga/ec_alg.py:68 | The average lies between the least and the best fitness. |
| Evolution.BaseName | iga/ec_alg.py:213 | `basename` is the longest suffix without `/`. |
| Evolution.BeforeColon | iga/ec_alg.py:213 | `split(':')[0]` is the longest prefix without `:`. |
| Evolution.ReqSParts | iga/ec_alg.py:213 | The filter string has neither `/` nor `:`. It sits in `sid` after the last `/` and ends at a `:` or at the end. |
| Evolution.ObserveSpec | iga/ec_alg.py:335-339 | The observation is the reached locations that mention `req_s`, or all of them without a filter. |
| Evolution.EvalConfigs | iga/ec_alg.py:315-350 | Configurations evaluated before are skipped, each new one is recorded once, and `covs` gains exactly the new coverage. `found` holds exactly when some configuration newly reaches `sid`, and evaluation stops there. Otherwise every configuration of `pop` is recorded. |
| Evolution.EvalSkip | iga/ec_alg.py:330-332 | Skipping a configuration evaluated before keeps the loop state. |
| Evolution.EvalAdd | iga/ec_alg.py:334-347 | Recording a new configuration's observation adds it to the coverage. |
| Evolution.ScoredFitsEmpty | iga/ec_alg.py:363 | No fitness is scored for `sid` exactly when no configuration has a score for it. |
| Evolution.Greatest | iga/ec_alg.py:363 | The greatest element of a non-empty finite set of numbers. |
| Evolution.PopBests | iga/ec_alg.py:364 | Exactly the members of the population with the best fitness. |
| Evolution.ParentsSpec | iga/ec_alg.py:363-365 | The parents are the old population's members that no scored configuration beats. The choice fails exactly in the three raising cases. |
| Evolution.NeighbourInDom | iga/ec_alg.py:366 | A neighbour of a configuration of the domain is an unevaluated configuration of the domain. |
| Evolution.GenPop | iga/ec_alg.py:353-372 | As intended, the offspring are the unevaluated neighbours of a best parent, padded with fresh configurations up to `pop_siz`. All are unevaluated configurations of the domain. Failures are the parent choice's or the padding's. |
| Evolution.Breed | iga/ec_alg.py:366-372 | Breeding fails exactly when the padding asks for more than the domain holds. Otherwise it pads the neighbours correctly. |
| Evolution.Pad | iga/ec_alg.py:367-371 | The padding fails exactly when it asks for more than the domain holds. Otherwise it gives `min(n, left)` fresh distinct configurations. |
| Evolution.NeighboursListed | iga/ec_alg.py:366 | A listing of the neighbours holds each once, all of them unevaluated configurations of the domain. |
| Evolution.PaddedJoin | iga/ec_alg.py:366-371 | The neighbours followed by the padding form a padded population. |
| Evolution.GenPopAsWritten | iga/ec_alg.py:353-372 | As written, `gen_pop` fails whenever it must pad, and uses the character-set neighbours. |
| Evolution.BreedAsWritten | iga/ec_alg.py:366-372 | As written, breeding succeeds exactly when the character-set neighbours fill the population. Any padding raises `TypeError`. |
| Evolution.PopSizeBounds | iga/ec_alg.py:214 | The population size is positive, at least the number of variables and at least every value set's size, and equal to one of them. |
| Evolution.OneBitPads | iga/ec_alg.py:369-370 | On a one-variable boolean domain every configuration has fewer neighbours than the population size, so `gen_pop` as written always raises. The intended padding fits in the domain. |
| Evolution.StuckIsTrailingRun | iga/ec_alg.py:279-290 | The stuck counter is the length of the final run of iterations without progress. |
| Evolution.StopsIff | iga/ec_alg.py:279-290 | `go_sid` gives up exactly after `max_stuck + 1` consecutive iterations without progress. |
| Evolution.ElitismKeepsBest | iga/ec_alg.py:275-277 | After elitism, the population's best fitness is at least both the previous best and the new one. |
| Evolution.EvalInDom | iga/ec_alg.py:330-343 | Evaluating configurations of the domain keeps the recorded configurations within the domain. |
| Evolution.Breeding | iga/ec_alg.py:247-261 | The current best is a population member with the greatest fitness. The new best set is the old one plus exactly the members carrying that fitness, and the offspring are unevaluated configurations of the domain. It breeds through the corrected `gen_pop` (`Evolution.GenPop`). |
| Evolution.CurrentBest | iga/ec_alg.py:246-249 | The current best fitness is the greatest in the population and is carried by the returned member; the best set gains exactly the members carrying it. |
| Evolution.BreedingAsWritten | iga/ec_alg.py:247-261 | Through `gen_pop` as written, the offspring are exactly the character-set neighbours of a best parent, and the generation raises `TypeError` exactly when that parent has fewer of them than `pop_siz`. The current best and the best set are as in `Breeding`. |
| Evolution.Evaluate | iga/ec_alg.py:264-267 | Evaluation keeps the search state. `found` holds exactly when `sid` is newly reached, and otherwise every offspring is recorded. |
| Evolution.Scoring | iga/ec_alg.py:270-277 | Scoring fails exactly on an empty path with work to do. Otherwise the offspring are scored, the best set gains exactly the offspring carrying their best fitness, and the next population is `Elitism` of the offspring: the previous best is appended exactly when it was fitter. |
| Evolution.Generation | iga/ec_alg.py:246-290 | One iteration, bred through the corrected `gen_pop`, keeps the search invariant and reports `found` exactly when `sid` was newly reached. Otherwise the parents' best fitness is their greatest, the offspring's is theirs, the next population is `Elitism` of the offspring against a best parent, the best set gains exactly the parents carrying the first and the offspring carrying the second, and `progress` is `Progress` of the coverage, best fitness and best-set growth. |
| Evolution.Search | iga/ec_alg.py:216-290 | The generations, bred through the corrected `gen_pop`, keep every observation sound and recorded. |
| Evolution.GoSid | iga/ec_alg.py:195-297 | The returned coverage is exactly what the new evaluations observed. Every recorded configuration is within the domain and was evaluated by the oracle. With no paths, `max` raises `ValueError`. When every path has at most one location the search stops after the covering array, with no fitness computed. Later generations breed through the corrected `gen_pop`. |
| Evolution.ObservedSound | iga/ec_alg.py:343-345 | Recorded coverage stays what the oracle reports. |
| Evolution.Uncovered | iga/ec_alg.py:174 | The remaining targets are exactly those not covered yet, in order. |
| Evolution.Go | iga/ec_alg.py:145-192 | The found targets are exactly the known targets some evaluation reached. Success means all were found, and every recorded configuration is sound and in the domain. Each target's search breeds through the corrected `gen_pop`. |
| Workloads.RoundDivNearest | src/config_common.py:44 | `int(round(a / float(b)))` is the nearest natural number, with halves rounded up. |
| Workloads.Chunks | src/config_common.py:50-56 | At most `left` workloads, none of them empty: empty slices are dropped. |
| Workloads.ChunksCover | src/config_common.py:50-58 | The remaining workloads concatenate to the tasks from `s` on, in order. |
| Workloads.ChunksStep | src/config_common.py:52-53 | A workload that is not the last and lies inside the list spans exactly `cs` tasks. |
| Workloads.GetWorkloadsAsWritten | src/config_common.py:43-58 | As written, `getWorkloads` fails exactly when fewer than half a chunk of tasks leaves zero processes. |
| Workloads.GetWorkloadsAsWrittenFails | src/config_common.py:44-49 | One task in chunks of three: zero processes and a division by zero. |
| Workloads.GetWorkloadsPartition | src/config_common.py:21-58 | The workloads are non-empty and contiguous, concatenate to `tasks`, and number between 1 and `maxProcessces`. |
| Workloads.GetWorkloadsAgrees | src/config_common.py:43-58 | Where the code as written does not fail, the corrected function returns the same workloads. |
| Workloads.GetWorkloadsExampleSeven | src/config_common.py:23-24 | The documented example of twelve tasks, seven processes, chunks of one: six pairs. |
| Workloads.GetWorkloadsExampleFive | src/config_common.py:27-28 | The documented example of twelve tasks, five processes, chunks of two: four pairs and a last workload of four. |
| Workloads.GetWorkloadsExampleTwenty | src/config_common.py:30-31 | The documented example of twenty tasks, seven processes, chunks of two: six triples and a last pair. |
| Workloads.GetWorkloadsExampleTen | src/config_common.py:34-35 | The documented example of twenty tasks, twenty processes, chunks of two: ten pairs. |
| Workloads.ChunksEven | src/config_common.py:51-56 | When the tasks from `s` on fill the workloads exactly, workload `j` spans the `cs` tasks starting at `s + j * cs`. |
| DomainParser.LineLen | igen/Domain.cpp:29 | A line runs up to the first newline or the end of the input. |
| DomainParser.LinesHaveNoNewline | igen/Domain.cpp:29 | No line read with `getline` holds a newline. |
| DomainParser.LinesUnlines | igen/Domain.cpp:29 | Reading back lines written one per line gives those lines. |
| DomainParser.Tokens | igen/Domain.cpp:34-38 | Every token extracted is a non-empty run of non-space characters. |
| DomainParser.TokensOfWord | igen/Domain.cpp:34-38 | A token followed by a space or the end is read as itself. |
| DomainParser.TokensUnwords | igen/Domain.cpp:34-38 | Reading back tokens written space-separated gives those tokens. |
| DomainParser.Labels | igen/Domain.cpp:37-41 | The labels are the longest prefix of the tokens after the name without a comment token. They stop exactly at the first token starting with `#`. |
| DomainParser.ParseLine | igen/Domain.cpp:30-41 | A line declares nothing exactly when it has no token or its first token starts with `#`. Otherwise it declares its first token with its labels. |
| DomainParser.EqAtoms | igen/Domain.cpp:52-54 | One equality atom per label index, `name == i` at index `i`. |
| DomainParser.NewBounds | igen/Domain.cpp:45-46 | Each entry gets the solver bound `0 <= name < n_vals`. |
| DomainParser.ParseLinesVars | igen/Domain.cpp:29-50 | The loop appends one variable per declaring line and keeps the variables already present. |
| DomainParser.ParseLinesCount | igen/Domain.cpp:56 | The loop adds the label count of each declaring line. |
| DomainParser.ParseLinesBounds | igen/Domain.cpp:45-46 | The loop adds each declared variable's bound to the solver. |
| DomainParser.ParseSpec | igen/Domain.cpp:23-60 | Parsing keeps the variables present and appends one per declaring line, with consecutive ids, name, labels and one atom per label. Each gets its bound, and `n_all_values_` ends as the number of labels read. |
| DomainParser.ParseIds | igen/Domain.cpp:47-48 | Ids stay equal to positions in `vars`. |
| DomainParser.ParseCountsAll | igen/Domain.cpp:26-56 | On a fresh domain, `n_all_values_` ends as the number of labels of all variables. |
| DomainParser.ParseLineOf | igen/Domain.cpp:30-41 | The line written for an entry declares exactly that entry. |
| DomainParser.ParseRender | igen/Domain.cpp:29-41 | Reading back a rendered domain file gives the entries it was written from. |

## Left out

- Z3 itself is left out: the `Z3DB` enum sorts, `get_models`, `is_tautology` and the expression caches. Formulas are evaluated over the finite domain instead, and the caches are pure memoisation.
- Which model a solver returns is an arbitrary choice among the satisfying configurations.
- File and directory I/O is left out: reading the domain file and `.default` configurations in `get_dom`, and the `DTrace` save/load. The model takes the split lines as input.
- Running the program (`get_cov`, `Config.eval`, `Config.real`, `Dom.mkConcr`) is left out. It is the parameter `run`.
- `runMP` and multiprocessing are left out.
- Python floats are modelled as exact `real`s. The source compares computed fitness values for equality (iga/ec_alg.py:248, 272, 364). Two F1 scores that are equal as rationals but computed from different operands may round differently in floating point, which would change `pop_bests`. The model does not capture this.
- `random.seed` and `random.choice` are arbitrary choices. Properties are proved for every choice.
- `EC.get_paths` and the control-flow graph are left out. The paths are a parameter, and the query and its `req_s` filtering are not modelled.
- Wall-clock timing, logging and pretty-printing are left out: `__str__`, `show_results`, `str_of_strens`, `Fits_d.__str__`, `str_of_cov`. The exceptions are the renderings `_get_str` and `str_of_valset`, which drive merging and shape tags.
- `MCore.values` and `vstren` are left out. They only order the display of results.
- `Dom.infs`, the abstract-variable set, is computed by `get_lines` but not used further, because it only feeds concretisation.
- The type assertions of the constructors and setters are left out, because Dafny's types enforce them.
- Evolution.GoSid: runs at most `fuel` generations. The source loops until `sid` is found or the stuck counter runs out, and termination of that loop depends on the oracle.
- Evolution.Search: the same `fuel` bound as `GoSid`.
- Evolution.Go: the same `fuel` bound per target.
- Evolution.Go: the argument checks at iga/ec_alg.py:146-152 are not modelled: `seed` must be a float, `econfigs` a list of configurations, and `tmpdir` an existing directory, else `AssertionError` (so the default `tmpdir=None` raises). The model takes none of these arguments: the seed only drives the random choices, which are arbitrary here, and neither `econfigs` nor `tmpdir` is used after the checks.
- Evolution.Breeding: breeds through the corrected `gen_pop` (`Evolution.GenPop`): the intended neighbours, and padding that passes `z3db`. As written (see "## Findings"), `gen_pop` uses character-set neighbours and raises `TypeError` at the first padding. `Evolution.BreedingAsWritten` states that behaviour for one generation.
- Evolution.Generation: composes the corrected `Breeding`. As written, a generation raises `TypeError` exactly when `Evolution.BreedingAsWritten` does.
- Evolution.Search: runs the corrected generations. As written, the search raises `TypeError` at the first generation that must pad.
- Evolution.GoSid: searches with the corrected `gen_pop`. As written, it raises `TypeError` at the first padding.
- Evolution.Go: each target's search uses the corrected `gen_pop`. As written, `go` raises `TypeError` at the first padding of any target's search.
- The iteration order of Python dictionaries and sets is a listing parameter (`order`, `ks`, `listing`) wherever the result depends on it. Lemmas show independence from it where the result does not depend on it. `fix_duplicates` keeps the representative that comes first in the listing, as the source does.
- PNCores.GetStr: a core's variables are rendered in domain order (`OrderedKeys(core, d.vars)`). `Core.__str__` uses the core's insertion order, which `infer` inherits from the first configuration it learns from. Where that order differs from the domain order, the source's string differs from the model's.
- Cex.GenConfigsCex: visits `c_core`'s variables and each variable's excluded values in sorted order. The source uses the dictionary's and the frozenset's iteration order. Only which candidate comes first changes, and the contract holds for the sorted order.
- Cex.GenConfigsCex: requires `mc` to be present. On `SCore.mk_default()` the source raises `TypeError` at `for k in c_core`, and the model does not return that failure.
- PNCores.Verify: requires what `verify` asserts: `pc` present, `nc` present when `pd` is, a non-empty configuration set, and `pc` holding on every configuration. The source raises `AssertionError` otherwise, and the model does not return that failure. `PNCores.VerifyAsWritten` has the same requirement.
- Analysis.Analyze: requires what `analyze` asserts: a non-empty coverage map with exactly the cores' locations, and the `verify` assertions for each location. The source raises `AssertionError` otherwise. `Analysis.AnalyzeAsWritten` has the same requirement.
- Analysis.Analyze: when there is no coverage map, the source updates the `Cores_d` in place (`cores_d = self`) and returns it; the model returns a new map with the same contents. Aliasing is not modelled.
- Inference.Infer: requires a non-empty configuration list, which `infer` asserts (`AssertionError` otherwise). `Inference.InferSet` has the same requirement.
- Evolution.GenPop: requires what `gen_pop` asserts: a non-empty old population, `pop_siz > 0` and a non-empty record of evaluated configurations (`AssertionError` otherwise). `Evolution.GenPopAsWritten` has the same requirement.
- Fitness.Compute: requires a non-empty configuration list, which `compute` asserts (`AssertionError` otherwise).
- Workloads.GetWorkloadsPartition: requires at least one task, one process and a chunk size of at least one, which `getWorkloads` asserts (`AssertionError` otherwise). `Workloads.GetWorkloadsAsWritten` has the same requirement.
- Merging.Merge: takes either all-analysed hypotheses (`Merge`) or all-unanalysed ones (`MergeRaw`). A map that mixes the two, where `merge` keys some locations by string and others by hypothesis, is not modelled.
- The `paths` check of `go_sid` (`max(map(len, paths)) <= 1`) is the test in `Evolution.GoSid` that every path has at most one location. An empty path list makes `max` raise `ValueError`. `PathsOk` is a different condition: the non-empty paths that `compute` and `get_vscore` assert.
- `n_all_values_` is an `int` in the C++ source; the model uses unbounded integers, because overflow needs more than 2^31 labels.
- Z3 constants are shared between variables of the same name declared twice; the model keeps them as separate entries.
- `CHECK(input)` and the stream state of `Domain::parse` are left out, as is reading a file.
- `Context.h` and the `c50` decision-tree code are not part of this model. They are plumbing and floating-point heuristics.
- Lemma names for the string helpers (`Strings.StrLe*`, `JoinNoChar` and others), the set helpers and the loop-step lemmas have no row. They only support the members above.

## Findings

| source | as written | input that shows it | evidently intended | confidence | as-written member | corrected member |
|---|---|---|---|---|---|---|
| src/config.py:532 | `.format` is called on the `None` that `logger.debug` returns, so `verify` raises `AttributeError` | `nc = a=0`, `nd = b=0` over `a, b` in `{0, 1}`, with configuration `a=0 b=1` | log the message and drop `nc` and `nd` | high (not executed) | PNCores.VerifyAsWrittenRaises | PNCores.Verify |
| src/config.py:812 | `analyze` stores the unverified `core`, not the verified `core_` | domain `a, b` over `{0, 1}`, `pd = a=0`, `nc = b=0`, configuration `a=0 b=1` | store `core_`, so that refuted parts are dropped | high (not executed) | Analysis.AsWrittenRefutedCase | Analysis.IntendedRefutedCase |
| iga/ec_alg.py:25 | `set(config[k])` is the set of characters of the value | a variable with values `10`, `1`, `0`, currently `10`: the neighbour `1` is never produced | `self[k] - {config[k]}` | high (not executed) | Mutations.NeighboursAsWrittenMisses | Mutations.NeighboursExact |
| iga/ec_alg.py:369-370 | `gen_configs_rand_smt` is called without its required `z3db` argument, so any padding raises `TypeError` | one boolean variable: one neighbour, population size 2 | pass `z3db` | high (not executed) | Evolution.OneBitPads | Evolution.Breed |
| src/config_common.py:44-49 | `round(ntasks / chunksiz)` can be 0, and then `ntasks / nprocesses` divides by zero | one task, chunks of three | at least one process | high (not executed) | Workloads.GetWorkloadsAsWrittenFails | Workloads.GetWorkloadsPartition |

=== FILE: analysis.dfy ===
/** `Cores_d.analyze` (src/config.py:778-826): check every location's
    hypothesis against the configurations that reach it (`verify`), then
    `simplify` it.  Without a coverage map only the simplification is done.

    As written, the verification loop stores the unverified core
    (src/config.py:812), so its result is computed and then dropped;
    `AnalyzeAsWritten` models that and `Analyze` the evidently intended
    loop that stores the verified one. */
module Analysis {
  import opened Wrappers
  import opened Domains
  import opened Cores
  import opened Formulas
  import opened PNCores
  import opened CovMaps

  /** `Cores_d` once analysed: each location's simplified hypothesis, with
      the rendered string, shape tag and formula `simplify` attaches. */
  type SCoresD = map<Sid, Simplified>

  /** What `analyze` asserts of its arguments: a coverage map, when given,
      is non-empty and lists exactly the locations that have cores, and each
      core satisfies what `verify` asserts for its configurations. */
  predicate AnalyzePre(cores: map<Sid, PNCore>, d: Dom, covs: Option<Covs>)
  {
    && ValidDom(d)
    && (forall sid | sid in cores :: PNOverDom(cores[sid], d))
    && (covs.Some? ==>
          && covs.value != map[]
          && covs.value.Keys == cores.Keys
          && forall sid | sid in cores :: VerifyPre(cores[sid], covs.value[sid], d))
  }

  /** The hypothesis of a location after the verification loop as intended:
      verified when there is a coverage map, unchanged otherwise. */
  function Checked(p: PNCore, configs: Option<set<Config>>, d: Dom): (q: PNCore)
    requires configs.Some? ==> VerifyPre(p, configs.value, d)
    ensures PNOverDom(p, d) ==> PNOverDom(q, d)
    ensures configs.None? ==> q == p
  {
    if configs.Some? then Verify(p, configs.value, d) else p
  }

  /** The configurations reaching `sid`, when there is a coverage map. */
  function ConfigsAt(covs: Option<Covs>, sid: Sid): Option<set<Config>>
  {
    if covs.Some? && sid in covs.value then Some(covs.value[sid]) else None
  }

  /** The verification loop as intended: every location's verified core. */
  function Verified(cores: map<Sid, PNCore>, d: Dom, covs: Option<Covs>): (r: map<Sid, PNCore>)
    requires AnalyzePre(cores, d, covs)
    ensures r.Keys == cores.Keys
    ensures forall sid | sid in r :: PNOverDom(r[sid], d)
  {
    map sid | sid in cores :: Checked(cores[sid], ConfigsAt(covs, sid), d)
  }

  /** The simplification loop: fails when `simplify` asserts on some
      location, and otherwise maps every location to its simplification. */
  function SimplifyAll(cores: map<Sid, PNCore>, d: Dom, firstTime: bool): (r: Result<SCoresD, string>)
    requires ValidDom(d) && forall sid | sid in cores :: PNOverDom(cores[sid], d)
    ensures r.Success? ==> r.value.Keys == cores.Keys
  {
    if forall sid | sid in cores :: Simplify(cores[sid], d, firstTime).Success? then
      Success(map sid | sid in cores :: Simplify(cores[sid], d, firstTime).value)
    else
      Failure("AssertionError")
  }

  /** `analyze` as evidently intended: the verified cores, simplified (with
      the first-time checks when there is a coverage map). */
  function Analyze(cores: map<Sid, PNCore>, d: Dom, covs: Option<Covs>): (r: Result<SCoresD, string>)
    requires AnalyzePre(cores, d, covs)
    ensures r.Success? ==> r.value.Keys == cores.Keys
  {
    if cores == map[] then Success(map[])
    else SimplifyAll(Verified(cores, d, covs), d, covs.Some?)
  }

  /** `analyze` as written: `verify` runs on every location (and raises
      where it does), but what is simplified is the unverified core. */
  function AnalyzeAsWritten(cores: map<Sid, PNCore>, d: Dom, covs: Option<Covs>): (r: Result<SCoresD, string>)
    requires AnalyzePre(cores, d, covs)
    ensures r.Success? ==> r.value.Keys == cores.Keys
  {
    if cores == map[] then Success(map[])
    else if covs.Some? && exists sid | sid in cores :: VerifyAsWritten(cores[sid], covs.value[sid], d).Failure? then
      Failure("AttributeError: 'NoneType' object has no attribute 'format'")
    else SimplifyAll(cores, d, covs.Some?)
  }

  /** Each location's result is the simplification of its own core alone. */
  lemma SimplifyAllAt(cores: map<Sid, PNCore>, d: Dom, firstTime: bool, sid: Sid)
    requires ValidDom(d) && forall s | s in cores :: PNOverDom(cores[s], d)
    requires sid in cores
    ensures SimplifyAll(cores, d, firstTime).Failure? ==> exists s | s in cores :: Simplify(cores[s], d, firstTime).Failure?
    ensures SimplifyAll(cores, d, firstTime).Success? ==>
      Simplify(cores[sid], d, firstTime) == Success(SimplifyAll(cores, d, firstTime).value[sid])
  {
  }

  /** With a coverage map, and cores of the shape inference produces, the
      intended `analyze` yields for every location a formula that holds on
      every configuration reaching it. */
  lemma AnalyzeSound(cores: map<Sid, PNCore>, d: Dom, covs: Covs)
    requires AnalyzePre(cores, d, Some(covs))
    requires forall sid | sid in cores :: Truthy(cores[sid].nc) ==> Proper(cores[sid].nc.value, d)
    requires forall sid, c | sid in covs && c in covs[sid] :: IsConfigOf(c, d)
    requires Analyze(cores, d, Some(covs)).Success?
    ensures forall sid, c | sid in cores && c in covs[sid] :: Holds(Analyze(cores, d, Some(covs)).value[sid].expr, c)
  {
    var r := Analyze(cores, d, Some(covs)).value;
    forall sid, c | sid in cores && c in covs[sid]
      ensures Holds(r[sid].expr, c)
    {
      var p := cores[sid];
      var v := Verify(p, covs[sid], d);
      assert Verified(cores, d, Some(covs))[sid] == v;
      SimplifyAllAt(Verified(cores, d, Some(covs)), d, true, sid);
      VerifySound(p, covs[sid], d);
      SimplifyKeepsMeaning(v, d, true);
    }
  }

  /** Without a coverage map `analyze` only simplifies: each location's
      formula means what its hypothesis meant, over the whole domain. */
  lemma AnalyzeKeepsMeaning(cores: map<Sid, PNCore>, d: Dom)
    requires AnalyzePre(cores, d, None)
    requires Analyze(cores, d, None).Success?
    ensures forall sid, c | sid in cores && c in AllConfigs(d) ::
      Holds(Analyze(cores, d, None).value[sid].expr, c) <==> Inv(cores[sid], d, c)
  {
    var r := Analyze(cores, d, None).value;
    assert Verified(cores, d, None) == cores;
    forall sid | sid in cores
      ensures forall c | c in AllConfigs(d) :: Holds(r[sid].expr, c) <==> Inv(cores[sid], d, c)
    {
      SimplifyAllAt(cores, d, false, sid);
      SimplifyKeepsMeaning(cores[sid], d, false);
    }
  }

  /** When `verify` refutes nothing, the two loops agree. */
  lemma AnalyzeAgrees(cores: map<Sid, PNCore>, d: Dom, covs: Option<Covs>)
    requires AnalyzePre(cores, d, covs)
    requires covs.Some? ==> forall sid | sid in cores :: Verify(cores[sid], covs.value[sid], d) == cores[sid]
    ensures AnalyzeAsWritten(cores, d, covs) == Analyze(cores, d, covs)
  {
    if covs.Some? {
      forall sid | sid in cores
        ensures VerifyAsWritten(cores[sid], covs.value[sid], d).Success?
      {
        VerifyUnchangedAsWritten(cores[sid], covs.value[sid], d);
      }
    }
    VerifiedUnchanged(cores, d, covs);
  }

  /** When `verify` refutes nothing, the verification loop changes nothing. */
  lemma VerifiedUnchanged(cores: map<Sid, PNCore>, d: Dom, covs: Option<Covs>)
    requires AnalyzePre(cores, d, covs)
    requires covs.Some? ==> forall sid | sid in cores :: Verify(cores[sid], covs.value[sid], d) == cores[sid]
    ensures Verified(cores, d, covs) == cores
  {
    forall sid | sid in cores
      ensures Verified(cores, d, covs)[sid] == cores[sid]
    {
      if covs.Some? {
        assert ConfigsAt(covs, sid) == Some(covs.value[sid]);
      }
    }
  }

  /** As written, each location's result is the simplification of its
      unverified core. */
  lemma AsWrittenAt(cores: map<Sid, PNCore>, d: Dom, covs: Option<Covs>, sid: Sid)
    requires AnalyzePre(cores, d, covs)
    requires AnalyzeAsWritten(cores, d, covs).Success?
    requires sid in cores
    ensures Simplify(cores[sid], d, covs.Some?) == Success(AnalyzeAsWritten(cores, d, covs).value[sid])
  {
    SimplifyAllAt(cores, d, covs.Some?, sid);
  }

  /** As written, a positive exception core that a configuration reaching
      the location refutes survives into the result, whose formula is then
      false on that very configuration. */
  lemma AnalyzeAsWrittenKeepsRefuted(cores: map<Sid, PNCore>, d: Dom, covs: Covs, sid: Sid, c: Config)
    requires AnalyzePre(cores, d, Some(covs))
    requires AnalyzeAsWritten(cores, d, Some(covs)).Success?
    requires sid in cores && c in covs[sid] && IsConfigOf(c, d)
    requires Truthy(cores[sid].pd) && !DImplies(c, Neg(cores[sid].pd.value, d))
    ensures !Holds(AnalyzeAsWritten(cores, d, Some(covs)).value[sid].expr, c)
  {
    var p := cores[sid];
    AsWrittenAt(cores, d, Some(covs), sid);
    SimplifyKeepsMeaning(p, d, true);
    assert c in AllConfigs(d);
    assert !AndHolds(p.pc, p.pd, d, c);
    assert !Inv(p, d, c);
  }

  /** With a single location, the loop succeeds when its one step does. */
  lemma SimplifyAllOne(sid: Sid, p: PNCore, d: Dom, firstTime: bool)
    requires ValidDom(d) && PNOverDom(p, d)
    requires Simplify(p, d, firstTime).Success?
    ensures SimplifyAll(map[sid := p], d, firstTime).Success?
  {
  }

  /** With a single location reached by `configs`, each version of the
      loops comes down to simplifying one core. */
  lemma SinglePre(sid: Sid, p: PNCore, d: Dom, configs: set<Config>)
    requires ValidDom(d) && PNOverDom(p, d) && VerifyPre(p, configs, d)
    ensures AnalyzePre(map[sid := p], d, Some(map[sid := configs]))
  {
    assert sid in map[sid := configs];
  }

  lemma SingleAsWritten(sid: Sid, p: PNCore, d: Dom, configs: set<Config>)
    requires AnalyzePre(map[sid := p], d, Some(map[sid := configs]))
    requires VerifyAsWritten(p, configs, d).Success?
    ensures AnalyzeAsWritten(map[sid := p], d, Some(map[sid := configs])) == SimplifyAll(map[sid := p], d, true)
  {
    var cores := map[sid := p];
    var covs := map[sid := configs];
    assert forall s | s in cores :: cores[s] == p && covs[s] == configs;
  }

  lemma SingleIntended(sid: Sid, p: PNCore, d: Dom, configs: set<Config>)
    requires AnalyzePre(map[sid := p], d, Some(map[sid := configs]))
    ensures Analyze(map[sid := p], d, Some(map[sid := configs])) == SimplifyAll(map[sid := Verify(p, configs, d)], d, true)
  {
    VerifiedSingle(sid, p, d, configs);
  }

  /** With a single location, the verification loop verifies its one core. */
  lemma VerifiedSingle(sid: Sid, p: PNCore, d: Dom, configs: set<Config>)
    requires AnalyzePre(map[sid := p], d, Some(map[sid := configs]))
    ensures VerifyPre(p, configs, d)
    ensures Verified(map[sid := p], d, Some(map[sid := configs])) == map[sid := Verify(p, configs, d)]
  {
    var covs := Some(map[sid := configs]);
    assert ConfigsAt(covs, sid) == Some(configs);
    var m := Verified(map[sid := p], d, covs);
    assert m.Keys == {sid};
    SingletonMap(m, sid, Verify(p, configs, d));
  }

  /** A map with the single key `k`, mapped to `v`. */
  lemma SingletonMap<K, V>(m: map<K, V>, k: K, v: V)
    requires m.Keys == {k} && m[k] == v
    ensures m == map[k := v]
  {
  }

  /** The shape of the concrete case below: a location with an empty `pc`,
      a `pd` and an `nc` (no `nd`), reached by one configuration that
      refutes `pd` but not `nc`. */
  predicate RefutedCase(d: Dom, pd: Core, nc: Core, c: Config)
  {
    && ValidDom(d) && IsConfigOf(c, d)
    && OverDom(pd, d) && pd != map[] && Proper(nc, d) && nc != map[]
    && !DImplies(c, Neg(pd, d)) && DImplies(c, Neg(nc, d))
  }

  lemma RefutedCasePre(d: Dom, pd: Core, nc: Core, c: Config)
    requires RefutedCase(d, pd, nc, c)
    ensures VerifyPre(PNCore(Some(map[]), Some(pd), Some(nc), None), {c}, d)
  {
  }

  lemma RefutedCaseRaisesNot(d: Dom, pd: Core, nc: Core, c: Config)
    requires RefutedCase(d, pd, nc, c)
    ensures VerifyPre(PNCore(Some(map[]), Some(pd), Some(nc), None), {c}, d)
    ensures VerifyAsWritten(PNCore(Some(map[]), Some(pd), Some(nc), None), {c}, d).Success?
  {
    RefutedCasePre(d, pd, nc, c);
  }

  lemma RefutedCaseVerify(d: Dom, pd: Core, nc: Core, c: Config)
    requires RefutedCase(d, pd, nc, c)
    ensures VerifyPre(PNCore(Some(map[]), Some(pd), Some(nc), None), {c}, d)
    ensures Verify(PNCore(Some(map[]), Some(pd), Some(nc), None), {c}, d) == PNCore(Some(map[]), None, Some(nc), None)
  {
    RefutedCasePre(d, pd, nc, c);
    var p := PNCore(Some(map[]), Some(pd), Some(nc), None);
    assert c in {c} && !DImplies(c, Neg(pd, d));
    forall x | x in {c}
      ensures NegCheck(p.nc, p.nd, d, x)
    {
      assert x == c;
    }
    VerifyDropsPd(p, {c}, d);
  }

  /** As written, the refuted `pd` survives and the formula returned for
      the location is false on the configuration reaching it. */
  lemma AsWrittenRefutedCase(sid: Sid, d: Dom, pd: Core, nc: Core, c: Config)
    requires RefutedCase(d, pd, nc, c)
    ensures var cores := map[sid := PNCore(Some(map[]), Some(pd), Some(nc), None)];
      var covs := map[sid := {c}];
      && AnalyzePre(cores, d, Some(covs))
      && AnalyzeAsWritten(cores, d, Some(covs)).Success?
      && !Holds(AnalyzeAsWritten(cores, d, Some(covs)).value[sid].expr, c)
  {
    var p := PNCore(Some(map[]), Some(pd), Some(nc), None);
    RefutedCaseRaisesNot(d, pd, nc, c);
    RefutedCaseSimplifies(d, pd, nc, c);
    SimplifyAllOne(sid, p, d, true);
    SinglePre(sid, p, d, {c});
    SingleAsWritten(sid, p, d, {c});
    AnalyzeAsWrittenKeepsRefuted(map[sid := p], d, map[sid := {c}], sid, c);
  }

  /** Both sides of the case's core contribute a formula, so `simplify`
      (with its first-time checks) succeeds on it. */
  lemma RefutedCaseSimplifies(d: Dom, pd: Core, nc: Core, c: Config)
    requires RefutedCase(d, pd, nc, c)
    ensures PNOverDom(PNCore(Some(map[]), Some(pd), Some(nc), None), d)
    ensures Simplify(PNCore(Some(map[]), Some(pd), Some(nc), None), d, true).Success?
  {
    var p := PNCore(Some(map[]), Some(pd), Some(nc), None);
    RefutedCaseNegs(d, pd, nc, c);
    var n := Normalize(p);
    assert n == PNCore(None, Some(pd), Some(nc), None);
    assert BothPresent(n, d);
    SimplifyBothPresent(p, d);
  }

  /** Both parts of the case negate to non-empty cores. */
  lemma RefutedCaseNegs(d: Dom, pd: Core, nc: Core, c: Config)
    requires RefutedCase(d, pd, nc, c)
    ensures Neg(pd, d) != map[] && Neg(nc, d) != map[]
  {
    NegInvolution(nc, d);
    var k :| k in nc;
    assert k in Neg(nc, d).Keys;
  }

  /** The intended loop drops the refuted `pd`, and the formula it returns
      holds on the configuration. */
  lemma IntendedRefutedCase(sid: Sid, d: Dom, pd: Core, nc: Core, c: Config)
    requires RefutedCase(d, pd, nc, c)
    ensures var cores := map[sid := PNCore(Some(map[]), Some(pd), Some(nc), None)];
      var covs := map[sid := {c}];
      && AnalyzePre(cores, d, Some(covs))
      && Analyze(cores, d, Some(covs)).Success?
      && Holds(Analyze(cores, d, Some(covs)).value[sid].expr, c)
  {
    var p := PNCore(Some(map[]), Some(pd), Some(nc), None);
    var v := PNCore(Some(map[]), None, Some(nc), None);
    RefutedCaseVerify(d, pd, nc, c);
    VerifiedCaseHolds(d, pd, nc, c);
    SimplifyAllOne(sid, v, d, true);
    SinglePre(sid, p, d, {c});
    SingleIntended(sid, p, d, {c});
    SimplifyAllAt(map[sid := v], d, true, sid);
  }

  /** Once `pd` is dropped, the simplified formula holds on the configuration. */
  lemma VerifiedCaseHolds(d: Dom, pd: Core, nc: Core, c: Config)
    requires RefutedCase(d, pd, nc, c)
    ensures PNOverDom(PNCore(Some(map[]), None, Some(nc), None), d)
    ensures Simplify(PNCore(Some(map[]), None, Some(nc), None), d, true).Success?
    ensures Holds(Simplify(PNCore(Some(map[]), None, Some(nc), None), d, true).value.expr, c)
  {
    var v := PNCore(Some(map[]), None, Some(nc), None);
    SimplifyKeepsMeaning(v, d, true);
    assert c in AllConfigs(d);
    assert Inv(v, d, c);
  }

  /** An instance: domain `a, b` over `{0, 1}`, `pd = a=0`, `nc = b=0`, and
      the configuration `a=0 b=1`. */
  lemma AnalyzeRefutedInstance(d: Dom, c: Config)
    requires d == Dom(["a", "b"], map["a" := {"0", "1"}, "b" := {"0", "1"}])
    requires c == map["a" := "0", "b" := "1"]
    ensures RefutedCase(d, map["a" := {"0"}], map["b" := {"0"}], c)
  {
    InstanceDom(d, c);
    InstanceNeg(d, map["a" := {"0"}], "a");
    InstanceNeg(d, map["b" := {"0"}], "b");
    assert !DImplies(c, map["a" := {"1"}]);
    assert DImplies(c, map["b" := {"1"}]) by {
      assert "b" in map["b" := {"1"}];
    }
  }

  /** The instance's domain is well formed and its configuration belongs to it. */
  lemma InstanceDom(d: Dom, c: Config)
    requires d == Dom(["a", "b"], map["a" := {"0", "1"}, "b" := {"0", "1"}])
    requires c == map["a" := "0", "b" := "1"]
    ensures ValidDom(d) && IsConfigOf(c, d)
  {
    assert (set k | k in d.vars) == {"a", "b"} by {
      assert d.vars[0] == "a" && d.vars[1] == "b";
    }
  }

  /** A one-variable core `k=0` of the instance is proper and negates to `k=1`. */
  lemma InstanceNeg(d: Dom, core: Core, k: Var)
    requires d == Dom(["a", "b"], map["a" := {"0", "1"}, "b" := {"0", "1"}])
    requires k in d.vals && core == map[k := {"0"}]
    ensures Proper(core, d) && core != map[]
    ensures Neg(core, d) == map[k := {"1"}]
  {
    assert {"0", "1"} - {"0"} == {"1"};
    assert k in core;
  }
}

=== FILE: cex.dfy ===
/** Counterexample generation, `Dom.gen_configs_cex` (src/config.py).

    Given a sat-core `(c_core, s_core)`, the candidates are `c_core` with one
    variable pinned to a value `c_core` does not allow, each conjoined with
    `s_core`, plus `c_core` itself when `keep` is set and some variable of the
    domain is left free.  For each candidate the solver is asked for a
    configuration satisfying it that is neither an existing configuration nor
    one generated earlier in the same call. */
module Cex {
  import opened Wrappers
  import opened Domains
  import opened Cores
  import opened Formulas
  import opened Generators
  import Strings

  /** `c_core` with `k` pinned to `v`, with the truthy sat core's entries added. */
  function Pin(mc: Core, k: Var, v: Val, sc: Option<Core>): Core
  {
    var pinned := mc[k := {v}];
    if Truthy(sc) then pinned + sc.value else pinned
  }

  /** A pinned candidate keeps every other variable of `c_core` and every
      entry of the sat core, which it does not overwrite. */
  lemma PinShape(mc: Core, k: Var, v: Val, sc: Option<Core>)
    requires k in mc
    requires Truthy(sc) ==> mc.Keys !! sc.value.Keys
    ensures k in Pin(mc, k, v, sc) && Pin(mc, k, v, sc)[k] == {v}
    ensures forall j | j in mc && j != k :: j in Pin(mc, k, v, sc) && Pin(mc, k, v, sc)[j] == mc[j]
    ensures Truthy(sc) ==> forall j | j in sc.value :: j in Pin(mc, k, v, sc) && Pin(mc, k, v, sc)[j] == sc.value[j]
    ensures Pin(mc, k, v, sc).Keys == mc.Keys + (if Truthy(sc) then sc.value.Keys else {})
  {
  }

  /** The pins of one variable, one per value in `vs`. */
  function PinsOf(mc: Core, k: Var, vs: seq<Val>, sc: Option<Core>): (r: seq<Core>)
    ensures forall q :: q in r <==> exists v :: v in vs && q == Pin(mc, k, v, sc)
  {
    var r := seq(|vs|, i requires 0 <= i < |vs| => Pin(mc, k, vs[i], sc));
    forall q | q in r
      ensures exists v :: v in vs && q == Pin(mc, k, v, sc)
    {
      var i :| 0 <= i < |r| && r[i] == q;
      assert vs[i] in vs;
    }
    forall q | exists v :: v in vs && q == Pin(mc, k, v, sc)
      ensures q in r
    {
      var v :| v in vs && q == Pin(mc, k, v, sc);
      var i :| 0 <= i < |vs| && vs[i] == v;
      assert r[i] == q;
    }
    r
  }

  /** `q` pins `k` to a value of the domain that `c_core` does not allow. */
  predicate IsPinAt(q: Core, mc: Core, k: Var, d: Dom, sc: Option<Core>)
    requires k in mc && k in d.vals
  {
    exists v :: v in d.vals[k] - mc[k] && q == Pin(mc, k, v, sc)
  }

  /** `q` pins some variable of `c_core` to a value `c_core` does not allow. */
  predicate IsPin(q: Core, mc: Core, d: Dom, sc: Option<Core>)
    requires OverDom(mc, d)
  {
    exists k :: k in mc && IsPinAt(q, mc, k, d, sc)
  }

  /** The pins of the variables `ks`, each to every value outside `c_core`,
      in the order the source visits them. */
  function PinsFrom(mc: Core, ks: seq<Var>, d: Dom, sc: Option<Core>): (r: seq<Core>)
    requires forall i | 0 <= i < |ks| :: ks[i] in mc && ks[i] in d.vals
    ensures forall q :: q in r <==> exists i :: 0 <= i < |ks| && IsPinAt(q, mc, ks[i], d, sc)
  {
    if |ks| == 0 then []
    else
      var k := ks[0];
      var here := PinsOf(mc, k, Strings.Sorted(d.vals[k] - mc[k]), sc);
      var rest := PinsFrom(mc, ks[1..], d, sc);
      assert forall q :: q in here <==> IsPinAt(q, mc, k, d, sc);
      forall q | q in rest
        ensures exists i :: 0 <= i < |ks| && IsPinAt(q, mc, ks[i], d, sc)
      {
        var i :| 0 <= i < |ks[1..]| && IsPinAt(q, mc, ks[1..][i], d, sc);
        assert ks[1..][i] == ks[i + 1];
      }
      forall q | exists i :: 0 <= i < |ks| && IsPinAt(q, mc, ks[i], d, sc)
        ensures q in here + rest
      {
        var i :| 0 <= i < |ks| && IsPinAt(q, mc, ks[i], d, sc);
        if i > 0 {
          assert ks[1..][i - 1] == ks[i];
        }
      }
      here + rest
  }

  /** The pins of every variable of `c_core`, visited in name order. */
  function AllPins(mc: Core, d: Dom, sc: Option<Core>): (r: seq<Core>)
    requires OverDom(mc, d)
    ensures forall q :: q in r <==> IsPin(q, mc, d, sc)
  {
    var ks := Strings.Sorted(mc.Keys);
    var pins := PinsFrom(mc, ks, d, sc);
    forall q | IsPin(q, mc, d, sc)
      ensures q in pins
    {
      var k :| k in mc && IsPinAt(q, mc, k, d, sc);
      assert k in ks;
      var i :| 0 <= i < |ks| && ks[i] == k;
      assert IsPinAt(q, mc, ks[i], d, sc);
    }
    forall q | q in pins
      ensures IsPin(q, mc, d, sc)
    {
      var i :| 0 <= i < |ks| && IsPinAt(q, mc, ks[i], d, sc);
      assert ks[i] in mc;
    }
    pins
  }

  /** What `gen_configs_cex` demands of the sat core: a valid `SCore` whose
      main core is present and over the domain (`self[k]` for `k` in it). */
  predicate CexPre(d: Dom, s: SCore)
  {
    && ValidDom(d)
    && ValidSCore(s)
    && s.mc.Some?
    && OverDom(s.mc.value, d)
  }

  /** Whether `keep` adds `c_core` itself: `sel_core.keep and (len(self) - len(c_core))`. */
  predicate KeepsCore(d: Dom, s: SCore)
    requires s.mc.Some?
  {
    s.keep && |d.vars| - |s.mc.value| != 0
  }

  /** The candidate cores (`changes`), in order: `c_core` when kept, then
      every pin. */
  function Changes(d: Dom, s: SCore): seq<Core>
    requires CexPre(d, s)
  {
    (if KeepsCore(d, s) then [s.mc.value] else []) + AllPins(s.mc.value, d, s.sc)
  }

  /** The candidates are exactly `c_core` (when kept) and the pins. */
  lemma ChangesExact(d: Dom, s: SCore)
    requires CexPre(d, s)
    ensures forall q :: q in Changes(d, s) <==>
      (KeepsCore(d, s) && q == s.mc.value) || IsPin(q, s.mc.value, d, s.sc)
  {
    var head := if KeepsCore(d, s) then [s.mc.value] else [];
    var pins := AllPins(s.mc.value, d, s.sc);
    assert forall q :: q in head + pins <==> q in head || q in pins;
  }

  /** Every candidate constrains some variable, so its formula is present. */
  lemma ChangesNonEmpty(d: Dom, s: SCore)
    requires CexPre(d, s)
    ensures forall j | 0 <= j < |Changes(d, s)| :: |Changes(d, s)[j]| > 0
  {
    var mc := s.mc.value;
    var r := Changes(d, s);
    ChangesExact(d, s);
    forall j | 0 <= j < |r|
      ensures |r[j]| > 0
    {
      assert r[j] in r;
      if r[j] != mc {
        var k :| k in mc && IsPinAt(r[j], mc, k, d, s.sc);
        var v :| v in d.vals[k] - mc[k] && r[j] == Pin(mc, k, v, s.sc);
        PinShape(mc, k, v, s.sc);
      }
    }
  }

  /** A configuration satisfying a pinned candidate violates `c_core`, and
      satisfies the sat core: it is a counterexample to `c_core` alone. */
  lemma PinViolates(mc: Core, k: Var, v: Val, sc: Option<Core>, x: Config)
    requires k in mc && v !in mc[k]
    requires Truthy(sc) ==> mc.Keys !! sc.value.Keys
    requires CImplies(x, Pin(mc, k, v, sc))
    ensures !CImplies(x, mc)
    ensures Truthy(sc) ==> CImplies(x, sc.value)
  {
    PinShape(mc, k, v, sc);
  }

  lemma SatisfiesOne(y: Option<Expr>, n: Option<Expr>, x: Config)
    ensures Satisfies([y], [n], x) <==> Holds(y, x) && (n.None? || !Eval(n.value, x))
  {
    assert [y][0] == y;
    assert [n][0] == n;
  }

  /** The query of one candidate holds at a configuration of the domain
      exactly when the configuration satisfies the candidate and is not
      among `seen`. */
  lemma CandQueryAt(d: Dom, cand: Core, seen: seq<Config>, x: Config)
    requires ValidDom(d) && IsConfigOf(x, d)
    requires forall i | 0 <= i < |seen| :: IsConfigOf(seen[i], d)
    ensures Satisfies([CoreExpr(cand, true)], [MyOr(ConfigExprs(seen))], x)
      <==> CImplies(x, cand) && x !in seen
  {
    var yexpr := CoreExpr(cand, true);
    var nexpr := MyOr(ConfigExprs(seen));
    SatisfiesOne(yexpr, nexpr, x);
    assert Holds(yexpr, x) <==> CImplies(x, cand);
    if |seen| > 0 {
      OrOfConfigsPresent(seen, d);
      OrOfConfigsAt(seen, d, x);
    } else {
      assert Somes(ConfigExprs(seen)) == [];
    }
  }

  /** The configurations the query of one candidate can return. */
  lemma CandQuery(d: Dom, cand: Core, seen: seq<Config>)
    requires ValidDom(d)
    requires forall i | 0 <= i < |seen| :: IsConfigOf(seen[i], d)
    ensures Sat(d, [CoreExpr(cand, true)], [MyOr(ConfigExprs(seen))])
      == set x | x in AllConfigs(d) && CImplies(x, cand) && x !in seen
  {
    var ys := [CoreExpr(cand, true)];
    var ns := [MyOr(ConfigExprs(seen))];
    var avail := set x | x in AllConfigs(d) && CImplies(x, cand) && x !in seen;
    forall x
      ensures x in Sat(d, ys, ns) <==> x in avail
    {
      CandQueryMember(d, cand, seen, x);
    }
  }

  lemma CandQueryMember(d: Dom, cand: Core, seen: seq<Config>, x: Config)
    requires ValidDom(d)
    requires forall i | 0 <= i < |seen| :: IsConfigOf(seen[i], d)
    ensures x in Sat(d, [CoreExpr(cand, true)], [MyOr(ConfigExprs(seen))])
      <==> x in AllConfigs(d) && CImplies(x, cand) && x !in seen
  {
    if IsConfigOf(x, d) {
      CandQueryAt(d, cand, seen, x);
    }
  }

  /** One query: `gen_configs_exprs([yexpr], [myOr(e_configs)], k=1)` with
      `yexpr` the candidate read conjunctively and `e_configs` the formulas
      of the configurations seen so far. */
  method CexQuery(d: Dom, cand: Core, seen: seq<Config>) returns (r: seq<Config>)
    requires ValidDom(d) && |cand| > 0
    requires Elems(seen) <= AllConfigs(d)
    ensures |r| <= 1
    ensures r == [] <==> forall x | x in AllConfigs(d) :: CImplies(x, cand) ==> x in seen
    ensures r != [] ==> r[0] in AllConfigs(d) && CImplies(r[0], cand) && r[0] !in seen
  {
    var yexpr := CoreExpr(cand, true);
    var nexpr := MyOr(ConfigExprs(seen));
    var avail := set x | x in AllConfigs(d) && CImplies(x, cand) && x !in seen;
    assert forall i | 0 <= i < |seen| :: IsConfigOf(seen[i], d) by {
      forall i | 0 <= i < |seen|
        ensures IsConfigOf(seen[i], d)
      {
        assert seen[i] in Elems(seen);
      }
    }
    CandQuery(d, cand, seen);
    assert yexpr.Some? && [yexpr][0] == yexpr;
    r := GenConfigsExprs(d, [yexpr], [nexpr], 1);
    if r == [] {
      forall x | x in AllConfigs(d) && CImplies(x, cand)
        ensures x in seen
      {
        assert x !in avail;
      }
    } else {
      assert r[0] in avail;
    }
  }

  /** Candidate `cand` is served: a returned configuration satisfies it, or
      every configuration of the domain that does is already known. */
  predicate Served(d: Dom, cand: Core, existing: seq<Config>, configs: seq<Config>)
    requires ValidDom(d)
  {
    || (exists i | 0 <= i < |configs| :: CImplies(configs[i], cand))
    || (forall x | x in AllConfigs(d) :: CImplies(x, cand) ==> x in existing || x in configs)
  }

  /** What holds of `configs` after the first `n` candidates. */
  predicate CexInv(d: Dom, changes: seq<Core>, n: nat, existing: seq<Config>, configs: seq<Config>)
    requires ValidDom(d) && n <= |changes|
  {
    && |configs| <= n
    && Fresh(d, existing, configs)
    && Origins(changes, n, configs)
    && AllServed(d, changes, n, existing, configs)
  }

  /** Distinct configurations of the domain, none of them existing. */
  predicate Fresh(d: Dom, existing: seq<Config>, configs: seq<Config>)
    requires ValidDom(d)
  {
    && Distinct(configs)
    && Elems(existing + configs) <= AllConfigs(d)
    && (forall i | 0 <= i < |configs| :: configs[i] !in existing)
  }

  /** Each configuration satisfies one of the first `n` candidates. */
  predicate Origins(changes: seq<Core>, n: nat, configs: seq<Config>)
    requires n <= |changes|
  {
    forall i | 0 <= i < |configs| :: exists j :: 0 <= j < n && CImplies(configs[i], changes[j])
  }

  /** The first `n` candidates are served. */
  predicate AllServed(d: Dom, changes: seq<Core>, n: nat, existing: seq<Config>, configs: seq<Config>)
    requires ValidDom(d) && n <= |changes|
  {
    forall j | 0 <= j < n :: Served(d, changes[j], existing, configs)
  }

  /** `gen_configs_cex`: configurations of the domain, pairwise distinct
      and none among `existing_configs`, each satisfying one of the
      candidates; a candidate is left without a configuration only when
      every configuration satisfying it is already known. */
  method GenConfigsCex(d: Dom, s: SCore, existing: seq<Config>) returns (configs: seq<Config>)
    requires CexPre(d, s)
    requires forall i | 0 <= i < |existing| :: IsConfigOf(existing[i], d)
    ensures |configs| <= |Changes(d, s)|
    ensures Distinct(configs)
    ensures forall i | 0 <= i < |configs| :: IsConfigOf(configs[i], d) && configs[i] !in existing
    ensures Origins(Changes(d, s), |Changes(d, s)|, configs)
    ensures AllServed(d, Changes(d, s), |Changes(d, s)|, existing, configs)
  {
    var changes := Changes(d, s);
    ChangesNonEmpty(d, s);
    CexStart(d, changes, existing);
    configs := [];
    var n := 0;
    while n < |changes|
      invariant 0 <= n <= |changes|
      invariant CexInv(d, changes, n, existing, configs)
    {
      configs := CexStep(d, changes, n, existing, configs);
      n := n + 1;
    }
    CexDone(d, changes, existing, configs);
  }

  /** Before the loop nothing is generated, and the invariant holds. */
  lemma CexStart(d: Dom, changes: seq<Core>, existing: seq<Config>)
    requires ValidDom(d)
    requires forall i | 0 <= i < |existing| :: IsConfigOf(existing[i], d)
    ensures CexInv(d, changes, 0, existing, [])
  {
    assert existing + [] == existing;
    forall c | c in Elems(existing)
      ensures c in AllConfigs(d)
    {
      var i :| 0 <= i < |existing| && existing[i] == c;
    }
  }

  /** After the last candidate the invariant gives the postcondition. */
  lemma CexDone(d: Dom, changes: seq<Core>, existing: seq<Config>, configs: seq<Config>)
    requires ValidDom(d)
    requires CexInv(d, changes, |changes|, existing, configs)
    ensures |configs| <= |changes|
    ensures Distinct(configs)
    ensures forall i | 0 <= i < |configs| :: IsConfigOf(configs[i], d) && configs[i] !in existing
    ensures Origins(changes, |changes|, configs)
    ensures AllServed(d, changes, |changes|, existing, configs)
  {
    forall i | 0 <= i < |configs|
      ensures IsConfigOf(configs[i], d)
    {
      assert configs[i] in Elems(existing + configs);
    }
  }

  /** One pass of the loop of `gen_configs_cex`: query candidate `n` and
      append the answer, if any. */
  method CexStep(d: Dom, changes: seq<Core>, n: nat, existing: seq<Config>, configs0: seq<Config>)
    returns (configs: seq<Config>)
    requires ValidDom(d) && n < |changes| && |changes[n]| > 0
    requires CexInv(d, changes, n, existing, configs0)
    ensures CexInv(d, changes, n + 1, existing, configs)
  {
    var seen := existing + configs0;
    var r := CexQuery(d, changes[n], seen);
    if r == [] {
      configs := configs0;
      CexSkip(d, changes, n, existing, configs0);
    } else {
      configs := configs0 + [r[0]];
      CexAppend(d, changes, n, existing, configs0, r[0]);
    }
  }

  /** A candidate without a fresh configuration leaves the list as it is. */
  lemma CexSkip(d: Dom, changes: seq<Core>, n: nat, existing: seq<Config>, configs: seq<Config>)
    requires ValidDom(d) && n < |changes|
    requires CexInv(d, changes, n, existing, configs)
    requires forall x | x in AllConfigs(d) :: CImplies(x, changes[n]) ==> x in existing + configs
    ensures CexInv(d, changes, n + 1, existing, configs)
  {
    forall i | 0 <= i < |configs|
      ensures exists j :: 0 <= j < n + 1 && CImplies(configs[i], changes[j])
    {
      var j :| 0 <= j < n && CImplies(configs[i], changes[j]);
    }
    assert Served(d, changes[n], existing, configs) by {
      forall x | x in AllConfigs(d) && CImplies(x, changes[n])
        ensures x in existing || x in configs
      {
        assert x in existing + configs;
      }
    }
  }

  /** Appending a fresh configuration for candidate `n`. */
  lemma CexAppend(d: Dom, changes: seq<Core>, n: nat, existing: seq<Config>, configs0: seq<Config>, x: Config)
    requires ValidDom(d) && n < |changes|
    requires CexInv(d, changes, n, existing, configs0)
    requires x in AllConfigs(d) && CImplies(x, changes[n]) && x !in existing + configs0
    ensures CexInv(d, changes, n + 1, existing, configs0 + [x])
  {
    CexAppendFresh(d, existing, configs0, x);
    CexAppendOrigins(d, changes, n, configs0, x);
    CexAppendServed(d, changes, n, existing, configs0, x);
  }

  lemma CexAppendFresh(d: Dom, existing: seq<Config>, configs0: seq<Config>, x: Config)
    requires ValidDom(d)
    requires Fresh(d, existing, configs0)
    requires x in AllConfigs(d) && x !in existing + configs0
    ensures Fresh(d, existing, configs0 + [x])
  {
    var configs := configs0 + [x];
    assert configs[|configs0|] == x;
    assert x !in configs0 && x !in existing;
    AppendDistinct(configs0, x);
    forall i | 0 <= i < |configs|
      ensures configs[i] !in existing
    {
      if i < |configs0| {
        assert configs[i] == configs0[i];
      }
    }
    assert existing + configs == (existing + configs0) + [x];
    ElemsAppend(existing + configs0, x);
  }

  lemma CexAppendOrigins(d: Dom, changes: seq<Core>, n: nat, configs0: seq<Config>, x: Config)
    requires n < |changes|
    requires Origins(changes, n, configs0)
    requires CImplies(x, changes[n])
    ensures Origins(changes, n + 1, configs0 + [x])
  {
    var configs := configs0 + [x];
    forall i | 0 <= i < |configs|
      ensures exists j :: 0 <= j < n + 1 && CImplies(configs[i], changes[j])
    {
      if i < |configs0| {
        assert configs[i] == configs0[i];
        var j :| 0 <= j < n && CImplies(configs0[i], changes[j]);
      } else {
        assert configs[i] == x;
      }
    }
  }

  lemma StillKnown(d: Dom, cand: Core, existing: seq<Config>, configs0: seq<Config>, x: Config)
    requires ValidDom(d)
    requires forall y | y in AllConfigs(d) :: CImplies(y, cand) ==> y in existing || y in configs0
    ensures forall y | y in AllConfigs(d) :: CImplies(y, cand) ==> y in existing || y in configs0 + [x]
  {
  }

  lemma CexAppendServed(d: Dom, changes: seq<Core>, n: nat, existing: seq<Config>, configs0: seq<Config>, x: Config)
    requires ValidDom(d) && n < |changes|
    requires AllServed(d, changes, n, existing, configs0)
    requires CImplies(x, changes[n])
    ensures AllServed(d, changes, n + 1, existing, configs0 + [x])
  {
    var configs := configs0 + [x];
    assert configs[|configs0|] == x;
    forall j | 0 <= j < n + 1
      ensures Served(d, changes[j], existing, configs)
    {
      if j == n {
        assert CImplies(configs[|configs0|], changes[j]);
      } else if exists i | 0 <= i < |configs0| :: CImplies(configs0[i], changes[j]) {
        var i :| 0 <= i < |configs0| && CImplies(configs0[i], changes[j]);
        assert configs[i] == configs0[i];
      } else {
        StillKnown(d, changes[j], existing, configs0, x);
      }
    }
  }
}

=== FILE: cores.dfy ===
/** Cores: partial maps from variables to sets of allowed values
    (src/config.py `Config.c_implies`, `Config.d_implies`, `Core`, `MCore`,
    `SCore`).  A core read conjunctively says "every listed variable takes one
    of its listed values"; read disjunctively, "some listed variable does".
    Python's `None` core is `Option.None`; a core is truthy when it is not
    `None` and not empty. */
module Cores {
  import opened Wrappers
  import opened Domains

  type Core = map<Var, ValSet>
  /** A source location (statement id). */
  type Sid = string

  /** The assertion of `Core.__init__`: every entry is a `csetting`. */
  predicate IsCore(core: Core)
  {
    forall k | k in core :: IsValSet(core[k])
  }

  /** Python truthiness of a possibly-`None` core. */
  predicate Truthy(oc: Option<Core>)
  {
    oc.Some? && |oc.value| > 0
  }

  /** Every variable of the core belongs to the domain. */
  predicate OverDom(core: Core, d: Dom)
  {
    core.Keys <= d.vals.Keys
  }

  /** Every value the core allows belongs to the domain. */
  predicate InDom(core: Core, d: Dom)
  {
    forall k | k in core :: k in d.vals && core[k] <= d.vals[k]
  }

  /** A core whose every set is non-empty and strictly smaller than the
      variable's domain: the shape `Infer.infer` produces. */
  predicate Proper(core: Core, d: Dom)
  {
    IsCore(core) && forall k | k in core :: k in d.vals && core[k] < d.vals[k]
  }

  /** `Config.c_implies`: the config satisfies the core read as a conjunction. */
  predicate CImplies(c: Config, core: Core)
  {
    |core| == 0 || forall k | k in core :: k in c && c[k] in core[k]
  }

  /** `Config.d_implies`: the config satisfies the core read as a disjunction. */
  predicate DImplies(c: Config, core: Core)
  {
    |core| == 0 || exists k | k in core :: k in c && c[k] in core[k]
  }

  /** The conjunctive reading is the stronger one. */
  lemma CImpliesDImplies(c: Config, core: Core)
    requires CImplies(c, core)
    ensures DImplies(c, core)
  {
    if |core| > 0 {
      var k :| k in core;
      assert k in c && c[k] in core[k];
    }
  }

  /** The examples of `Config`'s documentation: `a=1 b=0 c=1` satisfies the
      empty core and `a=0,1 b=0,1` both ways, and `a=0,1 x=0,1` only
      disjunctively, since it has no `x`. */
  lemma ImpliesExamples(c: Config, core1: Core, core2: Core)
    requires c == map["a" := "1", "b" := "0", "c" := "1"]
    requires core1 == map["a" := {"0", "1"}, "b" := {"0", "1"}]
    requires core2 == map["a" := {"0", "1"}, "x" := {"0", "1"}]
    ensures CImplies(c, map[]) && DImplies(c, map[])
    ensures CImplies(c, core1) && DImplies(c, core1)
    ensures !CImplies(c, core2) && DImplies(c, core2)
  {
    assert "a" in core2 && c["a"] in core2["a"];
    assert "x" in core2 && "x" !in c;
  }

  lemma DiffEmpty<T>(a: set<T>, b: set<T>)
    ensures a - b == {} <==> a <= b
  {
    if a <= b {
      assert forall x :: x !in a - b;
    } else {
      var x :| x in a && x !in b;
      assert x in a - b;
    }
  }

  /** `Core.neg`: each variable maps to the values the core excludes;
      variables whose complement is empty are dropped. */
  function Neg(core: Core, d: Dom): (r: Core)
    requires OverDom(core, d)
    ensures IsCore(r) && InDom(r, d)
    ensures r.Keys <= core.Keys
    ensures forall k | k in r :: r[k] !! core[k]
    ensures forall k | k in r :: r[k] == d.vals[k] - core[k]
    ensures forall k | k in core :: k in r <==> !(d.vals[k] <= core[k])
  {
    var r := map k | k in core && d.vals[k] - core[k] != {} :: d.vals[k] - core[k];
    forall k | k in core
      ensures d.vals[k] - core[k] != {} <==> !(d.vals[k] <= core[k])
    {
      DiffEmpty(d.vals[k], core[k]);
    }
    r
  }

  /** Negation turns a conjunction into the disjunction of its complement: a
      configuration of the domain satisfies `neg(core)` disjunctively exactly
      when it violates `core` conjunctively, unless the negation is empty (then
      `d_implies` is vacuously true). */
  lemma NegDuality(c: Config, core: Core, d: Dom)
    requires ValidDom(d) && IsConfigOf(c, d) && InDom(core, d)
    ensures DImplies(c, Neg(core, d)) <==> (!CImplies(c, core) || Neg(core, d) == map[])
  {
    var n := Neg(core, d);
    if !CImplies(c, core) && n != map[] {
      var k :| k in core && !(k in c && c[k] in core[k]);
      assert k in n && c[k] in n[k];
    }
    if DImplies(c, n) && n != map[] {
      var k :| k in n && k in c && c[k] in n[k];
      assert c[k] !in core[k];
    }
  }

  /** For a proper core, negating twice gives the core back. */
  lemma NegInvolution(core: Core, d: Dom)
    requires Proper(core, d)
    ensures OverDom(Neg(core, d), d)
    ensures Neg(core, d).Keys == core.Keys
    ensures Neg(Neg(core, d), d) == core
  {
    var n := Neg(core, d);
    forall k | k in core
      ensures k in n && d.vals[k] - n[k] == core[k]
    {
      assert !(d.vals[k] <= core[k]);
    }
  }

  /** The example of `Core`'s documentation: `x=2 y=1 z=0,1` negates to `x=1 z=2`. */
  lemma NegExample(d: Dom)
    requires d == Dom(["x", "y", "z", "w"],
                      map["x" := {"1", "2"}, "y" := {"1"}, "z" := {"0", "1", "2"}, "w" := {"a", "b", "c"}])
    ensures Neg(map["x" := {"2"}, "y" := {"1"}, "z" := {"0", "1"}], d) == map["x" := {"1"}, "z" := {"2"}]
  {
    assert {"1", "2"} - {"2"} == {"1"};
    assert {"1"} - {"1"} == {};
    assert {"0", "1", "2"} - {"0", "1"} == {"2"};
  }

  /** A second instance over the same domain: `x=2 z=0,1 w=a` negates to `x=1 z=2 w=b,c`. */
  lemma NegExampleW(d: Dom)
    requires d == Dom(["x", "y", "z", "w"],
                      map["x" := {"1", "2"}, "y" := {"1"}, "z" := {"0", "1", "2"}, "w" := {"a", "b", "c"}])
    ensures Neg(map["x" := {"2"}, "z" := {"0", "1"}, "w" := {"a"}], d)
      == map["x" := {"1"}, "z" := {"2"}, "w" := {"b", "c"}]
  {
    assert {"1", "2"} - {"2"} == {"1"};
    assert {"0", "1", "2"} - {"0", "1"} == {"2"};
    assert {"a", "b", "c"} - {"a"} == {"b", "c"};
  }

  /** `wide` keeps a subset of `narrow`'s variables, each with at least `narrow`'s values. */
  predicate Weaker(wide: Core, narrow: Core)
  {
    wide.Keys <= narrow.Keys && forall k | k in wide :: narrow[k] <= wide[k]
  }

  /** Weakening a core keeps every configuration that satisfied it. */
  lemma CImpliesWeaker(c: Config, wide: Core, narrow: Core)
    requires Weaker(wide, narrow)
    requires CImplies(c, narrow)
    ensures CImplies(c, wide)
  {
    if |wide| > 0 {
      forall k | k in wide
        ensures k in c && c[k] in wide[k]
      {
        assert k in narrow;
      }
    }
  }

  /** `Core.settings`: the (variable, value) pairs the core allows. */
  function Settings(core: Core): (r: set<(Var, Val)>)
    ensures forall k, v :: (k, v) in r <==> k in core && v in core[k]
  {
    set k, v | k in core && v in core[k] :: (k, v)
  }

  /** The settings determine the core. */
  lemma SettingsInjective(a: Core, b: Core)
    requires IsCore(a) && IsCore(b)
    requires Settings(a) == Settings(b)
    ensures a == b
  {
    forall k | k in a
      ensures k in b && b[k] == a[k]
    {
      var v :| v in a[k];
      assert (k, v) in Settings(a);
      forall w
        ensures w in a[k] <==> w in b[k]
      {
        assert (k, w) in Settings(a) <==> (k, w) in Settings(b);
      }
    }
    forall k | k in b
      ensures k in a
    {
      var v :| v in b[k];
      assert (k, v) in Settings(b);
    }
  }

  /** The (variable, value-set) entries of a core. */
  function CoreItems(core: Core): set<(Var, ValSet)>
  {
    set k | k in core :: (k, core[k])
  }

  /** `MCore.settings`: the entries of the truthy cores of a tuple of cores. */
  function MSettings(cores: seq<Option<Core>>): (r: set<(Var, ValSet)>)
    ensures forall k, vs :: (k, vs) in r <==>
      exists i :: 0 <= i < |cores| && Truthy(cores[i]) && k in cores[i].value && cores[i].value[k] == vs
  {
    if |cores| == 0 then {}
    else
      var init := MSettings(cores[..|cores| - 1]);
      var last := cores[|cores| - 1];
      var r := if Truthy(last) then init + CoreItems(last.value) else init;
      assert forall i :: 0 <= i < |cores| - 1 ==> cores[..|cores| - 1][i] == cores[i];
      r
  }

  /** `MCore.sstren`: the number of distinct entries across the truthy cores. */
  function SStren(cores: seq<Option<Core>>): (r: nat)
  {
    |MSettings(cores)|
  }

  /** The strength is zero exactly when every core is `None` or empty. */
  lemma SStrenZero(cores: seq<Option<Core>>)
    ensures SStren(cores) == 0 <==> forall i :: 0 <= i < |cores| ==> !Truthy(cores[i])
  {
    if exists i :: 0 <= i < |cores| && Truthy(cores[i]) {
      var i :| 0 <= i < |cores| && Truthy(cores[i]);
      var k :| k in cores[i].value;
      assert (k, cores[i].value[k]) in MSettings(cores);
    } else {
      forall p: (Var, ValSet)
        ensures p !in MSettings(cores)
      {
        assert p == (p.0, p.1);
      }
      assert MSettings(cores) == {};
    }
  }

  /** A sat-core pair driving counterexample generation (`SCore`): `mc` is the
      main core, `sc` the sat core every generated config must satisfy, and
      `keep` (`set_keep`) also asks for configs satisfying `mc` itself. */
  datatype SCore = SCore(mc: Option<Core>, sc: Option<Core>, keep: bool)

  /** The assertions of `SCore.__init__`: `mc` is `None` or non-empty, and a
      truthy `sc` shares no variable with `mc` (with `mc = None` the
      membership test itself raises). */
  predicate ValidSCore(s: SCore)
  {
    && (s.mc.None? || |s.mc.value| > 0)
    && (Truthy(s.sc) ==> s.mc.Some? && s.mc.value.Keys !! s.sc.value.Keys)
  }

  /** `SCore((mc, sc))`, followed by `set_keep()` when `keep`; `None` when the
      constructor's assertions fail. */
  function MkSCore(mc: Option<Core>, sc: Option<Core>, keep: bool): (r: Option<SCore>)
    ensures r.Some? <==> (mc.None? || |mc.value| > 0) && (Truthy(sc) ==> mc.Some? && mc.value.Keys !! sc.value.Keys)
    ensures r.Some? ==> ValidSCore(r.value) && r.value.mc == mc && r.value.sc == sc && r.value.keep == keep
  {
    var s := SCore(mc, sc, keep);
    if ValidSCore(s) then Some(s) else None
  }
}

=== FILE: covmaps.dfy ===
/** The coverage bookkeeping of src/config_common.py: `CustDict.add_set`,
    `Covs_d` (location -> configurations that reach it) and `Configs_d`
    (configuration -> locations it reaches), and the update of both that
    `Infer.infer_covs` (src/config.py) performs with a batch of freshly
    evaluated configurations. */
module CovMaps {
  import opened Domains
  import opened Cores
  import opened Strings

  /** `Covs_d`: for each location, the configurations that reach it. */
  type Covs = map<Sid, set<Config>>
  /** `Configs_d`: for each configuration, the locations it reaches. */
  type ConfigsD = map<Config, set<Sid>>

  /** `CustDict.add_set`: add `v` to the set under `k`, creating it when absent. */
  function AddSet<K, V>(m: map<K, set<V>>, k: K, v: V): (r: map<K, set<V>>)
    ensures r.Keys == m.Keys + {k}
  {
    m[k := (if k in m then m[k] else {}) + {v}]
  }

  /** `add_set` puts `v` under `k`, keeps what was there and touches no other key. */
  lemma AddSetShape<K, V>(m: map<K, set<V>>, k: K, v: V)
    ensures v in AddSet(m, k, v)[k] && (k in m ==> m[k] <= AddSet(m, k, v)[k])
    ensures forall x | x in AddSet(m, k, v)[k] :: x == v || (k in m && x in m[k])
    ensures forall j | j in m && j != k :: AddSet(m, k, v)[j] == m[j]
  {
  }

  /** Adding is order-insensitive. */
  lemma AddSetCommutes<K, V>(m: map<K, set<V>>, k1: K, v1: V, k2: K, v2: V)
    ensures AddSet(AddSet(m, k1, v1), k2, v2) == AddSet(AddSet(m, k2, v2), k1, v1)
  {
    var a := AddSet(AddSet(m, k1, v1), k2, v2);
    var b := AddSet(AddSet(m, k2, v2), k1, v1);
    forall j | j in a
      ensures a[j] == b[j]
    {
      if j == k1 && j == k2 {
        assert a[j] == (if j in m then m[j] else {}) + {v1, v2};
      }
    }
  }

  /** Adding the same pair twice is adding it once. */
  lemma AddSetIdempotent<K, V>(m: map<K, set<V>>, k: K, v: V)
    ensures AddSet(AddSet(m, k, v), k, v) == AddSet(m, k, v)
  {
  }

  /** The example of `Covs_d`'s documentation: two configurations added to
      `l1` of an empty map are exactly the set under `l1`. */
  lemma CovsExample(c1: Config, c2: Config)
    ensures var empty: Covs := map[];
      && "l1" !in empty
      && "l1" in AddSet(AddSet(empty, "l1", c1), "l1", c2)
      && AddSet(AddSet(empty, "l1", c1), "l1", c2)["l1"] == {c1, c2}
  {
  }

  /** The locations reached by some configuration of a batch. */
  function SidsOf(cc: ConfigsD): (r: set<Sid>)
    ensures forall s :: s in r <==> exists c :: c in cc && s in cc[c]
  {
    set c, s | c in cc && s in cc[c] :: s
  }

  /** The configurations of a batch that reach `s`. */
  function Reaching(cc: ConfigsD, s: Sid): set<Config>
  {
    set c | c in cc && s in cc[c]
  }

  /** `covs_d` after `covs_d.add(sid, config)` for every configuration of the
      batch and every location it reaches. */
  function CovsAfter(covs: Covs, cc: ConfigsD): (r: Covs)
  {
    map s | s in covs.Keys + SidsOf(cc) :: (if s in covs then covs[s] else {}) + Reaching(cc, s)
  }

  /** After the update, every configuration of the batch is listed under
      every location it reaches, and nothing else was added. */
  lemma CovsAfterMeaning(covs: Covs, cc: ConfigsD)
    ensures covs.Keys <= CovsAfter(covs, cc).Keys
    ensures forall c, s | c in cc && s in cc[c] :: s in CovsAfter(covs, cc) && c in CovsAfter(covs, cc)[s]
    ensures forall s | s in covs :: covs[s] <= CovsAfter(covs, cc)[s]
    ensures forall s, c | s in CovsAfter(covs, cc) && c in CovsAfter(covs, cc)[s] ::
      (s in covs && c in covs[s]) || (c in cc && s in cc[c])
  {
  }

  /** `for sid in sids: covs_d.add(sid, config)`, in the order given. */
  function AddEach(covs: Covs, ss: seq<Sid>, c: Config): Covs
    decreases |ss|
  {
    if |ss| == 0 then covs else AddEach(AddSet(covs, ss[0], c), ss[1..], c)
  }

  /** Whatever the order of the locations, `c` ends up under each of them,
      under nothing else, and nothing is lost. */
  lemma {:induction false} AddEachAt(covs: Covs, ss: seq<Sid>, c: Config, s: Sid, x: Config)
    ensures s in AddEach(covs, ss, c) <==> s in covs || s in ss
    ensures s in AddEach(covs, ss, c) ==>
      (x in AddEach(covs, ss, c)[s] <==> (s in covs && x in covs[s]) || (s in ss && x == c))
    decreases |ss|
  {
    if |ss| > 0 {
      AddEachAt(AddSet(covs, ss[0], c), ss[1..], c, s, x);
      assert s in ss <==> s == ss[0] || s in ss[1..] by {
        assert ss == [ss[0]] + ss[1..];
      }
    }
  }

  /** A list of the batch's configurations without repetition. */
  predicate Listing(cc: ConfigsD, order: seq<Config>)
  {
    && (forall i | 0 <= i < |order| :: order[i] in cc)
    && (forall i, j | 0 <= i < j < |order| :: order[i] != order[j])
  }

  /** The first loop of `infer_covs`, visiting the batch's configurations in
      the order given: every location a configuration reaches gets the
      configuration in `covs_d`, and the configuration is recorded in
      `configs_d`. */
  function Register(covs: Covs, configs: ConfigsD, cc: ConfigsD, order: seq<Config>): (Covs, ConfigsD)
    requires forall i | 0 <= i < |order| :: order[i] in cc
    decreases |order|
  {
    if |order| == 0 then (covs, configs)
    else
      var c := order[0];
      Register(AddEach(covs, Sorted(cc[c]), c), configs[c := cc[c]], cc, order[1..])
  }

  /** Some configuration of `order` reaches `s`. */
  predicate ReachedBy(cc: ConfigsD, order: seq<Config>, s: Sid)
    requires forall i | 0 <= i < |order| :: order[i] in cc
  {
    exists i | 0 <= i < |order| :: s in cc[order[i]]
  }

  lemma ReachedByCons(cc: ConfigsD, order: seq<Config>, s: Sid)
    requires |order| > 0
    requires forall i | 0 <= i < |order| :: order[i] in cc
    ensures ReachedBy(cc, order, s) <==> s in cc[order[0]] || ReachedBy(cc, order[1..], s)
  {
    if ReachedBy(cc, order, s) && s !in cc[order[0]] {
      var i :| 0 <= i < |order| && s in cc[order[i]];
      assert order[1..][i - 1] == order[i];
    }
    if ReachedBy(cc, order[1..], s) {
      var i :| 0 <= i < |order[1..]| && s in cc[order[1..][i]];
      assert order[i + 1] == order[1..][i];
    }
  }

  /** Location by location, the registration adds exactly the listed
      configurations that reach it. */
  lemma {:induction false} RegisterCovsAt(covs: Covs, configs: ConfigsD, cc: ConfigsD, order: seq<Config>, s: Sid, x: Config)
    requires forall i | 0 <= i < |order| :: order[i] in cc
    ensures s in Register(covs, configs, cc, order).0 <==> s in covs || ReachedBy(cc, order, s)
    ensures s in Register(covs, configs, cc, order).0 ==>
      (x in Register(covs, configs, cc, order).0[s] <==> (s in covs && x in covs[s]) || (x in order && s in cc[x]))
    decreases |order|
  {
    if |order| > 0 {
      var c := order[0];
      var covs' := AddEach(covs, Sorted(cc[c]), c);
      RegisterCovsAt(covs', configs[c := cc[c]], cc, order[1..], s, x);
      AddEachAt(covs, Sorted(cc[c]), c, s, x);
      ReachedByCons(cc, order, s);
      assert x in order <==> x == c || x in order[1..] by {
        assert order == [c] + order[1..];
      }
    }
  }

  /** Configuration by configuration, the registration records exactly the
      listed configurations. */
  lemma RegisterConfigsAt(covs: Covs, configs: ConfigsD, cc: ConfigsD, order: seq<Config>, x: Config)
    requires forall i | 0 <= i < |order| :: order[i] in cc
    ensures x in Register(covs, configs, cc, order).1 <==> x in configs || x in order
    ensures x in order ==> Register(covs, configs, cc, order).1[x] == cc[x]
    ensures x in configs && x !in order ==> Register(covs, configs, cc, order).1[x] == configs[x]
  {
    var r := Register(covs, configs, cc, order).1;
    RegisterConfigsIn(covs, configs, cc, order, x);
    if x in r {
      RegisterConfigsValue(covs, configs, cc, order, x);
    }
  }

  /** One step of the registration. */
  lemma RegisterStep(covs: Covs, configs: ConfigsD, cc: ConfigsD, order: seq<Config>)
    requires |order| > 0
    requires forall i | 0 <= i < |order| :: order[i] in cc
    ensures forall i | 0 <= i < |order[1..]| :: order[1..][i] in cc
    ensures Register(covs, configs, cc, order) ==
      Register(AddEach(covs, Sorted(cc[order[0]]), order[0]), configs[order[0] := cc[order[0]]], cc, order[1..])
  {
    assert forall i | 0 <= i < |order[1..]| :: order[1..][i] == order[i + 1];
  }

  lemma SeqCons<T>(s: seq<T>, x: T)
    requires |s| > 0
    ensures x in s <==> x == s[0] || x in s[1..]
  {
    assert s == [s[0]] + s[1..];
  }

  lemma {:induction false} RegisterConfigsIn(covs: Covs, configs: ConfigsD, cc: ConfigsD, order: seq<Config>, x: Config)
    requires forall i | 0 <= i < |order| :: order[i] in cc
    ensures x in Register(covs, configs, cc, order).1 <==> x in configs || x in order
    decreases |order|
  {
    if |order| > 0 {
      var c := order[0];
      RegisterStep(covs, configs, cc, order);
      RegisterConfigsIn(AddEach(covs, Sorted(cc[c]), c), configs[c := cc[c]], cc, order[1..], x);
      SeqCons(order, x);
    }
  }

  lemma {:induction false} RegisterConfigsValue(covs: Covs, configs: ConfigsD, cc: ConfigsD, order: seq<Config>, x: Config)
    requires forall i | 0 <= i < |order| :: order[i] in cc
    requires x in Register(covs, configs, cc, order).1
    ensures x in order ==> x in cc && Register(covs, configs, cc, order).1[x] == cc[x]
    ensures x !in order ==> x in configs && Register(covs, configs, cc, order).1[x] == configs[x]
    decreases |order|
  {
    if |order| > 0 {
      var c := order[0];
      RegisterStep(covs, configs, cc, order);
      RegisterConfigsValue(AddEach(covs, Sorted(cc[c]), c), configs[c := cc[c]], cc, order[1..], x);
      SeqCons(order, x);
    }
  }

  lemma RegisterKeys(covs: Covs, configs: ConfigsD, cc: ConfigsD, order: seq<Config>)
    requires forall i | 0 <= i < |order| :: order[i] in cc
    requires forall c | c in cc :: c in order
    ensures Register(covs, configs, cc, order).0.Keys == CovsAfter(covs, cc).Keys
  {
    var r := Register(covs, configs, cc, order).0;
    forall s
      ensures s in r <==> s in covs || s in SidsOf(cc)
    {
      RegisterCovsAt(covs, configs, cc, order, s, map[]);
      if ReachedBy(cc, order, s) {
        var i :| 0 <= i < |order| && s in cc[order[i]];
        assert s in SidsOf(cc);
      }
      if s in SidsOf(cc) {
        var c :| c in cc && s in cc[c];
        var i :| 0 <= i < |order| && order[i] == c;
      }
    }
  }

  lemma RegisterValuesAt(covs: Covs, configs: ConfigsD, cc: ConfigsD, order: seq<Config>, s: Sid)
    requires forall i | 0 <= i < |order| :: order[i] in cc
    requires forall c | c in cc :: c in order
    requires s in Register(covs, configs, cc, order).0 && s in CovsAfter(covs, cc)
    ensures Register(covs, configs, cc, order).0[s] == CovsAfter(covs, cc)[s]
  {
    var got := Register(covs, configs, cc, order).0[s];
    var want := CovsAfter(covs, cc)[s];
    assert want == (if s in covs then covs[s] else {}) + Reaching(cc, s);
    forall x
      ensures x in got <==> x in want
    {
      RegisterCovsAt(covs, configs, cc, order, s, x);
    }
  }

  /** In whatever order the batch is visited, `covs_d` ends up as `CovsAfter`
      and `configs_d` gains exactly the batch. */
  lemma RegisterAnyOrder(covs: Covs, configs: ConfigsD, cc: ConfigsD, order: seq<Config>)
    requires forall i | 0 <= i < |order| :: order[i] in cc
    requires forall c | c in cc :: c in order
    requires cc.Keys !! configs.Keys
    ensures Register(covs, configs, cc, order).0 == CovsAfter(covs, cc)
    ensures Register(covs, configs, cc, order).1 == configs + cc
  {
    var r := Register(covs, configs, cc, order).0;
    RegisterKeys(covs, configs, cc, order);
    forall s | s in r
      ensures r[s] == CovsAfter(covs, cc)[s]
    {
      RegisterValuesAt(covs, configs, cc, order, s);
    }
    RegisterConfigsAll(covs, configs, cc, order);
  }

  lemma RegisterConfigsAll(covs: Covs, configs: ConfigsD, cc: ConfigsD, order: seq<Config>)
    requires forall i | 0 <= i < |order| :: order[i] in cc
    requires forall c | c in cc :: c in order
    requires cc.Keys !! configs.Keys
    ensures Register(covs, configs, cc, order).1 == configs + cc
  {
    var r := Register(covs, configs, cc, order).1;
    var want := configs + cc;
    forall x
      ensures x in r <==> x in want
    {
      RegisterConfigsAt(covs, configs, cc, order, x);
    }
    forall x | x in r
      ensures r[x] == want[x]
    {
      RegisterConfigsAt(covs, configs, cc, order, x);
      if x in cc {
        assert want[x] == cc[x];
      } else {
        assert want[x] == configs[x];
      }
    }
  }
}

=== FILE: domain_parser.dfy ===
/** The reader of domain files in the C++ implementation: `Domain::parse`
    (igen/Domain.cpp:23-60).

    The input is read line by line (`std::getline`); each line is split into
    whitespace-separated tokens (`operator>>`).  A line whose first token is
    missing or starts with `#` is skipped.  Otherwise the first token names a
    variable and the following tokens, up to the first one starting with
    `#`, are its labels.  Each variable gets the next id, a solver bound
    `0 <= x < n` where `n` is its number of labels, and one equality atom
    `x == i` per label index.  `n_all_values_` is reset at the start and
    counts the labels of the variables read; the variables already present
    are kept. */
module DomainParser {
  import opened Wrappers

  // ---------------------------------------------------------------------
  // Lines (`std::getline`)
  // ---------------------------------------------------------------------

  /** The length of the first line of `s`: up to the first newline, or all
      of `s`. */
  function LineLen(s: string): (n: nat)
    ensures n <= |s|
    ensures forall i | 0 <= i < n :: s[i] != '\n'
    ensures n < |s| ==> s[n] == '\n'
  {
    if s == [] || s[0] == '\n' then 0 else 1 + LineLen(s[1..])
  }

  /** The lines `std::getline` reads from `s`: the pieces between newlines;
      a final newline ends the last line and starts no new one. */
  function Lines(s: string): seq<string>
    decreases |s|
  {
    if s == [] then []
    else
      var n := LineLen(s);
      if n == |s| then [s] else [s[..n]] + Lines(s[n + 1..])
  }

  /** Every line ends at a newline or at the end of the input, so none
      holds a newline. */
  lemma {:induction false} LinesHaveNoNewline(s: string)
    ensures forall i | 0 <= i < |Lines(s)| :: '\n' !in Lines(s)[i]
    decreases |s|
  {
    if s != [] {
      var n := LineLen(s);
      if n < |s| {
        LinesHaveNoNewline(s[n + 1..]);
        var rest := Lines(s[n + 1..]);
        assert Lines(s) == [s[..n]] + rest;
        forall i | 0 <= i < |Lines(s)|
          ensures '\n' !in Lines(s)[i]
        {
          if i > 0 {
            assert Lines(s)[i] == rest[i - 1];
          }
        }
      }
    }
  }

  /** Writing lines each followed by a newline. */
  function Unlines(ls: seq<string>): string
  {
    if ls == [] then [] else ls[0] + "\n" + Unlines(ls[1..])
  }

  lemma LineLenOf(l: string, rest: string)
    requires '\n' !in l
    ensures LineLen(l + "\n" + rest) == |l|
    decreases |l|
  {
    if l != [] {
      assert (l + "\n" + rest)[1..] == l[1..] + "\n" + rest;
      LineLenOf(l[1..], rest);
    }
  }

  /** Reading back lines written with `Unlines` gives those lines. */
  lemma {:induction false} LinesUnlines(ls: seq<string>)
    requires forall i | 0 <= i < |ls| :: '\n' !in ls[i]
    ensures Lines(Unlines(ls)) == ls
  {
    if ls != [] {
      var s := Unlines(ls);
      var rest := Unlines(ls[1..]);
      assert s == ls[0] + "\n" + rest;
      LineLenOf(ls[0], rest);
      assert s[..|ls[0]|] == ls[0];
      assert s[|ls[0]| + 1..] == rest;
      LinesUnlines(ls[1..]);
    }
  }

  // ---------------------------------------------------------------------
  // Tokens (`operator>>` on strings)
  // ---------------------------------------------------------------------

  /** The characters `operator>>` skips: those of `isspace` in the C locale. */
  predicate IsSpace(ch: char)
  {
    ch == ' ' || ch == '\t' || ch == '\n' || ch == '\r' || ch as int == 11 || ch as int == 12
  }

  /** A token: a non-empty run of non-space characters. */
  predicate Word(w: string)
  {
    w != [] && forall i | 0 <= i < |w| :: !IsSpace(w[i])
  }

  /** The length of the token at the start of `s`. */
  function WordLen(s: string): (n: nat)
    ensures n <= |s|
    ensures forall i | 0 <= i < n :: !IsSpace(s[i])
    ensures n < |s| ==> IsSpace(s[n])
  {
    if s == [] || IsSpace(s[0]) then 0 else 1 + WordLen(s[1..])
  }

  /** The tokens successive `>>` extractions read from `s`. */
  function Tokens(s: string): (r: seq<string>)
    ensures forall i | 0 <= i < |r| :: Word(r[i])
    decreases |s|
  {
    if s == [] then []
    else if IsSpace(s[0]) then Tokens(s[1..])
    else
      var n := WordLen(s);
      [s[..n]] + Tokens(s[n..])
  }

  /** Writing tokens separated by single spaces. */
  function Unwords(ws: seq<string>): string
  {
    if ws == [] then [] else if |ws| == 1 then ws[0] else ws[0] + " " + Unwords(ws[1..])
  }

  lemma WordLenOf(w: string, rest: string)
    requires Word(w)
    requires rest == [] || IsSpace(rest[0])
    ensures WordLen(w + rest) == |w|
    decreases |w|
  {
    if |w| > 1 {
      assert (w + rest)[1..] == w[1..] + rest;
      WordLenOf(w[1..], rest);
    } else {
      assert (w + rest)[1..] == rest;
    }
  }

  /** A token followed by a space or the end is read as itself. */
  lemma TokensOfWord(w: string, rest: string)
    requires Word(w)
    requires rest == [] || IsSpace(rest[0])
    ensures Tokens(w + rest) == [w] + Tokens(rest)
  {
    WordLenOf(w, rest);
    assert (w + rest)[..|w|] == w;
    assert (w + rest)[|w|..] == rest;
  }

  /** Reading back tokens written with `Unwords` gives those tokens. */
  lemma {:induction false} TokensUnwords(ws: seq<string>)
    requires forall i | 0 <= i < |ws| :: Word(ws[i])
    ensures Tokens(Unwords(ws)) == ws
  {
    if |ws| == 1 {
      TokensOfWord(ws[0], []);
      assert ws[0] + [] == ws[0];
    } else if |ws| > 1 {
      var rest := Unwords(ws[1..]);
      TokensOfWord(ws[0], " " + rest);
      assert ws[0] + " " + rest == ws[0] + (" " + rest);
      assert (" " + rest)[1..] == rest;
      TokensUnwords(ws[1..]);
    }
  }

  /** Text without newlines written with `Unwords` has no newline. */
  lemma UnwordsNoNewline(ws: seq<string>)
    requires forall i | 0 <= i < |ws| :: Word(ws[i])
    ensures '\n' !in Unwords(ws)
  {
    if |ws| > 1 {
      UnwordsNoNewline(ws[1..]);
      assert forall i | 0 <= i < |ws[0]| :: ws[0][i] != '\n';
    } else if |ws| == 1 {
      assert forall i | 0 <= i < |ws[0]| :: ws[0][i] != '\n';
    }
  }

  // ---------------------------------------------------------------------
  // One line
  // ---------------------------------------------------------------------

  /** A token that starts a comment. */
  predicate IsComment(w: string)
  {
    w != [] && w[0] == '#'
  }

  /** The labels of a line: its tokens after the name, up to the first
      comment token. */
  function Labels(ws: seq<string>): (r: seq<string>)
    ensures |r| <= |ws| && r == ws[..|r|]
    ensures forall i | 0 <= i < |r| :: !IsComment(r[i])
    ensures |r| < |ws| ==> IsComment(ws[|r|])
  {
    if ws == [] || IsComment(ws[0]) then [] else [ws[0]] + Labels(ws[1..])
  }

  /** A variable line as read: its name and its labels. */
  datatype Entry = Entry(name: string, labels: seq<string>)

  /** What one line declares: nothing for a blank or comment line. */
  function ParseLine(line: string): (r: Option<Entry>)
    ensures r.None? <==> Tokens(line) == [] || IsComment(Tokens(line)[0])
    ensures r.Some? ==> r.value.name == Tokens(line)[0] && Word(r.value.name) && !IsComment(r.value.name)
    ensures r.Some? ==> r.value.labels == Labels(Tokens(line)[1..])
  {
    var ws := Tokens(line);
    if ws == [] || IsComment(ws[0]) then None else Some(Entry(ws[0], Labels(ws[1..])))
  }

  /** The entries declared by a list of lines, in order. */
  function Entries(lines: seq<string>): seq<Entry>
  {
    if lines == [] then []
    else
      var rest := Entries(lines[1..]);
      match ParseLine(lines[0])
      case None => rest
      case Some(e) => [e] + rest
  }

  // ---------------------------------------------------------------------
  // The domain
  // ---------------------------------------------------------------------

  /** A solver term: the equality `name == val` of a variable's integer
      constant with a label index. */
  datatype Atom = Eq(name: string, val: int)

  /** A solver constraint: `lo <= name && name < hi`. */
  datatype Bound = Bound(name: string, lo: int, hi: int)

  /** A variable: its id, name, labels and equality atoms (`zvar_eq_val`). */
  datatype VarEntry = VarEntry(id: int, name: string, labels: seq<string>, eqs: seq<Atom>)

  /** The parsed domain: the variables, `n_all_values_`, and the bounds the
      parser adds to the shared solver. */
  datatype Domain = Domain(vars: seq<VarEntry>, nAll: int, solver: seq<Bound>)

  /** The equality atoms `name == 0`, ..., `name == n - 1`. */
  function EqAtoms(name: string, n: nat): (r: seq<Atom>)
    ensures |r| == n && forall i | 0 <= i < n :: r[i] == Eq(name, i)
  {
    if n == 0 then [] else EqAtoms(name, n - 1) + [Eq(name, n - 1)]
  }

  /** Reading one line into the domain (the body of the loop). */
  function Step(d: Domain, line: string): Domain
  {
    match ParseLine(line)
    case None => d
    case Some(e) =>
      var n := |e.labels|;
      Domain(d.vars + [VarEntry(|d.vars|, e.name, e.labels, EqAtoms(e.name, n))],
             d.nAll + n,
             d.solver + [Bound(e.name, 0, n)])
  }

  /** The loop over the lines. */
  function ParseLines(d: Domain, lines: seq<string>): Domain
    decreases |lines|
  {
    if lines == [] then d else ParseLines(Step(d, lines[0]), lines[1..])
  }

  /** `Domain::parse`. */
  function Parse(d: Domain, input: string): Domain
  {
    ParseLines(d.(nAll := 0), Lines(input))
  }

  // ---------------------------------------------------------------------
  // What a parse produces, stated directly
  // ---------------------------------------------------------------------

  /** The variable an entry becomes when it gets id `id`. */
  function VarOf(id: int, e: Entry): VarEntry
  {
    VarEntry(id, e.name, e.labels, EqAtoms(e.name, |e.labels|))
  }

  /** The labels of the entries, counted. */
  function TotalLabels(es: seq<Entry>): nat
  {
    if es == [] then 0 else |es[0].labels| + TotalLabels(es[1..])
  }

  /** The variables appended when the domain already has `start` of them. */
  function NewVars(start: int, es: seq<Entry>): seq<VarEntry>
  {
    seq(|es|, i requires 0 <= i < |es| => VarOf(start + i, es[i]))
  }

  /** The bounds the solver receives for the entries. */
  function NewBounds(es: seq<Entry>): (r: seq<Bound>)
    ensures |r| == |es| && forall i | 0 <= i < |es| :: r[i] == Bound(es[i].name, 0, |es[i].labels|)
  {
    seq(|es|, i requires 0 <= i < |es| => Bound(es[i].name, 0, |es[i].labels|))
  }

  /** The loop appends one variable per declaring line and keeps the
      variables already present. */
  lemma {:induction false} ParseLinesVars(d: Domain, lines: seq<string>)
    ensures ParseLines(d, lines).vars == d.vars + NewVars(|d.vars|, Entries(lines))
    decreases |lines|
  {
    if lines == [] {
      assert d.vars + [] == d.vars;
    } else {
      var d' := Step(d, lines[0]);
      var es' := Entries(lines[1..]);
      ParseLinesVars(d', lines[1..]);
      match ParseLine(lines[0])
      case None =>
      case Some(e) =>
        var v := VarOf(|d.vars|, e);
        assert d'.vars == d.vars + [v];
        assert Entries(lines) == [e] + es';
        NewVarsCons(|d.vars|, e, es');
        calc {
          ParseLines(d, lines).vars;
          d'.vars + NewVars(|d.vars| + 1, es');
          d.vars + ([v] + NewVars(|d.vars| + 1, es'));
        }
    }
  }

  /** The loop adds the number of labels of each declaring line. */
  lemma {:induction false} ParseLinesCount(d: Domain, lines: seq<string>)
    ensures ParseLines(d, lines).nAll == d.nAll + TotalLabels(Entries(lines))
    decreases |lines|
  {
    if lines != [] {
      var d' := Step(d, lines[0]);
      ParseLinesCount(d', lines[1..]);
      match ParseLine(lines[0])
      case None =>
      case Some(e) =>
        assert ([e] + Entries(lines[1..]))[1..] == Entries(lines[1..]);
    }
  }

  /** The loop bounds the value of each declared variable. */
  lemma {:induction false} ParseLinesBounds(d: Domain, lines: seq<string>)
    ensures ParseLines(d, lines).solver == d.solver + NewBounds(Entries(lines))
    decreases |lines|
  {
    if lines == [] {
      assert d.solver + [] == d.solver;
    } else {
      var d' := Step(d, lines[0]);
      var es' := Entries(lines[1..]);
      ParseLinesBounds(d', lines[1..]);
      match ParseLine(lines[0])
      case None =>
      case Some(e) =>
        NewBoundsCons(e, es');
        assert d'.solver + NewBounds(es') == d.solver + ([Bound(e.name, 0, |e.labels|)] + NewBounds(es'));
    }
  }

  lemma NewVarsCons(start: int, e: Entry, es: seq<Entry>)
    ensures NewVars(start, [e] + es) == [VarOf(start, e)] + NewVars(start + 1, es)
  {
    var l := NewVars(start, [e] + es);
    var r := [VarOf(start, e)] + NewVars(start + 1, es);
    assert |l| == |r|;
    forall i | 0 <= i < |l|
      ensures l[i] == r[i]
    {
      if i > 0 {
        assert ([e] + es)[i] == es[i - 1];
      }
    }
  }

  lemma NewBoundsCons(e: Entry, es: seq<Entry>)
    ensures NewBounds([e] + es) == [Bound(e.name, 0, |e.labels|)] + NewBounds(es)
  {
    var l := NewBounds([e] + es);
    var r := [Bound(e.name, 0, |e.labels|)] + NewBounds(es);
    assert |l| == |r|;
    forall i | 0 <= i < |l|
      ensures l[i] == r[i]
    {
      if i > 0 {
        assert ([e] + es)[i] == es[i - 1];
      }
    }
  }

  /** Every id equals the variable's position. */
  predicate IdsAreIndices(vars: seq<VarEntry>)
  {
    forall i | 0 <= i < |vars| :: vars[i].id == i
  }

  /** Parsing keeps the variables already present and appends one per
      declaring line of the input, with consecutive ids, the line's name and
      labels, and one equality atom per label index; each gets the solver
      bound `0 <= x < n`; `n_all_values_` is the number of labels read. */
  lemma ParseSpec(d: Domain, input: string)
    ensures var r := Parse(d, input); var es := Entries(Lines(input));
      && |r.vars| == |d.vars| + |es|
      && r.vars[..|d.vars|] == d.vars
      && (forall i | 0 <= i < |es| :: r.vars[|d.vars| + i] == VarOf(|d.vars| + i, es[i]))
      && r.nAll == TotalLabels(es)
      && r.solver == d.solver + NewBounds(es)
  {
    var es := Entries(Lines(input));
    ParseLinesVars(d.(nAll := 0), Lines(input));
    ParseLinesCount(d.(nAll := 0), Lines(input));
    ParseLinesBounds(d.(nAll := 0), Lines(input));
    var vs := Parse(d, input).vars;
    var nv := NewVars(|d.vars|, es);
    assert vs == d.vars + nv && |nv| == |es|;
    assert vs[..|d.vars|] == d.vars;
    forall i | 0 <= i < |es|
      ensures vs[|d.vars| + i] == VarOf(|d.vars| + i, es[i])
    {
      assert vs[|d.vars| + i] == nv[i];
    }
  }

  /** Parsing keeps ids equal to positions. */
  lemma ParseIds(d: Domain, input: string)
    requires IdsAreIndices(d.vars)
    ensures IdsAreIndices(Parse(d, input).vars)
  {
    ParseSpec(d, input);
    var r := Parse(d, input);
    forall i | 0 <= i < |r.vars|
      ensures r.vars[i].id == i
    {
      if i < |d.vars| {
        assert r.vars[i] == r.vars[..|d.vars|][i];
      } else {
        assert r.vars[i] == VarOf(|d.vars| + (i - |d.vars|), Entries(Lines(input))[i - |d.vars|]);
      }
    }
  }

  /** On a fresh domain `n_all_values_` ends as the number of labels of all
      variables. */
  lemma ParseCountsAll(input: string)
    ensures var r := Parse(Domain([], 0, []), input);
      r.nAll == SumLabels(r.vars)
  {
    var es := Entries(Lines(input));
    ParseSpec(Domain([], 0, []), input);
    SumLabelsNew(0, es);
    assert Parse(Domain([], 0, []), input).vars == NewVars(0, es);
  }

  /** The labels of a list of variables, counted. */
  function SumLabels(vars: seq<VarEntry>): nat
  {
    if vars == [] then 0 else |vars[0].labels| + SumLabels(vars[1..])
  }

  lemma {:induction false} SumLabelsNew(start: int, es: seq<Entry>)
    ensures SumLabels(NewVars(start, es)) == TotalLabels(es)
    decreases |es|
  {
    if es != [] {
      SumLabelsNew(start + 1, es[1..]);
      assert NewVars(start, es)[1..] == NewVars(start + 1, es[1..]);
    }
  }

  // ---------------------------------------------------------------------
  // Round trip
  // ---------------------------------------------------------------------

  /** An entry a domain file can declare: a name and labels that are tokens
      and do not start a comment. */
  predicate Writable(e: Entry)
  {
    && Word(e.name) && !IsComment(e.name)
    && forall i | 0 <= i < |e.labels| :: Word(e.labels[i]) && !IsComment(e.labels[i])
  }

  /** A declaring line: the name and labels separated by spaces. */
  function LineOf(e: Entry): string
  {
    Unwords([e.name] + e.labels)
  }

  /** A domain file: one declaring line per entry. */
  function Render(es: seq<Entry>): string
  {
    Unlines(seq(|es|, i requires 0 <= i < |es| => LineOf(es[i])))
  }

  /** The line written for an entry declares exactly that entry. */
  lemma ParseLineOf(e: Entry)
    requires Writable(e)
    ensures ParseLine(LineOf(e)) == Some(e)
  {
    var ws := [e.name] + e.labels;
    TokensUnwords(ws);
    assert ws[1..] == e.labels;
    LabelsAll(e.labels);
  }

  lemma {:induction false} LabelsAll(ws: seq<string>)
    requires forall i | 0 <= i < |ws| :: !IsComment(ws[i])
    ensures Labels(ws) == ws
  {
    if ws != [] {
      LabelsAll(ws[1..]);
    }
  }

  lemma {:induction false} EntriesOfLines(es: seq<Entry>)
    requires forall i | 0 <= i < |es| :: Writable(es[i])
    ensures Entries(seq(|es|, i requires 0 <= i < |es| => LineOf(es[i]))) == es
  {
    if es != [] {
      var ls := seq(|es|, i requires 0 <= i < |es| => LineOf(es[i]));
      ParseLineOf(es[0]);
      assert ls[1..] == seq(|es[1..]|, i requires 0 <= i < |es[1..]| => LineOf(es[1..][i]));
      EntriesOfLines(es[1..]);
    }
  }

  /** Reading back a rendered domain file gives the entries it was written
      from. */
  lemma ParseRender(es: seq<Entry>)
    requires forall i | 0 <= i < |es| :: Writable(es[i])
    ensures Entries(Lines(Render(es))) == es
  {
    var ls := seq(|es|, i requires 0 <= i < |es| => LineOf(es[i]));
    forall i | 0 <= i < |ls|
      ensures '\n' !in ls[i]
    {
      var ws := [es[i].name] + es[i].labels;
      assert forall j | 0 <= j < |ws| :: Word(ws[j]);
      UnwordsNoNewline(ws);
    }
    LinesUnlines(ls);
    EntriesOfLines(es);
  }
}

=== FILE: domains.dfy ===
/** Variable domains and configurations (src/config_common.py `Dom`,
    `Config`, `is_valset`, `is_csetting`; src/config.py `Dom.get_dom`).

    A domain maps every configuration variable to a non-empty finite set of
    string values; `vars` keeps the variables in the order the domain was
    built from, which is the order the source iterates them in.  A
    configuration is a total mapping from the domain's variables to one of
    their values.  Configurations are Dafny maps: `HDicts.HEqIsMapEquality`
    shows that the source's `HDict` equality is map equality. */
module Domains {
  import opened Wrappers
  import opened Strings
  import HDicts

  type Var = string
  type Val = string
  type ValSet = set<Val>
  type Config = map<Var, Val>

  /** `is_valset`: a non-empty set of strings. */
  predicate IsValSet(vs: ValSet)
  {
    vs != {}
  }

  datatype Dom = Dom(vars: seq<Var>, vals: map<Var, ValSet>)

  predicate Distinct<T(==)>(s: seq<T>)
  {
    forall i, j :: 0 <= i < j < |s| ==> s[i] != s[j]
  }

  /** The invariant `Dom.__init__` asserts: non-empty, and every value set is a valset. */
  predicate ValidDom(d: Dom)
  {
    && |d.vars| > 0
    && Distinct(d.vars)
    && d.vals.Keys == set k | k in d.vars
    && (forall k :: k in d.vals ==> IsValSet(d.vals[k]))
  }

  /** A total configuration of `d`. */
  predicate IsConfigOf(c: Config, d: Dom)
  {
    c.Keys == d.vals.Keys && forall k :: k in c ==> c[k] in d.vals[k]
  }

  /** The first occurrences of the elements of `s`, in order. */
  function Dedup<T(==,!new)>(s: seq<T>): (r: seq<T>)
    ensures Distinct(r)
    ensures forall x :: x in r <==> x in s
    ensures |r| <= |s|
  {
    if |s| == 0 then []
    else
      var r := Dedup(s[..|s| - 1]);
      if s[|s| - 1] in r then r else r + [s[|s| - 1]]
  }

  function EntryKeys(entries: seq<(Var, ValSet)>): (r: seq<Var>)
    ensures |r| == |entries|
    ensures forall i :: 0 <= i < |r| ==> r[i] == entries[i].0
  {
    seq(|entries|, i requires 0 <= i < |entries| => entries[i].0)
  }

  predicate AllValSets(vals: map<Var, ValSet>)
  {
    forall k | k in vals :: IsValSet(vals[k])
  }

  /** `Dom(entries)`: the OrderedDict built from `entries`, or `None` when the
      constructor's assertion fails (an empty domain or an empty value set). */
  function MkDom(entries: seq<(Var, ValSet)>): (r: Option<Dom>)
    ensures r.Some? <==> |entries| > 0 && AllValSets(HDicts.FromPairs(entries))
    ensures r.Some? ==> ValidDom(r.value)
    ensures r.Some? ==> forall i :: 0 <= i < |entries| ==> entries[i].0 in r.value.vars
  {
    var vals := HDicts.FromPairs(entries);
    if |entries| > 0 && AllValSets(vals) then
      var vars := Dedup(EntryKeys(entries));
      assert entries[0].0 in vars;
      Some(Dom(vars, vals))
    else
      None
  }

  function Prod(vars: seq<Var>, vals: map<Var, ValSet>): nat
    requires forall k :: k in vars ==> k in vals
  {
    if |vars| == 0 then 1 else |vals[vars[0]]| * Prod(vars[1..], vals)
  }

  /** `Dom.siz`: the product of the value-set sizes. */
  function Siz(d: Dom): nat
    requires ValidDom(d)
  {
    Prod(d.vars, d.vals)
  }

  function MaxSize(vars: seq<Var>, vals: map<Var, ValSet>): (r: nat)
    requires forall k :: k in vars ==> k in vals
    ensures forall i :: 0 <= i < |vars| ==> |vals[vars[i]]| <= r
    ensures |vars| > 0 ==> exists i :: 0 <= i < |vars| && |vals[vars[i]]| == r
  {
    if |vars| == 0 then 0
    else
      var m := MaxSize(vars[1..], vals);
      var h := |vals[vars[0]]|;
      assert forall i :: 1 <= i < |vars| ==> vars[i] == vars[1..][i - 1];
      if h >= m then h else m
  }

  /** `Dom.max_fsiz`: the size of the largest value set. */
  function MaxFSiz(d: Dom): (r: nat)
    requires ValidDom(d)
    ensures forall k :: k in d.vals ==> |d.vals[k]| <= r
    ensures exists k :: k in d.vals && |d.vals[k]| == r
    ensures r >= 1
  {
    var r := MaxSize(d.vars, d.vals);
    assert forall k :: k in d.vals ==> exists i :: 0 <= i < |d.vars| && d.vars[i] == k;
    var i :| 0 <= i < |d.vars| && |d.vals[d.vars[i]]| == r;
    assert d.vars[i] in d.vals;
    r
  }

  /** Every factor of a product of positive sizes is at most the product. */
  lemma {:induction false} ProdBounds(vars: seq<Var>, vals: map<Var, ValSet>)
    requires forall k :: k in vars ==> k in vals && vals[k] != {}
    ensures Prod(vars, vals) >= 1
    ensures forall i :: 0 <= i < |vars| ==> |vals[vars[i]]| <= Prod(vars, vals)
  {
    if |vars| > 0 {
      var rest := vars[1..];
      assert forall k :: k in rest ==> k in vars;
      ProdBounds(rest, vals);
      var h := |vals[vars[0]]|;
      var p := Prod(rest, vals);
      assert Prod(vars, vals) == h * p;
      assert h >= 1 by {
        assert vars[0] in vars;
      }
      MulBounds(h, p);
      forall i | 1 <= i < |vars|
        ensures |vals[vars[i]]| <= Prod(vars, vals)
      {
        assert vars[i] == rest[i - 1];
      }
    }
  }

  lemma MulBounds(h: int, p: int)
    requires h >= 1 && p >= 1
    ensures h * p >= h && h * p >= p
  {
    assert h * p == h * (p - 1) + h;
    assert h * p == (h - 1) * p + p;
  }

  /** The domain's size is at least one and at least its largest value set. */
  lemma SizBounds(d: Dom)
    requires ValidDom(d)
    ensures 1 <= MaxFSiz(d) <= Siz(d)
  {
    ProdBounds(d.vars, d.vals);
    var k :| k in d.vals && |d.vals[k]| == MaxFSiz(d);
    var i :| 0 <= i < |d.vars| && d.vars[i] == k;
  }

  // ---------------------------------------------------------------------
  // Full enumeration (`Dom.gen_configs_full`, itertools.product)
  // ---------------------------------------------------------------------

  /** `c` assigns exactly the variables `vars`, each a value of its set. */
  predicate Over(c: Config, vars: seq<Var>, vals: map<Var, ValSet>)
  {
    c.Keys == (set k | k in vars) && forall k :: k in c ==> k in vals && c[k] in vals[k]
  }

  function Remove(c: Config, v: Var): (r: Config)
    ensures v !in r
    ensures forall k :: k in r <==> k in c && k != v
    ensures forall k :: k in r ==> r[k] == c[k]
  {
    map k | k in c && k != v :: c[k]
  }

  function Assign(rest: seq<Config>, v: Var, x: Val): (r: seq<Config>)
    ensures |r| == |rest|
    ensures forall i :: 0 <= i < |r| ==> r[i] == rest[i][v := x]
  {
    seq(|rest|, i requires 0 <= i < |rest| => rest[i][v := x])
  }

  /** The configurations `rest[j][v := xs[i]]`, grouped by `i`. */
  function Prepend(v: Var, xs: seq<Val>, rest: seq<Config>): (r: seq<Config>)
    ensures |r| == |xs| * |rest|
  {
    if |xs| == 0 then []
    else
      var tail := Prepend(v, xs[1..], rest);
      assert |xs| * |rest| == |rest| + (|xs| - 1) * |rest|;
      Assign(rest, v, xs[0]) + tail
  }

  lemma RemoveAssign(r: Config, v: Var, x: Val)
    requires v !in r
    ensures Remove(r[v := x], v) == r
  {
  }

  lemma AssignRemove(c: Config, v: Var)
    requires v in c
    ensures Remove(c, v)[v := c[v]] == c
  {
  }

  lemma {:induction false} PrependMember(v: Var, xs: seq<Val>, rest: seq<Config>, c: Config)
    requires forall r :: r in rest ==> v !in r
    ensures c in Prepend(v, xs, rest) <==> (v in c && c[v] in xs && Remove(c, v) in rest)
  {
    if |xs| > 0 {
      PrependMember(v, xs[1..], rest, c);
      var a := Assign(rest, v, xs[0]);
      assert Prepend(v, xs, rest) == a + Prepend(v, xs[1..], rest);
      if c in a {
        var i :| 0 <= i < |a| && a[i] == c;
        RemoveAssign(rest[i], v, xs[0]);
      }
      if v in c && c[v] == xs[0] && Remove(c, v) in rest {
        var i :| 0 <= i < |rest| && rest[i] == Remove(c, v);
        AssignRemove(c, v);
        assert a[i] == c;
      }
      if v in c {
        assert c[v] in xs <==> (c[v] == xs[0] || c[v] in xs[1..]) by {
          assert xs == [xs[0]] + xs[1..];
        }
      }
    }
  }

  lemma DistinctConcat<T>(a: seq<T>, b: seq<T>)
    requires Distinct(a) && Distinct(b)
    requires forall x :: x in a ==> x !in b
    ensures Distinct(a + b)
  {
    forall i, j | 0 <= i < j < |a + b|
      ensures (a + b)[i] != (a + b)[j]
    {
      if i < |a| && j >= |a| {
        assert (a + b)[i] in a;
        assert (a + b)[j] == b[j - |a|];
      } else if i >= |a| {
        assert (a + b)[i] == b[i - |a|];
        assert (a + b)[j] == b[j - |a|];
      }
    }
  }

  lemma {:induction false} PrependDistinct(v: Var, xs: seq<Val>, rest: seq<Config>)
    requires Distinct(xs) && Distinct(rest)
    requires forall r :: r in rest ==> v !in r
    ensures Distinct(Prepend(v, xs, rest))
  {
    if |xs| > 0 {
      var a := Assign(rest, v, xs[0]);
      var t := Prepend(v, xs[1..], rest);
      assert Distinct(xs[1..]);
      PrependDistinct(v, xs[1..], rest);
      forall i, j | 0 <= i < j < |a|
        ensures a[i] != a[j]
      {
        RemoveAssign(rest[i], v, xs[0]);
        RemoveAssign(rest[j], v, xs[0]);
      }
      forall c | c in a
        ensures c !in t
      {
        PrependMember(v, xs[1..], rest, c);
        assert xs[0] !in xs[1..];
      }
      DistinctConcat(a, t);
    }
  }

  /** `itertools.product` over the value sets of `vars`, each sorted. */
  function FullConfigs(vars: seq<Var>, vals: map<Var, ValSet>): (r: seq<Config>)
    requires forall k :: k in vars ==> k in vals
    ensures |r| == Prod(vars, vals)
  {
    if |vars| == 0 then [map[]]
    else
      var xs := Sorted(vals[vars[0]]);
      var rest := FullConfigs(vars[1..], vals);
      assert |xs| * |rest| == |vals[vars[0]]| * Prod(vars[1..], vals);
      Prepend(vars[0], xs, rest)
  }

  lemma OverCons(c: Config, vars: seq<Var>, vals: map<Var, ValSet>)
    requires |vars| > 0 && vars[0] !in vars[1..]
    ensures Over(c, vars, vals) <==>
      (vars[0] in c && vars[0] in vals && c[vars[0]] in vals[vars[0]] && Over(Remove(c, vars[0]), vars[1..], vals))
  {
    var v := vars[0];
    assert forall k :: k in vars <==> k == v || k in vars[1..] by {
      assert vars == [v] + vars[1..];
    }
  }

  lemma {:induction false} FullConfigsMember(vars: seq<Var>, vals: map<Var, ValSet>)
    requires forall k :: k in vars ==> k in vals
    requires Distinct(vars)
    ensures forall c :: c in FullConfigs(vars, vals) <==> Over(c, vars, vals)
  {
    if |vars| == 0 {
      forall c | Over(c, vars, vals)
        ensures c == map[]
      {
      }
    } else {
      var v := vars[0];
      var xs := Sorted(vals[v]);
      var tail := vars[1..];
      assert Distinct(tail);
      FullConfigsMember(tail, vals);
      var rest := FullConfigs(tail, vals);
      assert v !in tail;
      forall r | r in rest
        ensures v !in r
      {
        assert Over(r, tail, vals);
      }
      forall c
        ensures c in FullConfigs(vars, vals) <==> Over(c, vars, vals)
      {
        PrependMember(v, xs, rest, c);
        OverCons(c, vars, vals);
      }
    }
  }

  lemma {:induction false} FullConfigsDistinct(vars: seq<Var>, vals: map<Var, ValSet>)
    requires forall k :: k in vars ==> k in vals
    requires Distinct(vars)
    ensures Distinct(FullConfigs(vars, vals))
  {
    if |vars| > 0 {
      var v := vars[0];
      var tail := vars[1..];
      assert Distinct(tail);
      FullConfigsMember(tail, vals);
      FullConfigsDistinct(tail, vals);
      var rest := FullConfigs(tail, vals);
      assert v !in tail;
      forall r | r in rest
        ensures v !in r
      {
        assert Over(r, tail, vals);
      }
      PrependDistinct(v, Sorted(vals[v]), rest);
    }
  }

  /** `Dom.gen_configs_full`: every configuration of the domain, each exactly once. */
  function GenConfigsFull(d: Dom): (r: seq<Config>)
    requires ValidDom(d)
    ensures |r| == Siz(d)
    ensures Distinct(r)
    ensures forall c :: c in r <==> IsConfigOf(c, d)
  {
    FullConfigsMember(d.vars, d.vals);
    FullConfigsDistinct(d.vars, d.vals);
    FullConfigs(d.vars, d.vals)
  }

  lemma {:induction false} DistinctCard<T>(s: seq<T>)
    requires Distinct(s)
    ensures |set x | x in s| == |s|
  {
    if |s| > 0 {
      var init := s[..|s| - 1];
      assert Distinct(init);
      DistinctCard(init);
      assert (set x | x in s) == (set x | x in init) + {s[|s| - 1]} by {
        assert s == init + [s[|s| - 1]];
      }
      assert s[|s| - 1] !in init;
    }
  }

  /** The configuration space of the domain, which the solver queries range over. */
  function AllConfigs(d: Dom): (r: set<Config>)
    requires ValidDom(d)
    ensures |r| == Siz(d)
    ensures forall c :: c in r <==> IsConfigOf(c, d)
  {
    var s := GenConfigsFull(d);
    DistinctCard(s);
    set c | c in s
  }

  // ---------------------------------------------------------------------
  // Domain files (`Dom.get_dom.get_lines`)
  // ---------------------------------------------------------------------

  /** The symbolic tokens an `inf` variable ranges over. */
  const InfPreds: ValSet := {"Eq0", "Lt0", "Gt0"}
  /** The symbolic tokens a `type` variable ranges over. */
  const TypPreds: ValSet := {"TStr", "TInt", "TFloat"}

  function Tail(parts: seq<string>): ValSet
  {
    set i | 1 <= i < |parts| :: parts[i]
  }

  /** Whether a domain line declares an abstract (`inf` or `type`) variable. */
  predicate IsAbstractLine(parts: seq<string>)
  {
    Tail(parts) == {"inf"} || Tail(parts) == {"type"}
  }

  /** The value set of one split line `name v1 v2 ...`. */
  function LineValues(parts: seq<string>): (r: ValSet)
    ensures Tail(parts) == {"inf"} ==> r == InfPreds
    ensures Tail(parts) == {"type"} ==> r == TypPreds
    ensures !IsAbstractLine(parts) ==> r == Tail(parts)
  {
    var vals := Tail(parts);
    if vals == {"inf"} then InfPreds
    else if vals == {"type"} then TypPreds
    else vals
  }

  /** `get_lines`: the (variable, value set) entries of split domain lines and
      the set of abstract variables.  A line without tokens would raise. */
  function GetLines(lines: seq<seq<string>>): (r: (seq<(Var, ValSet)>, set<Var>))
    requires forall i :: 0 <= i < |lines| ==> |lines[i]| > 0
    ensures |r.0| == |lines|
    ensures forall i :: 0 <= i < |lines| ==> r.0[i] == (lines[i][0], LineValues(lines[i]))
    ensures forall x :: x in r.1 <==>
      exists i :: 0 <= i < |lines| && lines[i][0] == x && IsAbstractLine(lines[i])
  {
    if |lines| == 0 then ([], {})
    else
      var last := lines[|lines| - 1];
      var init := GetLines(lines[..|lines| - 1]);
      var infs := if IsAbstractLine(last) then init.1 + {last[0]} else init.1;
      (init.0 + [(last[0], LineValues(last))], infs)
  }

  /** Every line that names at least one value yields a non-empty value set, so
      a non-empty domain file of such lines is accepted by `Dom.__init__`. */
  lemma GetLinesMakesDom(lines: seq<seq<string>>)
    requires |lines| > 0
    requires forall i :: 0 <= i < |lines| ==> |lines[i]| >= 2
    ensures MkDom(GetLines(lines).0).Some?
  {
    var entries := GetLines(lines).0;
    var vals := HDicts.FromPairs(entries);
    forall k | k in vals
      ensures IsValSet(vals[k])
    {
      var i :| 0 <= i < |entries| && entries[i].0 == k;
      FromPairsLastValue(entries, k);
      var j :| 0 <= j < |entries| && entries[j].0 == k && vals[k] == entries[j].1;
      assert lines[j][1] in Tail(lines[j]);
    }
  }

  lemma {:induction false} FromPairsLastValue(entries: seq<(Var, ValSet)>, k: Var)
    requires k in HDicts.FromPairs(entries)
    ensures exists j :: 0 <= j < |entries| && entries[j].0 == k && HDicts.FromPairs(entries)[k] == entries[j].1
  {
    var n := |entries|;
    if entries[n - 1].0 == k {
      assert HDicts.FromPairs(entries)[k] == entries[n - 1].1;
    } else {
      FromPairsLastValue(entries[..n - 1], k);
      var j :| 0 <= j < n - 1 && entries[..n - 1][j].0 == k
        && HDicts.FromPairs(entries[..n - 1])[k] == entries[..n - 1][j].1;
      assert entries[j] == entries[..n - 1][j];
    }
  }
}

=== FILE: evolution.dfy ===
/** The evolutionary search for configurations that reach target locations
    (iga/ec_alg.py `EC`): evaluating a population, breeding the next one,
    the stagnation counter and elitism of `go_sid`, and the loop of `go`
    over the remaining targets.

    Running the program under a configuration is the oracle `run`, a
    function parameter; the random choices are nondeterministic. */
module Evolution {
  import opened Wrappers
  import opened Strings
  import opened Domains
  import opened Cores
  import opened CovMaps
  import opened Generators
  import opened Mutations
  import opened Fitness

  // ---------------------------------------------------------------------
  // The location filter `req_s`
  // ---------------------------------------------------------------------

  /** `os.path.basename`: the part after the last `/`. */
  function BaseName(s: string): (r: string)
    ensures !HasChar(r, '/')
    ensures |r| <= |s| && r == s[|s| - |r|..]
    ensures |r| < |s| ==> s[|s| - |r| - 1] == '/'
  {
    if s == [] then []
    else if s[|s| - 1] == '/' then []
    else
      var r := BaseName(s[..|s| - 1]);
      BaseNameStep(s, r);
      r + [s[|s| - 1]]
  }

  /** Extending the base name of `s` without its last character, which is
      not a `/`, by that character. */
  lemma BaseNameStep(s: string, r: string)
    requires |s| > 0 && s[|s| - 1] != '/'
    requires !HasChar(r, '/')
    requires |r| <= |s| - 1 && r == s[..|s| - 1][|s| - 1 - |r|..]
    requires |r| < |s| - 1 ==> s[..|s| - 1][|s| - 1 - |r| - 1] == '/'
    ensures !HasChar(r + [s[|s| - 1]], '/')
    ensures r + [s[|s| - 1]] == s[|s| - |r| - 1..]
    ensures |r| + 1 < |s| ==> s[|s| - |r| - 2] == '/'
  {
    var q := r + [s[|s| - 1]];
    forall i | 0 <= i < |q|
      ensures q[i] == s[|s| - |r| - 1..][i] && q[i] != '/'
    {
      if i < |r| {
        assert r[i] == s[..|s| - 1][|s| - 1 - |r| + i];
      }
    }
  }

  /** `s.split(':')[0]`: the part before the first `:`. */
  function BeforeColon(s: string): (r: string)
    ensures !HasChar(r, ':')
    ensures |r| <= |s| && r == s[..|r|]
    ensures |r| < |s| ==> s[|r|] == ':'
  {
    if s == [] then []
    else if s[0] == ':' then []
    else [s[0]] + BeforeColon(s[1..])
  }

  /** `req_s` of `go_sid`: the file part of a location `dir/file:line`. */
  function ReqS(sid: Sid): string
  {
    BeforeColon(BaseName(sid))
  }

  /** The file part contains neither `/` nor `:`; it occurs in `sid` at
      the start or right after a `/`, and ends `sid` or is followed by a
      `:`. */
  lemma ReqSParts(sid: Sid)
    ensures !HasChar(ReqS(sid), '/') && !HasChar(ReqS(sid), ':')
    ensures var i := |sid| - |BaseName(sid)|;
      && OccursAt(sid, ReqS(sid), i)
      && (i == 0 || sid[i - 1] == '/')
      && (i + |ReqS(sid)| == |sid| || sid[i + |ReqS(sid)|] == ':')
  {
    var b := BaseName(sid);
    ReqSPlaced(sid, b, BeforeColon(b));
  }

  /** The prefix `r` of the base name `b` of `sid`, up to its first `:`,
      sits in `sid` between a `/` (or the start) and a `:` (or the end). */
  lemma ReqSPlaced(sid: string, b: string, r: string)
    requires !HasChar(b, '/') && !HasChar(r, ':')
    requires |b| <= |sid| && b == sid[|sid| - |b|..]
    requires |b| < |sid| ==> sid[|sid| - |b| - 1] == '/'
    requires |r| <= |b| && r == b[..|r|]
    requires |r| < |b| ==> b[|r|] == ':'
    ensures !HasChar(r, '/')
    ensures var i := |sid| - |b|;
      && OccursAt(sid, r, i)
      && (i == 0 || sid[i - 1] == '/')
      && (i + |r| == |sid| || sid[i + |r|] == ':')
  {
    var i := |sid| - |b|;
    assert forall j | 0 <= j < |r| :: sid[i..i + |r|][j] == r[j];
    if i + |r| < |sid| {
      assert sid[i + |r|] == b[|r|];
    }
  }

  /** What `eval_configs` records for a configuration: the locations the run
      reaches, kept only when they contain `req_s` if that is non-empty. */
  function Observe(run: Config -> set<Sid>, c: Config, reqS: string): (r: set<Sid>)
  {
    if reqS != [] then set s | s in run(c) && Contains(s, reqS) else run(c)
  }

  /** The observation is the reached locations that mention `req_s`, or all
      of them when there is no filter. */
  lemma ObserveSpec(run: Config -> set<Sid>, c: Config, reqS: string, s: Sid)
    ensures s in Observe(run, c, reqS) <==> s in run(c) && (reqS == [] || Contains(s, reqS))
  {
  }

  // ---------------------------------------------------------------------
  // `eval_configs`
  // ---------------------------------------------------------------------

  /** `cd'` keeps every entry of `cd`: coverage is recorded once. */
  predicate Extends(cd: ConfigsD, cd': ConfigsD)
  {
    cd.Keys <= cd'.Keys && forall c | c in cd :: cd'[c] == cd[c]
  }

  /** The locations recorded for configurations `cd'` has and `cd` has not. */
  function NewCov(cd: ConfigsD, cd': ConfigsD): set<Sid>
  {
    set c, s | c in cd' && c !in cd && s in cd'[c] :: s
  }

  /** Every entry new in `cd'` is the observation of its configuration. */
  predicate Observed(cd: ConfigsD, cd': ConfigsD, run: Config -> set<Sid>, reqS: string)
  {
    forall c | c in cd' && c !in cd :: cd'[c] == Observe(run, c, reqS)
  }

  /** `c` is not yet evaluated and its observation reaches `sid`. */
  predicate Hit(c: Config, cd: ConfigsD, sid: Sid, run: Config -> set<Sid>, reqS: string)
  {
    c !in cd && sid in Observe(run, c, reqS)
  }

  lemma NewCovAdd(cd: ConfigsD, cd': ConfigsD, c: Config, obs: set<Sid>)
    requires c !in cd'
    requires cd.Keys <= cd'.Keys
    ensures NewCov(cd, cd'[c := obs]) == NewCov(cd, cd') + obs
  {
    var cd2 := cd'[c := obs];
    forall s | s in obs
      ensures s in NewCov(cd, cd2)
    {
      assert c in cd2 && c !in cd && s in cd2[c];
    }
    forall s | s in NewCov(cd, cd')
      ensures s in NewCov(cd, cd2)
    {
      var x :| x in cd' && x !in cd && s in cd'[x];
      assert x in cd2 && cd2[x] == cd'[x];
    }
    forall s | s in NewCov(cd, cd2)
      ensures s in NewCov(cd, cd') + obs
    {
      var x :| x in cd2 && x !in cd && s in cd2[x];
      if x != c {
        assert x in cd' && cd'[x] == cd2[x];
      }
    }
  }

  lemma ElemsSnoc<T>(s: seq<T>, i: nat)
    requires i < |s|
    ensures Elems(s[..i + 1]) == Elems(s[..i]) + {s[i]}
  {
    assert s[..i + 1] == s[..i] + [s[i]];
  }

  /** The state of `eval_configs` after the first `i` configurations of
      `pop`, none of which reached `sid`. */
  predicate EvalInv(sid: Sid, pop: seq<Config>, reqS: string, run: Config -> set<Sid>,
                    cd: ConfigsD, covs: set<Sid>, i: nat, cd': ConfigsD, covs': set<Sid>)
  {
    && i <= |pop|
    && cd'.Keys == cd.Keys + Elems(pop[..i])
    && Extends(cd, cd') && Observed(cd, cd', run, reqS)
    && covs' == covs + NewCov(cd, cd')
    && sid !in NewCov(cd, cd')
    && forall j | 0 <= j < i :: !Hit(pop[j], cd, sid, run, reqS)
  }

  /** Skipping a configuration evaluated before keeps the state. */
  lemma EvalSkip(sid: Sid, pop: seq<Config>, reqS: string, run: Config -> set<Sid>,
                 cd: ConfigsD, covs: set<Sid>, i: nat, cd': ConfigsD, covs': set<Sid>)
    requires EvalInv(sid, pop, reqS, run, cd, covs, i, cd', covs')
    requires i < |pop| && pop[i] in cd'
    ensures EvalInv(sid, pop, reqS, run, cd, covs, i + 1, cd', covs')
  {
    ElemsSnoc(pop, i);
    if pop[i] !in cd {
      assert !Hit(pop[i], cd, sid, run, reqS) by {
        var j :| 0 <= j < i && pop[j] == pop[i];
      }
    }
  }

  /** Recording the observation of a new configuration. */
  lemma EvalAdd(sid: Sid, pop: seq<Config>, reqS: string, run: Config -> set<Sid>,
                cd: ConfigsD, covs: set<Sid>, i: nat, cd': ConfigsD, covs': set<Sid>)
    requires EvalInv(sid, pop, reqS, run, cd, covs, i, cd', covs')
    requires i < |pop| && pop[i] !in cd'
    ensures var obs := Observe(run, pop[i], reqS);
      && cd'[pop[i] := obs].Keys == cd.Keys + Elems(pop[..i + 1])
      && Extends(cd, cd'[pop[i] := obs]) && Observed(cd, cd'[pop[i] := obs], run, reqS)
      && covs' + obs == covs + NewCov(cd, cd'[pop[i] := obs])
      && (sid in obs ==> sid in NewCov(cd, cd'[pop[i] := obs]))
      && (sid !in obs ==> EvalInv(sid, pop, reqS, run, cd, covs, i + 1, cd'[pop[i] := obs], covs' + obs))
  {
    ElemsSnoc(pop, i);
    NewCovAdd(cd, cd', pop[i], Observe(run, pop[i], reqS));
  }

  /** `EC.eval_configs`: runs the configurations of `pop` in order, skipping
      those evaluated before (by an earlier call or earlier in `pop`),
      records each observation and adds it to `covs`, and stops with `true`
      at the first one that reaches `sid`. */
  method EvalConfigs(sid: Sid, pop: seq<Config>, reqS: string, run: Config -> set<Sid>, cd: ConfigsD, covs: set<Sid>)
    returns (found: bool, cd': ConfigsD, covs': set<Sid>)
    requires pop != []
    ensures Extends(cd, cd') && Observed(cd, cd', run, reqS)
    ensures covs' == covs + NewCov(cd, cd')
    ensures found <==> exists i | 0 <= i < |pop| :: Hit(pop[i], cd, sid, run, reqS)
    ensures found <==> sid in NewCov(cd, cd')
    ensures !found ==> cd'.Keys == cd.Keys + Elems(pop)
    ensures cd'.Keys <= cd.Keys + Elems(pop)
    ensures found ==> exists i | 0 <= i < |pop| ::
      && Hit(pop[i], cd, sid, run, reqS)
      && (forall j | 0 <= j < i :: !Hit(pop[j], cd, sid, run, reqS))
      && cd'.Keys == cd.Keys + Elems(pop[..i + 1])
  {
    cd', covs' := cd, covs;
    var i := 0;
    assert pop[..0] == [];
    while i < |pop|
      invariant EvalInv(sid, pop, reqS, run, cd, covs, i, cd', covs')
    {
      var c := pop[i];
      if c in cd' {
        EvalSkip(sid, pop, reqS, run, cd, covs, i, cd', covs');
        i := i + 1;
        continue;
      }
      var obs := Observe(run, c, reqS);
      EvalAdd(sid, pop, reqS, run, cd, covs, i, cd', covs');
      cd' := cd'[c := obs];
      covs' := covs' + obs;
      if sid in obs {
        assert forall x | x in pop[..i + 1] :: x in pop;
        found := true;
        return;
      }
      i := i + 1;
    }
    assert pop[..i] == pop;
    found := false;
  }

  // ---------------------------------------------------------------------
  // `gen_pop`
  // ---------------------------------------------------------------------

  /** The fitnesses scored for `sid` so far. */
  function ScoredFits(fits: Fits, sid: Sid): set<real>
  {
    set c | c in fits && sid in fits[c] :: fits[c][sid]
  }

  lemma GreatestWitness(s: set<real>) returns (m: real)
    requires s != {}
    ensures m in s && forall y | y in s :: y <= m
    decreases s
  {
    var x := Pick(s);
    if s == {x} {
      m := x;
    } else {
      var m' := GreatestWitness(s - {x});
      m := if x > m' then x else m';
      forall y | y in s
        ensures y <= m
      {
        if y != x {
          assert y in s - {x};
        }
      }
    }
  }

  lemma GreatestExists(s: set<real>)
    requires s != {}
    ensures exists m | m in s :: forall y | y in s :: y <= m
  {
    var m := GreatestWitness(s);
  }

  /** No fitness is scored for `sid` exactly when no configuration has a
      score for it. */
  lemma ScoredFitsEmpty(fits: Fits, sid: Sid)
    ensures ScoredFits(fits, sid) == {} <==> forall c | c in fits :: sid !in fits[c]
  {
    assert forall c | c in fits && sid in fits[c] :: fits[c][sid] in ScoredFits(fits, sid);
  }

  /** The greatest element of a non-empty finite set of numbers. */
  function Greatest(s: set<real>): (m: real)
    requires s != {}
    ensures m in s && forall y | y in s :: y <= m
  {
    GreatestExists(s);
    var m :| m in s && forall y | y in s :: y <= m;
    m
  }

  /** The configurations of `pop` whose fitness is `best`, in order. */
  function PopBests(fits: Fits, sid: Sid, pop: seq<Config>, best: real): (r: seq<Config>)
    requires AllScored(fits, sid, pop)
    ensures forall c :: c in r <==> c in pop && fits[c][sid] == best
    decreases |pop|
  {
    if pop == [] then []
    else
      assert AllScored(fits, sid, pop[1..]) by {
        assert forall i | 0 <= i < |pop[1..]| :: pop[1..][i] == pop[i + 1];
      }
      var rest := PopBests(fits, sid, pop[1..], best);
      if fits[pop[0]][sid] == best then [pop[0]] + rest else rest
  }

  /** The parents `gen_pop` chooses among: the configurations of the old
      population whose fitness is the best fitness of any configuration
      scored for `sid`.  `max` of nothing raises `ValueError`, a member of
      the old population without a score a `KeyError`, and `random.choice`
      of nothing an `IndexError`. */
  function Parents(fits: Fits, sid: Sid, oldPop: seq<Config>): (r: Result<seq<Config>, string>)
  {
    if ScoredFits(fits, sid) == {} then Failure("ValueError")
    else if !AllScored(fits, sid, oldPop) then Failure("KeyError")
    else
      var bests := PopBests(fits, sid, oldPop, Greatest(ScoredFits(fits, sid)));
      if bests == [] then Failure("IndexError") else Success(bests)
  }

  /** The parents are the members of the old population that no scored
      configuration beats; the choice fails exactly in the three cases. */
  lemma ParentsSpec(fits: Fits, sid: Sid, oldPop: seq<Config>)
    ensures Parents(fits, sid, oldPop).Success? ==>
      && Parents(fits, sid, oldPop).value != []
      && forall b | b in Parents(fits, sid, oldPop).value ::
           && b in oldPop && b in fits && sid in fits[b]
           && forall c | c in fits && sid in fits[c] :: fits[c][sid] <= fits[b][sid]
    ensures Parents(fits, sid, oldPop).Failure? <==>
      || (forall c | c in fits :: sid !in fits[c])
      || !AllScored(fits, sid, oldPop)
      || forall i | 0 <= i < |oldPop| :: exists c | c in fits && sid in fits[c] :: fits[oldPop[i]][sid] < fits[c][sid]
  {
    ScoredFitsEmpty(fits, sid);
    if ScoredFits(fits, sid) != {} && AllScored(fits, sid, oldPop) {
      var g := Greatest(ScoredFits(fits, sid));
      var gc :| gc in fits && sid in fits[gc] && fits[gc][sid] == g;
      forall b | b in oldPop && fits[b][sid] == g
        ensures forall c | c in fits && sid in fits[c] :: fits[c][sid] <= fits[b][sid]
      {
        forall c | c in fits && sid in fits[c]
          ensures fits[c][sid] <= g
        {
          assert fits[c][sid] in ScoredFits(fits, sid);
        }
      }
      if PopBests(fits, sid, oldPop, g) == [] {
        forall i | 0 <= i < |oldPop|
          ensures fits[oldPop[i]][sid] < fits[gc][sid]
        {
          assert fits[oldPop[i]][sid] in ScoredFits(fits, sid);
        }
      } else {
        var b := PopBests(fits, sid, oldPop, g)[0];
        assert b in PopBests(fits, sid, oldPop, g);
        assert b in oldPop;
        var i :| 0 <= i < |oldPop| && oldPop[i] == b;
        forall c | c in fits && sid in fits[c]
          ensures !(fits[oldPop[i]][sid] < fits[c][sid])
        {
          assert fits[c][sid] in ScoredFits(fits, sid);
        }
      }
    }
  }

  /** A neighbour of a configuration of the domain is a configuration of the
      domain not evaluated yet. */
  lemma NeighbourInDom(d: Dom, c: Config, cd: ConfigsD, x: Config)
    requires IsConfigOf(c, d)
    requires x in Neighbours(d, c, cd)
    ensures IsConfigOf(x, d) && x !in cd
  {
    var k, v :| k in c && v in d.vals[k] - {c[k]} && c[k := v] !in cd && x == c[k := v];
  }

  /** `pop` lists the neighbours `nbrs` once each and then pads them with
      fresh configurations of the domain up to `popSiz`, or up to as many as
      are left. */
  predicate Padded(pop: seq<Config>, nbrs: set<Config>, popSiz: int, d: Dom, cd: ConfigsD)
    requires ValidDom(d)
  {
    && |nbrs| <= |pop|
    && Distinct(pop[..|nbrs|]) && Elems(pop[..|nbrs|]) == nbrs
    && var extra := pop[|nbrs|..];
      && Distinct(extra)
      && (forall i | 0 <= i < |extra| :: IsConfigOf(extra[i], d) && extra[i] !in cd)
      && |extra| == (if popSiz > |nbrs| then Min(popSiz - |nbrs|, |AllConfigs(d) - cd.Keys|) else 0)
  }

  /** The requirements `gen_pop` asserts or relies on. */
  predicate GenPopOk(oldPop: seq<Config>, popSiz: int, cd: ConfigsD, d: Dom)
  {
    && ValidDom(d)
    && oldPop != [] && popSiz > 0 && cd != map[]
    && (forall i | 0 <= i < |oldPop| :: IsConfigOf(oldPop[i], d))
    && (forall c | c in cd :: IsConfigOf(c, d))
  }

  /** `EC.gen_pop` as intended: the unevaluated neighbours of a randomly
      chosen parent, padded with fresh random configurations up to
      `popSiz`; `gen_configs_rand_smt` asserts that no more are asked for
      than the domain holds. */
  method GenPop(sid: Sid, oldPop: seq<Config>, popSiz: int, cd: ConfigsD, fits: Fits, d: Dom)
    returns (r: Result<seq<Config>, string>)
    requires GenPopOk(oldPop, popSiz, cd, d)
    ensures Parents(fits, sid, oldPop).Failure? ==> r == Failure(Parents(fits, sid, oldPop).error)
    ensures r.Success? ==> Parents(fits, sid, oldPop).Success?
    ensures r.Success? ==>
      exists b | b in Parents(fits, sid, oldPop).value :: Padded(r.value, Neighbours(d, b, cd), popSiz, d, cd)
    ensures r.Success? ==> forall i | 0 <= i < |r.value| :: IsConfigOf(r.value[i], d) && r.value[i] !in cd
    ensures r.Failure? && Parents(fits, sid, oldPop).Success? ==>
      && r.error == "AssertionError"
      && exists b | b in Parents(fits, sid, oldPop).value :: popSiz - |Neighbours(d, b, cd)| > Siz(d)
  {
    var parents := Parents(fits, sid, oldPop);
    if parents.Failure? {
      return Failure(parents.error);
    }
    ParentsSpec(fits, sid, oldPop);
    assert parents.value[0] in parents.value;
    var best :| best in parents.value;
    r := Breed(d, best, cd, popSiz);
  }

  /** The step of `gen_pop` after the parent `best` is chosen, as intended:
      its unevaluated neighbours, padded with fresh random configurations up
      to `popSiz`.  It fails exactly when the padding asks for more
      configurations than the domain holds. */
  method Breed(d: Dom, best: Config, cd: ConfigsD, popSiz: int) returns (r: Result<seq<Config>, string>)
    requires ValidDom(d) && IsConfigOf(best, d)
    requires forall c | c in cd :: IsConfigOf(c, d)
    ensures r.Failure? <==> popSiz - |Neighbours(d, best, cd)| > Siz(d)
    ensures r.Failure? ==> r.error == "AssertionError"
    ensures r.Success? ==> Padded(r.value, Neighbours(d, best, cd), popSiz, d, cd)
    ensures r.Success? ==> forall i | 0 <= i < |r.value| :: IsConfigOf(r.value[i], d) && r.value[i] !in cd
  {
    var pop := ListingOf(Neighbours(d, best, cd));
    NeighboursListed(d, best, cd, pop);
    var extra := Pad(d, cd, popSiz - |pop|);
    if extra.Failure? {
      return Failure(extra.error);
    }
    PaddedJoin(pop, extra.value, Neighbours(d, best, cd), popSiz, d, cd);
    r := Success(pop + extra.value);
  }

  /** The padding of `gen_pop`: `n` fresh random configurations of the
      domain when `n` is positive, or as many as are left;
      `gen_configs_rand_smt` refuses to ask for more than the domain
      holds. */
  method Pad(d: Dom, cd: ConfigsD, n: int) returns (r: Result<seq<Config>, string>)
    requires ValidDom(d)
    requires forall c | c in cd :: IsConfigOf(c, d)
    ensures r.Failure? <==> n > Siz(d)
    ensures r.Failure? ==> r.error == "AssertionError"
    ensures r.Success? ==>
      && Distinct(r.value)
      && (forall i | 0 <= i < |r.value| :: IsConfigOf(r.value[i], d) && r.value[i] !in cd)
      && |r.value| == (if n > 0 then Min(n, |AllConfigs(d) - cd.Keys|) else 0)
  {
    if n <= 0 {
      return Success([]);
    }
    if n > Siz(d) {
      return Failure("AssertionError");
    }
    var existing := ListingOf(cd.Keys);
    assert forall i | 0 <= i < |existing| :: existing[i] in cd;
    var extra := GenConfigsRandSmt(d, n, existing);
    r := Success(extra);
  }

  /** A listing of the neighbours of a configuration of the domain holds
      each once, all of them configurations of the domain not evaluated
      yet. */
  lemma NeighboursListed(d: Dom, c: Config, cd: ConfigsD, pop: seq<Config>)
    requires IsConfigOf(c, d)
    requires Distinct(pop) && Elems(pop) == Neighbours(d, c, cd)
    ensures |pop| == |Neighbours(d, c, cd)|
    ensures forall i | 0 <= i < |pop| :: IsConfigOf(pop[i], d) && pop[i] !in cd
  {
    DistinctCard(pop);
    forall i | 0 <= i < |pop|
      ensures IsConfigOf(pop[i], d) && pop[i] !in cd
    {
      assert pop[i] in Elems(pop);
      NeighbourInDom(d, c, cd, pop[i]);
    }
  }

  /** The neighbours followed by the random padding form a padded
      population. */
  lemma PaddedJoin(pop: seq<Config>, extra: seq<Config>, nbrs: set<Config>, popSiz: int, d: Dom, cd: ConfigsD)
    requires ValidDom(d)
    requires Distinct(pop) && Elems(pop) == nbrs && |pop| == |nbrs|
    requires forall i | 0 <= i < |pop| :: IsConfigOf(pop[i], d) && pop[i] !in cd
    requires Distinct(extra)
    requires forall i | 0 <= i < |extra| :: IsConfigOf(extra[i], d) && extra[i] !in cd
    requires |extra| == (if popSiz > |nbrs| then Min(popSiz - |nbrs|, |AllConfigs(d) - cd.Keys|) else 0)
    ensures Padded(pop + extra, nbrs, popSiz, d, cd)
    ensures forall i | 0 <= i < |pop + extra| :: IsConfigOf((pop + extra)[i], d) && (pop + extra)[i] !in cd
  {
    assert (pop + extra)[..|pop|] == pop && (pop + extra)[|pop|..] == extra;
  }

  /** `EC.gen_pop` as written: `gen_configs_rand_smt` is called without its
      `z3db` argument, so padding always raises `TypeError`, and the
      neighbours are those of the character-set computation. */
  method GenPopAsWritten(sid: Sid, oldPop: seq<Config>, popSiz: int, cd: ConfigsD, fits: Fits, d: Dom)
    returns (r: Result<seq<Config>, string>)
    requires GenPopOk(oldPop, popSiz, cd, d)
    ensures Parents(fits, sid, oldPop).Failure? ==> r == Failure(Parents(fits, sid, oldPop).error)
    ensures r.Success? ==> Parents(fits, sid, oldPop).Success?
    ensures r.Success? ==>
      exists b | b in Parents(fits, sid, oldPop).value ::
        && popSiz <= |NeighboursAsWritten(d, b, cd)|
        && Distinct(r.value) && Elems(r.value) == NeighboursAsWritten(d, b, cd)
    ensures r.Failure? && Parents(fits, sid, oldPop).Success? ==>
      && r.error == "TypeError"
      && exists b | b in Parents(fits, sid, oldPop).value :: |NeighboursAsWritten(d, b, cd)| < popSiz
  {
    var parents := Parents(fits, sid, oldPop);
    if parents.Failure? {
      return Failure(parents.error);
    }
    ParentsSpec(fits, sid, oldPop);
    assert parents.value[0] in parents.value;
    var best :| best in parents.value;
    r := BreedAsWritten(d, best, cd, popSiz);
  }

  /** The step of `gen_pop` after the parent is chosen, as written: it
      succeeds exactly when the character-set neighbours fill the
      population, and any padding raises `TypeError`. */
  method BreedAsWritten(d: Dom, best: Config, cd: ConfigsD, popSiz: int) returns (r: Result<seq<Config>, string>)
    requires ValidDom(d) && IsConfigOf(best, d)
    ensures r.Success? <==> popSiz <= |NeighboursAsWritten(d, best, cd)|
    ensures r.Failure? ==> r.error == "TypeError"
    ensures r.Success? ==> Distinct(r.value) && Elems(r.value) == NeighboursAsWritten(d, best, cd)
  {
    var pop := ListingOf(NeighboursAsWritten(d, best, cd));
    DistinctCard(pop);
    var randN := popSiz - |pop|;
    if randN > 0 {
      return Failure("TypeError");
    }
    r := Success(pop);
  }

  /** `go_sid`'s population size: the number of variables or the size of
      the largest value set, whichever is larger. */
  function PopSize(d: Dom): (n: nat)
    requires ValidDom(d)
  {
    if |d.vars| >= MaxFSiz(d) then |d.vars| else MaxFSiz(d)
  }

  /** The population size is positive and at least the number of
      variables and every value set's size. */
  lemma PopSizeBounds(d: Dom)
    requires ValidDom(d)
    ensures PopSize(d) >= 1 && PopSize(d) >= |d.vars|
    ensures forall k | k in d.vals :: |d.vals[k]| <= PopSize(d)
    ensures PopSize(d) == |d.vars| || exists k | k in d.vals :: |d.vals[k]| == PopSize(d)
  {
  }

  /** A domain with one two-valued variable. */
  predicate OneBit(d: Dom)
  {
    d == Dom(["x"], map["x" := {"0", "1"}])
  }

  /** On that domain every configuration has fewer neighbours than the
      population size, so `gen_pop` as written always pads and always raises,
      while the intended padding is within the domain's size. */
  lemma OneBitPads(d: Dom, c: Config, cd: ConfigsD)
    requires OneBit(d) && IsConfigOf(c, d)
    ensures ValidDom(d) && PopSize(d) == 2 && Siz(d) == 2
    ensures |NeighboursAsWritten(d, c, cd)| < PopSize(d)
    ensures PopSize(d) - |Neighbours(d, c, cd)| <= Siz(d)
  {
    assert ValidDom(d);
    assert MaxFSiz(d) == 2 by {
      assert d.vals.Keys == {"x"};
      assert |d.vals["x"]| == 2;
    }
    assert Siz(d) == 2 by {
      assert d.vars[1..] == [];
      assert |d.vals["x"]| == 2;
    }
    var other := if c["x"] == "0" then "1" else "0";
    CharsOfChar(c["x"]);
    assert NeighboursAsWritten(d, c, cd) <= {c["x" := other]} by {
      forall x | x in NeighboursAsWritten(d, c, cd)
        ensures x == c["x" := other]
      {
        var k, v :| k in c && v in d.vals[k] - Chars(c[k]) && c[k := v] !in cd && x == c[k := v];
        assert k == "x";
        assert v == other;
      }
    }
    SubsetCard(NeighboursAsWritten(d, c, cd), {c["x" := other]});
  }

  // ---------------------------------------------------------------------
  // Stagnation and elitism in `go_sid`
  // ---------------------------------------------------------------------

  /** `max_stuck`. */
  const MaxStuck: nat := 3

  /** Whether an iteration made progress: more locations covered, a better
      best fitness, or more configurations ever found best.  The average
      fitness signal of the source is switched off. */
  function Progress(ncovs: nat, curNcovs: nat, bestFit: real, curBestFit: real, nbests: nat, curNbests: nat): bool
  {
    ncovs > curNcovs || bestFit > curBestFit || nbests > curNbests
  }

  /** The stuck counter after one iteration. */
  function StuckAfter(stuck: nat, progress: bool): nat
  {
    if progress then 0 else stuck + 1
  }

  /** The stuck counter after iterations with the given progress flags. */
  function StuckOf(flags: seq<bool>): nat
  {
    if flags == [] then 0 else StuckAfter(StuckOf(flags[..|flags| - 1]), flags[|flags| - 1])
  }

  /** The counter is the length of the final run of iterations without
      progress. */
  lemma {:induction false} StuckIsTrailingRun(flags: seq<bool>)
    ensures StuckOf(flags) <= |flags|
    ensures forall i | |flags| - StuckOf(flags) <= i < |flags| :: !flags[i]
    ensures StuckOf(flags) < |flags| ==> flags[|flags| - StuckOf(flags) - 1]
  {
    if flags != [] {
      var init := flags[..|flags| - 1];
      StuckIsTrailingRun(init);
      assert forall i | 0 <= i < |init| :: init[i] == flags[i];
    }
  }

  /** `go_sid` gives up exactly after `max_stuck + 1` consecutive iterations
      without progress. */
  lemma StopsIff(flags: seq<bool>)
    ensures StuckOf(flags) > MaxStuck <==>
      |flags| > MaxStuck && forall i | |flags| - MaxStuck - 1 <= i < |flags| :: !flags[i]
  {
    StuckIsTrailingRun(flags);
    var n := StuckOf(flags);
    if n <= MaxStuck && n < |flags| {
      assert flags[|flags| - n - 1] && |flags| - MaxStuck - 1 <= |flags| - n - 1;
    }
  }

  /** Elitism: when the new population's best is worse than the previous
      best, the previous best individual joins the population. */
  function Elitism(pop: seq<Config>, bestFit: real, curBestFit: real, curBest: Config): seq<Config>
  {
    if bestFit < curBestFit then pop + [curBest] else pop
  }

  /** After elitism the population's best fitness is at least the previous
      best and at least the new one. */
  lemma ElitismKeepsBest(fits: Fits, sid: Sid, pop: seq<Config>, curBest: Config)
    requires AllScored(fits, sid, pop) && pop != []
    requires curBest in fits && sid in fits[curBest]
    ensures var next := Elitism(pop, AvgBest(fits, sid, pop).value.1, fits[curBest][sid], curBest);
      && AllScored(fits, sid, next)
      && AvgBest(fits, sid, next).value.1 >= fits[curBest][sid]
      && AvgBest(fits, sid, next).value.1 >= AvgBest(fits, sid, pop).value.1
  {
    var bestFit := AvgBest(fits, sid, pop).value.1;
    var next := Elitism(pop, bestFit, fits[curBest][sid], curBest);
    AvgBestBest(fits, sid, pop);
    assert AllScored(fits, sid, next);
    AvgBestBest(fits, sid, next);
    var b :| b in pop && fits[b][sid] == bestFit;
    var i :| 0 <= i < |pop| && pop[i] == b;
    assert next[i] == b;
    if bestFit < fits[curBest][sid] {
      assert next[|pop|] == curBest;
    }
  }

  // ---------------------------------------------------------------------
  // `go_sid`
  // ---------------------------------------------------------------------

  /** Every recorded configuration is one of the domain. */
  predicate RecordedInDom(cd: ConfigsD, d: Dom)
  {
    forall c | c in cd :: IsConfigOf(c, d)
  }

  /** What holds of the search state of `go_sid` between iterations. */
  /** What a search for `sid` that started from `cd0` has recorded: only
      observations of configurations of the domain, and `covs` is the
      coverage they added. */
  predicate Searched(sid: Sid, d: Dom, run: Config -> set<Sid>, cd0: ConfigsD, cd: ConfigsD, covs: set<Sid>)
  {
    Extends(cd0, cd) && Observed(cd0, cd, run, ReqS(sid)) && covs == NewCov(cd0, cd) && RecordedInDom(cd, d)
  }

  /** A population of evaluated configurations of the domain, all scored. */
  predicate PopOk(sid: Sid, d: Dom, cd: ConfigsD, fits: Fits, pop: seq<Config>)
  {
    && pop != [] && AllScored(fits, sid, pop)
    && forall i | 0 <= i < |pop| :: pop[i] in cd && IsConfigOf(pop[i], d)
  }

  /** The state `go_sid` keeps between generations. */
  predicate SearchInv(sid: Sid, d: Dom, run: Config -> set<Sid>, cd0: ConfigsD, cd: ConfigsD, covs: set<Sid>,
                      fits: Fits, pop: seq<Config>)
  {
    Searched(sid, d, run, cd0, cd, covs) && PopOk(sid, d, cd, fits, pop)
  }

  lemma ExtendsTrans(a: ConfigsD, b: ConfigsD, c: ConfigsD)
    requires Extends(a, b) && Extends(b, c)
    ensures Extends(a, c)
  {
  }

  /** Coverage newly recorded over two steps is that of each step. */
  lemma NewCovTrans(a: ConfigsD, b: ConfigsD, c: ConfigsD)
    requires Extends(a, b) && Extends(b, c)
    ensures NewCov(a, c) == NewCov(a, b) + NewCov(b, c)
  {
    forall s | s in NewCov(a, c)
      ensures s in NewCov(a, b) + NewCov(b, c)
    {
      var x :| x in c && x !in a && s in c[x];
      if x in b {
        assert b[x] == c[x];
      }
    }
    forall s | s in NewCov(a, b)
      ensures s in NewCov(a, c)
    {
      var x :| x in b && x !in a && s in b[x];
      assert c[x] == b[x];
    }
  }

  lemma ObservedTrans(a: ConfigsD, b: ConfigsD, c: ConfigsD, run: Config -> set<Sid>, reqS: string)
    requires Extends(a, b) && Extends(b, c)
    requires Observed(a, b, run, reqS) && Observed(b, c, run, reqS)
    ensures Observed(a, c, run, reqS)
  {
    forall x | x in c && x !in a
      ensures c[x] == Observe(run, x, reqS)
    {
      if x in b {
        assert c[x] == b[x];
      }
    }
  }

  /** Evaluating a population drawn from the domain keeps the recorded
      configurations within the domain. */
  lemma EvalInDom(cd: ConfigsD, cd': ConfigsD, pop: seq<Config>, d: Dom)
    requires RecordedInDom(cd, d)
    requires forall i | 0 <= i < |pop| :: IsConfigOf(pop[i], d)
    requires cd'.Keys <= cd.Keys + Elems(pop)
    ensures RecordedInDom(cd', d)
  {
    forall c | c in cd'
      ensures IsConfigOf(c, d)
    {
      if c !in cd {
        var i :| 0 <= i < |pop| && pop[i] == c;
      }
    }
  }

  /** The outcome of one generation of `go_sid`: the offspring bred, the
      best fitness of the parents (`cur_best_fit`) and of the offspring
      (`best_fit`), the next population and the progress judgement. */
  datatype Gen = Gen(found: bool, cd: ConfigsD, covs: set<Sid>, fits: Fits, offspring: seq<Config>,
                     pop: seq<Config>, bests: set<Config>, curBestFit: real, bestFit: real, progress: bool)

  /** The first half of a generation: the current best of the population,
      the configurations found best so far, and the offspring bred from the
      population. */
  method Breeding(sid: Sid, d: Dom, cd: ConfigsD, fits: Fits, pop: seq<Config>, bests: set<Config>)
    returns (r: Result<(seq<Config>, real, Config, set<Config>), string>)
    requires ValidDom(d) && RecordedInDom(cd, d) && PopOk(sid, d, cd, fits, pop)
    ensures r.Success? ==> r.value.0 != [] && forall i | 0 <= i < |r.value.0| ::
      IsConfigOf(r.value.0[i], d) && r.value.0[i] !in cd
    ensures r.Success? ==> r.value.2 in pop && r.value.1 == fits[r.value.2][sid]
    ensures r.Success? ==> (forall i | 0 <= i < |pop| :: fits[pop[i]][sid] <= r.value.1) && bests <= r.value.3
    ensures r.Success? ==> r.value.3 == bests + Elems(PopBests(fits, sid, pop, r.value.1))
  {
    var curBestFit, curBest, bests1 := CurrentBest(sid, fits, pop, bests);
    PopSizeBounds(d);
    assert pop[0] in cd;
    var g := GenPop(sid, pop, PopSize(d), cd, fits, d);
    if g.Failure? {
      return Failure(g.error);
    }
    if g.value == [] {
      return Failure("AssertionError");
    }
    r := Success((g.value, curBestFit, curBest, bests1));
  }

  /** The current statistics of a scored population: its best fitness, a
      member carrying it, and the best set grown by every member that
      carries it. */
  method CurrentBest(sid: Sid, fits: Fits, pop: seq<Config>, bests: set<Config>)
    returns (curBestFit: real, curBest: Config, bests': set<Config>)
    requires pop != [] && AllScored(fits, sid, pop)
    ensures curBest in pop && curBestFit == fits[curBest][sid]
    ensures forall i | 0 <= i < |pop| :: fits[pop[i]][sid] <= curBestFit
    ensures bests' == bests + Elems(PopBests(fits, sid, pop, curBestFit))
  {
    var ab := GetAvgBest(fits, sid, Some(pop), []);
    var (_, bf, b) := ab.value;
    AvgBestBest(fits, sid, pop);
    curBestFit, curBest := bf, b;
    bests' := bests + Elems(PopBests(fits, sid, pop, curBestFit));
  }

  /** `Breeding` through `gen_pop` as written: the offspring are all the
      character-set neighbours of a best parent, and the generation raises
      `TypeError` whenever a parent has fewer of them than `pop_siz`. */
  method BreedingAsWritten(sid: Sid, d: Dom, cd: ConfigsD, fits: Fits, pop: seq<Config>, bests: set<Config>)
    returns (r: Result<(seq<Config>, real, Config, set<Config>), string>)
    requires ValidDom(d) && RecordedInDom(cd, d) && PopOk(sid, d, cd, fits, pop)
    ensures Parents(fits, sid, pop).Failure? ==> r == Failure(Parents(fits, sid, pop).error)
    ensures r.Success? ==> Parents(fits, sid, pop).Success?
    ensures r.Success? ==> exists b | b in Parents(fits, sid, pop).value ::
      && PopSize(d) <= |NeighboursAsWritten(d, b, cd)|
      && Distinct(r.value.0) && Elems(r.value.0) == NeighboursAsWritten(d, b, cd)
    ensures r.Success? ==> r.value.2 in pop && r.value.1 == fits[r.value.2][sid]
    ensures r.Success? ==> (forall i | 0 <= i < |pop| :: fits[pop[i]][sid] <= r.value.1) && bests <= r.value.3
    ensures r.Success? ==> r.value.3 == bests + Elems(PopBests(fits, sid, pop, r.value.1))
    ensures r.Failure? && Parents(fits, sid, pop).Success? ==>
      && r.error == "TypeError"
      && exists b | b in Parents(fits, sid, pop).value :: |NeighboursAsWritten(d, b, cd)| < PopSize(d)
  {
    var curBestFit, curBest, bests1 := CurrentBest(sid, fits, pop, bests);
    PopSizeBounds(d);
    assert pop[0] in cd;
    var g := GenPopAsWritten(sid, pop, PopSize(d), cd, fits, d);
    if g.Failure? {
      return Failure(g.error);
    }
    r := Success((g.value, curBestFit, curBest, bests1));
  }

  /** Evaluating configurations of the domain continues a search: what has
      been observed since its start is still all that was recorded since. */
  lemma EvalStep(sid: Sid, d: Dom, run: Config -> set<Sid>, cd0: ConfigsD, cd: ConfigsD, covs: set<Sid>,
                 cd': ConfigsD, covs': set<Sid>, pop: seq<Config>)
    requires Searched(sid, d, run, cd0, cd, covs)
    requires Extends(cd, cd') && Observed(cd, cd', run, ReqS(sid)) && covs' == covs + NewCov(cd, cd')
    requires cd'.Keys <= cd.Keys + Elems(pop) && forall i | 0 <= i < |pop| :: IsConfigOf(pop[i], d)
    ensures Searched(sid, d, run, cd0, cd', covs')
  {
    NewCovTrans(cd0, cd, cd');
    ObservedTrans(cd0, cd, cd', run, ReqS(sid));
    EvalInDom(cd, cd', pop, d);
  }

  /** A search starts with nothing new recorded. */
  lemma SearchStart(sid: Sid, d: Dom, run: Config -> set<Sid>, cd: ConfigsD)
    requires RecordedInDom(cd, d)
    ensures Searched(sid, d, run, cd, cd, {})
  {
    assert NewCov(cd, cd) == {};
  }

  /** `eval_configs` within a search: the search state is kept, `found`
      says whether `sid` was newly reached, and otherwise every
      configuration of `pop` has been evaluated. */
  method Evaluate(sid: Sid, d: Dom, run: Config -> set<Sid>, cd0: ConfigsD, cd: ConfigsD, covs: set<Sid>,
                  pop: seq<Config>)
    returns (found: bool, cd': ConfigsD, covs': set<Sid>)
    requires Searched(sid, d, run, cd0, cd, covs)
    requires pop != [] && forall i | 0 <= i < |pop| :: IsConfigOf(pop[i], d)
    ensures Searched(sid, d, run, cd0, cd', covs')
    ensures Extends(cd, cd') && (found <==> sid in NewCov(cd, cd'))
    ensures !found ==> forall i | 0 <= i < |pop| :: pop[i] in cd'
  {
    found, cd', covs' := EvalConfigs(sid, pop, ReqS(sid), run, cd, covs);
    EvalStep(sid, d, run, cd0, cd, covs, cd', covs', pop);
    if !found {
      assert forall i | 0 <= i < |pop| :: pop[i] in Elems(pop);
    }
  }

  /** The second half of a generation: score the offspring, find their
      best, and add the previous best when it is fitter (elitism). */
  method Scoring(sid: Sid, d: Dom, paths: seq<set<Sid>>, cd: ConfigsD, fits: Fits, offspring: seq<Config>,
                 curBestFit: real, curBest: Config, bests: set<Config>)
    returns (r: Result<(Fits, seq<Config>, set<Config>, real), string>)
    requires paths != [] && offspring != []
    requires forall i | 0 <= i < |offspring| :: offspring[i] in cd && IsConfigOf(offspring[i], d)
    requires curBest in cd && IsConfigOf(curBest, d)
    requires curBest in fits && sid in fits[curBest] && curBestFit == fits[curBest][sid]
    ensures r.Failure? <==> !PathsOk(paths) && NeedsScoring(fits, sid, offspring)
    ensures r.Success? ==> PopOk(sid, d, cd, r.value.0, r.value.1) && bests <= r.value.2
    ensures r.Success? ==> AllScored(r.value.0, sid, offspring)
    ensures r.Success? ==> var (fits', next, _, bestFit) := r.value;
      && bestFit == AvgBest(fits', sid, offspring).value.1
      && AvgBest(fits', sid, next).value.1 >= curBestFit
      && AvgBest(fits', sid, next).value.1 >= bestFit
    ensures r.Success? ==> r.value.1 == Elitism(offspring, r.value.3, curBestFit, curBest)
    ensures r.Success? ==> r.value.2 == bests + Elems(PopBests(r.value.0, sid, offspring, r.value.3))
  {
    var fr := ComputeChecked(fits, sid, paths, offspring, cd);
    ComputeCheckedSpec(fits, sid, paths, offspring, cd);
    if fr.Failure? {
      return Failure(fr.error);
    }
    var fits' := fr.value;
    var ab := GetAvgBest(fits', sid, Some(offspring), []);
    var (_, bestFit, _) := ab.value;
    var bests' := bests + Elems(PopBests(fits', sid, offspring, bestFit));
    assert curBest in fits' && fits'[curBest] == fits[curBest];
    ElitismKeepsBest(fits', sid, offspring, curBest);
    var next := Elitism(offspring, bestFit, curBestFit, curBest);
    ElitePop(sid, d, cd, fits', offspring, bestFit, curBestFit, curBest);
    r := Success((fits', next, bests', bestFit));
  }

  /** Elitism keeps a population of evaluated, scored configurations of
      the domain. */
  lemma ElitePop(sid: Sid, d: Dom, cd: ConfigsD, fits: Fits, pop: seq<Config>, bestFit: real, curBestFit: real,
                 curBest: Config)
    requires PopOk(sid, d, cd, fits, pop)
    requires curBest in cd && IsConfigOf(curBest, d) && curBest in fits && sid in fits[curBest]
    ensures PopOk(sid, d, cd, fits, Elitism(pop, bestFit, curBestFit, curBest))
  {
  }

  /** One iteration of `go_sid` from the second on: breed from the current
      population, evaluate the offspring, and unless they reach `sid` score
      them, keep the elite and judge progress. */
  method Generation(sid: Sid, d: Dom, paths: seq<set<Sid>>, run: Config -> set<Sid>, cd0: ConfigsD,
                    cd: ConfigsD, covs: set<Sid>, fits: Fits, pop: seq<Config>, bests: set<Config>)
    returns (r: Result<Gen, string>)
    requires ValidDom(d) && paths != []
    requires SearchInv(sid, d, run, cd0, cd, covs, fits, pop)
    ensures r.Success? ==> Searched(sid, d, run, cd0, r.value.cd, r.value.covs)
    ensures r.Success? ==> (r.value.found <==> sid in NewCov(cd, r.value.cd))
    ensures r.Success? && !r.value.found ==> PopOk(sid, d, r.value.cd, r.value.fits, r.value.pop)
    ensures r.Success? ==> forall i | 0 <= i < |pop| :: fits[pop[i]][sid] <= r.value.curBestFit
    ensures r.Success? ==> exists j | 0 <= j < |pop| :: fits[pop[j]][sid] == r.value.curBestFit
    ensures r.Success? && !r.value.found ==> var g := r.value;
      && g.offspring != [] && AllScored(g.fits, sid, g.offspring)
      && g.bestFit == AvgBest(g.fits, sid, g.offspring).value.1
      && (exists j | 0 <= j < |pop| :: fits[pop[j]][sid] == g.curBestFit
            && g.pop == Elitism(g.offspring, g.bestFit, g.curBestFit, pop[j]))
      && g.bests == bests + Elems(PopBests(fits, sid, pop, g.curBestFit))
                          + Elems(PopBests(g.fits, sid, g.offspring, g.bestFit))
      && g.progress == Progress(|g.covs|, |covs|, g.bestFit, g.curBestFit, |g.bests|,
                                |bests + Elems(PopBests(fits, sid, pop, g.curBestFit))|)
  {
    var b := Breeding(sid, d, cd, fits, pop, bests);
    if b.Failure? {
      return Failure(b.error);
    }
    var (offspring, curBestFit, curBest, bests1) := b.value;
    var found, cd', covs' := Evaluate(sid, d, run, cd0, cd, covs, offspring);
    if found {
      return Success(Gen(true, cd', covs', fits, offspring, offspring, bests1, curBestFit, curBestFit, true));
    }
    var s := Scoring(sid, d, paths, cd', fits, offspring, curBestFit, curBest, bests1);
    if s.Failure? {
      return Failure(s.error);
    }
    var (fits', next, bests2, bestFit) := s.value;
    assert PopOk(sid, d, cd', fits', next);
    var progress := Progress(|covs'|, |covs|, bestFit, curBestFit, |bests2|, |bests1|);
    r := Success(Gen(false, cd', covs', fits', offspring, next, bests2, curBestFit, bestFit, progress));
  }

  /** The generations of `go_sid`: at most `fuel` of them, stopping when
      `sid` is reached or after `max_stuck + 1` consecutive generations
      without progress. */
  method Search(sid: Sid, d: Dom, paths: seq<set<Sid>>, run: Config -> set<Sid>, cd0: ConfigsD,
                cd: ConfigsD, covs: set<Sid>, fits: Fits, pop: seq<Config>, fuel: nat)
    returns (r: Result<(set<Sid>, ConfigsD, Fits), string>)
    requires ValidDom(d) && paths != []
    requires SearchInv(sid, d, run, cd0, cd, covs, fits, pop)
    ensures r.Success? ==> Searched(sid, d, run, cd0, r.value.1, r.value.0)
  {
    var cdc, covsc, fitsc, popc := cd, covs, fits, pop;
    var bests: set<Config> := {};
    var stuck: nat := 0;
    var left := fuel;
    while left > 0
      invariant SearchInv(sid, d, run, cd0, cdc, covsc, fitsc, popc)
    {
      var gr := Generation(sid, d, paths, run, cd0, cdc, covsc, fitsc, popc, bests);
      if gr.Failure? {
        return Failure(gr.error);
      }
      var gen := gr.value;
      if gen.found {
        return Success((gen.covs, gen.cd, gen.fits));
      }
      cdc, covsc, fitsc, popc, bests := gen.cd, gen.covs, gen.fits, gen.pop, gen.bests;
      stuck := StuckAfter(stuck, gen.progress);
      if stuck > MaxStuck {
        break;
      }
      left := left - 1;
    }
    r := Success((covsc, cdc, fitsc));
  }

  /** `EC.go_sid`: search for configurations reaching `sid`.  The first
      iteration evaluates a covering array; unless it reaches `sid`, the
      paths to `sid` are checked (none raises a `ValueError`; when each has
      at most one location the search ends) and the first population is
      scored before the generations follow.  The result is the coverage
      observed during the search, the extended record of evaluated
      configurations and the fitnesses. */
  method GoSid(sid: Sid, d: Dom, paths: seq<set<Sid>>, run: Config -> set<Sid>, cd: ConfigsD, fits: Fits, fuel: nat)
    returns (r: Result<(set<Sid>, ConfigsD, Fits), string>)
    requires ValidDom(d) && RecordedInDom(cd, d)
    ensures r.Success? ==> Extends(cd, r.value.1) && Observed(cd, r.value.1, run, ReqS(sid))
    ensures r.Success? ==> r.value.0 == NewCov(cd, r.value.1) && RecordedInDom(r.value.1, d)
    ensures r.Failure? && paths == [] ==> r.error == "ValueError"
    ensures paths != [] && (forall i | 0 <= i < |paths| :: |paths[i]| <= 1) ==> r.Success? && r.value.2 == fits
  {
    var pop := TCover1(d);
    SearchStart(sid, d, run, cd);
    var found, cdc, covs := Evaluate(sid, d, run, cd, cd, {}, pop);
    if found {
      return Success((covs, cdc, fits));
    }
    if paths == [] {
      return Failure("ValueError");
    }
    if forall i | 0 <= i < |paths| :: |paths[i]| <= 1 {
      return Success((covs, cdc, fits));
    }
    var fr := ComputeChecked(fits, sid, paths, pop, cdc);
    ComputeCheckedSpec(fits, sid, paths, pop, cdc);
    if fr.Failure? {
      return Failure(fr.error);
    }
    r := Search(sid, d, paths, run, cd, cdc, covs, fr.value, pop, fuel);
  }

  // ---------------------------------------------------------------------
  // `go`
  // ---------------------------------------------------------------------

  /** The recorded coverage is part of what the runs reach. */
  predicate Sound(cd: ConfigsD, run: Config -> set<Sid>)
  {
    forall c | c in cd :: cd[c] <= run(c)
  }

  lemma ObservedSound(cd: ConfigsD, cd': ConfigsD, run: Config -> set<Sid>, reqS: string)
    requires Sound(cd, run) && Extends(cd, cd') && Observed(cd, cd', run, reqS)
    ensures Sound(cd', run)
  {
    forall c | c in cd'
      ensures cd'[c] <= run(c)
    {
      if c !in cd {
        assert cd'[c] == Observe(run, c, reqS);
      }
    }
  }

  /** The targets of `xs` not yet covered, in order. */
  function Uncovered(xs: seq<Sid>, covs: set<Sid>): (r: seq<Sid>)
    ensures |r| <= |xs|
    ensures forall x :: x in r <==> x in xs && x !in covs
  {
    if xs == [] then []
    else if xs[0] in covs then Uncovered(xs[1..], covs)
    else [xs[0]] + Uncovered(xs[1..], covs)
  }

  /** `EC.go`: search for each target location that the control-flow graph
      knows, largest first, skipping those a previous search happened to
      cover.  The targets found are exactly those some evaluated
      configuration was seen to reach, and the search succeeds exactly when
      that is all of them.  `pathsOf` gives each target's paths. */
  method Go(sids: set<Sid>, avail: set<Sid>, d: Dom, pathsOf: Sid -> seq<set<Sid>>, run: Config -> set<Sid>, fuel: nat)
    returns (r: Result<(bool, set<Sid>, ConfigsD), string>)
    requires ValidDom(d)
    ensures r.Success? ==> r.value.1 == (sids * avail) * NewCov(map[], r.value.2)
    ensures r.Success? ==> (r.value.0 <==> r.value.1 == sids * avail)
    ensures r.Success? ==> RecordedInDom(r.value.2, d) && Sound(r.value.2, run)
  {
    var targets := sids * avail;
    var remains := Sorted(targets);
    var covs: set<Sid> := {};
    var cd: ConfigsD := map[];
    var fits: Fits := map[];
    var found: set<Sid> := {};
    while remains != []
      invariant covs == NewCov(map[], cd) && RecordedInDom(cd, d) && Sound(cd, run)
      invariant found == targets * covs
      decreases |remains|
    {
      var s := remains[|remains| - 1];
      remains := remains[..|remains| - 1];
      var res := GoSid(s, d, pathsOf(s), run, cd, fits, fuel);
      if res.Failure? {
        return Failure(res.error);
      }
      var (covs', cd', fits') := res.value;
      NewCovTrans(map[], cd, cd');
      ObservedSound(cd, cd', run, ReqS(s));
      covs, cd, fits := covs + covs', cd', fits';
      remains := Uncovered(remains, covs);
      found := targets * covs;
    }
    r := Success((found == targets, found, cd));
  }
}

=== FILE: fitness.dfy ===
/** The fitness bookkeeping of the evolutionary search: `Fits_d`
    (iga/ec_alg.py:39-125).  A fitness is a ratio of counts, so it is an
    exact `real` here. */
module Fitness {
  import opened Wrappers
  import opened Domains
  import opened Cores
  import opened CovMaps
  import Generators

  /** `Fits_d`: for each evaluated configuration, its fitness for each
      target location scored so far. */
  type Fits = map<Config, map<Sid, real>>

  /** `Fits_d.__setitem__`: a configuration is entered once. */
  function Put(fits: Fits, c: Config, f: map<Sid, real>): (r: Result<Fits, string>)
  {
    if c in fits then Failure("AssertionError") else Success(fits[c := f])
  }

  /** Entering a configuration succeeds exactly when it is new, stores the
      given scores and keeps every other entry; entering it again is
      refused. */
  lemma PutOnce(fits: Fits, c: Config, f: map<Sid, real>, g: map<Sid, real>)
    ensures Put(fits, c, f).Success? <==> c !in fits
    ensures Put(fits, c, f).Success? ==>
      && Put(fits, c, f).value.Keys == fits.Keys + {c}
      && Put(fits, c, f).value[c] == f
      && (forall x | x in fits :: Put(fits, c, f).value[x] == fits[x])
      && Put(Put(fits, c, f).value, c, g).Failure?
  {
  }

  // ---------------------------------------------------------------------
  // Scores of one coverage against one path
  // ---------------------------------------------------------------------

  /** `get_vscore`: 1 when the coverage is the path, otherwise the share of
      the path's locations that the coverage reaches. */
  function VScore(cov: set<Sid>, path: set<Sid>): real
    requires path != {}
  {
    if cov == path then 1.0 else (|cov * path| as real) / (|path| as real)
  }

  /** `get_vscore` lies in [0, 1]; it is 1 exactly when the coverage
      reaches the whole path and 0 exactly when it reaches none of it. */
  lemma VScoreRange(cov: set<Sid>, path: set<Sid>)
    requires path != {}
    ensures 0.0 <= VScore(cov, path) <= 1.0
    ensures VScore(cov, path) == 1.0 <==> path <= cov
    ensures VScore(cov, path) == 0.0 <==> cov !! path
  {
    Generators.SubsetCard(cov * path, path);
    if path <= cov {
      assert cov * path == path;
    }
    if cov != path && VScore(cov, path) == 1.0 {
      Generators.SubsetCardEq(cov * path, path);
    }
    if cov !! path {
      assert cov * path == {};
    }
    if cov != path && VScore(cov, path) == 0.0 {
      assert |cov * path| == 0;
      assert forall s | s in cov && s in path :: s in cov * path;
    }
  }

  lemma MulNonneg(a: real, b: real)
    requires a >= 0.0 && b >= 0.0
    ensures a * b >= 0.0
  {
  }

  lemma MulZero(a: real, b: real)
    requires a * b == 0.0 && b != 0.0
    ensures a == 0.0
  {
  }

  /** The harmonic mean of two ratios in [0, 1] is at most 1, and is 1 only
      when both are. */
  lemma HarmonicBound(p: real, r: real)
    requires 0.0 <= p <= 1.0 && 0.0 <= r <= 1.0 && r + p > 0.0
    ensures 0.0 <= 2.0 * r * p / (r + p) <= 1.0
    ensures 2.0 * r * p / (r + p) == 1.0 ==> p == 1.0 && r == 1.0
  {
    MulNonneg(r, 1.0 - p);
    MulNonneg(p, 1.0 - r);
    MulNonneg(r, p);
    assert r + p - 2.0 * r * p == r * (1.0 - p) + p * (1.0 - r);
    if 2.0 * r * p / (r + p) == 1.0 {
      assert 2.0 * r * p == r + p;
      assert r * (1.0 - p) == 0.0 && p * (1.0 - r) == 0.0;
      if p != 1.0 {
        MulZero(r, 1.0 - p);
        MulZero(p, 1.0 - r);
      }
    }
  }

  /** A count over itself plus another count is in [0, 1], and 1 only when
      the other count is 0. */
  lemma RatioOne(tp: nat, other: nat)
    ensures 0.0 <= Precision(tp, other) <= 1.0
    ensures Precision(tp, other) == 1.0 ==> other == 0
  {
  }

  /** The precision of the coverage against the path, `p` of `get_fscore`. */
  function Precision(tp: nat, fp: nat): real
  {
    if tp + fp == 0 then 0.0 else (tp as real) / ((tp + fp) as real)
  }

  /** The recall of the coverage against the path, `r` of `get_fscore`. */
  function Recall(tp: nat, fn: nat): real
  {
    if tp + fn == 0 then 0.0 else (tp as real) / ((tp + fn) as real)
  }

  /** The F1 score of the counts of locations in both (`tp`), only in the
      coverage (`fp`) and only in the path (`fn`); 0 when precision and
      recall are both 0. */
  function F1(tp: nat, fp: nat, fn: nat): real
  {
    var p, r := Precision(tp, fp), Recall(tp, fn);
    if r + p == 0.0 then 0.0 else 2.0 * r * p / (r + p)
  }

  /** With a location on either side only, the F1 score lies in [0, 1) . */
  lemma F1Range(tp: nat, fp: nat, fn: nat)
    requires fp > 0 || fn > 0
    ensures 0.0 <= F1(tp, fp, fn) < 1.0
  {
    var p, r := Precision(tp, fp), Recall(tp, fn);
    RatioOne(tp, fp);
    RatioOne(tp, fn);
    assert r == Precision(tp, fn);
    if r + p != 0.0 {
      HarmonicBound(p, r);
      assert F1(tp, fp, fn) == 2.0 * r * p / (r + p);
    }
  }

  /** `get_fscore`: 1 when the coverage is the path or misses nothing
      either way, otherwise the F1 score of precision and recall. */
  function FScore(cov: set<Sid>, path: set<Sid>): real
    requires path != {}
  {
    if cov == path then 1.0
    else
      var tp, fp, fn := |cov * path|, |cov - path|, |path - cov|;
      if fp == 0 && fn == 0 then 1.0 else F1(tp, fp, fn)
  }

  /** `get_fscore` lies in [0, 1] and is 1 exactly when the coverage is the
      path. */
  lemma FScoreRange(cov: set<Sid>, path: set<Sid>)
    requires path != {}
    ensures 0.0 <= FScore(cov, path) <= 1.0
    ensures FScore(cov, path) == 1.0 <==> cov == path
  {
    if cov != path {
      assert |cov - path| > 0 || |path - cov| > 0 by {
        assert cov - path != {} || path - cov != {};
      }
      F1Range(|cov * path|, |cov - path|, |path - cov|);
    }
  }

  // ---------------------------------------------------------------------
  // `compute`
  // ---------------------------------------------------------------------

  /** Every path is non-empty (`get_vscore` asserts it). */
  predicate PathsOk(paths: seq<set<Sid>>)
  {
    paths != [] && forall i | 0 <= i < |paths| :: paths[i] != {}
  }

  /** `max(get_vscore(cov, path) for path in paths)`, the paths listed in
      their iteration order. */
  function MaxScore(cov: set<Sid>, paths: seq<set<Sid>>): (m: real)
    requires PathsOk(paths)
    decreases |paths|
  {
    if |paths| == 1 then VScore(cov, paths[0])
    else
      var rest := MaxScore(cov, paths[1..]);
      if VScore(cov, paths[0]) >= rest then VScore(cov, paths[0]) else rest
  }

  /** The fitness is the score of some path and no path scores higher; it
      is 1 exactly when the coverage reaches a whole path. */
  lemma {:induction false} MaxScoreIsMax(cov: set<Sid>, paths: seq<set<Sid>>)
    requires PathsOk(paths)
    ensures exists i | 0 <= i < |paths| :: MaxScore(cov, paths) == VScore(cov, paths[i])
    ensures forall i | 0 <= i < |paths| :: VScore(cov, paths[i]) <= MaxScore(cov, paths)
    ensures 0.0 <= MaxScore(cov, paths) <= 1.0
    ensures MaxScore(cov, paths) == 1.0 <==> exists i | 0 <= i < |paths| :: paths[i] <= cov
    decreases |paths|
  {
    VScoreRange(cov, paths[0]);
    if |paths| > 1 {
      assert PathsOk(paths[1..]);
      MaxScoreIsMax(cov, paths[1..]);
      forall i | 1 <= i < |paths|
        ensures paths[i] == paths[1..][i - 1]
      {
      }
      var j :| 0 <= j < |paths[1..]| && MaxScore(cov, paths[1..]) == VScore(cov, paths[1..][j]);
      assert MaxScore(cov, paths) == VScore(cov, paths[0]) || MaxScore(cov, paths) == VScore(cov, paths[j + 1]);
      forall i | 0 <= i < |paths|
        ensures VScore(cov, paths[i]) == 1.0 <==> paths[i] <= cov
      {
        VScoreRange(cov, paths[i]);
      }
    }
  }

  /** One turn of `compute`'s loop: a pair already scored is skipped;
      otherwise the configuration's fitness for `sid` is stored, in its
      existing entry or in a new one. */
  function ScoreOne(fits: Fits, sid: Sid, paths: seq<set<Sid>>, c: Config, cd: ConfigsD): Fits
    requires PathsOk(paths) && c in cd
  {
    if c in fits && sid in fits[c] then fits
    else
      var fit := MaxScore(cd[c], paths);
      if c in fits then fits[c := fits[c][sid := fit]] else fits[c := map[sid := fit]]
  }

  /** `compute`'s loop over `configs`, in order. */
  function ComputeOver(fits: Fits, sid: Sid, paths: seq<set<Sid>>, configs: seq<Config>, cd: ConfigsD): Fits
    requires PathsOk(paths) && forall i | 0 <= i < |configs| :: configs[i] in cd
    decreases |configs|
  {
    if configs == [] then fits
    else ComputeOver(ScoreOne(fits, sid, paths, configs[0], cd), sid, paths, configs[1..], cd)
  }

  /** `Fits_d.compute`; repeated configurations are allowed. */
  function Compute(fits: Fits, sid: Sid, paths: seq<set<Sid>>, configs: seq<Config>, cd: ConfigsD): Fits
    requires PathsOk(paths) && configs != []
    requires forall i | 0 <= i < |configs| :: configs[i] in cd
  {
    ComputeOver(fits, sid, paths, configs, cd)
  }

  /** What `compute` leaves for configuration `x`: an entry already scored
      for `sid` is untouched; a listed configuration gets its best path score
      for `sid` next to its other scores; anything else is unchanged. */
  function Expected(fits: Fits, sid: Sid, paths: seq<set<Sid>>, cd: ConfigsD, x: Config, listed: bool): Option<map<Sid, real>>
    requires PathsOk(paths) && (listed ==> x in cd)
  {
    if x in fits && sid in fits[x] then Some(fits[x])
    else if listed then Some((if x in fits then fits[x] else map[])[sid := MaxScore(cd[x], paths)])
    else if x in fits then Some(fits[x])
    else None
  }

  /** The entry `compute` leaves for any configuration is the expected one,
      whatever the order of the configurations and however often they
      repeat. */
  lemma {:induction false} ComputeAt(fits: Fits, sid: Sid, paths: seq<set<Sid>>, configs: seq<Config>, cd: ConfigsD, x: Config)
    requires PathsOk(paths) && forall i | 0 <= i < |configs| :: configs[i] in cd
    ensures x in ComputeOver(fits, sid, paths, configs, cd) <==> x in fits || x in configs
    ensures Expected(fits, sid, paths, cd, x, x in configs) ==
      (if x in ComputeOver(fits, sid, paths, configs, cd) then Some(ComputeOver(fits, sid, paths, configs, cd)[x]) else None)
    decreases |configs|
  {
    if configs != [] {
      var c := configs[0];
      var fits1 := ScoreOne(fits, sid, paths, c, cd);
      ComputeAt(fits1, sid, paths, configs[1..], cd, x);
      assert x in configs <==> x == c || x in configs[1..];
      if x == c && x in configs[1..] {
        assert x in fits1 && sid in fits1[x];
      }
    }
  }

  /** `compute` scores every listed configuration for `sid` with its best
      path score, unless it was scored already, and touches no other
      configuration or location. */
  lemma ComputeScores(fits: Fits, sid: Sid, paths: seq<set<Sid>>, configs: seq<Config>, cd: ConfigsD)
    requires PathsOk(paths) && configs != []
    requires forall i | 0 <= i < |configs| :: configs[i] in cd
    ensures Compute(fits, sid, paths, configs, cd).Keys == fits.Keys + set i | 0 <= i < |configs| :: configs[i]
    ensures forall x | x in Compute(fits, sid, paths, configs, cd) :: x in fits && sid in fits[x] ==>
      Compute(fits, sid, paths, configs, cd)[x] == fits[x]
    ensures forall i | 0 <= i < |configs| :: configs[i] !in fits || sid !in fits[configs[i]] ==>
      && sid in Compute(fits, sid, paths, configs, cd)[configs[i]]
      && Compute(fits, sid, paths, configs, cd)[configs[i]][sid] == MaxScore(cd[configs[i]], paths)
    ensures forall x | x in fits && x !in configs :: Compute(fits, sid, paths, configs, cd)[x] == fits[x]
  {
    var r := Compute(fits, sid, paths, configs, cd);
    forall x
      ensures x in r <==> x in fits || x in configs
      ensures Expected(fits, sid, paths, cd, x, x in configs) == (if x in r then Some(r[x]) else None)
    {
      ComputeAt(fits, sid, paths, configs, cd, x);
    }
    assert forall x :: x in configs <==> x in set i | 0 <= i < |configs| :: configs[i];
  }

  /** Some listed configuration is not yet scored for `sid`. */
  predicate NeedsScoring(fits: Fits, sid: Sid, configs: seq<Config>)
  {
    exists i | 0 <= i < |configs| :: configs[i] !in fits || sid !in fits[configs[i]]
  }

  /** When every listed configuration is scored already, `compute` changes
      nothing. */
  lemma {:induction false} ComputeNothingToDo(fits: Fits, sid: Sid, paths: seq<set<Sid>>, configs: seq<Config>, cd: ConfigsD)
    requires PathsOk(paths) && forall i | 0 <= i < |configs| :: configs[i] in cd
    requires !NeedsScoring(fits, sid, configs)
    ensures ComputeOver(fits, sid, paths, configs, cd) == fits
    decreases |configs|
  {
    if configs != [] {
      assert !NeedsScoring(fits, sid, configs[1..]) by {
        forall i | 0 <= i < |configs[1..]|
          ensures configs[1..][i] in fits && sid in fits[configs[1..][i]]
        {
          assert configs[1..][i] == configs[i + 1];
        }
      }
      ComputeNothingToDo(fits, sid, paths, configs[1..], cd);
    }
  }

  /** `compute` with `get_vscore`'s assertion that a path is non-empty:
      the assertion fails as soon as a configuration has to be scored
      while some path is empty. */
  function ComputeChecked(fits: Fits, sid: Sid, paths: seq<set<Sid>>, configs: seq<Config>, cd: ConfigsD): (r: Result<Fits, string>)
    requires paths != [] && configs != []
    requires forall i | 0 <= i < |configs| :: configs[i] in cd
  {
    if PathsOk(paths) then Success(Compute(fits, sid, paths, configs, cd))
    else if NeedsScoring(fits, sid, configs) then Failure("AssertionError")
    else Success(fits)
  }

  /** The checked `compute` fails exactly when an empty path meets a
      configuration still to be scored; otherwise afterwards every listed
      configuration is scored for `sid`, and scores already present are
      kept. */
  lemma ComputeCheckedSpec(fits: Fits, sid: Sid, paths: seq<set<Sid>>, configs: seq<Config>, cd: ConfigsD)
    requires paths != [] && configs != []
    requires forall i | 0 <= i < |configs| :: configs[i] in cd
    ensures ComputeChecked(fits, sid, paths, configs, cd).Failure? <==>
      !PathsOk(paths) && NeedsScoring(fits, sid, configs)
    ensures ComputeChecked(fits, sid, paths, configs, cd).Success? ==>
      && AllScored(ComputeChecked(fits, sid, paths, configs, cd).value, sid, configs)
      && fits.Keys <= ComputeChecked(fits, sid, paths, configs, cd).value.Keys
      && forall x | x in fits && sid in fits[x] :: ComputeChecked(fits, sid, paths, configs, cd).value[x] == fits[x]
  {
    if PathsOk(paths) {
      ComputeScores(fits, sid, paths, configs, cd);
      var r := Compute(fits, sid, paths, configs, cd);
      forall i | 0 <= i < |configs|
        ensures configs[i] in r && sid in r[configs[i]]
      {
        assert configs[i] in set j | 0 <= j < |configs| :: configs[j];
      }
    }
  }

  // ---------------------------------------------------------------------
  // `get_avg_best`
  // ---------------------------------------------------------------------

  /** Every configuration of `cs` is scored for `sid`. */
  predicate AllScored(fits: Fits, sid: Sid, cs: seq<Config>)
  {
    forall i | 0 <= i < |cs| :: cs[i] in fits && sid in fits[cs[i]]
  }

  /** The fitnesses of `cs` for `sid`, in order. */
  function FitsOf(fits: Fits, sid: Sid, cs: seq<Config>): (v: seq<real>)
    requires AllScored(fits, sid, cs)
    ensures |v| == |cs| && forall i | 0 <= i < |cs| :: v[i] == fits[cs[i]][sid]
  {
    seq(|cs|, i requires 0 <= i < |cs| && AllScored(fits, sid, cs) => fits[cs[i]][sid])
  }

  function Sum(v: seq<real>): real
  {
    if v == [] then 0.0 else Sum(v[..|v| - 1]) + v[|v| - 1]
  }

  /** Python's `max` with a key: the position of the first greatest value,
      found by a left-to-right scan that replaces the current best only on
      a strictly greater value. */
  function FirstMaxIndex(v: seq<real>): (i: nat)
    requires v != []
    ensures i < |v|
    decreases |v|
  {
    if |v| == 1 then 0
    else
      var j := FirstMaxIndex(v[..|v| - 1]);
      if v[|v| - 1] > v[j] then |v| - 1 else j
  }

  /** The scan finds a greatest value, and every value before it is smaller. */
  lemma {:induction false} FirstMaxIndexIsFirstMax(v: seq<real>)
    requires v != []
    ensures forall k | 0 <= k < |v| :: v[k] <= v[FirstMaxIndex(v)]
    ensures forall k | 0 <= k < FirstMaxIndex(v) :: v[k] < v[FirstMaxIndex(v)]
    decreases |v|
  {
    if |v| > 1 {
      var init := v[..|v| - 1];
      FirstMaxIndexIsFirstMax(init);
      assert forall k | 0 <= k < |init| :: init[k] == v[k];
    }
  }

  /** The sum lies between the length times the smallest and times the
      largest value. */
  lemma {:induction false} SumBounds(v: seq<real>, lo: real, hi: real)
    requires forall k | 0 <= k < |v| :: lo <= v[k] <= hi
    ensures (|v| as real) * lo <= Sum(v) <= (|v| as real) * hi
    decreases |v|
  {
    if v != [] {
      var init := v[..|v| - 1];
      assert forall k | 0 <= k < |init| :: init[k] == v[k];
      SumBounds(init, lo, hi);
    }
  }

  /** `get_avg_best` once its configurations `cs` are chosen: the average
      fitness, the best fitness and the first configuration with it; an
      empty `cs` divides by zero. */
  function AvgBest(fits: Fits, sid: Sid, cs: seq<Config>): (r: Result<(real, real, Config), string>)
    requires AllScored(fits, sid, cs)
  {
    if cs == [] then Failure("ZeroDivisionError")
    else
      var v := FitsOf(fits, sid, cs);
      var best := cs[FirstMaxIndex(v)];
      Success((Sum(v) / (|cs| as real), fits[best][sid], best))
  }

  /** The configurations of `get_avg_best` when none are given: those
      scored for `sid`, in the iteration order `listing` of `fits`. */
  function ScoredFor(fits: Fits, sid: Sid, listing: seq<Config>): (cs: seq<Config>)
    requires forall i | 0 <= i < |listing| :: listing[i] in fits
    ensures AllScored(fits, sid, cs)
    ensures forall c :: c in cs <==> c in listing && sid in fits[c]
    decreases |listing|
  {
    if listing == [] then []
    else
      var rest := ScoredFor(fits, sid, listing[1..]);
      if sid in fits[listing[0]] then [listing[0]] + rest else rest
  }

  /** `Fits_d.get_avg_best`: over the given configurations, or over every
      configuration scored for `sid` when none are given.  Given
      configurations that lack a score for `sid` raise a `KeyError`. */
  function GetAvgBest(fits: Fits, sid: Sid, configs: Option<seq<Config>>, listing: seq<Config>): (r: Result<(real, real, Config), string>)
    requires forall i | 0 <= i < |listing| :: listing[i] in fits
    requires configs.Some? ==> configs.value != [] && forall i | 0 <= i < |configs.value| :: configs.value[i] in fits
  {
    match configs
    case None => AvgBest(fits, sid, ScoredFor(fits, sid, listing))
    case Some(cs) => if AllScored(fits, sid, cs) then AvgBest(fits, sid, cs) else Failure("KeyError")
  }

  /** The least of a non-empty list of values. */
  function MinOf(v: seq<real>): (m: real)
    requires v != []
    ensures m in v && forall i | 0 <= i < |v| :: m <= v[i]
    decreases |v|
  {
    if |v| == 1 then v[0]
    else
      var rest := MinOf(v[1..]);
      assert forall i | 1 <= i < |v| :: v[i] == v[1..][i - 1];
      if v[0] <= rest then v[0] else rest
  }

  /** `get_avg_best` succeeds exactly when there are candidates. */
  lemma AvgBestFails(fits: Fits, sid: Sid, cs: seq<Config>)
    requires AllScored(fits, sid, cs)
    ensures AvgBest(fits, sid, cs).Success? <==> cs != []
  {
  }

  /** On success the best configuration is one of the candidates, carries
      the best fitness, no candidate is fitter and every earlier candidate
      is less fit. */
  lemma AvgBestBest(fits: Fits, sid: Sid, cs: seq<Config>)
    requires AllScored(fits, sid, cs) && cs != []
    ensures
      var (_, bestFit, best) := AvgBest(fits, sid, cs).value;
      && best in cs
      && bestFit == fits[best][sid]
      && (forall i | 0 <= i < |cs| :: fits[cs[i]][sid] <= bestFit)
      && (exists j | 0 <= j < |cs| :: cs[j] == best && forall i | 0 <= i < j :: fits[cs[i]][sid] < bestFit)
  {
    var v := FitsOf(fits, sid, cs);
    FirstMaxIndexIsFirstMax(v);
  }

  /** On success the average lies between the least and the best fitness. */
  lemma AvgBestAverage(fits: Fits, sid: Sid, cs: seq<Config>)
    requires AllScored(fits, sid, cs) && cs != []
    ensures
      var (avg, bestFit, _) := AvgBest(fits, sid, cs).value;
      && (exists i | 0 <= i < |cs| :: fits[cs[i]][sid] <= avg)
      && avg <= bestFit
  {
    var v := FitsOf(fits, sid, cs);
    var j := FirstMaxIndex(v);
    FirstMaxIndexIsFirstMax(v);
    var lo := MinOf(v);
    AverageOf(v, lo, v[j]);
    var m :| 0 <= m < |v| && v[m] == lo;
    assert fits[cs[m]][sid] <= Sum(v) / (|v| as real);
  }

  /** The average of a non-empty list lies within any bounds of its values. */
  lemma AverageOf(v: seq<real>, lo: real, hi: real)
    requires v != []
    requires forall k | 0 <= k < |v| :: lo <= v[k] <= hi
    ensures lo <= Sum(v) / (|v| as real) <= hi
  {
    SumBounds(v, lo, hi);
    AverageBetween(Sum(v), |v| as real, lo, hi);
  }

  lemma AverageBetween(sum: real, n: real, lo: real, hi: real)
    requires n > 0.0 && n * lo <= sum <= n * hi
    ensures lo <= sum / n <= hi
  {
  }
}

=== FILE: formulas.dfy ===
/** Propositional formulas over a domain's variables, standing in for the Z3
    expressions of src/config_common.py `Z3DB` and src/config.py.  An
    expression is an atom `x in {v1, v2, ...}` (what `get_eq_expr` builds as
    `Or(x == v1, x == v2, ...)`) or an n-ary conjunction or disjunction.  As
    in the source, "no expression" (`None`) stands for `true`.  The solver
    queries (`is_tautology`) become quantification over every configuration of
    the finite domain. */
module Formulas {
  import opened Wrappers
  import opened Domains
  import opened Cores
  import Strings

  datatype Expr = Atom(v: Var, vs: ValSet) | And(args: seq<Expr>) | Or(args: seq<Expr>)

  /** The truth value of an expression under a configuration. */
  function Eval(e: Expr, c: Config): bool
  {
    match e
    case Atom(v, vs) => v in c && c[v] in vs
    case And(args) => forall i | 0 <= i < |args| :: Eval(args[i], c)
    case Or(args) => exists i | 0 <= i < |args| :: Eval(args[i], c)
  }

  /** The truth value of a possibly-absent expression; `None` is `true`. */
  predicate Holds(oe: Option<Expr>, c: Config)
  {
    oe.None? || Eval(oe.value, c)
  }

  /** The present expressions of a list, in order. */
  function Somes(fs: seq<Option<Expr>>): (r: seq<Expr>)
    ensures forall e :: e in r <==> Some(e) in fs
  {
    if |fs| == 0 then []
    else
      var rest := Somes(fs[1..]);
      assert forall x :: x in fs <==> x == fs[0] || x in fs[1..] by {
        assert fs == [fs[0]] + fs[1..];
      }
      if fs[0].Some? then [fs[0].value] + rest else rest
  }

  /** `z3util.myAnd`: the conjunction of the present expressions, `None`
      when there are none; a single expression is returned unwrapped. */
  function MyAnd(fs: seq<Option<Expr>>): (r: Option<Expr>)
    ensures r.None? <==> Somes(fs) == []
    ensures forall c :: Holds(r, c) <==> forall i :: 0 <= i < |fs| ==> Holds(fs[i], c)
  {
    var xs := Somes(fs);
    var r := if |xs| == 0 then None else if |xs| == 1 then Some(xs[0]) else Some(And(xs));
    forall c
      ensures Holds(r, c) <==> forall i :: 0 <= i < |fs| ==> Holds(fs[i], c)
    {
      if forall i :: 0 <= i < |fs| ==> Holds(fs[i], c) {
        forall j | 0 <= j < |xs|
          ensures Eval(xs[j], c)
        {
          assert Some(xs[j]) in fs;
        }
      }
      if Holds(r, c) {
        forall i | 0 <= i < |fs|
          ensures Holds(fs[i], c)
        {
          if fs[i].Some? {
            assert fs[i].value in xs;
          }
        }
      }
    }
    r
  }

  /** `z3util.myOr`: the disjunction of the present expressions, `None` when
      there are none.  Absent (`true`) members are dropped, not absorbed. */
  function MyOr(fs: seq<Option<Expr>>): (r: Option<Expr>)
    ensures r.None? <==> Somes(fs) == []
    ensures forall c :: Holds(r, c) <==>
      (Somes(fs) == [] || exists i :: 0 <= i < |fs| && fs[i].Some? && Eval(fs[i].value, c))
  {
    var xs := Somes(fs);
    var r := if |xs| == 0 then None else if |xs| == 1 then Some(xs[0]) else Some(Or(xs));
    forall c
      ensures Holds(r, c) <==>
        (xs == [] || exists i :: 0 <= i < |fs| && fs[i].Some? && Eval(fs[i].value, c))
    {
      if xs != [] && Holds(r, c) {
        var j :| 0 <= j < |xs| && Eval(xs[j], c);
        assert Some(xs[j]) in fs;
      }
      if exists i :: 0 <= i < |fs| && fs[i].Some? && Eval(fs[i].value, c) {
        var i :| 0 <= i < |fs| && fs[i].Some? && Eval(fs[i].value, c);
        assert fs[i].value in xs;
      }
    }
    r
  }

  /** The atoms of a core, one per variable, in name order. */
  function Atoms(core: Core): (r: seq<Option<Expr>>)
    ensures |r| == |core|
    ensures forall i | 0 <= i < |r| :: r[i].Some? && IsAtomOf(r[i].value, core)
  {
    var ks := Strings.Sorted(core.Keys);
    seq(|ks|, i requires 0 <= i < |ks| => Some(Atom(ks[i], core[ks[i]])))
  }

  /** `e` is the atom of one of the core's variables. */
  predicate IsAtomOf(e: Expr, core: Core)
  {
    e.Atom? && e.v in core && e.vs == core[e.v]
  }

  /** Every variable of the core has its atom. */
  lemma AtomsHas(core: Core, k: Var)
    requires k in core
    ensures exists i | 0 <= i < |Atoms(core)| :: Atoms(core)[i] == Some(Atom(k, core[k]))
  {
    var ks := Strings.Sorted(core.Keys);
    var i :| 0 <= i < |ks| && ks[i] == k;
    assert Atoms(core)[i] == Some(Atom(k, core[k]));
  }

  lemma AtomsAll(core: Core, c: Config)
    ensures (forall i :: 0 <= i < |Atoms(core)| ==> Holds(Atoms(core)[i], c)) <==> CImplies(c, core)
  {
    var fs := Atoms(core);
    if (forall i :: 0 <= i < |fs| ==> Holds(fs[i], c)) && |core| > 0 {
      forall k | k in core
        ensures k in c && c[k] in core[k]
      {
        AtomsHas(core, k);
        var i :| 0 <= i < |fs| && fs[i] == Some(Atom(k, core[k]));
        assert Holds(fs[i], c);
      }
    }
  }

  lemma AtomsAny(core: Core, c: Config)
    ensures (exists i :: 0 <= i < |Atoms(core)| && Atoms(core)[i].Some? && Eval(Atoms(core)[i].value, c))
      <==> (|core| > 0 && DImplies(c, core))
  {
    if DImplies(c, core) && |core| > 0 {
      var k :| k in core && k in c && c[k] in core[k];
      AtomsAnyAt(core, c, k);
    }
    AtomsAnyOnly(core, c);
  }

  /** An atom that holds is the atom of a variable the configuration meets. */
  lemma AtomsAnyOnly(core: Core, c: Config)
    ensures (exists i :: 0 <= i < |Atoms(core)| && Atoms(core)[i].Some? && Eval(Atoms(core)[i].value, c))
      ==> DImplies(c, core)
  {
    var fs := Atoms(core);
    if exists i :: 0 <= i < |fs| && fs[i].Some? && Eval(fs[i].value, c) {
      var i :| 0 <= i < |fs| && fs[i].Some? && Eval(fs[i].value, c);
      var k := fs[i].value.v;
      assert k in core && k in c && c[k] in core[k];
    }
  }

  /** A variable the configuration meets makes its atom hold. */
  lemma AtomsAnyAt(core: Core, c: Config, k: Var)
    requires k in core && k in c && c[k] in core[k]
    ensures exists i :: 0 <= i < |Atoms(core)| && Atoms(core)[i].Some? && Eval(Atoms(core)[i].value, c)
  {
    var fs := Atoms(core);
    AtomsHas(core, k);
    var i :| 0 <= i < |fs| && fs[i] == Some(Atom(k, core[k]));
    assert Eval(fs[i].value, c);
  }

  lemma AtomsPresent(core: Core)
    ensures Somes(Atoms(core)) == [] <==> |core| == 0
  {
    var fs := Atoms(core);
    if |core| > 0 {
      assert fs[0].value in Somes(fs);
    }
  }

  /** `Z3DB.expr_of_dict_dict`: the core read as a conjunction (`is_and`) or
      a disjunction of its atoms.  Its meaning is exactly `c_implies`
      resp. `d_implies`, the empty core included (both give `None`, i.e. true). */
  function CoreExpr(core: Core, isAnd: bool): (r: Option<Expr>)
    ensures r.None? <==> |core| == 0
    ensures isAnd ==> forall c :: Holds(r, c) <==> CImplies(c, core)
    ensures !isAnd ==> forall c :: Holds(r, c) <==> DImplies(c, core)
  {
    var fs := Atoms(core);
    AtomsPresent(core);
    if isAnd then
      var r := MyAnd(fs);
      forall c
        ensures Holds(r, c) <==> CImplies(c, core)
      {
        AtomsAll(core, c);
      }
      r
    else
      var r := MyOr(fs);
      forall c
        ensures Holds(r, c) <==> DImplies(c, core)
      {
        AtomsAny(core, c);
      }
      r
  }

  /** `is_tautology(Implies(p, q))` over the finite domain. */
  predicate Entails(p: Option<Expr>, q: Option<Expr>, d: Dom)
    requires ValidDom(d)
  {
    forall c | c in AllConfigs(d) :: Holds(p, c) ==> Holds(q, c)
  }

  /** The duplicate test of `Mcores_d.fix_duplicates`: both expressions are
      `None`, or both are present and `is_tautology(p == q)` holds. */
  predicate Equiv(p: Option<Expr>, q: Option<Expr>, d: Dom)
    requires ValidDom(d)
  {
    (p.None? && q.None?) ||
    (p.Some? && q.Some? && forall c | c in AllConfigs(d) :: Eval(p.value, c) == Eval(q.value, c))
  }

  /** The duplicate test is an equivalence relation, so grouping by it is well defined. */
  lemma EquivIsEquivalence(p: Option<Expr>, q: Option<Expr>, r: Option<Expr>, d: Dom)
    requires ValidDom(d)
    ensures Equiv(p, p, d)
    ensures Equiv(p, q, d) ==> Equiv(q, p, d)
    ensures Equiv(p, q, d) && Equiv(q, r, d) ==> Equiv(p, r, d)
  {
  }

  /** Equivalent expressions are mutual entailments. */
  lemma EquivEntails(p: Option<Expr>, q: Option<Expr>, d: Dom)
    requires ValidDom(d)
    requires Equiv(p, q, d)
    ensures Entails(p, q, d) && Entails(q, p, d)
  {
  }
}

=== FILE: generators.dfy ===
/** The configuration generators of `Dom` and `Config` (src/config_common.py):
    the 1-wise covering array, random sampling, configurations from solver
    models, "fresh" sampling that avoids existing configurations, and
    `Config.mk`.  `random.choice` becomes an arbitrary choice (`:|`), so every
    property below holds whatever the random generator picks; a solver query
    becomes a choice among the configurations of the domain that satisfy the
    formula. */
module Generators {
  import opened Wrappers
  import opened Domains
  import opened Cores
  import opened Formulas

  function Min(a: int, b: int): int
  {
    if a <= b then a else b
  }

  /** The elements of a sequence, as a set. */
  function Elems<T>(s: seq<T>): set<T>
  {
    set x | x in s
  }

  // ---------------------------------------------------------------------
  // Configurations from models (`Dom.config_of_model`)
  // ---------------------------------------------------------------------

  /** `Dom.config_of_model`: every variable of the domain takes the model's
      value when the model has one, and an arbitrary value of its set
      otherwise. */
  method ConfigOfModel(d: Dom, model: map<Var, Val>) returns (c: Config)
    requires ValidDom(d)
    ensures c.Keys == d.vals.Keys
    ensures forall k | k in c :: if k in model then c[k] == model[k] else c[k] in d.vals[k]
    ensures (forall k | k in model && k in d.vals :: model[k] in d.vals[k]) ==> IsConfigOf(c, d)
  {
    c := map[];
    var i := 0;
    while i < |d.vars|
      invariant 0 <= i <= |d.vars|
      invariant c.Keys == set j | 0 <= j < i :: d.vars[j]
      invariant forall k | k in c :: k in d.vals && if k in model then c[k] == model[k] else c[k] in d.vals[k]
    {
      var k := d.vars[i];
      var v;
      if k in model {
        v := model[k];
      } else {
        v :| v in d.vals[k];
      }
      c := c[k := v];
      i := i + 1;
    }
    assert c.Keys == d.vals.Keys by {
      forall k | k in d.vals
        ensures k in c
      {
        var j :| 0 <= j < |d.vars| && d.vars[j] == k;
      }
    }
  }

  /** The `rgen` of `Dom.gen_configs_rand`: each variable takes an arbitrary
      value of its set. */
  method RandConfig(d: Dom) returns (c: Config)
    requires ValidDom(d)
    ensures IsConfigOf(c, d)
  {
    c := ConfigOfModel(d, map[]);
  }

  // ---------------------------------------------------------------------
  // 1-wise covering arrays (`Dom.gen_configs_tcover1`)
  // ---------------------------------------------------------------------

  /** Some configuration of the list sets `k` to `v`. */
  predicate Covered(configs: seq<Config>, k: Var, v: Val)
  {
    exists i | 0 <= i < |configs| :: k in configs[i] && configs[i][k] == v
  }

  /** Every (variable, value) pair of the domain occurs in some configuration. */
  predicate CoversAllPairs(configs: seq<Config>, d: Dom)
  {
    forall k, v {:trigger Covered(configs, k, v)} | k in d.vals && v in d.vals[k] :: Covered(configs, k, v)
  }

  /** The values `unused` still lists for each variable, as shaped by `mk`:
      non-empty subsets of the variable's domain. */
  predicate UnusedOk(unused: map<Var, ValSet>, d: Dom)
  {
    forall k | k in unused :: k in d.vals && unused[k] != {} && unused[k] <= d.vals[k]
  }

  /** The bookkeeping `mk` does after choosing `c`: the chosen value leaves
      each variable's unused set, and a variable whose set empties is popped. */
  function Consume(unused: map<Var, ValSet>, c: Config): (r: map<Var, ValSet>)
    requires unused.Keys <= c.Keys
  {
    map k | k in unused && unused[k] - {c[k]} != {} :: unused[k] - {c[k]}
  }

  /** One call of `mk`: a variable with unused values takes one of them. */
  method CoverStep(d: Dom, unused: map<Var, ValSet>) returns (c: Config)
    requires ValidDom(d) && UnusedOk(unused, d)
    ensures IsConfigOf(c, d)
    ensures forall k | k in unused :: c[k] in unused[k]
  {
    c := map[];
    var i := 0;
    while i < |d.vars|
      invariant 0 <= i <= |d.vars|
      invariant c.Keys == set j | 0 <= j < i :: d.vars[j]
      invariant forall k | k in c :: k in d.vals && c[k] in d.vals[k] && (k in unused ==> c[k] in unused[k])
    {
      var k := d.vars[i];
      var v;
      if k in unused {
        v :| v in unused[k];
      } else {
        v :| v in d.vals[k];
      }
      c := c[k := v];
      i := i + 1;
    }
    assert c.Keys == d.vals.Keys by {
      forall k | k in d.vals
        ensures k in c
      {
        var j :| 0 <= j < |d.vars| && d.vars[j] == k;
      }
    }
  }

  lemma RemoveOne<T>(s: set<T>, x: T)
    requires x in s
    ensures |s - {x}| == |s| - 1
  {
  }

  /** The loop invariant of `gen_configs_tcover1` after `|configs|` calls of
      `mk`: a variable still has unused values exactly while fewer configs
      than its domain size were made, and every value no longer unused has
      been covered. */
  predicate TCoverInv(d: Dom, unused: map<Var, ValSet>, configs: seq<Config>)
    requires ValidDom(d)
  {
    && UnusedOk(unused, d)
    && (forall i | 0 <= i < |configs| :: IsConfigOf(configs[i], d))
    && (forall k | k in d.vals :: k in unused <==> |configs| < |d.vals[k]|)
    && (forall k | k in unused :: |unused[k]| == |d.vals[k]| - |configs|)
    && (forall k, v {:trigger Covered(configs, k, v)} | k in d.vals && v in d.vals[k] ::
          (k !in unused || v !in unused[k]) ==> Covered(configs, k, v))
  }

  lemma TCoverStepSizes(d: Dom, unused: map<Var, ValSet>, configs: seq<Config>, c: Config)
    requires ValidDom(d) && TCoverInv(d, unused, configs)
    requires IsConfigOf(c, d)
    requires forall k | k in unused :: c[k] in unused[k]
    ensures UnusedOk(Consume(unused, c), d)
    ensures forall k | k in d.vals :: k in Consume(unused, c) <==> |configs + [c]| < |d.vals[k]|
    ensures forall k | k in Consume(unused, c) :: |Consume(unused, c)[k]| == |d.vals[k]| - |configs + [c]|
  {
    forall k | k in unused
      ensures |unused[k] - {c[k]}| == |unused[k]| - 1
    {
      RemoveOne(unused[k], c[k]);
    }
  }

  lemma TCoverStepCovered(d: Dom, unused: map<Var, ValSet>, configs: seq<Config>, c: Config)
    requires forall k, v {:trigger Covered(configs, k, v)} | k in d.vals && v in d.vals[k] ::
      (k !in unused || v !in unused[k]) ==> Covered(configs, k, v)
    requires forall k | k in unused :: k in c && c[k] in unused[k]
    ensures forall k, v {:trigger Covered(configs + [c], k, v)} | k in d.vals && v in d.vals[k] ::
      (k !in Consume(unused, c) || v !in Consume(unused, c)[k]) ==> Covered(configs + [c], k, v)
  {
    var rest := Consume(unused, c);
    var cs := configs + [c];
    forall k, v | k in d.vals && v in d.vals[k] && (k !in rest || v !in rest[k])
      ensures Covered(cs, k, v)
    {
      if k in unused && v in unused[k] {
        assert cs[|configs|] == c;
      } else {
        assert Covered(configs, k, v);
        var i :| 0 <= i < |configs| && k in configs[i] && configs[i][k] == v;
        assert cs[i] == configs[i];
      }
    }
  }

  lemma TCoverStep(d: Dom, unused: map<Var, ValSet>, configs: seq<Config>, c: Config)
    requires ValidDom(d) && TCoverInv(d, unused, configs)
    requires IsConfigOf(c, d)
    requires forall k | k in unused :: c[k] in unused[k]
    ensures TCoverInv(d, Consume(unused, c), configs + [c])
  {
    var cs := configs + [c];
    forall i | 0 <= i < |cs|
      ensures IsConfigOf(cs[i], d)
    {
      if i < |configs| {
        assert cs[i] == configs[i];
      }
    }
    TCoverStepSizes(d, unused, configs, c);
    TCoverStepCovered(d, unused, configs, c);
  }

  /** `Dom.gen_configs_tcover1`: configurations are made until every value of
      every variable has been used.  The result is a covering array of
      strength 1 with exactly `max_fsiz` rows. */
  method TCover1(d: Dom) returns (configs: seq<Config>)
    requires ValidDom(d)
    ensures |configs| == MaxFSiz(d)
    ensures forall i | 0 <= i < |configs| :: IsConfigOf(configs[i], d)
    ensures CoversAllPairs(configs, d)
  {
    var unused: map<Var, ValSet> := d.vals;
    configs := [];
    var m := MaxFSiz(d);
    while unused != map[]
      invariant TCoverInv(d, unused, configs)
      invariant |configs| <= m
      decreases m - |configs|
    {
      var k0 :| k0 in unused;
      var c := CoverStep(d, unused);
      TCoverStep(d, unused, configs, c);
      configs := configs + [c];
      unused := Consume(unused, c);
    }
    var kmax :| kmax in d.vals && |d.vals[kmax]| == m;
  }

  /** The values a list of configurations gives `k`. */
  function ValuesAt(configs: seq<Config>, k: Var): set<Val>
  {
    set i | 0 <= i < |configs| && k in configs[i] :: configs[i][k]
  }

  lemma {:induction false} ValuesAtCard(configs: seq<Config>, k: Var)
    ensures |ValuesAt(configs, k)| <= |configs|
  {
    if |configs| > 0 {
      var init := configs[..|configs| - 1];
      ValuesAtCard(init, k);
      var last := configs[|configs| - 1];
      var bigger := ValuesAt(init, k) + (if k in last then {last[k]} else {});
      assert ValuesAt(configs, k) <= bigger by {
        forall x | x in ValuesAt(configs, k)
          ensures x in ValuesAt(init, k) + (if k in last then {last[k]} else {})
        {
          var i :| 0 <= i < |configs| && k in configs[i] && configs[i][k] == x;
          if i < |configs| - 1 {
            assert init[i] == configs[i];
          }
        }
      }
      SubsetCard(ValuesAt(configs, k), bigger);
    }
  }

  /** No covering array of strength 1 is shorter than `max_fsiz`: the array
      `TCover1` builds is as short as possible. */
  lemma CoverLowerBound(configs: seq<Config>, d: Dom)
    requires ValidDom(d)
    requires CoversAllPairs(configs, d)
    ensures |configs| >= MaxFSiz(d)
  {
    var m := MaxFSiz(d);
    var k :| k in d.vals && |d.vals[k]| == m;
    assert d.vals[k] <= ValuesAt(configs, k) by {
      forall v | v in d.vals[k]
        ensures v in ValuesAt(configs, k)
      {
        assert Covered(configs, k, v);
      }
    }
    ValuesAtCard(configs, k);
    SubsetCard(d.vals[k], ValuesAt(configs, k));
  }

  // ---------------------------------------------------------------------
  // Random sampling (`Dom.gen_configs_rand`)
  // ---------------------------------------------------------------------

  /** `Dom.gen_configs_rand`: `rand_n` random configurations with the
      duplicates removed (`list(set(...))`). */
  method GenConfigsRand(d: Dom, randN: nat) returns (configs: seq<Config>)
    requires ValidDom(d) && 0 < randN <= Siz(d)
    ensures 0 < |configs| <= randN
    ensures Distinct(configs)
    ensures forall i | 0 <= i < |configs| :: IsConfigOf(configs[i], d)
  {
    var draws: seq<Config> := [];
    while |draws| < randN
      invariant |draws| <= randN
      invariant forall i | 0 <= i < |draws| :: IsConfigOf(draws[i], d)
    {
      var c := RandConfig(d);
      draws := draws + [c];
    }
    configs := Dedup(draws);
    assert draws[0] in configs;
    forall i | 0 <= i < |configs|
      ensures IsConfigOf(configs[i], d)
    {
      assert configs[i] in draws;
    }
  }

  // ---------------------------------------------------------------------
  // Solver-driven sampling (`gen_configs_exprs`, `gen_configs_rand_smt`)
  // ---------------------------------------------------------------------

  /** The configuration satisfies every `yexprs` formula and none of the
      `nexprs` formulas (absent formulas are skipped). */
  predicate Satisfies(ys: seq<Option<Expr>>, ns: seq<Option<Expr>>, c: Config)
  {
    && (forall i | 0 <= i < |ys| :: Holds(ys[i], c))
    && (forall i | 0 <= i < |ns| :: ns[i].None? || !Eval(ns[i].value, c))
  }

  /** The configurations of the domain a solver query can return. */
  function Sat(d: Dom, ys: seq<Option<Expr>>, ns: seq<Option<Expr>>): (r: set<Config>)
    requires ValidDom(d)
    ensures forall c :: c in r <==> IsConfigOf(c, d) && Satisfies(ys, ns, c)
  {
    set c | c in AllConfigs(d) && Satisfies(ys, ns, c)
  }

  /** `Dom.gen_configs_exprs`: up to `k` distinct configurations satisfying
      `yexprs` and violating `nexprs`; empty exactly when there are none.
      At least one formula must be present (`assert exprs`). */
  method GenConfigsExprs(d: Dom, ys: seq<Option<Expr>>, ns: seq<Option<Expr>>, k: nat)
    returns (configs: seq<Config>)
    requires ValidDom(d) && k > 0
    requires Somes(ys) != [] || Somes(ns) != []
    ensures |configs| <= k
    ensures configs == [] <==> Sat(d, ys, ns) == {}
    ensures Distinct(configs)
    ensures forall i | 0 <= i < |configs| :: configs[i] in Sat(d, ys, ns)
  {
    configs := PickUpTo(Sat(d, ys, ns), k);
  }

  /** Up to `k` distinct elements of `pool`, arbitrarily chosen; at least one
      when `pool` is non-empty (the enumeration `z3util.get_models` does). */
  method PickUpTo<T>(pool: set<T>, k: nat) returns (r: seq<T>)
    requires k > 0
    ensures |r| <= k
    ensures r == [] <==> pool == {}
    ensures Distinct(r)
    ensures forall i | 0 <= i < |r| :: r[i] in pool
  {
    var remaining := pool;
    r := [];
    while |r| < k && remaining != {}
      invariant |r| <= k
      invariant Distinct(r)
      invariant remaining <= pool
      invariant forall i | 0 <= i < |r| :: r[i] in pool && r[i] !in remaining
      invariant r == [] ==> remaining == pool
      decreases k - |r|
    {
      var x :| x in remaining;
      r := r + [x];
      remaining := remaining - {x};
    }
    if r != [] {
      assert r[0] in pool;
    }
  }

  /** The singleton-valued core of a configuration. */
  function ConfigCore(c: Config): (r: Core)
    ensures r.Keys == c.Keys
  {
    map k | k in c :: {c[k]}
  }

  /** `Config.z3expr`: the conjunction `k1 == v1 & k2 == v2 & ...`. */
  function ConfigExpr(c: Config): (r: Option<Expr>)
    ensures |c| > 0 ==> r.Some?
  {
    CoreExpr(ConfigCore(c), true)
  }

  lemma ConfigCoreExact(c: Config, x: Config)
    requires |c| > 0 && x.Keys == c.Keys
    ensures CImplies(x, ConfigCore(c)) <==> x == c
  {
    var core := ConfigCore(c);
    if CImplies(x, core) {
      forall v | v in c
        ensures x[v] == c[v]
      {
        assert x[v] in core[v];
      }
    }
  }

  /** Over the configurations of the domain, a configuration's formula holds
      exactly at that configuration. */
  lemma ConfigExprExact(c: Config, x: Config, d: Dom)
    requires ValidDom(d) && IsConfigOf(c, d) && IsConfigOf(x, d)
    ensures ConfigExpr(c).Some?
    ensures Eval(ConfigExpr(c).value, x) <==> x == c
  {
    assert d.vars[0] in c;
    ConfigCoreExact(c, x);
  }

  /** The formulas of a list of configurations. */
  function ConfigExprs(cs: seq<Config>): (r: seq<Option<Expr>>)
    ensures |r| == |cs|
    ensures forall i | 0 <= i < |cs| :: r[i] == ConfigExpr(cs[i])
  {
    seq(|cs|, i requires 0 <= i < |cs| => ConfigExpr(cs[i]))
  }

  lemma OrOfConfigsPresent(cs: seq<Config>, d: Dom)
    requires ValidDom(d) && |cs| > 0 && IsConfigOf(cs[0], d)
    ensures MyOr(ConfigExprs(cs)).Some?
  {
    var fs := ConfigExprs(cs);
    assert d.vars[0] in cs[0];
    assert fs[0].value in Somes(fs);
  }

  lemma OrOfConfigsAt(cs: seq<Config>, d: Dom, x: Config)
    requires ValidDom(d) && IsConfigOf(x, d)
    requires forall i | 0 <= i < |cs| :: IsConfigOf(cs[i], d)
    requires MyOr(ConfigExprs(cs)).Some?
    ensures Eval(MyOr(ConfigExprs(cs)).value, x) <==> x in cs
  {
    var fs := ConfigExprs(cs);
    var e := MyOr(fs);
    assert Holds(e, x) == Eval(e.value, x);
    if x in cs {
      var i :| 0 <= i < |cs| && cs[i] == x;
      ConfigExprExact(cs[i], x, d);
      assert fs[i].Some? && Eval(fs[i].value, x);
    } else {
      forall i | 0 <= i < |fs| && fs[i].Some?
        ensures !Eval(fs[i].value, x)
      {
        ConfigExprExact(cs[i], x, d);
      }
    }
  }

  /** The disjunction of configurations' formulas holds exactly at those
      configurations. */
  lemma OrOfConfigs(cs: seq<Config>, d: Dom)
    requires ValidDom(d) && |cs| > 0
    requires forall i | 0 <= i < |cs| :: IsConfigOf(cs[i], d)
    ensures MyOr(ConfigExprs(cs)).Some?
    ensures forall x | IsConfigOf(x, d) :: Eval(MyOr(ConfigExprs(cs)).value, x) <==> x in cs
  {
    OrOfConfigsPresent(cs, d);
    forall x | IsConfigOf(x, d)
      ensures Eval(MyOr(ConfigExprs(cs)).value, x) <==> x in cs
    {
      OrOfConfigsAt(cs, d, x);
    }
  }

  /** A query that excludes exactly the configurations `s` finds the rest of the domain. */
  lemma ExcludingSat(e: Option<Expr>, s: set<Config>, d: Dom)
    requires ValidDom(d) && e.Some?
    requires forall x | IsConfigOf(x, d) :: Eval(e.value, x) <==> x in s
    ensures Sat(d, [], [e]) == AllConfigs(d) - s
  {
    forall x
      ensures x in Sat(d, [], [e]) <==> x in AllConfigs(d) - s
    {
      assert [e][0] == e;
      assert Satisfies([], [e], x) <==> !Eval(e.value, x);
    }
  }

  /** One query of `gen_configs_rand_smt`: `gen_configs_exprs([], [myOr(exprs)], 1)`
      with `exprs` the formulas of the configurations seen so far.  It
      returns a configuration outside `seen`, or nothing when there is none. */
  method FreshConfig(d: Dom, seen: seq<Config>) returns (r: seq<Config>)
    requires ValidDom(d) && |seen| > 0
    requires Elems(seen) <= AllConfigs(d)
    ensures |r| <= 1
    ensures r == [] <==> AllConfigs(d) <= Elems(seen)
    ensures r != [] ==> r[0] in AllConfigs(d) && r[0] !in seen
  {
    assert forall i | 0 <= i < |seen| :: IsConfigOf(seen[i], d) by {
      forall i | 0 <= i < |seen|
        ensures IsConfigOf(seen[i], d)
      {
        assert seen[i] in Elems(seen);
      }
    }
    OrOfConfigs(seen, d);
    ExcludingSat(MyOr(ConfigExprs(seen)), Elems(seen), d);
    r := GenConfigsExprs(d, [], [MyOr(ConfigExprs(seen))], 1);
    if r != [] {
      assert r[0] in AllConfigs(d) - Elems(seen);
    }
  }

  /** `Dom.gen_configs_rand_smt`: up to `rand_n` distinct configurations,
      none among `existing_configs`; fewer only when the domain runs out. */
  method GenConfigsRandSmt(d: Dom, randN: nat, existing: seq<Config>) returns (configs: seq<Config>)
    requires ValidDom(d) && 0 < randN <= Siz(d)
    requires forall i | 0 <= i < |existing| :: IsConfigOf(existing[i], d)
    ensures Distinct(configs)
    ensures forall i | 0 <= i < |configs| :: IsConfigOf(configs[i], d) && configs[i] !in existing
    ensures |configs| == Min(randN, |AllConfigs(d) - Elems(existing)|)
  {
    ConfigsInDom(existing, d);
    var seen, first := FirstFresh(d, randN, existing);
    if first == [] {
      return [];
    }
    configs := MoreFresh(d, randN, existing, seen, first[0], first);
    CountFresh(configs, AllConfigs(d) - Elems(existing), randN);
    DrawnFromPool(configs, existing, d);
  }

  /** A list of configurations of the domain, as a set. */
  lemma ConfigsInDom(cs: seq<Config>, d: Dom)
    requires ValidDom(d)
    requires forall i | 0 <= i < |cs| :: IsConfigOf(cs[i], d)
    ensures Elems(cs) <= AllConfigs(d)
  {
    forall c | c in Elems(cs)
      ensures c in AllConfigs(d)
    {
      var i :| 0 <= i < |cs| && cs[i] == c;
    }
  }

  /** Configurations drawn from the domain outside `existing`, one by one. */
  lemma DrawnFromPool(configs: seq<Config>, existing: seq<Config>, d: Dom)
    requires ValidDom(d)
    requires Elems(configs) <= AllConfigs(d) - Elems(existing)
    ensures forall i | 0 <= i < |configs| :: IsConfigOf(configs[i], d) && configs[i] !in existing
  {
    forall i | 0 <= i < |configs|
      ensures IsConfigOf(configs[i], d) && configs[i] !in existing
    {
      assert configs[i] in Elems(configs);
    }
  }

  /** The first draw of `gen_configs_rand_smt`: a configuration outside
      `existing_configs` found by the solver, or a random one when there are
      no existing configurations.  `seen` lists the existing configurations. */
  method FirstFresh(d: Dom, randN: nat, existing: seq<Config>) returns (seen: seq<Config>, configs: seq<Config>)
    requires ValidDom(d) && 0 < randN <= Siz(d)
    requires Elems(existing) <= AllConfigs(d)
    ensures |configs| <= 1
    ensures configs == [] ==> AllConfigs(d) - Elems(existing) == {}
    ensures configs != [] ==> configs[0] in AllConfigs(d) - Elems(existing)
    ensures configs != [] ==> Distinct(configs) && Elems(configs) <= AllConfigs(d) - Elems(existing)
    ensures configs != [] ==> Elems(seen + [configs[0]]) == Elems(existing) + Elems(configs)
  {
    seen := Dedup(existing);
    DedupElems(existing);
    if seen != [] {
      configs := FreshConfig(d, seen);
    } else {
      configs := GenConfigsRand(d, 1);
      assert Elems(existing) == {};
    }
    if configs != [] {
      SingleDraw(seen, configs, AllConfigs(d) - Elems(existing));
    }
  }

  /** A single configuration drawn from `pool`. */
  lemma SingleDraw<T>(seen: seq<T>, xs: seq<T>, pool: set<T>)
    requires |xs| == 1 && xs[0] in pool
    ensures Distinct(xs) && Elems(xs) <= pool
    ensures Elems(seen + [xs[0]]) == Elems(seen) + Elems(xs)
  {
    assert xs == [xs[0]];
    ElemsAppend(seen, xs[0]);
  }

  lemma DedupElems<T(!new)>(s: seq<T>)
    ensures Elems(Dedup(s)) == Elems(s)
  {
  }

  /** The loop of `gen_configs_rand_smt`: each round adds the last
      configuration's formula to the excluded ones and asks for one more
      configuration, stopping after `rand_n` in all or when none is left. */
  method MoreFresh(d: Dom, randN: nat, existing: seq<Config>, seen0: seq<Config>, config0: Config,
                   configs0: seq<Config>) returns (configs: seq<Config>)
    requires ValidDom(d) && Elems(existing) <= AllConfigs(d)
    requires 0 < |configs0| <= randN
    requires Distinct(configs0)
    requires Elems(configs0) <= AllConfigs(d) - Elems(existing)
    requires Elems(seen0 + [config0]) == Elems(existing) + Elems(configs0)
    ensures Distinct(configs)
    ensures Elems(configs) <= AllConfigs(d) - Elems(existing)
    ensures |configs| <= randN
    ensures |configs| == randN || AllConfigs(d) - Elems(existing) <= Elems(configs)
  {
    var pool := AllConfigs(d) - Elems(existing);
    var seen, config := seen0, config0;
    configs := configs0;
    while |configs| < randN
      invariant |configs| <= randN
      invariant Distinct(configs)
      invariant Elems(configs) <= pool
      invariant Elems(seen + [config]) == Elems(existing) + Elems(configs)
    {
      seen := seen + [config];
      var next := FreshConfig(d, seen);
      if next == [] {
        return;
      }
      var prev := configs;
      config := next[0];
      assert config !in Elems(prev) by {
        assert Elems(prev) <= Elems(seen);
        assert config !in Elems(seen);
      }
      AppendDistinct(prev, config);
      configs := prev + [config];
      ElemsAppend(seen, config);
      ElemsAppend(prev, config);
    }
  }

  /** A duplicate-free list drawn from `pool` that stopped at `n` elements or
      exhausted the pool has `min(n, |pool|)` elements. */
  lemma CountFresh<T>(configs: seq<T>, pool: set<T>, n: nat)
    requires Distinct(configs) && Elems(configs) <= pool && |configs| <= n
    requires |configs| == n || pool <= Elems(configs)
    ensures |configs| == Min(n, |pool|)
  {
    DistinctCard(configs);
    if |configs| < n {
      assert pool == Elems(configs);
    } else {
      SubsetCard(Elems(configs), pool);
    }
  }

  lemma ElemsAppend<T>(s: seq<T>, x: T)
    ensures Elems(s + [x]) == Elems(s) + {x}
  {
  }

  lemma AppendDistinct<T>(s: seq<T>, x: T)
    requires Distinct(s) && x !in s
    ensures Distinct(s + [x])
  {
  }

  /** Some element of a non-empty set. */
  lemma Pick<T>(s: set<T>) returns (x: T)
    requires s != {}
    ensures x in s
  {
    x :| x in s;
  }

  lemma SubsetCard<T>(a: set<T>, b: set<T>)
    requires a <= b
    ensures |a| <= |b|
  {
    assert b == a + (b - a);
  }

  /** A subset as large as its superset is the superset. */
  lemma SubsetCardEq<T>(a: set<T>, b: set<T>)
    requires a <= b && |a| == |b|
    ensures a == b
  {
    if a != b {
      var x :| x in b && x !in a;
      SubsetCard(a, b - {x});
    }
  }

  /** Some listing of a finite set, standing for a dictionary's iteration
      order. */
  method ListingOf<T>(s: set<T>) returns (r: seq<T>)
    ensures Distinct(r) && Elems(r) == s
  {
    r := [];
    var rest := s;
    while rest != {}
      invariant Distinct(r)
      invariant Elems(r) + rest == s
      invariant Elems(r) !! rest
      decreases |rest|
    {
      var x :| x in rest;
      ElemsAppend(r, x);
      r := r + [x];
      rest := rest - {x};
    }
  }

  // ---------------------------------------------------------------------
  // `Config.mk`
  // ---------------------------------------------------------------------

  /** The generator never repeats itself. */
  ghost predicate NoRepeats<T(!new)>(f: nat -> T)
  {
    forall i: nat, j: nat :: i < j ==> f(i) != f(j)
  }

  /** Some call before the `calls`-th returned `x`. */
  ghost predicate Drawn<T(!new)>(f: nat -> T, calls: nat, x: T)
  {
    exists j: nat :: j < calls && f(j) == x
  }

  /** `Config.mk(n, f)`: `n` rounds, each calling `f` until it yields a value
      not yet in the population or five retries are spent.  `f` is the
      random generator, seen as the sequence of values its successive calls
      return; `calls` counts the calls made. */
  method Mk<T(==,!new)>(n: nat, f: nat -> T) returns (pop: seq<T>, calls: nat)
    requires n > 0
    ensures |pop| <= n
    ensures Distinct(pop)
    ensures forall i | 0 <= i < |pop| :: Drawn(f, calls, pop[i])
    ensures n <= calls <= 6 * n
    ensures NoRepeats(f) ==> |pop| == n && calls == n
  {
    pop := [];
    calls := 0;
    var round := 0;
    while round < n
      invariant round <= n
      invariant |pop| <= round <= calls <= 6 * round
      invariant Distinct(pop)
      invariant forall i | 0 <= i < |pop| :: Drawn(f, calls, pop[i])
      invariant NoRepeats(f) ==> |pop| == round && calls == round
    {
      var c := f(calls);
      if NoRepeats(f) {
        forall i | 0 <= i < |pop|
          ensures pop[i] != c
        {
          var j: nat :| j < calls && f(j) == pop[i];
        }
      }
      calls := calls + 1;
      var tries := 0;
      while c in pop && tries < 5
        invariant tries <= 5
        invariant round + 1 + tries <= calls <= 6 * round + 1 + tries
        invariant Drawn(f, calls, c)
        invariant forall i | 0 <= i < |pop| :: Drawn(f, calls, pop[i])
        invariant NoRepeats(f) ==> c !in pop && calls == round + 1
      {
        c := f(calls);
        calls := calls + 1;
        tries := tries + 1;
      }
      if c !in pop {
        pop := pop + [c];
      }
      round := round + 1;
    }
  }
}

=== FILE: hdicts.dfy ===
/** The hashable ordered dictionary `HDict` (src/config_common.py:481-520),
    the base of `Config` and `Core`.  An `HDict` is built from a list of
    (key, value) pairs like an `OrderedDict`: a later pair for a key that is
    already present overwrites its value.  Equality (and the hash, which is
    the hash of the same frozenset) is decided by `hcontent`, the set of
    (key, value) items. */
module HDicts {

  /** The mapping an `OrderedDict(items)` holds. */
  function FromPairs<K(==), V(==)>(items: seq<(K, V)>): (m: map<K, V>)
    ensures forall i :: 0 <= i < |items| ==> items[i].0 in m
    ensures forall k :: k in m ==> exists i :: 0 <= i < |items| && items[i].0 == k
  {
    if |items| == 0 then map[]
    else
      var last := items[|items| - 1];
      FromPairs(items[..|items| - 1])[last.0 := last.1]
  }

  /** The items of a mapping, as a set of pairs. */
  function Items<K(==), V(==)>(m: map<K, V>): set<(K, V)>
  {
    set k | k in m :: (k, m[k])
  }

  /** `hcontent`: `frozenset(self.iteritems())`. */
  function HContent<K(==), V(==)>(items: seq<(K, V)>): set<(K, V)>
  {
    Items(FromPairs(items))
  }

  /** `HDict.__eq__`. */
  predicate HEq<K(==), V(==)>(a: seq<(K, V)>, b: seq<(K, V)>)
  {
    HContent(a) == HContent(b)
  }

  predicate DistinctKeys<K(==), V(==)>(items: seq<(K, V)>)
  {
    forall i, j :: 0 <= i < j < |items| ==> items[i].0 != items[j].0
  }

  function PairSet<K(==), V(==)>(items: seq<(K, V)>): set<(K, V)>
  {
    set i | 0 <= i < |items| :: items[i]
  }

  lemma ItemsInjective<K, V>(m1: map<K, V>, m2: map<K, V>)
    requires Items(m1) == Items(m2)
    ensures m1 == m2
  {
    forall k | k in m1
      ensures k in m2 && m2[k] == m1[k]
    {
      assert (k, m1[k]) in Items(m1);
      var k' :| k' in m2 && (k', m2[k']) == (k, m1[k]);
    }
    forall k | k in m2
      ensures k in m1
    {
      assert (k, m2[k]) in Items(m2);
      var k' :| k' in m1 && (k', m1[k']) == (k, m2[k]);
    }
  }

  /** Two HDicts are equal exactly when they hold the same mapping. */
  lemma HEqIsMapEquality<K, V>(a: seq<(K, V)>, b: seq<(K, V)>)
    ensures HEq(a, b) <==> FromPairs(a) == FromPairs(b)
  {
    if HEq(a, b) {
      ItemsInjective(FromPairs(a), FromPairs(b));
    }
  }

  lemma ItemsUpdate<K, V>(m0: map<K, V>, k: K, v: V)
    requires k !in m0
    ensures Items(m0[k := v]) == Items(m0) + {(k, v)}
  {
    var m := m0[k := v];
    forall p | p in Items(m)
      ensures p in Items(m0) + {(k, v)}
    {
      var k' :| k' in m && p == (k', m[k']);
      if k' != k {
        assert (k', m0[k']) in Items(m0);
      }
    }
    forall p | p in Items(m0) + {(k, v)}
      ensures p in Items(m)
    {
      if p == (k, v) {
        assert (k, m[k]) in Items(m);
      } else {
        var k' :| k' in m0 && p == (k', m0[k']);
        assert (k', m[k']) in Items(m);
      }
    }
  }

  lemma PairSetSnoc<K, V>(items: seq<(K, V)>)
    requires |items| > 0
    ensures PairSet(items) == PairSet(items[..|items| - 1]) + {items[|items| - 1]}
  {
    var init := items[..|items| - 1];
    forall p | p in PairSet(items)
      ensures p in PairSet(init) + {items[|items| - 1]}
    {
      var i :| 0 <= i < |items| && items[i] == p;
      if i < |items| - 1 {
        assert init[i] == p;
      }
    }
    forall p | p in PairSet(init) + {items[|items| - 1]}
      ensures p in PairSet(items)
    {
      if p != items[|items| - 1] {
        var i :| 0 <= i < |init| && init[i] == p;
        assert items[i] == p;
      }
    }
  }

  /** Without repeated keys the items of an HDict are exactly the pairs it was built from. */
  lemma {:induction false} ItemsOfDistinct<K, V>(items: seq<(K, V)>)
    requires DistinctKeys(items)
    ensures HContent(items) == PairSet(items)
  {
    if |items| > 0 {
      var init := items[..|items| - 1];
      var last := items[|items| - 1];
      assert DistinctKeys(init);
      ItemsOfDistinct(init);
      var m0 := FromPairs(init);
      forall i | 0 <= i < |init|
        ensures init[i].0 != last.0
      {
        assert init[i] == items[i];
      }
      assert last.0 !in m0;
      assert FromPairs(items) == m0[last.0 := last.1];
      ItemsUpdate(m0, last.0, last.1);
      PairSetSnoc(items);
    }
  }

  /** HDict equality ignores insertion order: two pair lists without repeated
      keys that hold the same pairs, in any order, give equal HDicts. */
  lemma HEqIgnoresOrder<K, V>(a: seq<(K, V)>, b: seq<(K, V)>)
    requires DistinctKeys(a) && DistinctKeys(b)
    requires PairSet(a) == PairSet(b)
    ensures HEq(a, b)
    ensures FromPairs(a) == FromPairs(b)
  {
    ItemsOfDistinct(a);
    ItemsOfDistinct(b);
    HEqIsMapEquality(a, b);
  }
}

=== FILE: infer_covs.dfy ===
/** The incremental learning step of src/config.py: `Infer.infer_cache`
    (memoised inference), `Infer.infer_sid` (revising the four cores of one
    location with a batch of new configurations) and `Infer.infer_covs`
    (registering the batch and revising every location it concerns).

    A location's `pc` is inferred from the configurations that reach it,
    `nc` from those that do not; `pd` and `nd` are the exceptions: the
    configurations of the other side that still satisfy `pc` resp. `nc`.
    Since `InferIncremental` makes batches compose, revising `pc` with the
    new configurations only gives what inferring from the whole history
    would (`InferSidLearns`). */
module InferCovs {
  import opened Wrappers
  import opened Domains
  import opened Cores
  import opened Strings
  import opened PNCores
  import opened CovMaps
  import opened Inference
  import Generators

  // ---------------------------------------------------------------------
  // `infer_cache`
  // ---------------------------------------------------------------------

  /** The memo of `infer_cache`, keyed by the starting core and the
      (frozen) set of configurations. */
  type Cache = map<(Option<Core>, set<Config>), Core>

  /** Every memoised entry is the inference it stands for. */
  predicate CacheOk(cache: Cache, d: Dom)
  {
    forall key | key in cache :: cache[key] == InferSet(key.1, key.0, d)
  }

  /** `Infer.infer_cache`: look the pair up, inferring and remembering it
      on a miss.  The source infers from the frozenset in its iteration
      order; `InferCacheAnyOrder` shows every order gives `InferSet`. */
  function InferCache(core: Option<Core>, cs: set<Config>, d: Dom, cache: Cache): (r: (Core, Cache))
    ensures r.1.Keys == cache.Keys + {(core, cs)}
    ensures forall key | key in cache :: r.1[key] == cache[key]
  {
    var key := (core, cs);
    if key in cache then (cache[key], cache)
    else
      var v := InferSet(cs, core, d);
      (v, cache[key := v])
  }

  /** The memo is transparent: it answers what inferring would. */
  lemma InferCacheSound(core: Option<Core>, cs: set<Config>, d: Dom, cache: Cache)
    requires CacheOk(cache, d)
    ensures InferCache(core, cs, d, cache).0 == InferSet(cs, core, d)
    ensures CacheOk(InferCache(core, cs, d, cache).1, d)
  {
  }

  /** Whatever order the frozenset is iterated in, the memoised answer is
      what the source's `infer` computes on that order. */
  lemma InferCacheAnyOrder(core: Option<Core>, configs: seq<Config>, d: Dom, cache: Cache)
    requires CacheOk(cache, d)
    requires InferPre(configs, core, d)
    ensures InferCache(core, Generators.Elems(configs), d, cache).0 == Infer(configs, core, d)
  {
    InferAgrees(configs, core, d);
  }

  // ---------------------------------------------------------------------
  // One side of a location (`_f` in `infer_sid`)
  // ---------------------------------------------------------------------

  /** The configurations of `b` that satisfy `core` conjunctively. */
  function Implying(b: set<Config>, core: Core): set<Config>
  {
    set c | c in b && CImplies(c, core)
  }

  /** `cd` without the variables of `cc`. */
  function Without(cd: Core, cc: Core): Core
  {
    map k | k in cd && k !in cc :: cd[k]
  }

  predicate OptInDom(oc: Option<Core>, d: Dom)
  {
    oc.Some? ==> InDom(oc.value, d)
  }

  /** The first half of `_f`: revise the conjunction `cc` with `cs`, when
      there is any. */
  function ReviseConj(cs: set<Config>, cc: Option<Core>, d: Dom, cache: Cache): (r: (Option<Core>, Cache))
  {
    if cs != {} then
      var (v, c1) := InferCache(cc, cs, d, cache);
      (Some(v), c1)
    else (cc, cache)
  }

  /** The conjunction is revised by exactly the new configurations, and the
      memo stays transparent. */
  lemma ReviseConjSound(cs: set<Config>, cc: Option<Core>, d: Dom, cache: Cache)
    requires CacheOk(cache, d)
    ensures ReviseConj(cs, cc, d, cache).0 == if cs != {} then Some(InferSet(cs, cc, d)) else cc
    ensures CacheOk(ReviseConj(cs, cc, d, cache).1, d)
  {
    if cs != {} {
      InferCacheSound(cc, cs, d, cache);
    }
  }

  /** The second half of `_f`: when the revised conjunction `ncc` is truthy
      and some configuration of `b` satisfies it, infer the exception `cd`
      from those configurations, minus the variables of the conjunction.
      Otherwise `cd` is kept as is (the source's comment flags this for an
      empty conjunction). */
  function ReviseExc(ncc: Option<Core>, cd: Option<Core>, b: set<Config>, d: Dom, cache: Cache): (r: (Option<Core>, Cache))
  {
    if Truthy(ncc) && Implying(b, ncc.value) != {} then
      var (v, c2) := InferCache(cd, Implying(b, ncc.value), d, cache);
      (Some(Without(v, ncc.value)), c2)
    else (cd, cache)
  }

  /** The exception core: when the revised conjunction is truthy and
      satisfied by some configuration of `b`, the new exception shares no
      variable with it and every such configuration satisfies it; in every
      other case the old exception is kept. */
  lemma ReviseExcSound(ncc: Option<Core>, cd: Option<Core>, b: set<Config>, d: Dom, cache: Cache)
    requires CacheOk(cache, d)
    requires AllValuesIn(b, d) && OptInDom(cd, d)
    ensures var r := ReviseExc(ncc, cd, b, d, cache).0;
      if Truthy(ncc) && Implying(b, ncc.value) != {} then
        && r.Some?
        && r.value.Keys !! ncc.value.Keys
        && InDom(r.value, d)
        && forall c | c in b && CImplies(c, ncc.value) :: CImplies(c, r.value)
      else r == cd
  {
    if Truthy(ncc) && Implying(b, ncc.value) != {} {
      var imp := Implying(b, ncc.value);
      InferCacheSound(cd, imp, d, cache);
      var v := InferSet(imp, cd, d);
      var r := ReviseExc(ncc, cd, b, d, cache).0;
      assert r == Some(Without(v, ncc.value));
      InferSound(imp, cd, d);
      InferShape(imp, cd, d);
      forall c | c in b && CImplies(c, ncc.value)
        ensures CImplies(c, r.value)
      {
        assert c in imp;
        CImpliesWeaker(c, r.value, v);
      }
    }
  }

  /** The memo stays transparent, and the exception does not depend on
      which transparent memo is used. */
  lemma ReviseExcCache(ncc: Option<Core>, cd: Option<Core>, b: set<Config>, d: Dom, cache: Cache, other: Cache)
    requires CacheOk(cache, d) && CacheOk(other, d)
    ensures CacheOk(ReviseExc(ncc, cd, b, d, cache).1, d)
    ensures ReviseExc(ncc, cd, b, d, cache).0 == ReviseExc(ncc, cd, b, d, other).0
  {
    if Truthy(ncc) && Implying(b, ncc.value) != {} {
      InferCacheSound(cd, Implying(b, ncc.value), d, cache);
      InferCacheSound(cd, Implying(b, ncc.value), d, other);
    }
  }

  /** `_f` of `infer_sid`: revise the conjunction, then its exception. */
  function InferSide(cs: set<Config>, cc: Option<Core>, cd: Option<Core>, b: set<Config>, d: Dom, cache: Cache)
    : (r: (Option<Core>, Option<Core>, Cache))
  {
    var (ncc, c1) := ReviseConj(cs, cc, d, cache);
    var (ncd, c2) := ReviseExc(ncc, cd, b, d, c1);
    (ncc, ncd, c2)
  }

  /** Both halves of `_f` keep the memo transparent and do not depend on
      which transparent memo they are given. */
  lemma InferSideCache(cs: set<Config>, cc: Option<Core>, cd: Option<Core>, b: set<Config>, d: Dom, cache: Cache, other: Cache)
    requires CacheOk(cache, d) && CacheOk(other, d)
    ensures CacheOk(InferSide(cs, cc, cd, b, d, cache).2, d)
    ensures InferSide(cs, cc, cd, b, d, cache).0 == InferSide(cs, cc, cd, b, d, other).0
    ensures InferSide(cs, cc, cd, b, d, cache).1 == InferSide(cs, cc, cd, b, d, other).1
  {
    ReviseConjSound(cs, cc, d, cache);
    ReviseConjSound(cs, cc, d, other);
    var c1 := ReviseConj(cs, cc, d, cache);
    var o1 := ReviseConj(cs, cc, d, other);
    ReviseExcCache(c1.0, cd, b, d, c1.1, o1.1);
  }

  // ---------------------------------------------------------------------
  // `infer_sid`
  // ---------------------------------------------------------------------

  /** The configurations of a map that reach `sid`. */
  function Cov(m: ConfigsD, sid: Sid): set<Config>
  {
    set c | c in m && sid in m[c]
  }

  /** The configurations of a map that do not reach `sid`. */
  function NonCov(m: ConfigsD, sid: Sid): set<Config>
  {
    set c | c in m && sid !in m[c]
  }

  /** `Infer.infer_sid`: revise the positive side with the new configurations
      reaching `sid` (exceptions drawn from all configurations not reaching
      it), and the negative side with the new configurations not reaching
      it (all of them if the negative side was never computed; exceptions
      drawn from `covs_d[sid]`).  A location missing from `covs_d` raises
      `KeyError` in the source. */
  function InferSid(sid: Sid, p: PNCore, cconfigs: ConfigsD, configs: ConfigsD, covs: Covs, d: Dom, cache: Cache)
    : (r: (PNCore, Cache))
    requires sid in covs
  {
    var pcs := Cov(cconfigs, sid);
    var ncs := if p.nc.None? then NonCov(configs, sid) else NonCov(cconfigs, sid);
    var (pc, pd, cache1) := InferSide(pcs, p.pc, p.pd, NonCov(configs, sid), d, cache);
    var (nc, nd, cache2) := InferSide(ncs, p.nc, p.nd, covs[sid], d, cache1);
    (PNCore(pc, pd, nc, nd), cache2)
  }

  /** The revision `infer_sid` makes, whatever transparent memo it is given. */
  function Revised(sid: Sid, p: PNCore, cconfigs: ConfigsD, configs: ConfigsD, covs: Covs, d: Dom): PNCore
    requires sid in covs
  {
    InferSid(sid, p, cconfigs, configs, covs, d, map[]).0
  }

  /** The memo changes nothing in the revision and stays transparent. */
  lemma InferSidCache(sid: Sid, p: PNCore, cconfigs: ConfigsD, configs: ConfigsD, covs: Covs, d: Dom, cache: Cache)
    requires sid in covs
    requires CacheOk(cache, d)
    ensures InferSid(sid, p, cconfigs, configs, covs, d, cache).0 == Revised(sid, p, cconfigs, configs, covs, d)
    ensures CacheOk(InferSid(sid, p, cconfigs, configs, covs, d, cache).1, d)
  {
    var empty: Cache := map[];
    var pcs := Cov(cconfigs, sid);
    var ncs := if p.nc.None? then NonCov(configs, sid) else NonCov(cconfigs, sid);
    var b := NonCov(configs, sid);
    InferSideCache(pcs, p.pc, p.pd, b, d, cache, empty);
    InferSideCache(pcs, p.pc, p.pd, b, d, empty, empty);
    var r1 := InferSide(pcs, p.pc, p.pd, b, d, cache);
    var e1 := InferSide(pcs, p.pc, p.pd, b, d, empty);
    InferSideCache(ncs, p.nc, p.nd, covs[sid], d, r1.2, e1.2);
  }

  /** What the cores of a location say about the configurations seen so
      far: `pc` is inferred from all those reaching `sid` (`None` while
      there are none) and `nc`, once computed, from all those not reaching
      it. */
  predicate Learnt(p: PNCore, configs: ConfigsD, sid: Sid, d: Dom)
  {
    && (Cov(configs, sid) == {} ==> p.pc.None?)
    && (Cov(configs, sid) != {} ==> p.pc == Some(InferSet(Cov(configs, sid), None, d)))
    && (p.nc.Some? ==> NonCov(configs, sid) != {} && p.nc == Some(InferSet(NonCov(configs, sid), None, d)))
  }

  /** The default core of a location no configuration has reached yet. */
  lemma LearntDefault(configs: ConfigsD, sid: Sid, d: Dom)
    requires Cov(configs, sid) == {}
    ensures Learnt(Default, configs, sid, d)
  {
  }

  lemma CovSplit(configs0: ConfigsD, cconfigs: ConfigsD, sid: Sid)
    requires configs0.Keys !! cconfigs.Keys
    ensures Cov(configs0 + cconfigs, sid) == Cov(configs0, sid) + Cov(cconfigs, sid)
    ensures NonCov(configs0 + cconfigs, sid) == NonCov(configs0, sid) + NonCov(cconfigs, sid)
  {
    var all := configs0 + cconfigs;
    forall c | c in all
      ensures all[c] == if c in cconfigs then cconfigs[c] else configs0[c]
    {
    }
  }

  predicate AllIn(m: ConfigsD, d: Dom)
  {
    forall c | c in m :: ValuesIn(c, d)
  }

  /** The conjunctions `infer_sid` computes, memo aside. */
  lemma RevisedConj(sid: Sid, p: PNCore, cconfigs: ConfigsD, configs: ConfigsD, covs: Covs, d: Dom)
    requires sid in covs
    ensures var q := Revised(sid, p, cconfigs, configs, covs, d);
      var pcs := Cov(cconfigs, sid);
      var ncs := if p.nc.None? then NonCov(configs, sid) else NonCov(cconfigs, sid);
      && q.pc == (if pcs != {} then Some(InferSet(pcs, p.pc, d)) else p.pc)
      && q.nc == (if ncs != {} then Some(InferSet(ncs, p.nc, d)) else p.nc)
  {
    var empty: Cache := map[];
    var pcs := Cov(cconfigs, sid);
    var ncs := if p.nc.None? then NonCov(configs, sid) else NonCov(cconfigs, sid);
    ReviseConjSound(pcs, p.pc, d, empty);
    InferSideCache(pcs, p.pc, p.pd, NonCov(configs, sid), d, empty, empty);
    var r1 := InferSide(pcs, p.pc, p.pd, NonCov(configs, sid), d, empty);
    ReviseConjSound(ncs, p.nc, d, r1.2);
  }

  lemma AllInParts(m: ConfigsD, sid: Sid, d: Dom)
    requires AllIn(m, d)
    ensures AllValuesIn(Cov(m, sid), d) && AllValuesIn(NonCov(m, sid), d)
  {
  }

  /** One side of `Learnt`: a conjunction inferred from `seen` (`None` when
      `seen` is empty), revised with `batch` when that is non-empty, is the
      conjunction inferred from both. */
  lemma ReviseLearns(seen: set<Config>, batch: set<Config>, cc: Option<Core>, d: Dom)
    requires AllValuesIn(seen, d) && AllValuesIn(batch, d)
    requires seen == {} ==> cc.None?
    requires seen != {} ==> cc == Some(InferSet(seen, None, d))
    ensures var r := if batch != {} then Some(InferSet(batch, cc, d)) else cc;
      && (seen + batch == {} ==> r.None?)
      && (seen + batch != {} ==> r == Some(InferSet(seen + batch, None, d)))
  {
    if batch != {} && seen != {} {
      InferIncremental(seen, batch, None, d);
    } else if batch == {} {
      assert seen + batch == seen;
    } else {
      assert seen + batch == batch;
    }
  }

  /** Revising with a new batch keeps `Learnt`: the incrementally revised
      `pc` and `nc` are what inference from the whole history gives. */
  lemma InferSidLearns(sid: Sid, p: PNCore, configs0: ConfigsD, cconfigs: ConfigsD, covs: Covs, d: Dom)
    requires sid in covs
    requires configs0.Keys !! cconfigs.Keys
    requires AllIn(configs0, d) && AllIn(cconfigs, d)
    requires Learnt(p, configs0, sid, d)
    ensures Learnt(Revised(sid, p, cconfigs, configs0 + cconfigs, covs, d), configs0 + cconfigs, sid, d)
  {
    var configs := configs0 + cconfigs;
    CovSplit(configs0, cconfigs, sid);
    RevisedConj(sid, p, cconfigs, configs, covs, d);
    AllInParts(configs0, sid, d);
    AllInParts(cconfigs, sid, d);
    ReviseLearns(Cov(configs0, sid), Cov(cconfigs, sid), p.pc, d);
    if p.nc.Some? {
      ReviseLearns(NonCov(configs0, sid), NonCov(cconfigs, sid), p.nc, d);
    }
  }

  /** The exception cores `infer_sid` computes: each covers the
      configurations of the other side that satisfy its conjunction. */
  lemma RevisedExc(sid: Sid, p: PNCore, cconfigs: ConfigsD, configs: ConfigsD, covs: Covs, d: Dom)
    requires sid in covs
    requires AllIn(configs, d) && AllValuesIn(covs[sid], d)
    requires OptInDom(p.pd, d) && OptInDom(p.nd, d)
    ensures var q := Revised(sid, p, cconfigs, configs, covs, d);
      && (Truthy(q.pc) && Implying(NonCov(configs, sid), q.pc.value) != {} ==>
            q.pd.Some? && q.pd.value.Keys !! q.pc.value.Keys &&
            forall c | c in NonCov(configs, sid) && CImplies(c, q.pc.value) :: CImplies(c, q.pd.value))
      && (Truthy(q.nc) && Implying(covs[sid], q.nc.value) != {} ==>
            q.nd.Some? && q.nd.value.Keys !! q.nc.value.Keys &&
            forall c | c in covs[sid] && CImplies(c, q.nc.value) :: CImplies(c, q.nd.value))
  {
    var empty: Cache := map[];
    var pcs := Cov(cconfigs, sid);
    var ncs := if p.nc.None? then NonCov(configs, sid) else NonCov(cconfigs, sid);
    var b := NonCov(configs, sid);
    ReviseConjSound(pcs, p.pc, d, empty);
    var c1 := ReviseConj(pcs, p.pc, d, empty);
    ReviseExcSound(c1.0, p.pd, b, d, c1.1);
    InferSideCache(pcs, p.pc, p.pd, b, d, empty, empty);
    var r1 := InferSide(pcs, p.pc, p.pd, b, d, empty);
    ReviseConjSound(ncs, p.nc, d, r1.2);
    var c2 := ReviseConj(ncs, p.nc, d, r1.2);
    ReviseExcSound(c2.0, p.nd, covs[sid], d, c2.1);
  }

  // ---------------------------------------------------------------------
  // `infer_covs`
  // ---------------------------------------------------------------------

  /** The locations `infer_covs` revisits: those that have cores and those
      the batch reaches, narrowed to `sids` when that is non-empty. */
  function Considered(cores: map<Sid, PNCore>, cc: ConfigsD, sids: set<Sid>): set<Sid>
  {
    var all := cores.Keys + SidsOf(cc);
    if sids != {} then set s | s in all && s in sids else all
  }

  /** The cores a location starts from: its own, or the default ones. */
  function CoreAt(cores: map<Sid, PNCore>, sid: Sid): PNCore
  {
    if sid in cores then cores[sid] else Default
  }

  /** The revision `infer_sid` makes of each location of `all`. */
  function Revisions(cores0: map<Sid, PNCore>, all: set<Sid>, cc: ConfigsD, configs: ConfigsD, covs: Covs, d: Dom)
    : (rev: map<Sid, PNCore>)
    requires all <= covs.Keys
    ensures rev.Keys == all
  {
    map s | s in all :: Revised(s, CoreAt(cores0, s), cc, configs, covs, d)
  }

  /** The state of `infer_covs` once the locations `done` have been
      revisited, `rev` being their revisions: `new_covs` holds those that
      had no cores, `new_cores` those whose cores changed, each of which
      now holds its revision, and every other location keeps its cores. */
  predicate Processed(cores: map<Sid, PNCore>, cores0: map<Sid, PNCore>, done: set<Sid>,
                      newCovs: set<Sid>, newCores: set<Sid>, rev: map<Sid, PNCore>)
    requires done <= rev.Keys
  {
    && newCovs == done - cores0.Keys
    && newCores <= done
    && cores.Keys == cores0.Keys + newCores
    && (forall s | s in done :: s in newCores <==> rev[s] != CoreAt(cores0, s))
    && (forall s | s in newCores :: cores[s] == rev[s])
    && (forall s | s in cores0 && s !in newCores :: cores[s] == cores0[s])
  }

  lemma ProcessedStep(cores: map<Sid, PNCore>, cores0: map<Sid, PNCore>, done: set<Sid>,
                      newCovs: set<Sid>, newCores: set<Sid>, rev: map<Sid, PNCore>, sid: Sid)
    requires done <= rev.Keys && sid in rev && sid !in done
    requires Processed(cores, cores0, done, newCovs, newCores, rev)
    ensures (sid in cores) == (sid in cores0)
    ensures sid in cores ==> cores[sid] == cores0[sid]
    ensures var changed := rev[sid] != CoreAt(cores0, sid);
      Processed(if changed then cores[sid := rev[sid]] else cores, cores0, done + {sid},
                if sid in cores0 then newCovs else newCovs + {sid},
                if changed then newCores + {sid} else newCores, rev)
  {
  }

  /** Revising a location through the memo gives its revision, and the
      memo stays transparent. */
  method ReviseSid(sid: Sid, core: PNCore, cc: ConfigsD, configs: ConfigsD, covs: Covs, d: Dom, cache: Cache)
    returns (q: PNCore, cache': Cache)
    requires sid in covs && CacheOk(cache, d)
    ensures q == Revised(sid, core, cc, configs, covs, d)
    ensures CacheOk(cache', d)
  {
    InferSidCache(sid, core, cc, configs, covs, d, cache);
    var r := InferSid(sid, core, cc, configs, covs, d, cache);
    q, cache' := r.0, r.1;
  }

  /** The first `i + 1` names of a list are its first `i` plus the next. */
  lemma PrefixStep(ks: seq<Sid>, i: nat)
    requires Distinct(ks) && i < |ks|
    ensures Generators.Elems(ks[..i + 1]) == Generators.Elems(ks[..i]) + {ks[i]}
    ensures ks[i] !in Generators.Elems(ks[..i])
  {
    assert ks[..i + 1] == ks[..i] + [ks[i]];
    Generators.ElemsAppend(ks[..i], ks[i]);
  }

  /** The loop of `infer_covs` over the names `ks`, `rev` being the
      revision of each. */
  method ReviseAll(ks: seq<Sid>, cores0: map<Sid, PNCore>, cc: ConfigsD, configs: ConfigsD, covs: Covs, d: Dom,
                   ghost rev: map<Sid, PNCore>)
    returns (cores: map<Sid, PNCore>, newCovs: set<Sid>, newCores: set<Sid>)
    requires Distinct(ks)
    requires forall s | s in ks :: s in covs && s in rev && rev[s] == Revised(s, CoreAt(cores0, s), cc, configs, covs, d)
    ensures Generators.Elems(ks) <= rev.Keys
    ensures Processed(cores, cores0, Generators.Elems(ks), newCovs, newCores, rev)
  {
    cores, newCovs, newCores := cores0, {}, {};
    var cache: Cache := map[];
    ghost var done: set<Sid> := {};
    var i := 0;
    while i < |ks|
      invariant 0 <= i <= |ks|
      invariant CacheOk(cache, d)
      invariant done == Generators.Elems(ks[..i])
      invariant done <= rev.Keys
      invariant Processed(cores, cores0, done, newCovs, newCores, rev)
    {
      var sid := ks[i];
      PrefixStep(ks, i);
      ProcessedStep(cores, cores0, done, newCovs, newCores, rev, sid);
      var core: PNCore;
      if sid in cores {
        core := cores[sid];
      } else {
        core := Default;
        newCovs := newCovs + {sid};
      }
      var q;
      q, cache := ReviseSid(sid, core, cc, configs, covs, d, cache);
      if q != core {
        newCores := newCores + {sid};
        cores := cores[sid := q];
      }
      done := done + {sid};
      i := i + 1;
    }
    assert ks[..|ks|] == ks;
  }

  /** `Infer.infer_covs`: register the batch in `configs_d` and `covs_d`,
      then revisit every considered location in name order, starting from
      the default cores where there are none, and store the revision where
      it differs.  Returns the locations that had no cores and those whose
      cores changed. */
  method InferCovsRun(cores0: map<Sid, PNCore>, cc: ConfigsD, configs0: ConfigsD, covs0: Covs, d: Dom, sids: set<Sid>)
    returns (cores: map<Sid, PNCore>, configs: ConfigsD, covs: Covs, newCovs: set<Sid>, newCores: set<Sid>)
    requires cc != map[]
    requires cc.Keys !! configs0.Keys
    requires cores0.Keys <= covs0.Keys
    ensures configs == configs0 + cc
    ensures covs == CovsAfter(covs0, cc)
    ensures Considered(cores0, cc, sids) <= covs.Keys
    ensures Processed(cores, cores0, Considered(cores0, cc, sids), newCovs, newCores,
                      Revisions(cores0, Considered(cores0, cc, sids), cc, configs, covs, d))
  {
    configs := configs0 + cc;
    covs := CovsAfter(covs0, cc);
    var all := Considered(cores0, cc, sids);
    assert all <= covs.Keys;
    ghost var rev := Revisions(cores0, all, cc, configs, covs, d);
    var ks := Sorted(all);
    assert Generators.Elems(ks) == all;
    cores, newCovs, newCores := ReviseAll(ks, cores0, cc, configs, covs, d, rev);
  }

  /** After `infer_covs`, every considered location holds its revision and
      every other keeps its cores; so if the cores of the considered
      locations were learnt from the configurations seen before, they are
      learnt from those plus the batch. */
  lemma InferCovsLearns(cores0: map<Sid, PNCore>, cc: ConfigsD, configs0: ConfigsD, covs0: Covs, d: Dom, sids: set<Sid>,
                        cores: map<Sid, PNCore>, newCovs: set<Sid>, newCores: set<Sid>)
    requires cc.Keys !! configs0.Keys
    requires AllIn(configs0, d) && AllIn(cc, d)
    requires Considered(cores0, cc, sids) <= CovsAfter(covs0, cc).Keys
    requires Processed(cores, cores0, Considered(cores0, cc, sids), newCovs, newCores,
                       Revisions(cores0, Considered(cores0, cc, sids), cc, configs0 + cc, CovsAfter(covs0, cc), d))
    requires forall s | s in Considered(cores0, cc, sids) :: Learnt(CoreAt(cores0, s), configs0, s, d)
    ensures forall s | s in Considered(cores0, cc, sids) :: Learnt(CoreAt(cores, s), configs0 + cc, s, d)
  {
    var all := Considered(cores0, cc, sids);
    var covs := CovsAfter(covs0, cc);
    var rev := Revisions(cores0, all, cc, configs0 + cc, covs, d);
    forall s | s in all
      ensures Learnt(CoreAt(cores, s), configs0 + cc, s, d)
    {
      assert CoreAt(cores, s) == rev[s];
      InferSidLearns(s, CoreAt(cores0, s), configs0, cc, covs, d);
    }
  }

  /** `infer_covs` leaves the cores of locations it does not consider
      alone. */
  lemma InferCovsKeeps(cores0: map<Sid, PNCore>, cc: ConfigsD, configs0: ConfigsD, covs0: Covs, d: Dom, sids: set<Sid>,
                       cores: map<Sid, PNCore>, newCovs: set<Sid>, newCores: set<Sid>)
    requires Considered(cores0, cc, sids) <= CovsAfter(covs0, cc).Keys
    requires Processed(cores, cores0, Considered(cores0, cc, sids), newCovs, newCores,
                       Revisions(cores0, Considered(cores0, cc, sids), cc, configs0 + cc, CovsAfter(covs0, cc), d))
    ensures forall s | s !in Considered(cores0, cc, sids) :: CoreAt(cores, s) == CoreAt(cores0, s)
  {
  }
}

=== FILE: inference.dfy ===
/** The inference algorithm of src/config.py (`Infer.infer`): from a
    non-empty list of configurations and an optional starting core, the
    conjunction that every configuration satisfies.  Each variable of the
    starting core (of the shortest configuration when there is none) is
    widened by the values the configurations give it; a variable is dropped
    when some configuration does not set it, or when its values come to
    cover its whole domain.

    `Infer` follows the source's early-returning loop over a list;
    `InferSet` is the closed form over a set of configurations, and
    `InferAgrees` shows the two coincide, so the result depends neither on
    the order of the list nor on which of several shortest configurations
    is picked.  The rest of the file states what the result means: sound
    for every configuration, the strongest such core, idempotent, and
    insensitive to splitting the configurations into batches. */
module Inference {
  import opened Wrappers
  import opened Domains
  import opened Cores
  import opened Generators

  /** Every variable a configuration sets belongs to the domain and takes
      one of its values there. */
  predicate ValuesIn(c: Config, d: Dom)
  {
    forall k | k in c :: k in d.vals && c[k] in d.vals[k]
  }

  predicate AllValuesIn(cs: set<Config>, d: Dom)
  {
    forall c | c in cs :: ValuesIn(c, d)
  }

  /** The values `k` takes in the configurations that set it. */
  function Observed(cs: set<Config>, k: Var): set<Val>
  {
    set c | c in cs && k in c :: c[k]
  }

  /** Every configuration sets `k`. */
  predicate InAll(cs: set<Config>, k: Var)
  {
    forall c | c in cs :: k in c
  }

  // ---------------------------------------------------------------------
  // The source's algorithm
  // ---------------------------------------------------------------------

  /** The nested `f` of `Infer.infer`: widen `s` by the value of `k` in each
      configuration in turn; give up (`None`) at the first configuration
      that does not set `k`, or as soon as the set reaches `ldx` values. */
  function Widen(k: Var, s: set<Val>, ldx: nat, configs: seq<Config>): Option<set<Val>>
    decreases |configs|
  {
    if |configs| == 0 then Some(s)
    else if k !in configs[0] then None
    else
      var s' := s + {configs[0][k]};
      if |s'| == ldx then None else Widen(k, s', ldx, configs[1..])
  }

  /** `min(configs, key=len)`: the first configuration of least length. */
  function MinLen(configs: seq<Config>): (m: Config)
    requires |configs| > 0
    ensures exists j | 0 <= j < |configs| :: m == configs[j] && forall i | 0 <= i < j :: |configs[i]| > |m|
    ensures forall i | 0 <= i < |configs| :: |m| <= |configs[i]|
    decreases |configs|
  {
    if |configs| == 1 then configs[0]
    else
      var m := MinLen(configs[1..]);
      if |configs[0]| <= |m| then configs[0]
      else
        var j :| 0 <= j < |configs[1..]| && m == configs[1..][j] && forall i | 0 <= i < j :: |configs[1..][i]| > |m|;
        assert m == configs[j + 1];
        m
  }

  /** The starting core of `Infer.infer`: the given one, or the singleton
      core of the shortest configuration. */
  function Start(configs: seq<Config>, core: Option<Core>): (r: Core)
    requires |configs| > 0
  {
    if core.None? then ConfigCore(MinLen(configs)) else core.value
  }

  predicate InferPre(configs: seq<Config>, core: Option<Core>, d: Dom)
  {
    && |configs| > 0
    && (forall i | 0 <= i < |configs| :: ValuesIn(configs[i], d))
    && (core.Some? ==> InDom(core.value, d))
  }

  lemma StartOverDom(configs: seq<Config>, core: Option<Core>, d: Dom)
    requires InferPre(configs, core, d)
    ensures forall k | k in Start(configs, core) :: k in d.vals && Start(configs, core)[k] <= d.vals[k]
  {
    if core.None? {
      var m := MinLen(configs);
      assert m in configs;
    }
  }

  /** `Infer.infer`. */
  function Infer(configs: seq<Config>, core: Option<Core>, d: Dom): Core
    requires InferPre(configs, core, d)
  {
    var base := Start(configs, core);
    StartOverDom(configs, core, d);
    map k | k in base && Widen(k, base[k], |d.vals[k]|, configs).Some? && Widen(k, base[k], |d.vals[k]|, configs).value != {}
      :: Widen(k, base[k], |d.vals[k]|, configs).value
  }

  // ---------------------------------------------------------------------
  // The closed form
  // ---------------------------------------------------------------------

  /** The starting core of the closed form: the given core, or every
      variable of the domain with no value yet. */
  function Seed(core: Option<Core>, d: Dom): Core
  {
    if core.None? then map k | k in d.vals :: {} else core.value
  }

  /** Widen each variable of the seed by every value the configurations
      give it, keeping the variables every configuration sets and whose
      values do not fill the domain. */
  function InferSet(cs: set<Config>, core: Option<Core>, d: Dom): Core
  {
    var base := Seed(core, d);
    map k | k in base && k in d.vals && InAll(cs, k) && base[k] + Observed(cs, k) != d.vals[k]
      :: base[k] + Observed(cs, k)
  }

  predicate SetPre(cs: set<Config>, core: Option<Core>, d: Dom)
  {
    cs != {} && AllValuesIn(cs, d) && (core.Some? ==> InDom(core.value, d))
  }

  // ---------------------------------------------------------------------
  // The source's loop computes the closed form
  // ---------------------------------------------------------------------

  lemma ElemsCons<T>(s: seq<T>)
    requires |s| > 0
    ensures Elems(s) == {s[0]} + Elems(s[1..])
  {
    assert s == [s[0]] + s[1..];
  }

  lemma ObservedUnion(a: set<Config>, b: set<Config>, k: Var)
    ensures Observed(a + b, k) == Observed(a, k) + Observed(b, k)
  {
    forall v | v in Observed(a + b, k)
      ensures v in Observed(a, k) + Observed(b, k)
    {
      var c :| c in a + b && k in c && c[k] == v;
      if c in a {
        assert v in Observed(a, k);
      } else {
        assert v in Observed(b, k);
      }
    }
  }

  lemma ObservedCons(cs: set<Config>, c: Config, k: Var)
    ensures Observed({c} + cs, k) == (if k in c then {c[k]} else {}) + Observed(cs, k)
  {
  }

  /** The early-returning loop of `f` computes: `None` when some
      configuration misses `k` or when the widened set fills the domain
      values `dk`, the widened set otherwise. */
  lemma {:induction false} WidenClosed(k: Var, s: set<Val>, dk: set<Val>, configs: seq<Config>)
    requires s <= dk
    requires forall i | 0 <= i < |configs| :: k in configs[i] ==> configs[i][k] in dk
    ensures Widen(k, s, |dk|, configs) ==
      if !InAll(Elems(configs), k) then None
      else if |configs| > 0 && s + Observed(Elems(configs), k) == dk then None
      else Some(s + Observed(Elems(configs), k))
    decreases |configs|
  {
    if |configs| == 0 {
      assert Elems(configs) == {};
      assert Observed(Elems(configs), k) == {};
    } else {
      var c := configs[0];
      var rest := configs[1..];
      ElemsCons(configs);
      if k in c {
        ObservedCons(Elems(rest), c, k);
        var s' := s + {c[k]};
        assert s + Observed(Elems(configs), k) == s' + Observed(Elems(rest), k);
        assert Observed(Elems(rest), k) <= dk by {
          forall v | v in Observed(Elems(rest), k)
            ensures v in dk
          {
            var x :| x in Elems(rest) && k in x && x[k] == v;
            var i :| 0 <= i < |rest| && rest[i] == x;
            assert configs[i + 1] == x;
          }
        }
        if |s'| == |dk| {
          SubsetCardEq(s', dk);
        } else {
          assert s' != dk;
          WidenClosed(k, s', dk, rest);
        }
      } else {
        assert c in Elems(configs);
      }
    }
  }

  /** The source's loop and the closed form agree, whatever the order of
      the configurations. */
  lemma InferAgrees(configs: seq<Config>, core: Option<Core>, d: Dom)
    requires InferPre(configs, core, d)
    ensures Infer(configs, core, d) == InferSet(Elems(configs), core, d)
  {
    forall k
      ensures k in Infer(configs, core, d) <==> k in InferSet(Elems(configs), core, d)
      ensures k in Infer(configs, core, d) ==> Infer(configs, core, d)[k] == InferSet(Elems(configs), core, d)[k]
    {
      InferAgreesAt(configs, core, d, k);
    }
    MapExt(Infer(configs, core, d), InferSet(Elems(configs), core, d));
  }

  lemma MapExt<K, V>(l: map<K, V>, r: map<K, V>)
    requires forall k :: k in l <==> k in r
    requires forall k | k in l :: l[k] == r[k]
    ensures l == r
  {
  }

  lemma InferAgreesAt(configs: seq<Config>, core: Option<Core>, d: Dom, k: Var)
    requires InferPre(configs, core, d)
    ensures k in Infer(configs, core, d) <==> k in InferSet(Elems(configs), core, d)
    ensures k in Infer(configs, core, d) ==> Infer(configs, core, d)[k] == InferSet(Elems(configs), core, d)[k]
  {
    var base := Start(configs, core);
    StartOverDom(configs, core, d);
    if k in base {
      InferAgreesStarted(configs, core, d, k);
    } else if core.None? && k in d.vals {
      var m := MinLen(configs);
      assert m in Elems(configs) && k !in m;
    }
  }

  /** For a variable of the starting core, the loop's widening and the
      closed form agree. */
  lemma InferAgreesStarted(configs: seq<Config>, core: Option<Core>, d: Dom, k: Var)
    requires InferPre(configs, core, d)
    requires k in Start(configs, core)
    ensures k in Infer(configs, core, d) <==> k in InferSet(Elems(configs), core, d)
    ensures k in Infer(configs, core, d) ==> Infer(configs, core, d)[k] == InferSet(Elems(configs), core, d)[k]
  {
    var base := Start(configs, core);
    var seed := Seed(core, d);
    var cs := Elems(configs);
    var obs := Observed(cs, k);
    StartOverDom(configs, core, d);
    assert configs[0] in cs;
    var dk := d.vals[k];
    WidenClosed(k, base[k], dk, configs);
    if InAll(cs, k) {
      assert configs[0][k] in obs;
      if core.None? {
        var m := MinLen(configs);
        assert m in cs;
        assert base[k] + obs == seed[k] + obs;
      }
    }
  }

  // ---------------------------------------------------------------------
  // What the result means
  // ---------------------------------------------------------------------

  /** Every configuration satisfies the inferred conjunction. */
  lemma InferSound(cs: set<Config>, core: Option<Core>, d: Dom)
    requires SetPre(cs, core, d)
    ensures forall c | c in cs :: CImplies(c, InferSet(cs, core, d))
  {
    var r := InferSet(cs, core, d);
    forall c, k | c in cs && k in r
      ensures k in c && c[k] in r[k]
    {
      assert c[k] in Observed(cs, k);
    }
  }

  /** The result only drops variables of the starting core and only adds
      values to them; every set is non-empty and strictly smaller than the
      variable's domain. */
  lemma InferShape(cs: set<Config>, core: Option<Core>, d: Dom)
    requires SetPre(cs, core, d)
    ensures core.Some? ==> Weaker(InferSet(cs, core, d), core.value)
    ensures Proper(InferSet(cs, core, d), d)
  {
    var r := InferSet(cs, core, d);
    var c :| c in cs;
    forall k | k in r
      ensures r[k] != {} && r[k] < d.vals[k]
    {
      assert c[k] in Observed(cs, k);
      assert Observed(cs, k) <= d.vals[k];
    }
  }

  /** No sound proper core weaker than the start is stronger than the
      result: the result is the strongest conjunction the configurations
      allow. */
  lemma InferStrongest(cs: set<Config>, core: Option<Core>, d: Dom, q: Core)
    requires SetPre(cs, core, d)
    requires Proper(q, d)
    requires core.Some? ==> Weaker(q, core.value)
    requires forall c | c in cs :: CImplies(c, q)
    ensures Weaker(q, InferSet(cs, core, d))
  {
    var r := InferSet(cs, core, d);
    var seed := Seed(core, d);
    forall k | k in q
      ensures k in r && r[k] <= q[k]
    {
      assert InAll(cs, k);
      assert Observed(cs, k) <= q[k];
      assert seed[k] + Observed(cs, k) <= q[k] < d.vals[k];
    }
  }

  /** Inferring again from the result changes nothing. */
  lemma InferIdempotent(cs: set<Config>, core: Option<Core>, d: Dom)
    requires SetPre(cs, core, d)
    ensures InferSet(cs, Some(InferSet(cs, core, d)), d) == InferSet(cs, core, d)
  {
    var r := InferSet(cs, core, d);
    InferShape(cs, core, d);
    var r2 := InferSet(cs, Some(r), d);
    forall k | k in r
      ensures k in r2 && r2[k] == r[k]
    {
      assert Observed(cs, k) <= r[k];
    }
  }

  /** Inferring from two batches in turn, the first result seeding the
      second, is inferring from both at once: the incremental use of the
      positive and negative cores loses nothing. */
  lemma InferIncremental(a: set<Config>, b: set<Config>, core: Option<Core>, d: Dom)
    requires SetPre(a, core, d) && SetPre(b, core, d)
    ensures InferSet(a + b, core, d) == InferSet(b, Some(InferSet(a, core, d)), d)
  {
    var l := InferSet(a + b, core, d);
    var r := InferSet(b, Some(InferSet(a, core, d)), d);
    forall k
      ensures k in l <==> k in r
      ensures k in l ==> l[k] == r[k]
    {
      InferIncrementalAt(a, b, core, d, k);
    }
    MapExt(l, r);
  }

  lemma InferIncrementalAt(a: set<Config>, b: set<Config>, core: Option<Core>, d: Dom, k: Var)
    requires SetPre(a, core, d) && SetPre(b, core, d)
    ensures k in InferSet(a + b, core, d) <==> k in InferSet(b, Some(InferSet(a, core, d)), d)
    ensures k in InferSet(a + b, core, d) ==> InferSet(a + b, core, d)[k] == InferSet(b, Some(InferSet(a, core, d)), d)[k]
  {
    var seed := Seed(core, d);
    var ra := InferSet(a, core, d);
    assert Seed(Some(ra), d) == ra;
    ObservedUnion(a, b, k);
    assert InAll(a + b, k) <==> InAll(a, k) && InAll(b, k);
    if k in seed && k in d.vals && InAll(a, k) && InAll(b, k) {
      var sa := seed[k] + Observed(a, k);
      assert seed[k] + Observed(a + b, k) == sa + Observed(b, k);
      if sa == d.vals[k] {
        ObservedWithin(b, d, k);
        assert sa + Observed(b, k) == d.vals[k];
      }
    }
  }

  /** The values configurations of the domain give a variable are its values. */
  lemma ObservedWithin(cs: set<Config>, d: Dom, k: Var)
    requires AllValuesIn(cs, d) && k in d.vals
    ensures Observed(cs, k) <= d.vals[k]
  {
  }
}

=== FILE: merging.dfy ===
/** `Cores_d.merge` and `Mcores_d.fix_duplicates` (src/config.py:754-776,
    849-884): group the locations whose analysed hypotheses render to the
    same string under one representative hypothesis, then fold together the
    groups whose formulas are equivalent over the domain.

    `fix_duplicates` is written once for a duplicate test that compares a
    key of each element (`FixDuplicatesBy`); `FixDuplicates` instantiates
    the key with a formula's meaning over the domain, and
    `DupIffSameMeaning` shows that comparing meanings is the source's test:
    both formulas absent, or both present and equivalent. */
module Merging {
  import opened Wrappers
  import opened Domains
  import opened Cores
  import opened Formulas
  import opened PNCores
  import opened CovMaps
  import opened Analysis
  import Generators

  /** `Mcores_d`: a hypothesis and the locations it stands for. */
  type MCoresD = map<Simplified, set<Sid>>

  // ---------------------------------------------------------------------
  // `merge`: grouping by rendered string
  // ---------------------------------------------------------------------

  /** The loop of `merge` over the locations `ks`, in that order: the first
      hypothesis seen with a given string becomes the representative, and
      every location is added under the representative of its string.
      Returns the cache (string to representative) and the groups. */
  function Group(ks: seq<Sid>, cd: SCoresD): (r: (map<string, Simplified>, MCoresD))
    requires forall i | 0 <= i < |ks| :: ks[i] in cd
    decreases |ks|
  {
    if ks == [] then (map[], map[])
    else
      var (cache, mc) := Group(ks[..|ks| - 1], cd);
      var core := cd[ks[|ks| - 1]];
      var cache' := if core.vstr in cache then cache else cache[core.vstr := core];
      (cache', AddSet(mc, cache'[core.vstr], ks[|ks| - 1]))
  }

  /** The strings of the hypotheses at `ks`. */
  function StrsAt(ks: seq<Sid>, cd: SCoresD): set<string>
  {
    set s | s in ks && s in cd :: cd[s].vstr
  }

  /** The hypotheses at `ks`. */
  function CoresAt(ks: seq<Sid>, cd: SCoresD): set<Simplified>
  {
    set s | s in ks && s in cd :: cd[s]
  }

  lemma StrsAtSnoc(ks: seq<Sid>, cd: SCoresD, sid: Sid)
    requires sid in cd
    ensures StrsAt(ks + [sid], cd) == StrsAt(ks, cd) + {cd[sid].vstr}
    ensures CoresAt(ks + [sid], cd) == CoresAt(ks, cd) + {cd[sid]}
  {
    assert forall s :: s in ks + [sid] <==> s in ks || s == sid;
  }

  /** The cache of `merge`'s loop after the locations `ks` has exactly
      their strings, each mapped to one of their hypotheses with that
      string. */
  lemma {:induction false} GroupCache(ks: seq<Sid>, cd: SCoresD, key: string)
    requires forall i | 0 <= i < |ks| :: ks[i] in cd
    ensures key in Group(ks, cd).0 <==> key in StrsAt(ks, cd)
    ensures key in Group(ks, cd).0 ==>
      Group(ks, cd).0[key].vstr == key && Group(ks, cd).0[key] in CoresAt(ks, cd)
    decreases |ks|
  {
    if ks != [] {
      var init := ks[..|ks| - 1];
      var last := ks[|ks| - 1];
      assert ks == init + [last];
      StrsAtSnoc(init, cd, last);
      GroupCache(init, cd, key);
    }
  }

  /** The groups of `merge`'s loop after the locations `ks` are keyed by
      the cached representatives, and a location is in a group exactly when
      it was visited and renders to the representative's string. */
  lemma {:induction false} GroupMembers(ks: seq<Sid>, cd: SCoresD, rep: Simplified, sid: Sid)
    requires forall i | 0 <= i < |ks| :: ks[i] in cd
    ensures rep in Group(ks, cd).1 <==> rep.vstr in Group(ks, cd).0 && Group(ks, cd).0[rep.vstr] == rep
    ensures rep in Group(ks, cd).1 ==> (sid in Group(ks, cd).1[rep] <==> sid in ks && cd[sid].vstr == rep.vstr)
    decreases |ks|
  {
    if ks != [] {
      var init := ks[..|ks| - 1];
      var last := ks[|ks| - 1];
      assert ks == init + [last];
      GroupMembers(init, cd, rep, sid);
      var (cache, mc) := Group(init, cd);
      var core := cd[last];
      GroupCache(init, cd, core.vstr);
      var cache' := if core.vstr in cache then cache else cache[core.vstr := core];
      AddSetShape(mc, cache'[core.vstr], last);
      assert sid in init && sid in cd ==> cd[sid].vstr in StrsAt(init, cd);
      if core.vstr in cache {
        GroupMembers(init, cd, cache[core.vstr], sid);
      } else {
        GroupMembers(init, cd, core, sid);
      }
    }
  }

  /** The strings of the locations of `cd`. */
  function Strs(cd: SCoresD): set<string>
  {
    set s | s in cd :: cd[s].vstr
  }

  /** The locations of `cd`, classed by rendered string. */
  function Classes(cd: SCoresD): (m: map<string, set<Sid>>)
  {
    map key | key in Strs(cd) :: set s | s in cd && cd[s].vstr == key
  }

  /** `sid` is in one of the groups of `mc`. */
  predicate InSomeGroup<K>(mc: map<K, set<Sid>>, sid: Sid)
  {
    exists k | k in mc :: sid in mc[k]
  }

  /** Every location lands in some group. */
  lemma GroupCovers(ks: seq<Sid>, cd: SCoresD, s: Sid)
    requires forall i | 0 <= i < |ks| :: ks[i] in cd
    requires s in ks && s in cd
    ensures InSomeGroup(Group(ks, cd).1, s)
  {
    var cache := Group(ks, cd).0;
    GroupCache(ks, cd, cd[s].vstr);
    var rep := cache[cd[s].vstr];
    GroupMembers(ks, cd, rep, s);
  }

  /** No two groups are under the same string. */
  lemma GroupDistinct(ks: seq<Sid>, cd: SCoresD, a: Simplified, b: Simplified)
    requires forall i | 0 <= i < |ks| :: ks[i] in cd
    requires a in Group(ks, cd).1 && b in Group(ks, cd).1 && a.vstr == b.vstr
    ensures a == b
  {
    GroupMembers(ks, cd, a, "");
    GroupMembers(ks, cd, b, "");
  }

  /** A group is the class of its representative's string, and the
      representative is the hypothesis of one of the locations. */
  lemma GroupIsClass(ks: seq<Sid>, cd: SCoresD, rep: Simplified)
    requires forall i | 0 <= i < |ks| :: ks[i] in cd
    requires forall s :: s in ks <==> s in cd
    requires rep in Group(ks, cd).1
    ensures rep.vstr in Classes(cd) && Group(ks, cd).1[rep] == Classes(cd)[rep.vstr] && rep in cd.Values
  {
    var mc := Group(ks, cd).1;
    GroupMembers(ks, cd, rep, "");
    GroupCache(ks, cd, rep.vstr);
    var s :| s in ks && s in cd && cd[s] == rep;
    assert rep.vstr in Strs(cd);
    forall sid
      ensures sid in mc[rep] <==> sid in Classes(cd)[rep.vstr]
    {
      GroupMembers(ks, cd, rep, sid);
    }
  }

  /** Whatever order `merge` visits the locations in, the groups are the
      classes of locations with the same rendered string, each under one of
      its own hypotheses and no two under the same string: only the
      representative depends on the order. */
  lemma GroupClasses(ks: seq<Sid>, cd: SCoresD)
    requires Generators.Elems(ks) == cd.Keys
    ensures forall i | 0 <= i < |ks| :: ks[i] in cd
    ensures forall s | s in cd :: InSomeGroup(Group(ks, cd).1, s)
    ensures forall a, b | a in Group(ks, cd).1 && b in Group(ks, cd).1 && a.vstr == b.vstr :: a == b
    ensures forall rep | rep in Group(ks, cd).1 ::
      rep.vstr in Classes(cd) && Group(ks, cd).1[rep] == Classes(cd)[rep.vstr] && rep in cd.Values
  {
    assert forall s :: s in ks <==> s in cd by {
      assert forall s :: s in ks <==> s in Generators.Elems(ks);
    }
    GroupCoversAll(ks, cd);
    GroupDistinctAll(ks, cd);
    GroupIsClassAll(ks, cd);
  }

  lemma GroupCoversAll(ks: seq<Sid>, cd: SCoresD)
    requires forall s :: s in ks <==> s in cd
    ensures forall s | s in cd :: InSomeGroup(Group(ks, cd).1, s)
  {
    forall s | s in cd
      ensures InSomeGroup(Group(ks, cd).1, s)
    {
      GroupCovers(ks, cd, s);
    }
  }

  lemma GroupDistinctAll(ks: seq<Sid>, cd: SCoresD)
    requires forall s :: s in ks <==> s in cd
    ensures forall a, b | a in Group(ks, cd).1 && b in Group(ks, cd).1 && a.vstr == b.vstr :: a == b
  {
    forall a, b | a in Group(ks, cd).1 && b in Group(ks, cd).1 && a.vstr == b.vstr
      ensures a == b
    {
      GroupDistinct(ks, cd, a, b);
    }
  }

  lemma GroupIsClassAll(ks: seq<Sid>, cd: SCoresD)
    requires forall s :: s in ks <==> s in cd
    ensures forall rep | rep in Group(ks, cd).1 ::
      rep.vstr in Classes(cd) && Group(ks, cd).1[rep] == Classes(cd)[rep.vstr] && rep in cd.Values
  {
    forall rep | rep in Group(ks, cd).1
      ensures rep.vstr in Classes(cd) && Group(ks, cd).1[rep] == Classes(cd)[rep.vstr] && rep in cd.Values
    {
      GroupIsClass(ks, cd, rep);
    }
  }

  // ---------------------------------------------------------------------
  // `fix_duplicates`, for a duplicate test that compares keys
  // ---------------------------------------------------------------------

  /** The keys of the elements of `xs`. */
  function KeysOf<K, M(==)>(xs: set<K>, key: K -> M): set<M>
  {
    set x | x in xs :: key(x)
  }

  /** `find_dup`: the first representative whose key is `m`, if any. */
  function FindDup<K, M(==)>(m: M, reps: seq<K>, key: K -> M): (r: Option<K>)
    ensures r.Some? ==> r.value in reps && key(r.value) == m
    ensures r.None? ==> forall u | u in reps :: key(u) != m
  {
    if reps == [] then None
    else if key(reps[0]) == m then Some(reps[0])
    else FindDup(m, reps[1..], key)
  }

  /** The `uniqs` loop over `order`: each element either joins the
      duplicates of the representative with its key or becomes a
      representative with no duplicates.  Returns the representatives in
      order of insertion and the map `uniqs`. */
  function Uniqs<K, M(==)>(order: seq<K>, key: K -> M): (r: (seq<K>, map<K, set<K>>))
    ensures r.1.Keys == Generators.Elems(r.0)
    decreases |order|
  {
    if order == [] then ([], map[])
    else
      var (reps, dups) := Uniqs(order[..|order| - 1], key);
      var pc := order[|order| - 1];
      match FindDup(key(pc), reps, key)
      case Some(u) => (reps, dups[u := dups[u] + {pc}])
      case None =>
        Generators.ElemsAppend(reps, pc);
        (reps + [pc], dups[pc := {}])
  }

  /** What the `uniqs` loop keeps: the representatives are elements of
      `order` with pairwise different keys, covering every key of `order`;
      an element is listed under a representative exactly when it has the
      representative's key without being it. */
  predicate UniqsOk<K, M(==)>(order: seq<K>, key: K -> M, dups: map<K, set<K>>)
  {
    && (forall u | u in dups :: u in order)
    && (forall a, b | a in dups && b in dups && key(a) == key(b) :: a == b)
    && (forall x | x in order :: key(x) in KeysOf(dups.Keys, key))
    && (forall u, x | u in dups && x in dups[u] :: x in order && x != u && key(x) == key(u))
    && (forall u, x | u in dups && x in order && x != u && key(x) == key(u) :: x in dups[u])
  }

  lemma {:induction false} UniqsInv<K, M>(order: seq<K>, key: K -> M)
    requires Distinct(order)
    ensures UniqsOk(order, key, Uniqs(order, key).1)
    decreases |order|
  {
    if order != [] {
      var init := order[..|order| - 1];
      var pc := order[|order| - 1];
      assert order == init + [pc];
      assert Distinct(init);
      UniqsInv(init, key);
      var (reps, dups) := Uniqs(init, key);
      assert forall u :: u in reps <==> u in dups;
      match FindDup(key(pc), reps, key)
      case Some(u) =>
        UniqsJoin(order, init, pc, key, reps, dups, u);
      case None =>
        UniqsNew(order, init, pc, key, reps, dups);
    }
  }

  /** A step of the `uniqs` loop where `pc` duplicates the representative
      `u`. */
  lemma UniqsJoin<K, M>(order: seq<K>, init: seq<K>, pc: K, key: K -> M,
                        reps: seq<K>, dups: map<K, set<K>>, u: K)
    requires order == init + [pc] && pc !in init
    requires UniqsOk(init, key, dups)
    requires u in dups && key(u) == key(pc)
    ensures UniqsOk(order, key, dups[u := dups[u] + {pc}])
  {
    var dups' := dups[u := dups[u] + {pc}];
    assert forall x :: x in order <==> x in init || x == pc;
    assert KeysOf(dups'.Keys, key) == KeysOf(dups.Keys, key) by {
      assert dups'.Keys == dups.Keys;
    }
  }

  /** A step of the `uniqs` loop where `pc` duplicates no representative. */
  lemma UniqsNew<K, M>(order: seq<K>, init: seq<K>, pc: K, key: K -> M,
                       reps: seq<K>, dups: map<K, set<K>>)
    requires order == init + [pc] && pc !in init
    requires UniqsOk(init, key, dups)
    requires forall u :: u in reps <==> u in dups
    requires forall u | u in reps :: key(u) != key(pc)
    ensures UniqsOk(order, key, dups[pc := {}])
  {
    var dups' := dups[pc := {}];
    assert forall x :: x in order <==> x in init || x == pc;
    assert KeysOf(dups'.Keys, key) == KeysOf(dups.Keys, key) + {key(pc)} by {
      assert dups'.Keys == dups.Keys + {pc};
    }
  }

  /** The locations of the elements of `mc` whose key is `m`. */
  function Pooled<K, M(==)>(mc: map<K, set<Sid>>, key: K -> M, m: M): set<Sid>
  {
    set k, s | k in mc && key(k) == m && s in mc[k] :: s
  }

  /** The rebuilt `mc_d`: each representative with its own locations and
      those of its duplicates. */
  function Folded<K>(mc: map<K, set<Sid>>, dups: map<K, set<K>>): (r: map<K, set<Sid>>)
    requires dups.Keys <= mc.Keys
    requires forall u | u in dups :: dups[u] <= mc.Keys
    ensures r.Keys == dups.Keys
  {
    map u | u in dups :: mc[u] + (set x, s | x in dups[u] && s in mc[x] :: s)
  }

  /** `fix_duplicates` with a test comparing `key`s, visiting the elements
      in `order`: unchanged when no two elements share a key, the folded map
      otherwise. */
  function FixDuplicatesBy<K, M(==)>(mc: map<K, set<Sid>>, order: seq<K>, key: K -> M): (r: map<K, set<Sid>>)
    requires Distinct(order) && Generators.Elems(order) == mc.Keys
  {
    var dups := Uniqs(order, key).1;
    UniqsWithin(mc, order, key);
    if |dups| == |mc| then mc else Folded(mc, dups)
  }

  /** The representatives and their duplicates are elements of `order`. */
  lemma UniqsInOrder<K, M>(order: seq<K>, key: K -> M)
    requires Distinct(order)
    ensures Uniqs(order, key).1.Keys <= Generators.Elems(order)
    ensures forall u | u in Uniqs(order, key).1 :: Uniqs(order, key).1[u] <= Generators.Elems(order)
  {
    var dups := Uniqs(order, key).1;
    UniqsInv(order, key);
    forall u | u in dups
      ensures u in Generators.Elems(order) && dups[u] <= Generators.Elems(order)
    {
      forall x | x in dups[u]
        ensures x in Generators.Elems(order)
      {
      }
    }
  }

  /** No two representatives share a key. */
  lemma UniqsDistinctKeys<K, M>(order: seq<K>, key: K -> M)
    requires Distinct(order)
    ensures forall a, b | a in Uniqs(order, key).1 && b in Uniqs(order, key).1 :: key(a) == key(b) ==> a == b
  {
    UniqsInv(order, key);
  }

  /** Every key of `order` is the key of a representative. */
  lemma UniqsCoverKeys<K, M>(order: seq<K>, key: K -> M)
    requires Distinct(order)
    ensures KeysOf(Generators.Elems(order), key) <= KeysOf(Uniqs(order, key).1.Keys, key)
  {
    UniqsInv(order, key);
    forall m | m in KeysOf(Generators.Elems(order), key)
      ensures m in KeysOf(Uniqs(order, key).1.Keys, key)
    {
      var x :| x in Generators.Elems(order) && key(x) == m;
      assert x in order;
    }
  }

  lemma KeysOfMono<K, M>(xs: set<K>, ys: set<K>, key: K -> M)
    requires xs <= ys
    ensures KeysOf(xs, key) <= KeysOf(ys, key)
  {
  }

  /** The representatives and their duplicates are elements of `mc`. */
  lemma UniqsWithin<K, M>(mc: map<K, set<Sid>>, order: seq<K>, key: K -> M)
    requires Distinct(order) && Generators.Elems(order) == mc.Keys
    ensures Uniqs(order, key).1.Keys <= mc.Keys
    ensures forall u | u in Uniqs(order, key).1 :: Uniqs(order, key).1[u] <= mc.Keys
  {
    UniqsInOrder(order, key);
  }

  /** The two branches of `fix_duplicates` agree: when no two elements
      share a key, `uniqs` has every element as a representative. */
  lemma UniqsAllWhenNoDups<K, M>(mc: map<K, set<Sid>>, order: seq<K>, key: K -> M)
    requires Distinct(order) && Generators.Elems(order) == mc.Keys
    requires |Uniqs(order, key).1| == |mc|
    ensures Uniqs(order, key).1.Keys == mc.Keys
  {
    var dups := Uniqs(order, key).1;
    UniqsInOrder(order, key);
    assert |dups.Keys| == |mc.Keys|;
    Generators.SubsetCard(mc.Keys - dups.Keys, mc.Keys);
    assert |mc.Keys - dups.Keys| == |mc.Keys| - |dups.Keys|;
  }

  /** After `fix_duplicates` the elements kept are some of the old ones, no
      two with the same key, and every old key is still present. */
  lemma FixDuplicatesKeys<K, M>(mc: map<K, set<Sid>>, order: seq<K>, key: K -> M)
    requires Distinct(order) && Generators.Elems(order) == mc.Keys
    ensures FixDuplicatesBy(mc, order, key).Keys <= mc.Keys
    ensures KeysOf(FixDuplicatesBy(mc, order, key).Keys, key) == KeysOf(mc.Keys, key)
    ensures forall a, b | a in FixDuplicatesBy(mc, order, key) && b in FixDuplicatesBy(mc, order, key) ::
      key(a) == key(b) ==> a == b
  {
    var dups := Uniqs(order, key).1;
    FixedKeys(mc, order, key);
    UniqsInOrder(order, key);
    UniqsDistinctKeys(order, key);
    UniqsCoverKeys(order, key);
    KeysOfMono(dups.Keys, mc.Keys, key);
  }

  /** When no two elements share a key, `fix_duplicates` returns its
      input unchanged. */
  lemma FixDuplicatesNoDups<K, M>(mc: map<K, set<Sid>>, order: seq<K>, key: K -> M)
    requires Distinct(order) && Generators.Elems(order) == mc.Keys
    requires forall a, b | a in mc && b in mc && key(a) == key(b) :: a == b
    ensures FixDuplicatesBy(mc, order, key) == mc
  {
    var dups := Uniqs(order, key).1;
    UniqsWithin(mc, order, key);
    UniqsInv(order, key);
    forall x | x in mc
      ensures x in dups
    {
      assert x in Generators.Elems(order);
      var u :| u in dups && key(u) == key(x);
    }
    assert dups.Keys == mc.Keys;
  }

  /** `fix_duplicates` keeps exactly the representatives. */
  lemma FixedKeys<K, M>(mc: map<K, set<Sid>>, order: seq<K>, key: K -> M)
    requires Distinct(order) && Generators.Elems(order) == mc.Keys
    ensures FixDuplicatesBy(mc, order, key).Keys == Uniqs(order, key).1.Keys
  {
    if |Uniqs(order, key).1| == |mc| {
      UniqsAllWhenNoDups(mc, order, key);
    }
  }

  /** After `fix_duplicates` each kept element holds exactly the locations
      of the old elements with its key. */
  lemma FixDuplicatesPools<K, M>(mc: map<K, set<Sid>>, order: seq<K>, key: K -> M, u: K)
    requires Distinct(order) && Generators.Elems(order) == mc.Keys
    requires u in FixDuplicatesBy(mc, order, key)
    ensures FixDuplicatesBy(mc, order, key)[u] == Pooled(mc, key, key(u))
  {
    var dups := Uniqs(order, key).1;
    UniqsInv(order, key);
    assert forall x | x in order :: x in mc by {
      assert forall x | x in order :: x in Generators.Elems(order);
    }
    assert forall x | x in mc :: x in order by {
      assert forall x | x in mc :: x in Generators.Elems(order);
    }
    if |dups| == |mc| {
      UniqsAllWhenNoDups(mc, order, key);
      PooledAlone(mc, key, u);
    } else {
      PooledFolded(mc, order, key, dups, u);
    }
  }

  /** With pairwise different keys, an element's pool is its own
      locations. */
  lemma PooledAlone<K, M>(mc: map<K, set<Sid>>, key: K -> M, u: K)
    requires u in mc
    requires forall a, b | a in mc && b in mc && key(a) == key(b) :: a == b
    ensures Pooled(mc, key, key(u)) == mc[u]
  {
    forall s | s in Pooled(mc, key, key(u))
      ensures s in mc[u]
    {
      var k :| k in mc && key(k) == key(u) && s in mc[k];
    }
  }

  /** A representative's folded locations are its pool. */
  lemma PooledFolded<K, M>(mc: map<K, set<Sid>>, order: seq<K>, key: K -> M, dups: map<K, set<K>>, u: K)
    requires forall x :: x in order <==> x in mc
    requires UniqsOk(order, key, dups)
    requires u in dups
    ensures dups.Keys <= mc.Keys && forall v | v in dups :: dups[v] <= mc.Keys
    ensures Folded(mc, dups)[u] == Pooled(mc, key, key(u))
  {
    forall s | s in Pooled(mc, key, key(u))
      ensures s in Folded(mc, dups)[u]
    {
      var k :| k in mc && key(k) == key(u) && s in mc[k];
      if k != u {
        assert k in dups[u];
      }
    }
  }

  // ---------------------------------------------------------------------
  // The source's duplicate test, and the whole of `merge`
  // ---------------------------------------------------------------------

  /** `find_dup`'s test on two hypotheses: their `z3expr` are both `None`,
      or both present and equivalent over the domain. */
  predicate Dup(a: Simplified, b: Simplified, d: Dom)
    requires ValidDom(d) && PNOverDom(a.core, d) && PNOverDom(b.core, d)
  {
    Equiv(PNCoreExpr(a.core, d), PNCoreExpr(b.core, d), d)
  }

  /** What a possibly-absent formula says over the domain: `None` when it
      is absent, otherwise the configurations satisfying it. */
  function ExprMeaning(p: Option<Expr>, d: Dom): Option<set<Config>>
    requires ValidDom(d)
  {
    match p
    case None => None
    case Some(e) => Some(set c | c in AllConfigs(d) && Eval(e, c))
  }

  /** Two formulas are equivalent exactly when they mean the same. */
  lemma EquivIffSameMeaning(p: Option<Expr>, q: Option<Expr>, d: Dom)
    requires ValidDom(d)
    ensures Equiv(p, q, d) <==> ExprMeaning(p, d) == ExprMeaning(q, d)
  {
    if p.Some? && q.Some? {
      if ExprMeaning(p, d) == ExprMeaning(q, d) {
        forall c | c in AllConfigs(d)
          ensures Eval(p.value, c) == Eval(q.value, c)
        {
          assert Eval(p.value, c) <==> c in ExprMeaning(p, d).value;
        }
      }
      if Equiv(p, q, d) {
        assert ExprMeaning(p, d).value == ExprMeaning(q, d).value;
      }
    }
  }

  /** What a hypothesis's formula means over the domain (`None` for a
      hypothesis outside the domain, which `merge` never sees). */
  function Meaning(k: Simplified, d: Dom): Option<set<Config>>
  {
    RawMeaning(k.core, d)
  }

  /** What a hypothesis's formula means over the domain, `None` outside it. */
  function RawMeaning(p: PNCore, d: Dom): Option<set<Config>>
  {
    if ValidDom(d) && PNOverDom(p, d) then ExprMeaning(PNCoreExpr(p, d), d) else None
  }

  /** The source's test and the key compared here agree. */
  lemma DupIffSameMeaning(a: Simplified, b: Simplified, d: Dom)
    requires ValidDom(d) && PNOverDom(a.core, d) && PNOverDom(b.core, d)
    ensures Dup(a, b, d) <==> Meaning(a, d) == Meaning(b, d)
  {
    EquivIffSameMeaning(PNCoreExpr(a.core, d), PNCoreExpr(b.core, d), d);
  }

  /** `Mcores_d.fix_duplicates`. */
  function FixDuplicates(mc: MCoresD, order: seq<Simplified>, d: Dom): MCoresD
    requires Distinct(order) && Generators.Elems(order) == mc.Keys
  {
    FixDuplicatesBy(mc, order, (k: Simplified) => Meaning(k, d))
  }

  /** `Cores_d.merge`: group the analysed locations by rendered string, in
      the order `ks`, then fold together the groups whose formulas are
      equivalent.  Each group's hypothesis is one of the analysed ones and
      holds locations of its own; no two groups are duplicates; every
      location is in exactly one group, and locations rendering to the same
      string share it. */
  method Merge(cd: SCoresD, ks: seq<Sid>, d: Dom) returns (r: MCoresD)
    requires ValidDom(d) && forall s | s in cd :: PNOverDom(cd[s].core, d)
    requires Distinct(ks) && Generators.Elems(ks) == cd.Keys
    ensures r.Keys <= cd.Values
    ensures forall a, b | a in r && b in r && a != b :: !Dup(a, b, d)
    ensures forall u | u in r :: exists t | t in r[u] :: t in cd && cd[t] == u
    ensures forall u, s | u in r && s in r[u] :: s in cd
    ensures forall s | s in cd :: InSomeGroup(r, s)
    ensures forall u1, u2, s | u1 in r && u2 in r && s in r[u1] && s in r[u2] :: u1 == u2
    ensures forall u, s, t | u in r && s in r[u] && s in cd && t in cd && cd[t].vstr == cd[s].vstr :: t in r[u]
    ensures GroupsByRepMeaning(ks, cd, d, r)
    ensures StrDetermines(cd, d) ==> GroupsByMeaning(cd, d, r)
  {
    GroupClasses(ks, cd);
    var mc := Group(ks, cd).1;
    var order := Generators.ListingOf(mc.Keys);
    r := FixDuplicates(mc, order, d);
    MergeMeaning(ks, cd, d, order, r);
    var key := (k: Simplified) => Meaning(k, d);
    FixDuplicatesKeys(mc, order, key);
    forall u | u in r
      ensures r[u] == Pooled(mc, key, key(u))
    {
      FixDuplicatesPools(mc, order, key, u);
    }
    MergeNoDups(cd, d, r, key);
    MergeOwn(cd, mc, r, key);
    MergeWithin(cd, mc, r, key);
    MergeCovers(cd, mc, r, key);
    MergeDisjoint(cd, mc, r, key);
    MergeSameString(cd, mc, r, key);
  }

  /** The meaning-level facts of `Merge`, from the pooling of
      `fix_duplicates`. */
  lemma MergeMeaning(ks: seq<Sid>, cd: SCoresD, d: Dom, order: seq<Simplified>, r: MCoresD)
    requires Generators.Elems(ks) == cd.Keys
    requires Distinct(order) && Generators.Elems(order) == Group(ks, cd).1.Keys
    requires r == FixDuplicates(Group(ks, cd).1, order, d)
    ensures GroupsByRepMeaning(ks, cd, d, r)
    ensures StrDetermines(cd, d) ==> GroupsByMeaning(cd, d, r)
  {
    var mc := Group(ks, cd).1;
    var key := (k: Simplified) => Meaning(k, d);
    forall u | u in r
      ensures r[u] == Pooled(mc, key, key(u))
    {
      FixDuplicatesPools(mc, order, key, u);
    }
    MergeByMeaning(ks, cd, mc, r, key);
    if StrDetermines(cd, d) {
      MergeBySameMeaning(ks, cd, r, key);
    }
  }

  /** The locations `ks` lists are those of `cd`. */
  lemma ListsLocations(ks: seq<Sid>, cd: SCoresD)
    requires Generators.Elems(ks) == cd.Keys
    ensures forall i | 0 <= i < |ks| :: ks[i] in cd
    ensures forall s :: s in ks <==> s in cd
  {
    assert forall s :: s in ks <==> s in Generators.Elems(ks);
  }

  /** The representative `merge` files location `s` under: the hypothesis
      of the first location in `ks` whose string is that of `s`. */
  function RepOf(ks: seq<Sid>, cd: SCoresD, s: Sid): (rep: Simplified)
    requires Generators.Elems(ks) == cd.Keys && s in cd
    ensures rep.vstr == cd[s].vstr
    ensures exists t | t in cd :: cd[t] == rep
  {
    ListsLocations(ks, cd);
    assert cd[s].vstr in StrsAt(ks, cd);
    GroupCache(ks, cd, cd[s].vstr);
    Group(ks, cd).0[cd[s].vstr]
  }

  /** A location is in a group exactly when its representative means what
      the group's hypothesis means. */
  ghost predicate GroupsByRepMeaning(ks: seq<Sid>, cd: SCoresD, d: Dom, r: MCoresD)
    requires Generators.Elems(ks) == cd.Keys
  {
    GroupsByRepKey(ks, cd, r, (k: Simplified) => Meaning(k, d))
  }

  /** A location is in a group exactly when its representative has the
      group's key. */
  ghost predicate GroupsByRepKey<M>(ks: seq<Sid>, cd: SCoresD, r: MCoresD, key: Simplified -> M)
    requires Generators.Elems(ks) == cd.Keys
  {
    forall u, s | u in r :: s in r[u] <==> s in cd && key(RepOf(ks, cd, s)) == key(u)
  }

  /** A location is in a group exactly when its hypothesis means what the
      group's hypothesis means. */
  ghost predicate GroupsByMeaning(cd: SCoresD, d: Dom, r: MCoresD)
  {
    GroupsByKey(cd, r, (k: Simplified) => Meaning(k, d))
  }

  /** A location is in a group exactly when its hypothesis has the group's
      key. */
  ghost predicate GroupsByKey<K, M>(cd: map<Sid, K>, r: map<K, set<Sid>>, key: K -> M)
  {
    forall u, s | u in r :: s in r[u] <==> s in cd && key(cd[s]) == key(u)
  }

  /** Hypotheses rendering to the same string mean the same, as they do
      when the string is a faithful rendering of the hypothesis. */
  ghost predicate StrDetermines(cd: SCoresD, d: Dom)
  {
    StrDeterminesKey(cd, (k: Simplified) => Meaning(k, d))
  }

  /** Hypotheses rendering to the same string have the same key. */
  ghost predicate StrDeterminesKey<M>(cd: SCoresD, key: Simplified -> M)
  {
    forall s, t | s in cd && t in cd && cd[s].vstr == cd[t].vstr :: key(cd[s]) == key(cd[t])
  }

  /** A location is in the string group of `k` exactly when `k` is its
      representative. */
  lemma GroupOfRep(ks: seq<Sid>, cd: SCoresD, k: Simplified, s: Sid)
    requires Generators.Elems(ks) == cd.Keys
    requires k in Group(ks, cd).1
    ensures s in Group(ks, cd).1[k] <==> s in cd && RepOf(ks, cd, s) == k
  {
    ListsLocations(ks, cd);
    GroupMembers(ks, cd, k, s);
  }

  /** Every location is in the string group of its representative. */
  lemma RepGroups(ks: seq<Sid>, cd: SCoresD, s: Sid)
    requires Generators.Elems(ks) == cd.Keys && s in cd
    ensures RepOf(ks, cd, s) in Group(ks, cd).1
    ensures s in Group(ks, cd).1[RepOf(ks, cd, s)]
  {
    ListsLocations(ks, cd);
    var rep := RepOf(ks, cd, s);
    GroupCache(ks, cd, cd[s].vstr);
    GroupMembers(ks, cd, rep, s);
  }

  /** A location is in a group exactly when its representative has the
      group's key: representatives with equal keys are pooled and those
      with different keys stay apart. */
  lemma MergeByMeaning<M>(ks: seq<Sid>, cd: SCoresD, mc: MCoresD, r: MCoresD, key: Simplified -> M)
    requires Generators.Elems(ks) == cd.Keys
    requires mc == Group(ks, cd).1
    requires forall u | u in r :: r[u] == Pooled(mc, key, key(u))
    ensures GroupsByRepKey(ks, cd, r, key)
  {
    forall u, s | u in r
      ensures s in r[u] <==> s in cd && key(RepOf(ks, cd, s)) == key(u)
    {
      if s in r[u] {
        PooledByRep(ks, cd, mc, key, u, s);
      }
      if s in cd && key(RepOf(ks, cd, s)) == key(u) {
        RepPooled(ks, cd, mc, key, u, s);
      }
    }
  }

  lemma PooledByRep<M>(ks: seq<Sid>, cd: SCoresD, mc: MCoresD, key: Simplified -> M, u: Simplified, s: Sid)
    requires Generators.Elems(ks) == cd.Keys
    requires mc == Group(ks, cd).1
    requires s in Pooled(mc, key, key(u))
    ensures s in cd && key(RepOf(ks, cd, s)) == key(u)
  {
    var k :| k in mc && key(k) == key(u) && s in mc[k];
    GroupOfRep(ks, cd, k, s);
  }

  lemma RepPooled<M>(ks: seq<Sid>, cd: SCoresD, mc: MCoresD, key: Simplified -> M, u: Simplified, s: Sid)
    requires Generators.Elems(ks) == cd.Keys
    requires mc == Group(ks, cd).1
    requires s in cd && key(RepOf(ks, cd, s)) == key(u)
    ensures s in Pooled(mc, key, key(u))
  {
    RepGroups(ks, cd, s);
  }

  /** When equal strings have equal keys, a location is in a group exactly
      when its own hypothesis has the group's key. */
  lemma MergeBySameMeaning<M>(ks: seq<Sid>, cd: SCoresD, r: MCoresD, key: Simplified -> M)
    requires Generators.Elems(ks) == cd.Keys
    requires StrDeterminesKey(cd, key)
    requires GroupsByRepKey(ks, cd, r, key)
    ensures GroupsByKey(cd, r, key)
  {
    forall u, s | u in r
      ensures s in r[u] <==> s in cd && key(cd[s]) == key(u)
    {
      if s in cd {
        RepKeySame(ks, cd, key, s);
      }
    }
  }

  lemma RepKeySame<M>(ks: seq<Sid>, cd: SCoresD, key: Simplified -> M, s: Sid)
    requires Generators.Elems(ks) == cd.Keys && s in cd
    requires StrDeterminesKey(cd, key)
    ensures key(RepOf(ks, cd, s)) == key(cd[s])
  {
    var t :| t in cd && cd[t] == RepOf(ks, cd, s);
  }

  /** No two kept hypotheses are duplicates, because their meanings
      differ. */
  lemma MergeNoDups(cd: SCoresD, d: Dom, r: MCoresD, key: Simplified -> Option<set<Config>>)
    requires ValidDom(d) && forall s | s in cd :: PNOverDom(cd[s].core, d)
    requires forall k :: key(k) == Meaning(k, d)
    requires r.Keys <= cd.Values
    requires forall a, b | a in r && b in r :: key(a) == key(b) ==> a == b
    ensures forall a, b | a in r && b in r && a != b :: !Dup(a, b, d)
  {
    forall a, b | a in r && b in r && a != b
      ensures !Dup(a, b, d)
    {
      DupIffSameMeaning(a, b, d);
    }
  }

  /** What `Merge` knows of the string groups and of `fix_duplicates`. */
  predicate MergeFacts(cd: SCoresD, mc: MCoresD, r: MCoresD, key: Simplified -> Option<set<Config>>)
  {
    && KeysOf(mc.Keys, key) == KeysOf(r.Keys, key)
    && r.Keys <= mc.Keys
    && (forall u | u in r :: r[u] == Pooled(mc, key, key(u)))
    && (forall rep | rep in mc :: rep.vstr in Classes(cd) && mc[rep] == Classes(cd)[rep.vstr] && rep in cd.Values)
    && (forall s | s in cd :: InSomeGroup(mc, s))
    && (forall a, b | a in mc && b in mc && a.vstr == b.vstr :: a == b)
  }

  /** Each kept hypothesis is an analysed one, with its own locations. */
  lemma MergeOwn(cd: SCoresD, mc: MCoresD, r: MCoresD, key: Simplified -> Option<set<Config>>)
    requires MergeFacts(cd, mc, r, key)
    ensures r.Keys <= cd.Values
    ensures forall u | u in r :: exists t | t in r[u] :: t in cd && cd[t] == u
  {
    forall u | u in r
      ensures exists t | t in r[u] :: t in cd && cd[t] == u
    {
      var t :| t in cd && cd[t] == u;
      assert t in Classes(cd)[u.vstr];
      assert t in mc[u];
    }
  }

  /** Only analysed locations are grouped. */
  lemma MergeWithin(cd: SCoresD, mc: MCoresD, r: MCoresD, key: Simplified -> Option<set<Config>>)
    requires MergeFacts(cd, mc, r, key)
    ensures forall u, s | u in r && s in r[u] :: s in cd
  {
    forall u, s | u in r && s in r[u]
      ensures s in cd
    {
      var k :| k in mc && key(k) == key(u) && s in mc[k];
    }
  }

  /** Every analysed location is grouped. */
  lemma MergeCovers(cd: SCoresD, mc: MCoresD, r: MCoresD, key: Simplified -> Option<set<Config>>)
    requires MergeFacts(cd, mc, r, key)
    ensures forall s | s in cd :: InSomeGroup(r, s)
  {
    forall s | s in cd
      ensures InSomeGroup(r, s)
    {
      var rep :| rep in mc && s in mc[rep];
      assert key(rep) in KeysOf(mc.Keys, key);
      var u :| u in r && key(u) == key(rep);
      assert s in r[u];
    }
  }

  /** No location is in two groups. */
  lemma MergeDisjoint(cd: SCoresD, mc: MCoresD, r: MCoresD, key: Simplified -> Option<set<Config>>)
    requires MergeFacts(cd, mc, r, key)
    requires forall a, b | a in r && b in r :: key(a) == key(b) ==> a == b
    ensures forall u1, u2, s | u1 in r && u2 in r && s in r[u1] && s in r[u2] :: u1 == u2
  {
    forall u1, u2, s | u1 in r && u2 in r && s in r[u1] && s in r[u2]
      ensures u1 == u2
    {
      var k1 :| k1 in mc && key(k1) == key(u1) && s in mc[k1];
      var k2 :| k2 in mc && key(k2) == key(u2) && s in mc[k2];
      assert k1.vstr == k2.vstr;
    }
  }

  /** Locations rendering to the same string share a group. */
  lemma MergeSameString(cd: SCoresD, mc: MCoresD, r: MCoresD, key: Simplified -> Option<set<Config>>)
    requires MergeFacts(cd, mc, r, key)
    ensures forall u, s, t | u in r && s in r[u] && s in cd && t in cd && cd[t].vstr == cd[s].vstr :: t in r[u]
  {
    forall u, s, t | u in r && s in r[u] && s in cd && t in cd && cd[t].vstr == cd[s].vstr
      ensures t in r[u]
    {
      var k :| k in mc && key(k) == key(u) && s in mc[k];
      assert t in mc[k];
    }
  }

  // ---------------------------------------------------------------------
  // `merge` of hypotheses that were never analysed
  // ---------------------------------------------------------------------

  /** The groups of `merge`'s loop when no hypothesis has a rendered string
      and the `except AttributeError` branch keys each by the hypothesis
      itself: the cache then maps every hypothesis to itself, so whatever
      the visiting order, each group is the set of locations holding one
      hypothesis. */
  function RawGroups(cd: map<Sid, PNCore>): (mc: map<PNCore, set<Sid>>)
    ensures mc.Keys == cd.Values
    ensures forall p, s | p in mc :: s in mc[p] <==> s in cd && cd[s] == p
  {
    map p | p in cd.Values :: set s | s in cd && cd[s] == p
  }

  /** `Cores_d.merge` on hypotheses that were never analysed (the doctest
      before `analyze`): group equal hypotheses, then fold together those
      whose formulas are equivalent.  Each kept hypothesis is one of the
      locations', no two kept ones mean the same, and a location is in a
      group exactly when its hypothesis means what the group's does. */
  method MergeRaw(cd: map<Sid, PNCore>, d: Dom) returns (r: map<PNCore, set<Sid>>)
    requires ValidDom(d) && forall s | s in cd :: PNOverDom(cd[s], d)
    ensures r.Keys <= cd.Values
    ensures forall a, b | a in r && b in r && a != b :: RawMeaning(a, d) != RawMeaning(b, d)
    ensures forall s | s in cd :: InSomeGroup(r, s)
    ensures GroupsByRawMeaning(cd, d, r)
  {
    var mc := RawGroups(cd);
    var order := Generators.ListingOf(mc.Keys);
    var key := (p: PNCore) => RawMeaning(p, d);
    r := FixDuplicatesBy(mc, order, key);
    FixDuplicatesKeys(mc, order, key);
    MergeRawPools(cd, mc, order, r, key);
    RawKeysApart(r, d, key);
  }

  lemma RawKeysApart(r: map<PNCore, set<Sid>>, d: Dom, key: PNCore -> Option<set<Config>>)
    requires forall p :: key(p) == RawMeaning(p, d)
    requires forall a, b | a in r && b in r :: key(a) == key(b) ==> a == b
    ensures forall a, b | a in r && b in r && a != b :: RawMeaning(a, d) != RawMeaning(b, d)
  {
    forall a, b | a in r && b in r && a != b
      ensures RawMeaning(a, d) != RawMeaning(b, d)
    {
      assert key(a) != key(b);
    }
  }

  /** A location is in a group exactly when its hypothesis means what the
      group's hypothesis means. */
  ghost predicate GroupsByRawMeaning(cd: map<Sid, PNCore>, d: Dom, r: map<PNCore, set<Sid>>)
  {
    GroupsByKey(cd, r, (p: PNCore) => RawMeaning(p, d))
  }

  /** `fix_duplicates` pools equal meanings over `RawGroups`. */
  lemma MergeRawPools<M>(cd: map<Sid, PNCore>, mc: map<PNCore, set<Sid>>, order: seq<PNCore>,
                         r: map<PNCore, set<Sid>>, key: PNCore -> M)
    requires mc == RawGroups(cd)
    requires Distinct(order) && Generators.Elems(order) == mc.Keys
    requires r == FixDuplicatesBy(mc, order, key)
    requires KeysOf(r.Keys, key) == KeysOf(mc.Keys, key)
    ensures forall s | s in cd :: InSomeGroup(r, s)
    ensures GroupsByKey(cd, r, key)
  {
    forall u | u in r
      ensures r[u] == Pooled(mc, key, key(u))
    {
      FixDuplicatesPools(mc, order, key, u);
    }
    RawPooledMeaning(cd, mc, r, key);
    RawPooledCovers(cd, mc, r, key);
  }

  lemma RawPooledMeaning<M>(cd: map<Sid, PNCore>, mc: map<PNCore, set<Sid>>,
                            r: map<PNCore, set<Sid>>, key: PNCore -> M)
    requires forall p, s | p in mc :: s in mc[p] <==> s in cd && cd[s] == p
    requires mc.Keys == cd.Values
    requires forall u | u in r :: r[u] == Pooled(mc, key, key(u))
    ensures GroupsByKey(cd, r, key)
  {
    forall u, s | u in r
      ensures s in r[u] <==> s in cd && key(cd[s]) == key(u)
    {
      if s in cd && key(cd[s]) == key(u) {
        assert cd[s] in mc && s in mc[cd[s]];
        assert s in Pooled(mc, key, key(u));
      }
    }
  }

  lemma RawPooledCovers<M>(cd: map<Sid, PNCore>, mc: map<PNCore, set<Sid>>,
                           r: map<PNCore, set<Sid>>, key: PNCore -> M)
    requires forall p, s | p in mc :: s in mc[p] <==> s in cd && cd[s] == p
    requires mc.Keys == cd.Values
    requires forall u | u in r :: r[u] == Pooled(mc, key, key(u))
    requires KeysOf(r.Keys, key) == KeysOf(mc.Keys, key)
    ensures forall s | s in cd :: InSomeGroup(r, s)
  {
    forall s | s in cd
      ensures InSomeGroup(r, s)
    {
      assert cd[s] in mc && s in mc[cd[s]];
      assert key(cd[s]) in KeysOf(mc.Keys, key);
      var u :| u in r && key(u) == key(cd[s]);
      assert s in r[u];
    }
  }
}

=== FILE: mutations.dfy ===
/** One-variable neighbours of a configuration: `Dom.gen_configs_cex` of the
    evolutionary search (iga/ec_alg.py:16-31).

    The code as written removes `set(config[k])` from the variable's values,
    and `set` of a string is the set of its characters, so for a value
    longer than one character it keeps the current value and drops the
    one-character values that occur in it.  `NeighboursAsWritten` models
    that; `Neighbours` removes the current value itself, as intended. */
module Mutations {
  import opened Domains
  import opened CovMaps

  /** Python's `set(s)` for a string: its one-character substrings. */
  function Chars(s: string): (r: set<string>)
    ensures forall x | x in r :: |x| == 1
  {
    set i | 0 <= i < |s| :: [s[i]]
  }

  /** A one-character string's characters are itself. */
  lemma CharsOfChar(s: string)
    requires |s| == 1
    ensures Chars(s) == {s}
  {
    assert [s[0]] == s;
  }

  /** Every variable of `c` is a variable of the domain (otherwise the
      lookup `self[k]` raises). */
  predicate KeysInDom(c: Config, d: Dom)
  {
    forall k | k in c :: k in d.vals
  }

  /** `gen_configs_cex` as written: each variable set to each domain value
      outside `set(config[k])`, keeping those not yet evaluated. */
  function NeighboursAsWritten(d: Dom, c: Config, cd: ConfigsD): set<Config>
    requires KeysInDom(c, d)
  {
    set k, v | k in c && v in d.vals[k] - Chars(c[k]) && c[k := v] !in cd :: c[k := v]
  }

  /** `gen_configs_cex` as intended: each variable set to each other value of
      its domain, keeping the configurations not yet evaluated. */
  function Neighbours(d: Dom, c: Config, cd: ConfigsD): set<Config>
    requires KeysInDom(c, d)
  {
    set k, v | k in c && v in d.vals[k] - {c[k]} && c[k := v] !in cd :: c[k := v]
  }

  /** `x` differs from `c` in the value of exactly one variable, and that
      value is in the variable's domain. */
  predicate OneStep(c: Config, x: Config, d: Dom)
    requires KeysInDom(c, d)
  {
    exists k | k in c && k in x :: x == c[k := x[k]] && x[k] != c[k] && x[k] in d.vals[k]
  }

  /** The intended neighbours are exactly the unevaluated configurations one
      step away. */
  lemma NeighboursExact(d: Dom, c: Config, cd: ConfigsD, x: Config)
    requires KeysInDom(c, d)
    ensures x in Neighbours(d, c, cd) <==> OneStep(c, x, d) && x !in cd
  {
    if OneStep(c, x, d) && x !in cd {
      var k :| k in c && k in x && x == c[k := x[k]] && x[k] != c[k] && x[k] in d.vals[k];
      assert x[k] in d.vals[k] - {c[k]};
    }
  }

  /** A neighbour has the same variables as `c` and differs in exactly one. */
  lemma NeighbourDiffersOnce(d: Dom, c: Config, cd: ConfigsD, x: Config)
    requires KeysInDom(c, d)
    requires x in Neighbours(d, c, cd)
    ensures x.Keys == c.Keys
    ensures exists k | k in c :: x[k] != c[k] && forall j | j in c && j != k :: x[j] == c[j]
  {
    var k, v :| k in c && v in d.vals[k] - {c[k]} && c[k := v] !in cd && x == c[k := v];
    assert x[k] != c[k];
  }

  /** When every value of `c` is a single character the code as written
      computes the intended neighbours. */
  lemma NeighboursAgreeOnChars(d: Dom, c: Config, cd: ConfigsD)
    requires KeysInDom(c, d)
    requires forall k | k in c :: |c[k]| == 1
    ensures NeighboursAsWritten(d, c, cd) == Neighbours(d, c, cd)
  {
    forall k | k in c
      ensures Chars(c[k]) == {c[k]}
    {
      CharsOfChar(c[k]);
    }
  }

  /** The case where the code as written goes wrong: `v` is another
      one-character value of `k`'s domain that occurs inside the current
      value, and the neighbour it gives has not been evaluated. */
  predicate MissedCase(d: Dom, c: Config, cd: ConfigsD, k: Var, v: Val)
  {
    && KeysInDom(c, d) && k in c
    && v in d.vals[k] && v != c[k]
    && |v| == 1 && v[0] in c[k]
    && c[k := v] !in cd
  }

  /** In that case the neighbour is intended but not produced. */
  lemma NeighboursAsWrittenMisses(d: Dom, c: Config, cd: ConfigsD, k: Var, v: Val)
    requires MissedCase(d, c, cd, k, v)
    ensures c[k := v] in Neighbours(d, c, cd)
    ensures c[k := v] !in NeighboursAsWritten(d, c, cd)
  {
    var i :| 0 <= i < |c[k]| && c[k][i] == v[0];
    assert v == [c[k][i]];
    assert v in Chars(c[k]);
    assert v in d.vals[k] - {c[k]};
    forall k', v' | k' in c && v' in d.vals[k'] - Chars(c[k'])
      ensures c[k' := v'] != c[k := v]
    {
      if k' != k {
        assert c[k' := v'][k] != c[k := v][k];
      }
    }
  }

  /** The case occurs: a variable with values `10`, `1` and `0`, currently
      `10`, with nothing evaluated yet; the neighbour with value `1` is
      lost. */
  lemma MissedCaseInstance(d: Dom, c: Config)
    requires d == Dom(["k"], map["k" := {"10", "1", "0"}])
    requires c == map["k" := "10"]
    ensures MissedCase(d, c, map[], "k", "1")
  {
    assert "1"[0] == "10"[0];
  }
}

=== FILE: pncores.dfy ===
/** The four-part hypothesis `PNCore` (src/config.py:416-695).  For a
    location, `pc` (positive conjunction) and `pd` (positive exception) give
    the invariant `pc & not(pd)` of the configs that reach it; `nc` and `nd`
    give `nd | not(nc)`, learnt from the configs that do not.  `verify` drops
    parts that the observed configs refute, `simplify` keeps the side that
    implies the other and renders it, and `z3expr` is the formula of the
    whole hypothesis. */
module PNCores {
  import opened Wrappers
  import opened Domains
  import opened Cores
  import opened Formulas
  import opened Strings
  import Generators

  datatype PNCore = PNCore(pc: Option<Core>, pd: Option<Core>, nc: Option<Core>, nd: Option<Core>)

  /** `PNCore.mk_default`. */
  const Default: PNCore := PNCore(None, None, None, None)

  function Parts(p: PNCore): seq<Option<Core>>
  {
    [p.pc, p.pd, p.nc, p.nd]
  }

  /** `sstren` of a PNCore (`MCore.sstren`). */
  function PSStren(p: PNCore): nat
  {
    SStren(Parts(p))
  }

  predicate OptOverDom(oc: Option<Core>, d: Dom)
  {
    oc.Some? ==> OverDom(oc.value, d)
  }

  predicate PNOverDom(p: PNCore, d: Dom)
  {
    OptOverDom(p.pc, d) && OptOverDom(p.pd, d) && OptOverDom(p.nc, d) && OptOverDom(p.nd, d)
  }

  /** `PNCore.is_simplified`. */
  predicate IsSimplified(p: PNCore)
  {
    (p.pc.None? && p.pd.None?) || (p.nc.None? && p.nd.None?)
  }

  // ---------------------------------------------------------------------
  // Meaning of the two sides
  // ---------------------------------------------------------------------

  /** `cc & not(cd)`, where a falsy core contributes nothing. */
  predicate AndHolds(cc: Option<Core>, cd: Option<Core>, d: Dom, c: Config)
    requires OptOverDom(cd, d)
  {
    (Truthy(cc) ==> CImplies(c, cc.value)) && (Truthy(cd) ==> DImplies(c, Neg(cd.value, d)))
  }

  /** Whether `_get_expr` finds anything to combine for `(cc, cd)`. */
  predicate Present(cc: Option<Core>, cd: Option<Core>, d: Dom)
    requires OptOverDom(cd, d)
  {
    Truthy(cc) || (Truthy(cd) && Neg(cd.value, d) != map[])
  }

  /** `cc | not(cd)` as `myOr` builds it: absent members are dropped, and with
      no member at all the result is `true`. */
  predicate OrHolds(cc: Option<Core>, cd: Option<Core>, d: Dom, c: Config)
    requires OptOverDom(cd, d)
  {
    || !Present(cc, cd, d)
    || (Truthy(cc) && CImplies(c, cc.value))
    || (Truthy(cd) && Neg(cd.value, d) != map[] && DImplies(c, Neg(cd.value, d)))
  }

  /** The invariant a PNCore denotes: `(pc & not(pd)) & (nd | not(nc))`. */
  predicate Inv(p: PNCore, d: Dom, c: Config)
    requires PNOverDom(p, d)
  {
    AndHolds(p.pc, p.pd, d, c) && OrHolds(p.nd, p.nc, d, c)
  }

  lemma SomesEmpty(fs: seq<Option<Expr>>)
    ensures Somes(fs) == [] <==> forall i :: 0 <= i < |fs| ==> fs[i].None?
  {
    var xs := Somes(fs);
    if xs != [] {
      assert xs[0] in xs;
    }
    if exists i :: 0 <= i < |fs| && fs[i].Some? {
      var i :| 0 <= i < |fs| && fs[i].Some?;
      assert fs[i].value in xs;
    }
  }

  function GetExprParts(cc: Option<Core>, cd: Option<Core>, d: Dom): (fs: seq<Option<Expr>>)
    requires OptOverDom(cd, d)
  {
    if Truthy(cc) && Truthy(cd) then [CoreExpr(cc.value, true), CoreExpr(Neg(cd.value, d), false)]
    else if Truthy(cc) then [CoreExpr(cc.value, true)]
    else if Truthy(cd) then [CoreExpr(Neg(cd.value, d), false)]
    else []
  }

  /** `PNCore._get_expr`: the conjunction (`is_and`) or disjunction of `cc`
      read conjunctively and `neg(cd)` read disjunctively; `None` when
      neither contributes. */
  function GetExpr(cc: Option<Core>, cd: Option<Core>, d: Dom, isAnd: bool): (r: Option<Expr>)
    requires OptOverDom(cd, d)
    ensures r.None? <==> !Present(cc, cd, d)
  {
    var fs := GetExprParts(cc, cd, d);
    SomesEmpty(fs);
    if isAnd then MyAnd(fs) else MyOr(fs)
  }

  lemma MyAndSmall(a: Option<Expr>, b: Option<Expr>, c: Config)
    ensures Holds(MyAnd([a, b]), c) <==> Holds(a, c) && Holds(b, c)
    ensures Holds(MyAnd([a]), c) <==> Holds(a, c)
    ensures Holds(MyAnd([]), c)
  {
    assert forall i :: 0 <= i < 2 ==> [a, b][i] == a || [a, b][i] == b;
  }

  lemma MyOrSmall(a: Option<Expr>, b: Option<Expr>, c: Config)
    ensures Holds(MyOr([a, b]), c) <==>
      (a.None? && b.None?) || (a.Some? && Eval(a.value, c)) || (b.Some? && Eval(b.value, c))
    ensures Holds(MyOr([a]), c) <==> Holds(a, c)
    ensures Holds(MyOr([]), c)
  {
    SomesEmpty([a, b]);
    SomesEmpty([a]);
    if a.Some? && Eval(a.value, c) {
      assert [a, b][0] == a;
    }
    if b.Some? && Eval(b.value, c) {
      assert [a, b][1] == b;
    }
  }

  lemma GetExprAndMeaning(cc: Option<Core>, cd: Option<Core>, d: Dom, c: Config)
    requires OptOverDom(cd, d)
    ensures Holds(GetExpr(cc, cd, d, true), c) <==> AndHolds(cc, cd, d, c)
  {
    var e1 := if Truthy(cc) then CoreExpr(cc.value, true) else None;
    var e2 := if Truthy(cd) then CoreExpr(Neg(cd.value, d), false) else None;
    MyAndSmall(e1, e2, c);
    MyAndSmall(e2, e1, c);
  }

  lemma GetExprOrMeaning(cc: Option<Core>, cd: Option<Core>, d: Dom, c: Config)
    requires OptOverDom(cd, d)
    ensures Holds(GetExpr(cc, cd, d, false), c) <==> OrHolds(cc, cd, d, c)
  {
    var e1 := if Truthy(cc) then CoreExpr(cc.value, true) else None;
    var e2 := if Truthy(cd) then CoreExpr(Neg(cd.value, d), false) else None;
    MyOrSmall(e1, e2, c);
    MyOrSmall(e2, e1, c);
  }

  /** The meaning of `_get_expr`: `cc & not(cd)` for `is_and`, and
      `cc | not(cd)`, with absent members dropped, otherwise. */
  lemma GetExprMeaning(cc: Option<Core>, cd: Option<Core>, d: Dom, c: Config)
    requires OptOverDom(cd, d)
    ensures Holds(GetExpr(cc, cd, d, true), c) <==> AndHolds(cc, cd, d, c)
    ensures Holds(GetExpr(cc, cd, d, false), c) <==> OrHolds(cc, cd, d, c)
  {
    GetExprAndMeaning(cc, cd, d, c);
    GetExprOrMeaning(cc, cd, d, c);
  }

  /** `PNCore.z3expr`: the formula of the whole hypothesis; `None` is `true`. */
  function PNCoreExpr(p: PNCore, d: Dom): Option<Expr>
    requires PNOverDom(p, d)
  {
    if p.pc.None? && p.pd.None? then GetExpr(p.nd, p.nc, d, false)
    else if p.nc.None? && p.nd.None? then GetExpr(p.pc, p.pd, d, true)
    else MyAnd([GetExpr(p.pc, p.pd, d, true), GetExpr(p.nd, p.nc, d, false)])
  }

  /** The formula of a hypothesis holds exactly where the hypothesis does. */
  lemma PNCoreExprMeaning(p: PNCore, d: Dom, c: Config)
    requires PNOverDom(p, d)
    ensures Holds(PNCoreExpr(p, d), c) <==> Inv(p, d, c)
  {
    if p.pc.None? && p.pd.None? {
      GetExprMeaning(p.nd, p.nc, d, c);
    } else if p.nc.None? && p.nd.None? {
      GetExprMeaning(p.pc, p.pd, d, c);
    } else {
      BothSidesMeaning(p, d, c);
    }
  }

  lemma BothSidesMeaning(p: PNCore, d: Dom, c: Config)
    requires PNOverDom(p, d)
    ensures Holds(MyAnd([GetExpr(p.pc, p.pd, d, true), GetExpr(p.nd, p.nc, d, false)]), c) <==> Inv(p, d, c)
  {
    var pexpr := GetExpr(p.pc, p.pd, d, true);
    var nexpr := GetExpr(p.nd, p.nc, d, false);
    GetExprMeaning(p.pc, p.pd, d, c);
    GetExprMeaning(p.nd, p.nc, d, c);
    assert Holds(MyAnd([pexpr, nexpr]), c) <==> Holds(pexpr, c) && Holds(nexpr, c);
  }

  // ---------------------------------------------------------------------
  // verify
  // ---------------------------------------------------------------------

  /** The test `verify` applies to one config on the negative side. */
  predicate NegCheck(nc: Option<Core>, nd: Option<Core>, d: Dom, c: Config)
    requires OptOverDom(nc, d)
  {
    if Truthy(nc) && !Truthy(nd) then DImplies(c, Neg(nc.value, d))
    else if !Truthy(nc) && Truthy(nd) then CImplies(c, nd.value)
    else if Truthy(nc) && Truthy(nd) then CImplies(c, nd.value) || DImplies(c, Neg(nc.value, d))
    else true
  }

  /** The caller obligations `verify` asserts. */
  predicate VerifyPre(p: PNCore, configs: set<Config>, d: Dom)
  {
    && PNOverDom(p, d)
    && p.pc.Some?
    && (p.nc.Some? || p.pd.None?)
    && configs != {}
    && (Truthy(p.pc) ==> forall c | c in configs :: CImplies(c, p.pc.value))
  }

  /** `PNCore.verify` as written: when both `nc` and `nd` are truthy and some
      config refutes them, the code calls `.format` on the `None` that
      `logger.debug` returns and raises `AttributeError`. */
  function VerifyAsWritten(p: PNCore, configs: set<Config>, d: Dom): Result<PNCore, string>
    requires VerifyPre(p, configs, d)
  {
    var pd := if Truthy(p.pd) && !(forall c | c in configs :: DImplies(c, Neg(p.pd.value, d))) then None else p.pd;
    if Truthy(p.nc) && !Truthy(p.nd) then
      var nc := if forall c | c in configs :: DImplies(c, Neg(p.nc.value, d)) then p.nc else None;
      Success(PNCore(p.pc, pd, nc, p.nd))
    else if !Truthy(p.nc) && Truthy(p.nd) then
      var nd := if forall c | c in configs :: CImplies(c, p.nd.value) then p.nd else None;
      Success(PNCore(p.pc, pd, p.nc, nd))
    else if Truthy(p.nc) && Truthy(p.nd) then
      if forall c | c in configs :: CImplies(c, p.nd.value) || DImplies(c, Neg(p.nc.value, d)) then
        Success(PNCore(p.pc, pd, p.nc, p.nd))
      else
        Failure("AttributeError: 'NoneType' object has no attribute 'format'")
    else
      Success(PNCore(p.pc, pd, p.nc, p.nd))
  }

  /** `PNCore.verify` as intended: a part the configs refute is set to `None`
      (both `nc` and `nd` together when both are present); nothing else changes. */
  function Verify(p: PNCore, configs: set<Config>, d: Dom): (r: PNCore)
    requires VerifyPre(p, configs, d)
    ensures r.pc == p.pc
    ensures r.pd == p.pd || r.pd.None?
    ensures r.nc == p.nc || r.nc.None?
    ensures r.nd == p.nd || r.nd.None?
    ensures r.pd == p.pd <==> (!Truthy(p.pd) || forall c | c in configs :: DImplies(c, Neg(p.pd.value, d)))
    ensures (r.nc == p.nc && r.nd == p.nd) <==> forall c | c in configs :: NegCheck(p.nc, p.nd, d, c)
    ensures Truthy(p.nc) && !Truthy(p.nd) ==>
      r.nd == p.nd && (r.nc == p.nc <==> forall c | c in configs :: DImplies(c, Neg(p.nc.value, d)))
    ensures !Truthy(p.nc) && Truthy(p.nd) ==>
      r.nc == p.nc && (r.nd == p.nd <==> forall c | c in configs :: CImplies(c, p.nd.value))
    ensures Truthy(p.nc) && Truthy(p.nd) ==>
      (r.nc == p.nc && r.nd == p.nd) || (r.nc.None? && r.nd.None?)
    ensures !Truthy(p.nc) && !Truthy(p.nd) ==> r.nc == p.nc && r.nd == p.nd
  {
    var pd := if Truthy(p.pd) && !(forall c | c in configs :: DImplies(c, Neg(p.pd.value, d))) then None else p.pd;
    var ok := forall c | c in configs :: NegCheck(p.nc, p.nd, d, c);
    if ok then PNCore(p.pc, pd, p.nc, p.nd)
    else if Truthy(p.nc) && !Truthy(p.nd) then PNCore(p.pc, pd, None, p.nd)
    else if !Truthy(p.nc) && Truthy(p.nd) then PNCore(p.pc, pd, p.nc, None)
    else PNCore(p.pc, pd, None, None)
  }

  /** What survives `verify` holds on every config it was checked against,
      provided the negative core has the shape inference produces. */
  lemma VerifySound(p: PNCore, configs: set<Config>, d: Dom)
    requires VerifyPre(p, configs, d)
    requires Truthy(p.nc) ==> Proper(p.nc.value, d)
    ensures PNOverDom(Verify(p, configs, d), d)
    ensures forall c | c in configs :: Inv(Verify(p, configs, d), d, c)
  {
    var r := Verify(p, configs, d);
    if Truthy(p.nc) {
      var k :| k in p.nc.value;
      NegInvolution(p.nc.value, d);
      assert k in Neg(p.nc.value, d);
    }
    forall c | c in configs
      ensures Inv(r, d, c)
    {
      assert NegCheck(r.nc, r.nd, d, c);
    }
  }

  /** Verifying a verified hypothesis again changes nothing. */
  lemma VerifyIdempotent(p: PNCore, configs: set<Config>, d: Dom)
    requires VerifyPre(p, configs, d)
    requires VerifyPre(Verify(p, configs, d), configs, d)
    ensures Verify(Verify(p, configs, d), configs, d) == Verify(p, configs, d)
  {
    var r := Verify(p, configs, d);
    forall c | c in configs
      ensures NegCheck(r.nc, r.nd, d, c)
    {
    }
  }

  /** `verify` as written raises exactly when both negative parts are
      present and some config refutes them. */
  lemma VerifyAsWrittenFails(p: PNCore, configs: set<Config>, d: Dom)
    requires VerifyPre(p, configs, d)
    ensures VerifyAsWritten(p, configs, d).Failure? <==>
      Truthy(p.nc) && Truthy(p.nd) && exists c | c in configs :: !NegCheck(p.nc, p.nd, d, c)
  {
    if Truthy(p.nc) && Truthy(p.nd) {
      assert (forall c | c in configs :: NegCheck(p.nc, p.nd, d, c)) <==>
        forall c | c in configs :: CImplies(c, p.nd.value) || DImplies(c, Neg(p.nc.value, d));
    }
  }

  /** A `pd` some config refutes is dropped, and with the negative parts
      standing that is the only change. */
  lemma VerifyDropsPd(p: PNCore, configs: set<Config>, d: Dom)
    requires VerifyPre(p, configs, d)
    requires Truthy(p.pd) && exists c | c in configs :: !DImplies(c, Neg(p.pd.value, d))
    requires forall c | c in configs :: NegCheck(p.nc, p.nd, d, c)
    ensures Verify(p, configs, d) == p.(pd := None)
  {
  }

  /** When the intended `verify` refutes nothing, `verify` as written
      returns the core unchanged too. */
  lemma VerifyUnchangedAsWritten(p: PNCore, configs: set<Config>, d: Dom)
    requires VerifyPre(p, configs, d)
    requires Verify(p, configs, d) == p
    ensures VerifyAsWritten(p, configs, d) == Success(p)
  {
    VerifyAsWrittenFails(p, configs, d);
    VerifyAsWrittenAgrees(p, configs, d);
  }

  /** Where `verify` as written returns, it returns what the intended
      `verify` does. */
  lemma VerifyAsWrittenAgrees(p: PNCore, configs: set<Config>, d: Dom)
    requires VerifyPre(p, configs, d)
    requires VerifyAsWritten(p, configs, d).Success?
    ensures VerifyAsWritten(p, configs, d).value == Verify(p, configs, d)
  {
    var ok := forall c | c in configs :: NegCheck(p.nc, p.nd, d, c);
    if Truthy(p.nc) && !Truthy(p.nd) {
      assert ok <==> forall c | c in configs :: DImplies(c, Neg(p.nc.value, d));
    } else if !Truthy(p.nc) && Truthy(p.nd) {
      assert ok <==> forall c | c in configs :: CImplies(c, p.nd.value);
    } else {
      VerifyAsWrittenAgreesBoth(p, configs, d);
    }
  }

  /** The cases where `nc` and `nd` are both truthy or both not. */
  lemma VerifyAsWrittenAgreesBoth(p: PNCore, configs: set<Config>, d: Dom)
    requires VerifyPre(p, configs, d)
    requires Truthy(p.nc) == Truthy(p.nd)
    requires VerifyAsWritten(p, configs, d).Success?
    ensures VerifyAsWritten(p, configs, d).value == Verify(p, configs, d)
  {
    var ok := forall c | c in configs :: NegCheck(p.nc, p.nd, d, c);
    if Truthy(p.nc) {
      assert ok <==> forall c | c in configs :: CImplies(c, p.nd.value) || DImplies(c, Neg(p.nc.value, d));
    }
  }

  /** A concrete input on which `verify` as written raises: domain `a, b` over
      `{0, 1}`, `nc = a=0`, `nd = b=0`, and the config `a=0 b=1`. */
  lemma VerifyAsWrittenRaises(d: Dom, p: PNCore, configs: set<Config>)
    requires d == Dom(["a", "b"], map["a" := {"0", "1"}, "b" := {"0", "1"}])
    requires p == PNCore(Some(map[]), None, Some(map["a" := {"0"}]), Some(map["b" := {"0"}]))
    requires configs == {map["a" := "0", "b" := "1"]}
    ensures VerifyPre(p, configs, d)
    ensures VerifyAsWritten(p, configs, d).Failure?
    ensures Verify(p, configs, d) == PNCore(Some(map[]), None, None, None)
  {
    RaisesPre(d, p, configs);
    var c := map["a" := "0", "b" := "1"];
    RaisesRefutes(d, p.nc.value, p.nd.value, c);
    assert c in configs && !NegCheck(p.nc, p.nd, d, c);
    VerifyAsWrittenFails(p, configs, d);
  }

  /** The example input meets `verify`'s caller obligations. */
  lemma RaisesPre(d: Dom, p: PNCore, configs: set<Config>)
    requires d == Dom(["a", "b"], map["a" := {"0", "1"}, "b" := {"0", "1"}])
    requires p == PNCore(Some(map[]), None, Some(map["a" := {"0"}]), Some(map["b" := {"0"}]))
    requires configs == {map["a" := "0", "b" := "1"]}
    ensures VerifyPre(p, configs, d)
  {
    assert PNOverDom(p, d);
  }

  /** The example config refutes both negative parts. */
  lemma RaisesRefutes(d: Dom, nc: Core, nd: Core, c: Config)
    requires d == Dom(["a", "b"], map["a" := {"0", "1"}, "b" := {"0", "1"}])
    requires nc == map["a" := {"0"}] && nd == map["b" := {"0"}]
    requires c == map["a" := "0", "b" := "1"]
    ensures OverDom(nc, d)
    ensures !CImplies(c, nd) && !DImplies(c, Neg(nc, d))
  {
    assert Neg(nc, d) == map["a" := {"1"}] by {
      assert {"0", "1"} - {"0"} == {"1"};
    }
  }

  // ---------------------------------------------------------------------
  // Rendering (`_get_str`, `str_of_csetting`)
  // ---------------------------------------------------------------------

  /** `str_of_csetting`: `x=v1,v2` with the values sorted. */
  function CSettingStr(k: Var, vs: ValSet): (r: string)
  {
    k + "=" + Join(Sorted(vs), ",")
  }

  /** The variables of `order` that the core has, in that order. */
  function OrderedKeys(core: Core, order: seq<Var>): (r: seq<Var>)
    ensures forall k :: k in r <==> k in core && k in order
  {
    if |order| == 0 then []
    else
      var rest := OrderedKeys(core, order[1..]);
      assert forall k :: k in order <==> k == order[0] || k in order[1..] by {
        assert order == [order[0]] + order[1..];
      }
      if order[0] in core then [order[0]] + rest else rest
  }

  function SettingStrs(core: Core, d: Dom): (r: seq<string>)
    ensures forall i :: 0 <= i < |r| ==> |r[i]| > 0
  {
    var ks := OrderedKeys(core, d.vars);
    seq(|ks|, i requires 0 <= i < |ks| => CSettingStr(ks[i], core[ks[i]]))
  }

  /** `Core.__str__(delim)`, listing the variables in domain order. */
  function CoreStr(core: Core, d: Dom, delim: string): (r: string)
    requires ValidDom(d) && OverDom(core, d)
    ensures |r| > 0
  {
    if |core| == 0 then "true"
    else
      var parts := SettingStrs(core, d);
      var k :| k in core;
      assert k in OrderedKeys(core, d.vars);
      JoinNonEmpty(parts, delim);
      Join(parts, delim)
  }

  /** `_get_str._str`: parenthesised when the core has more than one variable. */
  function Wrapped(core: Core, d: Dom, delim: string): (r: string)
    requires ValidDom(d) && OverDom(core, d)
    ensures |r| > 0
  {
    var s := CoreStr(core, d, delim);
    if |core| > 1 then "(" + s + ")" else s
  }

  /** Python's `sorted` on a list of at most two strings. */
  function SortPair(ss: seq<string>): (r: seq<string>)
    requires |ss| <= 2
    ensures |r| == |ss| && multiset(r) == multiset(ss)
    ensures IsSortedSeq(r)
  {
    if |ss| == 2 && !StrLe(ss[0], ss[1]) then
      StrLeTotal(ss[0], ss[1]);
      assert ss == [ss[0], ss[1]];
      [ss[1], ss[0]]
    else ss
  }

  /** `PNCore._get_str`. */
  function GetStr(cc: Option<Core>, cd: Option<Core>, d: Dom, isAnd: bool): (r: string)
    requires ValidDom(d) && OptOverDom(cc, d) && OptOverDom(cd, d)
    ensures |r| > 0
  {
    var s1 := if Truthy(cc) then [Wrapped(cc.value, d, " & ")] else [];
    var s2 := if Truthy(cd) then [Wrapped(Neg(cd.value, d), d, " | ")] else [];
    var ss := s1 + s2;
    if |ss| == 0 then "true"
    else
      var sorted := SortPair(ss);
      assert forall i :: 0 <= i < |sorted| ==> sorted[i] in multiset(ss);
      JoinNonEmpty(sorted, if isAnd then " & " else " | ");
      Join(sorted, if isAnd then " & " else " | ")
  }

  // ---------------------------------------------------------------------
  // simplify
  // ---------------------------------------------------------------------

  /** The shape tag of a rendered hypothesis. */
  datatype VTyp = Conj | Disj | Mix

  /** `simplify._typ`: `mix` when the string has both ` & ` and ` | `, `disj`
      when it has only ` | `, `conj` otherwise. */
  function VTypOf(s: string): (r: VTyp)
  {
    if Contains(s, " & ") && Contains(s, " | ") then Mix
    else if Contains(s, " | ") then Disj
    else Conj
  }

  /** The result of `simplify`: the simplified core with its `vstr` and
      `vtyp` attributes, and the formula returned beside it. */
  datatype Simplified = Simplified(core: PNCore, vstr: string, vtyp: VTyp, expr: Option<Expr>)

  /** `if not x: x = None`. */
  function Norm(oc: Option<Core>): (r: Option<Core>)
    ensures Truthy(r) == Truthy(oc)
    ensures r.None? || r == oc
  {
    if Truthy(oc) then oc else None
  }

  function Normalize(p: PNCore): PNCore
  {
    PNCore(Norm(p.pc), Norm(p.pd), Norm(p.nc), Norm(p.nd))
  }

  /** The debug assertions `simplify` makes when `do_firsttime` is set. */
  predicate FirstTimeOk(p: PNCore)
  {
    p.pc.Some? && (p.nc.Some? || p.pd.None?)
  }

  /** Neither side is (None, None). */
  predicate TwoSided(p: PNCore)
  {
    !(p.pc.None? && p.pd.None?) && !(p.nc.None? && p.nd.None?)
  }

  predicate EndsWith(s: string, t: string)
  {
    |t| <= |s| && s[|s| - |t|..] == t
  }

  /** Both sides contribute a formula. */
  predicate BothPresent(n: PNCore, d: Dom)
    requires PNOverDom(n, d)
  {
    Present(n.pc, n.pd, d) && Present(n.nd, n.nc, d)
  }

  /** Neither side's formula implies the other's: the case `simplify` reports
      as inconsistent. */
  predicate Inconsistent(n: PNCore, d: Dom)
    requires ValidDom(d) && PNOverDom(n, d)
  {
    && TwoSided(n)
    && !Entails(GetExpr(n.pc, n.pd, d, true), GetExpr(n.nd, n.nc, d, false), d)
    && !Entails(GetExpr(n.nd, n.nc, d, false), GetExpr(n.pc, n.pd, d, true), d)
  }

  /** The hypothesis `simplify` keeps for a normalised one: the positive
      side alone when its formula implies the negative one, the negative side
      alone when the converse holds, otherwise both. */
  function KeptSides(n: PNCore, d: Dom): (q: PNCore)
    requires ValidDom(d) && PNOverDom(n, d)
    ensures PNOverDom(q, d)
    ensures q == n || q == PNCore(n.pc, n.pd, None, None) || q == PNCore(None, None, n.nc, n.nd)
  {
    if (n.pc.None? && n.pd.None?) || (n.nc.None? && n.nd.None?) then n
    else if Entails(GetExpr(n.pc, n.pd, d, true), GetExpr(n.nd, n.nc, d, false), d) then
      PNCore(n.pc, n.pd, None, None)
    else if Entails(GetExpr(n.nd, n.nc, d, false), GetExpr(n.pc, n.pd, d, true), d) then
      PNCore(None, None, n.nc, n.nd)
    else n
  }

  /** `PNCore.simplify`.  Empty cores become `None`; when both sides are
      present the side whose formula implies the other's is kept (the positive
      side first), and when neither implies the other both are kept and the
      string is marked `***`.  Fails where the source's assertions fail. */
  function Simplify(p: PNCore, d: Dom, firstTime: bool): (r: Result<Simplified, string>)
    requires ValidDom(d) && PNOverDom(p, d)
    ensures r.Failure? <==>
      || (firstTime && !FirstTimeOk(p))
      || (TwoSided(Normalize(p)) && !BothPresent(Normalize(p), d))
    ensures r.Success? ==> |r.value.vstr| > 0 && r.value.vtyp == VTypOf(r.value.vstr)
  {
    if firstTime && !FirstTimeOk(p) then Failure("AssertionError: pc is None or (nc is None and pd is not None)")
    else
      var n := Normalize(p);
      if TwoSided(n) && !BothPresent(n, d) then Failure("AssertionError: side formula is None")
      else
        var q := KeptSides(n, d);
        if q.pc.None? && q.pd.None? then
          var vstr := GetStr(q.nd, q.nc, d, false);
          Success(Simplified(q, vstr, VTypOf(vstr), GetExpr(q.nd, q.nc, d, false)))
        else if q.nc.None? && q.nd.None? then
          var vstr := GetStr(q.pc, q.pd, d, true);
          Success(Simplified(q, vstr, VTypOf(vstr), GetExpr(q.pc, q.pd, d, true)))
        else
          var vstr := Join([GetStr(q.pc, q.pd, d, true), GetStr(q.nd, q.nc, d, false)], ",") + "***";
          Success(Simplified(q, vstr, VTypOf(vstr), MyAnd([GetExpr(q.pc, q.pd, d, true), GetExpr(q.nd, q.nc, d, false)])))
  }

  /** `simplify` succeeds when the first-time checks pass and both sides
      contribute a formula. */
  lemma SimplifyBothPresent(p: PNCore, d: Dom)
    requires ValidDom(d) && PNOverDom(p, d)
    requires FirstTimeOk(p) && PNOverDom(Normalize(p), d) && BothPresent(Normalize(p), d)
    ensures Simplify(p, d, true).Success?
  {
  }

  /** What `simplify` returns: each part is the normalised input part or
      `None`; the formula is the `z3expr` of the returned core; one side is
      dropped unless neither side's formula implies the other's, in which
      case the string ends in `***`. */
  lemma SimplifyResult(p: PNCore, d: Dom, firstTime: bool)
    requires ValidDom(d) && PNOverDom(p, d)
    requires Simplify(p, d, firstTime).Success?
    ensures
      var s := Simplify(p, d, firstTime).value;
      var n := Normalize(p);
      var q := s.core;
      && PNOverDom(n, d) && q == KeptSides(n, d)
      && (q.pc == n.pc || q.pc.None?) && (q.pd == n.pd || q.pd.None?)
      && (q.nc == n.nc || q.nc.None?) && (q.nd == n.nd || q.nd.None?)
      && PNOverDom(q, d)
      && s.expr == PNCoreExpr(q, d)
      && (IsSimplified(q) <==> !Inconsistent(n, d))
      && (!IsSimplified(q) ==> EndsWith(s.vstr, "***"))
  {
    var s := Simplify(p, d, firstTime).value;
    var n := Normalize(p);
    if TwoSided(n) {
      var pexpr := GetExpr(n.pc, n.pd, d, true);
      var nexpr := GetExpr(n.nd, n.nc, d, false);
      if !Entails(pexpr, nexpr, d) && !Entails(nexpr, pexpr, d) {
        var pvstr := GetStr(n.pc, n.pd, d, true);
        var nvstr := GetStr(n.nd, n.nc, d, false);
        assert s.vstr == Join([pvstr, nvstr], ",") + "***";
        assert s.core == n;
      }
    }
  }

  lemma InvNormalize(p: PNCore, d: Dom, c: Config)
    requires PNOverDom(p, d)
    ensures PNOverDom(Normalize(p), d)
    ensures Inv(Normalize(p), d, c) <==> Inv(p, d, c)
  {
  }

  /** Dropping the negative side loses nothing when the positive formula implies it. */
  lemma DropNegSide(n: PNCore, d: Dom, c: Config)
    requires ValidDom(d) && PNOverDom(n, d) && c in AllConfigs(d)
    requires Entails(GetExpr(n.pc, n.pd, d, true), GetExpr(n.nd, n.nc, d, false), d)
    ensures Inv(PNCore(n.pc, n.pd, None, None), d, c) <==> Inv(n, d, c)
  {
    GetExprMeaning(n.pc, n.pd, d, c);
    GetExprMeaning(n.nd, n.nc, d, c);
  }

  /** Dropping the positive side loses nothing when the negative formula implies it. */
  lemma DropPosSide(n: PNCore, d: Dom, c: Config)
    requires ValidDom(d) && PNOverDom(n, d) && c in AllConfigs(d)
    requires Entails(GetExpr(n.nd, n.nc, d, false), GetExpr(n.pc, n.pd, d, true), d)
    ensures Inv(PNCore(None, None, n.nc, n.nd), d, c) <==> Inv(n, d, c)
  {
    GetExprMeaning(n.pc, n.pd, d, c);
    GetExprMeaning(n.nd, n.nc, d, c);
  }

  lemma KeptSidesMeaning(n: PNCore, d: Dom, c: Config)
    requires ValidDom(d) && PNOverDom(n, d) && c in AllConfigs(d)
    ensures Inv(KeptSides(n, d), d, c) <==> Inv(n, d, c)
  {
    if (n.pc.None? && n.pd.None?) || (n.nc.None? && n.nd.None?) {
    } else if Entails(GetExpr(n.pc, n.pd, d, true), GetExpr(n.nd, n.nc, d, false), d) {
      DropNegSide(n, d, c);
    } else if Entails(GetExpr(n.nd, n.nc, d, false), GetExpr(n.pc, n.pd, d, true), d) {
      DropPosSide(n, d, c);
    }
  }

  /** The formula `simplify` returns means, on every configuration of the
      domain, what the hypothesis it was given meant. */
  lemma SimplifyKeepsMeaning(p: PNCore, d: Dom, firstTime: bool)
    requires ValidDom(d) && PNOverDom(p, d)
    requires Simplify(p, d, firstTime).Success?
    ensures forall c | c in AllConfigs(d) :: Holds(Simplify(p, d, firstTime).value.expr, c) <==> Inv(p, d, c)
  {
    var s := Simplify(p, d, firstTime).value;
    SimplifyResult(p, d, firstTime);
    forall c | c in AllConfigs(d)
      ensures Holds(s.expr, c) <==> Inv(p, d, c)
    {
      InvNormalize(p, d, c);
      KeptSidesMeaning(Normalize(p), d, c);
      PNCoreExprMeaning(s.core, d, c);
    }
  }

  // ---------------------------------------------------------------------
  // Shape of the rendered string
  // ---------------------------------------------------------------------

  lemma TwoInSeq<T>(s: seq<T>, a: T, b: T)
    requires a in s && b in s && a != b
    ensures |s| >= 2
  {
    var i :| 0 <= i < |s| && s[i] == a;
    var j :| 0 <= j < |s| && s[j] == b;
    assert i != j;
  }

  /** A core with two or more variables renders with its delimiter. */
  lemma CoreStrHasDelim(core: Core, d: Dom, delim: string)
    requires ValidDom(d) && OverDom(core, d)
    requires |core| >= 2
    ensures Contains(Wrapped(core, d, delim), delim)
  {
    var k1 :| k1 in core;
    assert |core.Keys - {k1}| == |core.Keys| - 1;
    var k2 :| k2 in core.Keys - {k1};
    var parts := SettingStrs(core, d);
    TwoInSeq(OrderedKeys(core, d.vars), k1, k2);
    JoinContainsSep(parts, delim);
    var s := CoreStr(core, d, delim);
    ContainsConcat("(", s, delim);
    ContainsConcat("(" + s, ")", delim);
  }

  /** A string built only from pieces without `ch` has no `ch`. */
  predicate NoCharIn(core: Core, ch: char)
  {
    forall k | k in core :: !HasChar(k, ch) && forall v | v in core[k] :: !HasChar(v, ch)
  }

  lemma CSettingNoChar(k: Var, vs: ValSet, ch: char)
    requires !HasChar(k, ch) && forall v | v in vs :: !HasChar(v, ch)
    requires ch != '=' && ch != ','
    ensures !HasChar(CSettingStr(k, vs), ch)
  {
    var sorted := Sorted(vs);
    JoinNoChar(sorted, ",", ch);
    HasCharConcat(k, "=", ch);
    HasCharConcat(k + "=", Join(sorted, ","), ch);
  }

  lemma WrappedNoChar(core: Core, d: Dom, delim: string, ch: char)
    requires ValidDom(d) && OverDom(core, d)
    requires NoCharIn(core, ch) && !HasChar(delim, ch)
    requires ch != '=' && ch != ',' && ch != '(' && ch != ')'
    requires ch != 't' && ch != 'r' && ch != 'u' && ch != 'e'
    ensures !HasChar(Wrapped(core, d, delim), ch)
  {
    var s := CoreStr(core, d, delim);
    if |core| > 0 {
      var ks := OrderedKeys(core, d.vars);
      var parts := SettingStrs(core, d);
      forall i | 0 <= i < |parts|
        ensures !HasChar(parts[i], ch)
      {
        CSettingNoChar(ks[i], core[ks[i]], ch);
      }
      JoinNoChar(parts, delim, ch);
    }
    HasCharConcat("(", s, ch);
    HasCharConcat("(" + s, ")", ch);
  }

  /** The string of a hypothesis with only a non-empty positive side. */
  lemma PosOnlyStr(cc: Core, d: Dom)
    requires ValidDom(d) && OverDom(cc, d) && |cc| > 0
    ensures GetStr(Some(cc), None, d, true) == Wrapped(cc, d, " & ")
  {
    var w := Wrapped(cc, d, " & ");
    assert Truthy(Some(cc)) && !Truthy(None);
    assert [w] + [] == [w];
    assert SortPair([w]) == [w];
    assert Join([w], " & ") == w;
  }

  /** A positive-only hypothesis with no exception core, over names and
      values without `|`, is tagged `conj`. */
  lemma ConjShape(pc: Core, d: Dom)
    requires ValidDom(d) && OverDom(pc, d) && |pc| > 0
    requires NoCharIn(pc, '|')
    ensures VTypOf(GetStr(Some(pc), None, d, true)) == Conj
  {
    var w := Wrapped(pc, d, " & ");
    assert !HasChar(" & ", '|') by {
      assert forall i | 0 <= i < 3 :: " & "[i] != '|';
    }
    assert " | "[1] == '|';
    WrappedNoChar(pc, d, " & ", '|');
    PosOnlyStr(pc, d);
    NoCharNotContains(w, " | ", '|');
  }

  /** A negative-only hypothesis with no exception core, whose negation has
      two or more variables, over names and values without `&`, is tagged `disj`. */
  lemma DisjShape(nc: Core, d: Dom)
    requires ValidDom(d) && OverDom(nc, d) && |Neg(nc, d)| >= 2
    requires NoCharIn(Neg(nc, d), '&')
    ensures VTypOf(GetStr(None, Some(nc), d, false)) == Disj
  {
    var w := Wrapped(Neg(nc, d), d, " | ");
    NegOnlyStr(nc, d);
    DisjunctionDelims(Neg(nc, d), d);
    DisjOf(w);
  }

  /** The string of a hypothesis with only a non-empty negative side. */
  lemma NegOnlyStr(nc: Core, d: Dom)
    requires ValidDom(d) && OverDom(nc, d) && |Neg(nc, d)| >= 1
    ensures GetStr(None, Some(nc), d, false) == Wrapped(Neg(nc, d), d, " | ")
  {
    SubsetCardKeys(Neg(nc, d), nc);
    var w := Wrapped(Neg(nc, d), d, " | ");
    assert Truthy(Some(nc)) && !Truthy(None);
    assert [] + [w] == [w];
    assert SortPair([w]) == [w];
    assert Join([w], " | ") == w;
  }

  /** A disjunction of two or more settings without `&` has the delimiter
      ` | ` and not ` & `. */
  lemma DisjunctionDelims(n: Core, d: Dom)
    requires ValidDom(d) && OverDom(n, d) && |n| >= 2 && NoCharIn(n, '&')
    ensures Contains(Wrapped(n, d, " | "), " | ") && !Contains(Wrapped(n, d, " | "), " & ")
  {
    var w := Wrapped(n, d, " | ");
    NoAmpInBar();
    WrappedNoChar(n, d, " | ", '&');
    assert " & "[1] == '&';
    NoCharNotContains(w, " & ", '&');
    CoreStrHasDelim(n, d, " | ");
  }

  lemma NoAmpInBar()
    ensures !HasChar(" | ", '&')
  {
    assert " | " == [' ', '|', ' '];
  }

  lemma SubsetCardKeys(a: Core, b: Core)
    requires a.Keys <= b.Keys
    ensures |a| <= |b|
  {
    assert |a| == |a.Keys| && |b| == |b.Keys|;
    Generators.SubsetCard(a.Keys, b.Keys);
  }

  /** A string with ` | ` and without ` & ` is tagged `disj`. */
  lemma DisjOf(s: string)
    requires Contains(s, " | ") && !Contains(s, " & ")
    ensures VTypOf(s) == Disj
  {
  }

  /** With both sides present, the rendering joins the two sorted parts. */
  lemma BothStr(pc: Core, pd: Core, d: Dom)
    requires ValidDom(d) && OverDom(pc, d) && OverDom(pd, d)
    requires |pc| > 0 && |pd| > 0
    ensures GetStr(Some(pc), Some(pd), d, true)
      == Join(SortPair([Wrapped(pc, d, " & "), Wrapped(Neg(pd, d), d, " | ")]), " & ")
  {
    var w1 := Wrapped(pc, d, " & ");
    var w2 := Wrapped(Neg(pd, d), d, " | ");
    assert Truthy(Some(pc)) && Truthy(Some(pd));
    assert [w1] + [w2] == [w1, w2];
  }

  /** A positive side with two or more conjuncts and an exception whose
      negation has two or more disjuncts is tagged `mix`. */
  lemma MixShape(pc: Core, pd: Core, d: Dom)
    requires ValidDom(d) && OverDom(pc, d) && OverDom(pd, d)
    requires |pc| >= 2 && |Neg(pd, d)| >= 2
    ensures VTypOf(GetStr(Some(pc), Some(pd), d, true)) == Mix
  {
    var w1 := Wrapped(pc, d, " & ");
    var w2 := Wrapped(Neg(pd, d), d, " | ");
    var sorted := SortPair([w1, w2]);
    var r := Join(sorted, " & ");
    BothStr(pc, pd, d);
    JoinContainsSep(sorted, " & ");
    assert w2 in multiset(sorted);
    var i :| 0 <= i < |sorted| && sorted[i] == w2;
    JoinContainsPart(sorted, " & ", i);
    CoreStrHasDelim(Neg(pd, d), d, " | ");
    ContainsTransitive(r, w2, " | ");
  }
}

=== FILE: stats.dfy ===
/** The summaries of merged results: `Mcores_d.vtyps` and `Mcores_d.strens`
    (src/config.py:886-911).  `vtyps` counts the hypotheses of each shape;
    `strens` lists, for each strength in increasing order, how many
    hypotheses have it and how many locations they cover. */
module Stats {
  import opened Domains
  import opened Cores
  import opened PNCores
  import opened Merging
  import Generators

  // ---------------------------------------------------------------------
  // Counting by a classifying function
  // ---------------------------------------------------------------------

  /** The elements of `xs` that `f` sends to `v`. */
  function Having<T, U(==)>(xs: set<T>, f: T -> U, v: U): set<T>
  {
    set x | x in xs && f(x) == v
  }

  /** The sizes of the classes of `xs` for the values `vs`, added up. */
  function SumClasses<T, U(==)>(xs: set<T>, f: T -> U, vs: seq<U>): nat
  {
    if vs == [] then 0 else |Having(xs, f, vs[0])| + SumClasses(xs, f, vs[1..])
  }

  /** Leaving out elements whose class is not listed changes no sum. */
  lemma {:induction false} SumClassesRestrict<T, U>(xs: set<T>, ys: set<T>, f: T -> U, vs: seq<U>)
    requires ys <= xs
    requires forall x | x in xs - ys :: f(x) !in vs
    ensures SumClasses(xs, f, vs) == SumClasses(ys, f, vs)
  {
    if vs != [] {
      assert Having(xs, f, vs[0]) == Having(ys, f, vs[0]) by {
        forall x | x in Having(xs, f, vs[0])
          ensures x in ys
        {
          assert f(x) in vs;
        }
      }
      assert forall x | x in xs - ys :: f(x) !in vs[1..];
      SumClassesRestrict(xs, ys, f, vs[1..]);
    }
  }

  /** Classes for distinct values covering every element partition the
      set: their sizes add up to its size. */
  lemma {:induction false} SumClassesPartition<T, U>(xs: set<T>, f: T -> U, vs: seq<U>)
    requires Distinct(vs)
    requires forall x | x in xs :: f(x) in vs
    ensures SumClasses(xs, f, vs) == |xs|
  {
    if vs != [] {
      var first := Having(xs, f, vs[0]);
      var rest := xs - first;
      assert Distinct(vs[1..]);
      forall x | x in rest
        ensures f(x) in vs[1..]
      {
        var i :| 0 <= i < |vs| && vs[i] == f(x);
        assert i != 0;
        assert vs[1..][i - 1] == f(x);
      }
      assert forall x | x in xs - rest :: f(x) !in vs[1..];
      SumClassesRestrict(xs, rest, f, vs[1..]);
      SumClassesPartition(rest, f, vs[1..]);
      assert xs == first + rest && first !! rest;
    }
  }

  // ---------------------------------------------------------------------
  // `vtyps`
  // ---------------------------------------------------------------------

  /** How many of `ks` have shape `t`: the loop of `vtyps`. */
  function CountShape(ks: seq<Simplified>, t: VTyp): (n: nat)
    ensures n <= |ks|
  {
    if ks == [] then 0 else (if ks[0].vtyp == t then 1 else 0) + CountShape(ks[1..], t)
  }

  /** `Mcores_d.vtyps`, visiting the hypotheses in `order`: the numbers of
      conjunctive, disjunctive and mixed hypotheses. */
  function VTyps(mc: MCoresD, order: seq<Simplified>): (r: (nat, nat, nat))
    requires Distinct(order) && Generators.Elems(order) == mc.Keys
  {
    (CountShape(order, Conj), CountShape(order, Disj), CountShape(order, Mix))
  }

  function ShapeOf(k: Simplified): VTyp
  {
    k.vtyp
  }

  /** Adding a new element adds it to its own class only. */
  lemma HavingAdd<T, U>(xs: set<T>, x: T, f: T -> U, v: U)
    requires x !in xs
    ensures |Having(xs + {x}, f, v)| == |Having(xs, f, v)| + (if f(x) == v then 1 else 0)
  {
    if f(x) == v {
      assert Having(xs + {x}, f, v) == Having(xs, f, v) + {x};
    } else {
      assert Having(xs + {x}, f, v) == Having(xs, f, v);
    }
  }

  /** Counting along a listing without repeats counts the set of
      hypotheses of that shape. */
  lemma {:induction false} CountShapeIsSize(ks: seq<Simplified>, t: VTyp)
    requires Distinct(ks)
    ensures CountShape(ks, t) == |Having(Generators.Elems(ks), ShapeOf, t)|
  {
    if ks != [] {
      assert Distinct(ks[1..]);
      CountShapeIsSize(ks[1..], t);
      assert ks == [ks[0]] + ks[1..];
      HavingAdd(Generators.Elems(ks[1..]), ks[0], ShapeOf, t);
      assert Generators.Elems(ks) == Generators.Elems(ks[1..]) + {ks[0]};
    }
  }

  /** Whatever the order, `vtyps` gives the numbers of hypotheses of each
      shape, and they add up to the number of hypotheses. */
  lemma VTypsCounts(mc: MCoresD, order: seq<Simplified>)
    requires Distinct(order) && Generators.Elems(order) == mc.Keys
    ensures VTyps(mc, order).0 == |Having(mc.Keys, ShapeOf, Conj)|
    ensures VTyps(mc, order).1 == |Having(mc.Keys, ShapeOf, Disj)|
    ensures VTyps(mc, order).2 == |Having(mc.Keys, ShapeOf, Mix)|
    ensures VTyps(mc, order).0 + VTyps(mc, order).1 + VTyps(mc, order).2 == |mc|
  {
    CountShapeIsSize(order, Conj);
    CountShapeIsSize(order, Disj);
    CountShapeIsSize(order, Mix);
    var vs := [Conj, Disj, Mix];
    forall k | k in mc.Keys
      ensures ShapeOf(k) in vs
    {
      assert k.vtyp == vs[0] || k.vtyp == vs[1] || k.vtyp == vs[2];
    }
    SumClassesPartition(mc.Keys, ShapeOf, vs);
    assert vs[1..] == [Disj, Mix] && vs[1..][1..] == [Mix] && vs[1..][1..][1..] == [];
    assert SumClasses(mc.Keys, ShapeOf, [Mix]) == |Having(mc.Keys, ShapeOf, Mix)|;
    assert SumClasses(mc.Keys, ShapeOf, [Disj, Mix]) ==
      |Having(mc.Keys, ShapeOf, Disj)| + |Having(mc.Keys, ShapeOf, Mix)|;
  }

  // ---------------------------------------------------------------------
  // `strens`
  // ---------------------------------------------------------------------

  /** A least element of a non-empty set of numbers. */
  lemma LeastNatWitness(s: set<nat>) returns (m: nat)
    requires s != {}
    ensures m in s && forall y | y in s :: m <= y
    decreases s
  {
    var x :| x in s;
    if s == {x} {
      m := x;
    } else {
      var m' := LeastNatWitness(s - {x});
      m := if x < m' then x else m';
      forall y | y in s
        ensures m <= y
      {
        if y != x {
          assert y in s - {x};
        }
      }
    }
  }

  lemma LeastNatExists(s: set<nat>)
    requires s != {}
    ensures exists m | m in s :: forall y | y in s :: m <= y
  {
    var m := LeastNatWitness(s);
  }

  /** The least number of a non-empty set. */
  function LeastNat(s: set<nat>): (m: nat)
    requires s != {}
    ensures m in s && forall y | y in s :: m <= y
  {
    LeastNatExists(s);
    var m :| m in s && forall y | y in s :: m <= y;
    m
  }

  /** Python's `sorted(s)` for a set of numbers. */
  function SortedNats(s: set<nat>): (q: seq<nat>)
    ensures |q| == |s|
    ensures forall x :: x in q <==> x in s
    ensures forall i, j | 0 <= i < j < |q| :: q[i] < q[j]
    decreases |s|
  {
    if s == {} then []
    else
      var m := LeastNat(s);
      [m] + SortedNats(s - {m})
  }

  /** A hypothesis's strength, `sstren`. */
  function StrenOf(k: Simplified): nat
  {
    PSStren(k.core)
  }

  /** The locations of the hypotheses among `ks`. */
  function CovOf(mc: MCoresD, ks: set<Simplified>): set<Sid>
    requires ks <= mc.Keys
  {
    set k, s | k in ks && s in mc[k] :: s
  }

  /** One row of `strens`: the strength, the number of hypotheses with it
      and the number of locations they cover. */
  function Row(mc: MCoresD, st: nat): (nat, nat, nat)
  {
    var ks := Having(mc.Keys, StrenOf, st);
    (st, |ks|, |CovOf(mc, ks)|)
  }

  /** The strengths the hypotheses of `mc` have. */
  function StrensOf(mc: MCoresD): set<nat>
  {
    set k | k in mc :: StrenOf(k)
  }

  /** `Mcores_d.strens`: its strengths are listed in strictly increasing
      order, each with its row. */
  function Strens(mc: MCoresD): (rs: seq<(nat, nat, nat)>)
    ensures forall i, j | 0 <= i < j < |rs| :: rs[i].0 < rs[j].0
    ensures forall i | 0 <= i < |rs| :: rs[i] == Row(mc, rs[i].0) && rs[i].0 in StrensOf(mc)
  {
    var strens := SortedNats(StrensOf(mc));
    seq(|strens|, i requires 0 <= i < |strens| => Row(mc, strens[i]))
  }

  /** Every strength some hypothesis has has its row in `strens`. */
  lemma StrensComplete(mc: MCoresD, k: Simplified)
    requires k in mc
    ensures exists i | 0 <= i < |Strens(mc)| :: Strens(mc)[i].0 == StrenOf(k)
  {
    var strens := SortedNats(StrensOf(mc));
    assert StrenOf(k) in strens;
    var i :| 0 <= i < |strens| && strens[i] == StrenOf(k);
    assert Strens(mc)[i].0 == StrenOf(k);
  }

  /** Every row of `strens` counts at least one hypothesis, and no more
      locations than the merged results hold. */
  lemma StrensRowBounds(mc: MCoresD, i: nat)
    requires i < |Strens(mc)|
    ensures 1 <= Strens(mc)[i].1 && Strens(mc)[i].2 <= |CovOf(mc, mc.Keys)|
  {
    var st := Strens(mc)[i].0;
    var k :| k in mc && StrenOf(k) == st;
    RowBounds(mc, st, k);
  }

  lemma RowBounds(mc: MCoresD, st: nat, k: Simplified)
    requires k in mc && StrenOf(k) == st
    ensures 1 <= Row(mc, st).1 && Row(mc, st).2 <= |CovOf(mc, mc.Keys)|
  {
    var ks := Having(mc.Keys, StrenOf, st);
    assert k in ks;
    assert CovOf(mc, ks) <= CovOf(mc, mc.Keys);
    Generators.SubsetCard(CovOf(mc, ks), CovOf(mc, mc.Keys));
  }

  /** The hypotheses counted by the rows of `strens` add up to the number
      of merged results. */
  lemma StrensCountAll(mc: MCoresD)
    ensures SumCores(Strens(mc)) == |mc|
  {
    var strens := SortedNats(StrensOf(mc));
    assert Distinct(strens);
    forall k | k in mc.Keys
      ensures StrenOf(k) in strens
    {
      assert StrenOf(k) in StrensOf(mc);
    }
    SumClassesPartition(mc.Keys, StrenOf, strens);
    SumCoresRows(mc, strens);
  }

  /** The second column of `strens`, added up. */
  function SumCores(rs: seq<(nat, nat, nat)>): nat
  {
    if rs == [] then 0 else rs[0].1 + SumCores(rs[1..])
  }

  lemma {:induction false} SumCoresRows(mc: MCoresD, vs: seq<nat>)
    ensures SumCores(seq(|vs|, i requires 0 <= i < |vs| => Row(mc, vs[i]))) ==
      SumClasses(mc.Keys, StrenOf, vs)
  {
    var rows := seq(|vs|, i requires 0 <= i < |vs| => Row(mc, vs[i]));
    if vs != [] {
      SumCoresRows(mc, vs[1..]);
      assert rows[1..] == seq(|vs[1..]|, i requires 0 <= i < |vs[1..]| => Row(mc, vs[1..][i]));
    }
  }
}

=== FILE: strings.dfy ===
/** String helpers the source takes from Python: `sorted` on strings
    (code-point lexicographic order), `','.join`, and the `in` test on
    substrings. */
module Strings {

  /** Python's `a <= b` on strings: lexicographic by code point. */
  predicate StrLe(a: string, b: string)
  {
    |a| == 0 || (|b| > 0 && (a[0] < b[0] || (a[0] == b[0] && StrLe(a[1..], b[1..]))))
  }

  lemma StrLeTotal(a: string, b: string)
    ensures StrLe(a, b) || StrLe(b, a)
  {
    if |a| > 0 && |b| > 0 && a[0] == b[0] {
      StrLeTotal(a[1..], b[1..]);
    }
  }

  lemma StrLeAntisymmetric(a: string, b: string)
    ensures StrLe(a, b) && StrLe(b, a) ==> a == b
  {
    if |a| > 0 && |b| > 0 && a[0] == b[0] {
      StrLeAntisymmetric(a[1..], b[1..]);
      if StrLe(a, b) && StrLe(b, a) {
        assert a == [a[0]] + a[1..];
        assert b == [b[0]] + b[1..];
      }
    }
  }

  lemma StrLeTransitive(a: string, b: string, c: string)
    ensures StrLe(a, b) && StrLe(b, c) ==> StrLe(a, c)
  {
    if |a| > 0 && |b| > 0 && |c| > 0 && a[0] == b[0] && b[0] == c[0] {
      StrLeTransitive(a[1..], b[1..], c[1..]);
    }
  }

  lemma StrLeReflexive(a: string)
    ensures StrLe(a, a)
  {
    if |a| > 0 {
      StrLeReflexive(a[1..]);
    }
  }

  lemma StrLeAntisymmetricAll()
    ensures forall a: string, b: string :: StrLe(a, b) && StrLe(b, a) ==> a == b
  {
    forall a: string, b: string
      ensures StrLe(a, b) && StrLe(b, a) ==> a == b
    {
      StrLeAntisymmetric(a, b);
    }
  }

  ghost predicate IsLeast(m: string, s: set<string>)
  {
    m in s && forall y :: y in s ==> StrLe(m, y)
  }

  lemma LeastExists(s: set<string>)
    requires s != {}
    ensures exists m :: IsLeast(m, s)
    decreases |s|
  {
    var x :| x in s;
    StrLeReflexive(x);
    if s == {x} {
      assert IsLeast(x, s);
    } else {
      LeastExists(s - {x});
      var m :| IsLeast(m, s - {x});
      StrLeTotal(m, x);
      if StrLe(m, x) {
        assert IsLeast(m, s);
      } else {
        forall y | y in s
          ensures StrLe(x, y)
        {
          if y != x {
            assert y in s - {x};
            assert StrLe(m, y);
            StrLeTransitive(x, m, y);
          }
        }
        assert IsLeast(x, s);
      }
    }
  }

  /** The least string of a non-empty set. */
  function Least(s: set<string>): (m: string)
    requires s != {}
    ensures m in s
    ensures forall y :: y in s ==> StrLe(m, y)
  {
    LeastExists(s);
    StrLeAntisymmetricAll();
    var m :| m in s && forall y :: y in s ==> StrLe(m, y);
    m
  }

  ghost predicate IsSortedSeq(q: seq<string>)
  {
    forall i, j :: 0 <= i < j < |q| ==> StrLe(q[i], q[j])
  }

  /** Python's `sorted(s)` for a set of strings. */
  function Sorted(s: set<string>): (q: seq<string>)
    ensures |q| == |s|
    ensures forall x :: x in q <==> x in s
    ensures forall i, j :: 0 <= i < j < |q| ==> q[i] != q[j]
    ensures IsSortedSeq(q)
    decreases |s|
  {
    if s == {} then []
    else
      var m := Least(s);
      var rest := Sorted(s - {m});
      SortedCons(m, rest, s);
      [m] + rest
  }

  /** The least element put before a sorted listing of the others is a
      sorted listing of the whole set. */
  lemma SortedCons(m: string, rest: seq<string>, s: set<string>)
    requires m in s && forall y :: y in s ==> StrLe(m, y)
    requires |rest| == |s - {m}|
    requires forall x :: x in rest <==> x in s - {m}
    requires forall i, j :: 0 <= i < j < |rest| ==> rest[i] != rest[j]
    requires IsSortedSeq(rest)
    ensures |[m] + rest| == |s|
    ensures forall x :: x in [m] + rest <==> x in s
    ensures forall i, j :: 0 <= i < j < |[m] + rest| ==> ([m] + rest)[i] != ([m] + rest)[j]
    ensures IsSortedSeq([m] + rest)
  {
    var q := [m] + rest;
    assert |s - {m}| == |s| - 1;
    assert forall x :: x in q <==> x == m || x in rest;
    forall i, j | 0 <= i < j < |q|
      ensures q[i] != q[j] && StrLe(q[i], q[j])
    {
      assert q[j] == rest[j - 1];
      assert rest[j - 1] in rest;
      if i > 0 {
        assert q[i] == rest[i - 1];
      }
    }
  }

  /** Python's `sep.join(parts)`. */
  function Join(parts: seq<string>, sep: string): string
  {
    if |parts| == 0 then ""
    else if |parts| == 1 then parts[0]
    else parts[0] + sep + Join(parts[1..], sep)
  }

  /** Python's `t in s` for strings. */
  predicate Contains(s: string, t: string)
  {
    exists i | 0 <= i <= |s| - |t| :: OccursAt(s, t, i)
  }

  predicate OccursAt(s: string, t: string, i: int)
  {
    0 <= i <= |s| - |t| && s[i..i + |t|] == t
  }

  predicate HasChar(s: string, ch: char)
  {
    exists i | 0 <= i < |s| :: s[i] == ch
  }

  /** A string that contains `t` contains every character of `t`. */
  lemma SubstringChar(s: string, t: string, ch: char)
    requires Contains(s, t)
    requires HasChar(t, ch)
    ensures HasChar(s, ch)
  {
    var i :| 0 <= i <= |s| - |t| && OccursAt(s, t, i);
    var j :| 0 <= j < |t| && t[j] == ch;
    assert s[i + j] == t[j];
  }

  lemma HasCharConcat(a: string, b: string, ch: char)
    ensures HasChar(a + b, ch) <==> HasChar(a, ch) || HasChar(b, ch)
  {
    if HasChar(a + b, ch) {
      var i :| 0 <= i < |a + b| && (a + b)[i] == ch;
      if i < |a| {
        assert a[i] == ch;
      } else {
        assert b[i - |a|] == ch;
      }
    }
    if HasChar(a, ch) {
      var i :| 0 <= i < |a| && a[i] == ch;
      assert (a + b)[i] == ch;
    }
    if HasChar(b, ch) {
      var i :| 0 <= i < |b| && b[i] == ch;
      assert (a + b)[|a| + i] == ch;
    }
  }

  /** Joining pieces without `ch` with a separator without `ch` gives a string without `ch`. */
  lemma {:induction false} JoinNoChar(parts: seq<string>, sep: string, ch: char)
    requires forall i :: 0 <= i < |parts| ==> !HasChar(parts[i], ch)
    requires !HasChar(sep, ch)
    ensures !HasChar(Join(parts, sep), ch)
  {
    if |parts| == 0 {
      assert !HasChar("", ch);
    } else if |parts| > 1 {
      JoinNoChar(parts[1..], sep, ch);
      HasCharConcat(parts[0], sep, ch);
      HasCharConcat(parts[0] + sep, Join(parts[1..], sep), ch);
    }
  }

  /** Joining two or more pieces puts the separator into the result. */
  lemma JoinContainsSep(parts: seq<string>, sep: string)
    requires |parts| >= 2
    ensures Contains(Join(parts, sep), sep)
  {
    var s := Join(parts, sep);
    var i := |parts[0]|;
    assert s == parts[0] + sep + Join(parts[1..], sep);
    assert OccursAt(s, sep, i);
  }

  /** A substring of a piece is a substring of the concatenation. */
  lemma ContainsConcat(a: string, b: string, t: string)
    ensures Contains(a, t) ==> Contains(a + b, t)
    ensures Contains(b, t) ==> Contains(a + b, t)
  {
    if Contains(a, t) {
      var i :| 0 <= i <= |a| - |t| && OccursAt(a, t, i);
      assert (a + b)[i..i + |t|] == a[i..i + |t|];
      assert OccursAt(a + b, t, i);
    }
    if Contains(b, t) {
      var i :| 0 <= i <= |b| - |t| && OccursAt(b, t, i);
      assert (a + b)[|a| + i..|a| + i + |t|] == b[i..i + |t|];
      assert OccursAt(a + b, t, |a| + i);
    }
  }

  /** A string without `ch` contains no string that has `ch`. */
  lemma NoCharNotContains(s: string, t: string, ch: char)
    requires !HasChar(s, ch)
    requires HasChar(t, ch)
    ensures !Contains(s, t)
  {
    var j :| 0 <= j < |t| && t[j] == ch;
    forall i | 0 <= i <= |s| - |t|
      ensures !OccursAt(s, t, i)
    {
      assert s[i + j] != ch;
      assert s[i..i + |t|][j] == s[i + j];
    }
  }

  lemma ContainsTransitive(s: string, t: string, u: string)
    requires Contains(s, t) && Contains(t, u)
    ensures Contains(s, u)
  {
    var i :| 0 <= i <= |s| - |t| && OccursAt(s, t, i);
    var j :| 0 <= j <= |t| - |u| && OccursAt(t, u, j);
    assert s[i..i + |t|] == t;
    forall m | 0 <= m < |u|
      ensures s[i + j + m] == u[m]
    {
      assert s[i + j + m] == s[i..i + |t|][j + m];
      assert t[j..j + |u|][m] == t[j + m];
    }
    assert s[i + j..i + j + |u|] == u;
    assert OccursAt(s, u, i + j);
  }

  lemma ContainsSelf(s: string)
    ensures Contains(s, s)
  {
    assert OccursAt(s, s, 0);
  }

  /** Every piece of a join is a substring of it. */
  lemma {:induction false} JoinContainsPart(parts: seq<string>, sep: string, i: nat)
    requires i < |parts|
    ensures Contains(Join(parts, sep), parts[i])
  {
    if |parts| == 1 {
      ContainsSelf(parts[0]);
    } else if i == 0 {
      ContainsSelf(parts[0]);
      ContainsConcat(parts[0], sep, parts[0]);
      ContainsConcat(parts[0] + sep, Join(parts[1..], sep), parts[0]);
    } else {
      JoinContainsPart(parts[1..], sep, i - 1);
      ContainsConcat(parts[0] + sep, Join(parts[1..], sep), parts[i]);
    }
  }

  lemma {:induction false} JoinNonEmpty(parts: seq<string>, sep: string)
    requires |parts| > 0
    requires forall i :: 0 <= i < |parts| ==> |parts[i]| > 0
    ensures |Join(parts, sep)| > 0
  {
    if |parts| > 1 {
      assert |Join(parts, sep)| >= |parts[0]|;
    }
  }
}

=== FILE: workloads.dfy ===
/** `getWorkloads` (src/config_common.py): splitting a task list into at
    most `maxProcessces` contiguous chunks of about `chunksiz` tasks for the
    worker processes.  The arithmetic is Python 2's
    `int(round(a / float(b)))`, which rounds halves away from zero; here it is
    done exactly on naturals. */
module Workloads {
  import opened Wrappers

  /** `int(round(a / float(b)))` for naturals. */
  function RoundDiv(a: nat, b: nat): (r: nat)
    requires b > 0
  {
    (2 * a + b) / (2 * b)
  }

  /** `RoundDiv` is the nearest natural, halves rounded up. */
  lemma RoundDivNearest(a: nat, b: nat)
    requires b > 0
    ensures b * (2 * RoundDiv(a, b) - 1) <= 2 * a < b * (2 * RoundDiv(a, b) + 1)
  {
    var r := RoundDiv(a, b);
    var q := 2 * a + b;
    assert q == (2 * b) * r + q % (2 * b);
    assert 0 <= q % (2 * b) < 2 * b;
  }

  function Min(a: int, b: int): int
  {
    if a <= b then a else b
  }

  /** Python's `tasks[s:e]` for `0 <= s`, `0 <= e`: both ends are clamped to the length. */
  function Slice<T>(tasks: seq<T>, s: nat, e: nat): (r: seq<T>)
  {
    var lo := Min(s, |tasks|);
    var hi := Min(e, |tasks|);
    if lo <= hi then tasks[lo..hi] else []
  }

  /** The non-empty workloads among the last `left` of them, the first of
      which starts at `s`: each spans `cs` tasks, except that the very last
      one runs to the end of the list (workload `i` starts at `i * cs`). */
  function Chunks<T>(tasks: seq<T>, left: nat, cs: nat, s: nat): (r: seq<seq<T>>)
    ensures |r| <= left
    ensures forall j | 0 <= j < |r| :: |r[j]| > 0
  {
    if left == 0 then []
    else
      var e := if left > 1 then s + cs else |tasks|;
      var wl := Slice(tasks, s, e);
      (if |wl| > 0 then [wl] else []) + Chunks(tasks, left - 1, cs, s + cs)
  }

  function Flatten<T>(wls: seq<seq<T>>): seq<T>
  {
    if |wls| == 0 then [] else wls[0] + Flatten(wls[1..])
  }

  lemma {:induction false} FlattenConcat<T>(a: seq<seq<T>>, b: seq<seq<T>>)
    ensures Flatten(a + b) == Flatten(a) + Flatten(b)
  {
    if |a| > 0 {
      assert (a + b)[1..] == a[1..] + b;
      FlattenConcat(a[1..], b);
    } else {
      assert a + b == b;
    }
  }

  lemma FlattenHead<T>(wl: seq<T>, rest: seq<seq<T>>)
    ensures Flatten((if |wl| > 0 then [wl] else []) + rest) == wl + Flatten(rest)
  {
    var head: seq<seq<T>> := if |wl| > 0 then [wl] else [];
    FlattenConcat(head, rest);
    if |wl| > 0 {
      assert head[1..] == [];
    }
  }

  /** The remaining workloads are the tasks from `s` on, in order. */
  lemma {:induction false} ChunksCover<T>(tasks: seq<T>, left: nat, cs: nat, s: nat)
    requires left > 0
    ensures Flatten(Chunks(tasks, left, cs, s)) == tasks[Min(s, |tasks|)..]
  {
    var lo := Min(s, |tasks|);
    if left > 1 {
      var mid := Min(s + cs, |tasks|);
      var wl := Slice(tasks, s, s + cs);
      var rest := Chunks(tasks, left - 1, cs, s + cs);
      assert wl == tasks[lo..mid];
      assert Chunks(tasks, left, cs, s) == (if |wl| > 0 then [wl] else []) + rest;
      FlattenHead(wl, rest);
      ChunksCover(tasks, left - 1, cs, s + cs);
      assert Flatten(rest) == tasks[mid..];
      assert lo <= mid <= |tasks|;
      SplitAt(tasks, lo, mid);
    } else {
      var wl := Slice(tasks, s, |tasks|);
      assert wl == tasks[lo..];
      assert Chunks(tasks, left, cs, s) == (if |wl| > 0 then [wl] else []) + [];
      FlattenHead(wl, []);
    }
  }

  lemma SplitAt<T>(t: seq<T>, i: nat, j: nat)
    requires i <= j <= |t|
    ensures t[i..] == t[i..j] + t[j..]
  {
  }

  lemma RoundDivZero(a: nat, b: nat)
    requires b > 0
    ensures RoundDiv(a, b) == 0 <==> 2 * a < b
  {
    RoundDivNearest(a, b);
  }

  /** `getWorkloads` as written: when `round(len(tasks) / chunksiz)` is 0 the
      number of processes is 0 and the division computing `cs` raises
      `ZeroDivisionError`. */
  function GetWorkloadsAsWritten<T>(tasks: seq<T>, maxProcesses: nat, chunksiz: nat): (r: Result<seq<seq<T>>, string>)
    requires |tasks| >= 1 && maxProcesses >= 1 && chunksiz >= 1
    ensures r.Failure? <==> 2 * |tasks| < chunksiz
  {
    RoundDivZero(|tasks|, chunksiz);
    var nprocesses := Min(RoundDiv(|tasks|, chunksiz), maxProcesses);
    if nprocesses == 0 then Failure("ZeroDivisionError")
    else
      var cs := RoundDiv(|tasks|, nprocesses);
      Success(Chunks(tasks, nprocesses, cs, 0))
  }

  /** One task in chunks of three: `round(1 / 3.0)` is 0 processes. */
  lemma GetWorkloadsAsWrittenFails()
    ensures GetWorkloadsAsWritten([0], 1, 3).Failure?
  {
  }

  /** `getWorkloads` with at least one process, which is what the rest of the
      function evidently expects. */
  function GetWorkloads<T>(tasks: seq<T>, maxProcesses: nat, chunksiz: nat): (r: seq<seq<T>>)
    requires |tasks| >= 1 && maxProcesses >= 1 && chunksiz >= 1
  {
    var nprocesses := Min(if RoundDiv(|tasks|, chunksiz) == 0 then 1 else RoundDiv(|tasks|, chunksiz), maxProcesses);
    var cs := RoundDiv(|tasks|, nprocesses);
    Chunks(tasks, nprocesses, cs, 0)
  }

  /** The workloads partition the task list: non-empty, contiguous, in order,
      concatenating to `tasks`, at most `maxProcessces` of them. */
  lemma GetWorkloadsPartition<T>(tasks: seq<T>, maxProcesses: nat, chunksiz: nat)
    requires |tasks| >= 1 && maxProcesses >= 1 && chunksiz >= 1
    ensures Flatten(GetWorkloads(tasks, maxProcesses, chunksiz)) == tasks
    ensures forall j | 0 <= j < |GetWorkloads(tasks, maxProcesses, chunksiz)| ::
      |GetWorkloads(tasks, maxProcesses, chunksiz)[j]| > 0
    ensures 1 <= |GetWorkloads(tasks, maxProcesses, chunksiz)| <= maxProcesses
  {
    var n := RoundDiv(|tasks|, chunksiz);
    var nprocesses := Min(if n == 0 then 1 else n, maxProcesses);
    var cs := RoundDiv(|tasks|, nprocesses);
    ChunksCover(tasks, nprocesses, cs, 0);
    assert tasks[0..] == tasks;
  }

  /** Where the source does not fail, the corrected function agrees with it. */
  lemma GetWorkloadsAgrees<T>(tasks: seq<T>, maxProcesses: nat, chunksiz: nat)
    requires |tasks| >= 1 && maxProcesses >= 1 && chunksiz >= 1
    requires GetWorkloadsAsWritten(tasks, maxProcesses, chunksiz).Success?
    ensures GetWorkloadsAsWritten(tasks, maxProcesses, chunksiz).value == GetWorkloads(tasks, maxProcesses, chunksiz)
  {
  }

  /** A workload that is not the last and lies inside the list spans exactly `cs` tasks. */
  lemma ChunksStep<T>(tasks: seq<T>, left: nat, cs: nat, s: nat)
    requires left > 1 && 0 < cs && s + cs <= |tasks|
    ensures Chunks(tasks, left, cs, s) == [tasks[s..s + cs]] + Chunks(tasks, left - 1, cs, s + cs)
  {
  }

  /** The documented example of twelve tasks for seven processes in chunks
      of one (`range(12)` there): six pairs, the seventh workload being empty
      and dropped. */
  lemma GetWorkloadsExampleSeven<T>(t: seq<T>)
    requires |t| == 12
    ensures GetWorkloads(t, 7, 1)
      == [t[0..2], t[2..4], t[4..6], t[6..8], t[8..10], t[10..12]]
  {
    assert RoundDiv(12, 1) == 12;
    assert RoundDiv(12, 7) == 2;
    assert Chunks(t, 1, 2, 12) == [];
    ChunksStep(t, 2, 2, 10);
    ChunksStep(t, 3, 2, 8);
    ChunksStep(t, 4, 2, 6);
    ChunksStep(t, 5, 2, 4);
    ChunksStep(t, 6, 2, 2);
    ChunksStep(t, 7, 2, 0);
  }

  /** The documented example of twelve tasks for five processes in chunks of
      two: four pairs, the last workload taking the remaining four tasks. */
  lemma GetWorkloadsExampleFive<T>(t: seq<T>)
    requires |t| == 12
    ensures GetWorkloads(t, 5, 2)
      == [t[0..2], t[2..4], t[4..6], t[6..8], t[8..12]]
  {
    assert RoundDiv(12, 2) == 6;
    assert RoundDiv(12, 5) == 2;
    assert Chunks(t, 1, 2, 8) == [t[8..12]];
    ChunksStep(t, 2, 2, 6);
    ChunksStep(t, 3, 2, 4);
    ChunksStep(t, 4, 2, 2);
    ChunksStep(t, 5, 2, 0);
  }

  /** The documented example of twenty tasks for seven processes in chunks
      of two: ten processes are capped at seven, each taking three tasks and
      the last the remaining two. */
  lemma GetWorkloadsExampleTwenty<T>(t: seq<T>)
    requires |t| == 20
    ensures GetWorkloads(t, 7, 2)
      == [t[0..3], t[3..6], t[6..9], t[9..12], t[12..15], t[15..18], t[18..20]]
  {
    assert RoundDiv(20, 2) == 10;
    assert RoundDiv(20, 7) == 3;
    ChunksTwenty(t);
  }

  lemma ChunksTwenty<T>(t: seq<T>)
    requires |t| == 20
    ensures Chunks(t, 7, 3, 0)
      == [t[0..3], t[3..6], t[6..9], t[9..12], t[12..15], t[15..18], t[18..20]]
  {
    var tail := Chunks(t, 4, 3, 9);
    ChunksTwentyTail(t);
    ChunksStep(t, 5, 3, 6);
    ChunksStep(t, 6, 3, 3);
    ChunksStep(t, 7, 3, 0);
    PrependThree(t[0..3], t[3..6], t[6..9], tail);
  }

  lemma PrependThree<S>(a: S, b: S, c: S, tail: seq<S>)
    ensures [a] + ([b] + ([c] + tail)) == [a, b, c] + tail
  {
  }

  lemma ChunksTwentyTail<T>(t: seq<T>)
    requires |t| == 20
    ensures Chunks(t, 4, 3, 9) == [t[9..12], t[12..15], t[15..18], t[18..20]]
  {
    assert Chunks(t, 1, 3, 18) == [t[18..20]];
    ChunksStep(t, 2, 3, 15);
    ChunksStep(t, 3, 3, 12);
    ChunksStep(t, 4, 3, 9);
  }

  /** The documented example of twenty tasks for twenty processes in chunks
      of two: ten processes, each taking a pair. */
  lemma GetWorkloadsExampleTen<T>(t: seq<T>)
    requires |t| == 20
    ensures |GetWorkloads(t, 20, 2)| == 10
    ensures forall j | 0 <= j < 10 :: GetWorkloads(t, 20, 2)[j] == t[2 * j..2 * j + 2]
  {
    assert RoundDiv(20, 2) == 10;
    assert RoundDiv(20, 10) == 2;
    PairsOf(t, Chunks(t, 10, 2, 0));
  }

  /** Ten workloads each spanning two tasks, the `j`th from `2 * j` on. */
  lemma PairsOf<T>(t: seq<T>, r: seq<seq<T>>)
    requires |t| == 20 && r == Chunks(t, 10, 2, 0)
    ensures |r| == 10
    ensures forall j | 0 <= j < 10 :: r[j] == t[2 * j..2 * j + 2]
  {
    ChunksEven(t, 10, 2, 0);
    forall j | 0 <= j < 10
      ensures r[j] == t[2 * j..2 * j + 2]
    {
      assert SpansAt(t, r[j], 0 + j * 2, 2);
    }
  }

  /** `wl` is the `cs` tasks starting at position `a`. */
  ghost predicate SpansAt<T>(tasks: seq<T>, wl: seq<T>, a: int, cs: nat)
  {
    0 <= a && a + cs <= |tasks| && wl == tasks[a..a + cs]
  }

  /** When the tasks from `s` on fill `left` workloads exactly, workload `j`
      spans the `cs` tasks from `s + j * cs` on. */
  lemma {:induction false} ChunksEven<T>(tasks: seq<T>, left: nat, cs: nat, s: nat)
    requires cs > 0 && s + left * cs == |tasks|
    ensures |Chunks(tasks, left, cs, s)| == left
    ensures forall j | 0 <= j < left :: SpansAt(tasks, Chunks(tasks, left, cs, s)[j], s + j * cs, cs)
    decreases left
  {
    if left == 1 {
      assert Chunks(tasks, 0, cs, s + cs) == [];
    } else if left > 1 {
      MulPred(left, cs);
      ChunksStep(tasks, left, cs, s);
      ChunksEven(tasks, left - 1, cs, s + cs);
      SpansCons(tasks, Chunks(tasks, left, cs, s), Chunks(tasks, left - 1, cs, s + cs), left, cs, s);
    }
  }

  /** A first workload of `cs` tasks from `s` on, followed by workloads that
      each span `cs` tasks from `s + cs` on. */
  lemma SpansCons<T>(tasks: seq<T>, r: seq<seq<T>>, rest: seq<seq<T>>, left: nat, cs: nat, s: nat)
    requires s + cs <= |tasks| && r == [tasks[s..s + cs]] + rest
    requires left > 0 && |rest| == left - 1
    requires forall i | 0 <= i < left - 1 :: SpansAt(tasks, rest[i], s + cs + i * cs, cs)
    ensures |r| == left
    ensures forall j | 0 <= j < left :: SpansAt(tasks, r[j], s + j * cs, cs)
  {
    forall j | 0 < j < left
      ensures SpansAt(tasks, r[j], s + j * cs, cs)
    {
      ShiftSpans(tasks, r, rest, left, cs, s, j);
    }
  }

  /** Workload `j` of the list is workload `j - 1` of its tail. */
  lemma ShiftSpans<T>(tasks: seq<T>, r: seq<seq<T>>, rest: seq<seq<T>>, left: nat, cs: nat, s: nat, j: nat)
    requires s + cs <= |tasks| && r == [tasks[s..s + cs]] + rest
    requires |rest| == left - 1
    requires forall i | 0 <= i < left - 1 :: SpansAt(tasks, rest[i], s + cs + i * cs, cs)
    requires 0 < j < left
    ensures SpansAt(tasks, r[j], s + j * cs, cs)
  {
    MulPred(j, cs);
    assert r[j] == rest[j - 1];
  }

  lemma MulPred(a: nat, b: nat)
    requires a > 0
    ensures (a - 1) * b + b == a * b
  {
  }
}

=== FILE: wrappers.dfy ===
/** Failure-compatible wrappers used for the source's `None` values and for
    operations whose source raises an exception on some inputs. */
module Wrappers {

  /** `None` is Python's `None`; `Some(v)` is any other value. */
  datatype Option<+T> = None | Some(value: T)

  /** `Failure(e)` is a raised exception or a failed assertion, described by `e`. */
  datatype Result<+R, +E> = Success(value: R) | Failure(error: E)
}
